=== FILE: README.md ===
# hub: GitHub-aware argument rewriting for git, modelled in Dafny

hub is a command-line wrapper around `git`. It reads the command a user
typed and the state of the local repository: remotes, current branch,
upstream, `github.user`/`github.token` and `hub.protocol`. Then it does
one of three things:

- forwards the command to git unchanged;
- rewrites it, for example expanding `owner/name` into a clone URL or a
  pull-request URL into `fetch` plus `checkout --track`;
- answers it with calls to the GitHub API.

This project models those rewriting rules as pure functions and proves
properties of them. Its only record of hub's behaviour is the test suite
`test/hub_test.rb`, so every rule states what that suite pins down.

The model is built from these parts:

- **Context** (`Repo.Context`): every answer hub could obtain from
  `git config`, `git remote`, `git rev-parse`, the environment and the
  file system. It is an immutable record. `Repo.Load` derives a
  `LocalRepo` from it once: the remotes, their GitHub projects, the main
  project (`origin`), the current branch and its upstream.
- **Projects** (`Projects`): the triple (host, owner, name), the three
  clone-URL protocols and the reading of URLs back into projects.
- **Outcomes** (`Outcomes`): `Run` holds a list of commands (`git`
  lines, external programs, printed lines and API calls). `Fail` holds
  what was done before an abort and the error lines. `Crash` and
  `Builtin` cover the remaining cases.
- **One module per command**, each a function from (context, local
  repository, argv) to an outcome:
  - `clone` and `submodule add` (`CloneRules`)
  - `remote add` (`RemoteRules`)
  - `fetch` and `push` (`FetchRules`)
  - `cherry-pick` (`PickRules`)
  - `am` and `apply` (`PatchRules`)
  - `init -g` (`InitRules`)
  - `create` and `fork` (`HostingRules`)
  - `pull-request` (`PullRules`)
  - `checkout` (`CheckoutRules`)
  - `browse` and `compare` (`WebRules`)
- **Dispatch** (`GlobalFlags`, `Dispatch`, `Hub`): the global flags
  before the command, alias expansion with Ruby's `Shellwords`
  (`ShellWords`), the choice between hub's own rule and plain git, and
  the re-attachment of the global flags to every `git` line.
- **Example modules** (`CloneExamples`, `RemoteExamples`,
  `FetchExamples`, `PushExamples`, `PickExamples`, `PatchExamples`,
  `ForkExamples`, `PullExamples`, `CheckoutExamples`): they instantiate the
  general lemmas with the suite's fixture. The fixture has remotes
  `mislav` and `origin`, with `origin` at `git://github.com/defunkt/hub.git`.
  The current branch is `master`, tracking `origin/master`, and the user
  is `tpw`. The `*Text` and `*Literals` modules beside them hold the
  string facts those instances need.

`hub.protocol=https` also applies to the user's own repository
(`test/hub_test.rb:726-735`, `769-777`): `Projects.ChooseProtocol` checks
it before the private flag and ownership.

## Model

| member | source | states |
|---|---|---|
| Projects.ChooseProtocol | test/hub_test.rb:78-105 | https whenever `hub.protocol` is https; otherwise ssh exactly when the repository is private or not on github.com; otherwise git |
| Projects.CloneUrl | test/hub_test.rb:64-91 | every clone URL ends in `.git` |
| Projects.CloneUrlHasColon | test/hub_test.rb:144-152 | a built clone URL contains a `:` and does not start with `-`, so it is never mistaken for shorthand or a flag |
| Projects.ProjectOfUrl | test/hub_test.rb:1314-1317 | a URL is read as a project only on a known host, with a non-empty owner and name and no `/` in the owner |
| Projects.CloneUrlRoundTrip | test/hub_test.rb:1314-1317 | reading back the clone URL of any well-formed project, in any protocol, gives that project |
| Projects.Shorthand | test/hub_test.rb:86-112 | `owner/name` or a bare `name` is recognised; the parts glue back to the argument |
| Projects.ShorthandOwnerName | test/hub_test.rb:86-91 | `OWNER/NAME` reads as owner and name |
| Projects.ShorthandName | test/hub_test.rb:93-105 | a bare `NAME` reads as a name without owner |
| Projects.NotShorthand | test/hub_test.rb:154-177 | a path or URL with a second `/` or a `:` is no shorthand |
| Repo.DefaultHost | test/hub_test.rb:179-186 | definition: the host is `GITHUB_HOST` when set, github.com otherwise |
| Repo.User | test/hub_test.rb:126-142 | the user comes from `GITHUB_USER`, else from `github.user` for the host, else there is none |
| Repo.Token | test/hub_test.rb:652-673 | the token comes from `GITHUB_TOKEN`, else from `github.token` for the host, else there is none |
| Repo.RepoName | test/hub_test.rb:544-548 | the repository name is the name of `origin`'s project, or the base name of the working directory without one |
| Repo.LocalBranchOfRef | test/hub_test.rb:838-849 | `refs/heads/B` names local branch B |
| Repo.RemoteBranchOfRef | test/hub_test.rb:851-861 | `refs/remotes/R/B` names branch B on remote R |
| Repo.Load | test/hub_test.rb:35-62 | the loaded repository has the context's remotes, `origin` first; `main` exists exactly when `origin` is a GitHub remote; the host and name come from `origin`, else from the default host and directory name; the upstream is the tracked branch |
| Repo.OriginFirst | test/hub_test.rb:51 | the listed remotes are those `git remote` gave, with `origin` at the front once when present and the order kept otherwise |
| Repo.OriginFirstPermutes | test/hub_test.rb:51 | with at most one `origin`, the listing is a permutation of `git remote`'s output |
| Fixtures.LoadFixture | test/hub_test.rb:35-62 | the suite's fixture, whose `git remote` lists `mislav` then `origin`, loads as remotes `origin` and `mislav`, branch `master` tracking `origin/master` |
| Fixtures.LoadNoRepo | test/hub_test.rb:1362-1364 | outside a repository there are no remotes and the name is the directory's |
| Outcomes.HttpErrorLines | test/hub_test.rb:641-650 | an API error prints `Error ACTION: REASON (HTTP N)`, with the token hint after a 401, the decoded errors after a 422, and nothing else otherwise |
| CloneRules.CloneArgs | test/hub_test.rb:64-172 | `-p` is removed; the result is as long as the rest; every argument that changed became a URL (it has a `:` and is no flag); with no user it fails |
| CloneRules.Clone | test/hub_test.rb:64-186 | clone is one git line without `-p`, or the abort `** No GitHub user set. See http://help.github.com/set-your-user-name-email-and-github-token/` when no user is known |
| CloneRules.ShorthandTarget | test/hub_test.rb:93-142 | `OWNER/NAME` keeps its owner; a bare name takes the user's login and forces ssh; with no login there is no target |
| CloneRules.CloneOwnerName | test/hub_test.rb:64-91 | the first operand `OWNER/NAME` (no directory of that name) is expanded to that project on the repository's host |
| CloneRules.CloneOwnName | test/hub_test.rb:93-142 | a bare first operand becomes the user's repository over ssh, or the command aborts when there is no user |
| CloneRules.CloneKeepsOperand | test/hub_test.rb:144-172 | an operand that is an existing directory or no shorthand is left alone |
| CloneRules.CloneIdempotent | test/hub_test.rb:121-124 | rewriting an already rewritten clone line changes nothing |
| CloneRules.Submodule | test/hub_test.rb:251-273 | `submodule` without `add` is forwarded; with `add` the result is one git line that still holds `add`, or the missing-user abort |
| CloneRules.SubmoduleAdd | test/hub_test.rb:251-261 | `submodule add X` runs the clone rewrite on the words around `add` and puts `add` back in its place |
| CloneRules.SubmoduleAddBranch | test/hub_test.rb:263-273 | `-b BRANCH` is taken out before the rewrite and put back in its position |
| CloneExamples.PublicClone | test/hub_test.rb:86-91 | `clone rtomayko/ronn` runs `git clone git://github.com/rtomayko/ronn.git` |
| CloneExamples.PrivateClone | test/hub_test.rb:64-69 | `clone -p rtomayko/ronn` runs `git clone git@github.com:rtomayko/ronn.git` |
| CloneExamples.YourClone | test/hub_test.rb:100-105 | `clone resque` runs `git clone git@github.com:tpw/resque.git` |
| CloneExamples.YourCloneNeedsUser | test/hub_test.rb:135-142 | `clone resque` without a user aborts with the missing-user message |
| RemoteLines.RemoteTarget | test/hub_test.rb:207-334 | the last argument is read as `OWNER/NAME` or as `OWNER` with the repository's name; anything else is no target |
| RemoteRules.Remote | test/hub_test.rb:207-334 | anything but `remote add` is forwarded, and so is a last argument that is no target; the only failure is the missing user |
| RemoteRules.RemoteLeavesUrls | test/hub_test.rb:225-243 | `remote add NAME URL`, where the URL is no target, is forwarded unchanged |
| RemoteRules.RemoteAddOwnerName | test/hub_test.rb:312-328 | `remote add [-p] [-f] OWNER/NAME` adds remote OWNER at that project's URL |
| RemoteRules.RemoteAddOwner | test/hub_test.rb:275-298 | `remote add [-p] [-f] OWNER` adds remote OWNER at OWNER's fork of this repository |
| RemoteRules.RemoteAddNamed | test/hub_test.rb:300-310 | `remote add [-f] NAME OWNER[/REPO]` keeps NAME and replaces the target with its URL |
| RemoteRules.RemoteOrigin | test/hub_test.rb:207-223 | `remote add origin` points to the user's own repository over git://, or over ssh with `-p`; it aborts without a user |
| RemoteExamples.PublicRemote | test/hub_test.rb:288-292 | `remote add rtomayko` runs `git remote add rtomayko git://github.com/rtomayko/hub.git` |
| RemoteExamples.PrivateRemoteWithRepo | test/hub_test.rb:312-316 | `remote add -p jashkenas/coffee-script` adds remote `jashkenas` at `git@github.com:jashkenas/coffee-script.git` |
| RemoteExamples.RemoteUrlUntouched | test/hub_test.rb:229-231 | an ssh URL given with a remote name is forwarded |
| FetchLines.FetchNames | test/hub_test.rb:336-420 | with `--multiple` the names are the words after `fetch`; a comma list as the first word becomes `--multiple` and its names; one other word is a single name |
| FetchLines.CommaListNames | test/hub_test.rb:393-403 | joining the parts of a comma list with commas gives the list back |
| FetchLines.FetchCommaLine | test/hub_test.rb:393-403 | `fetch FLAGS A,B REST` becomes `fetch FLAGS --multiple A B REST` |
| FetchLines.RubySplit | test/hub_test.rb:393-403 | Ruby's `split` is the full split without its trailing empty parts |
| FetchLines.PushLines | test/hub_test.rb:571-587 | one push line per remote: the first is the original line with the list replaced by the first remote; each later one is exactly `push REMOTE BRANCH` |
| FetchRules.NewRemotes | test/hub_test.rb:405-420 | a name gets a remote exactly when it is a word, neither a remote nor a remote group yet, and the fork OWNER/NAME exists |
| FetchRules.Fetch | test/hub_test.rb:336-420 | fetch adds one `remote add` per new name, in order, then runs the rewritten fetch line |
| FetchRules.FetchKnownRemotes | test/hub_test.rb:336-338 | when no name is new the fetch line is forwarded |
| FetchRules.Push | test/hub_test.rb:567-587 | without a comma list the line is forwarded; with one, it crashes exactly when there is no branch or no remote, else the first push keeps the rest of the line and each later one is `push REMOTE BRANCH`, BRANCH defaulting to the current branch |
| FetchRules.PushPlain | test/hub_test.rb:571-587 | `push R1,...,Rn [BRANCH]` is `push Ri BRANCH` for each remote in the list's order |
| FetchRules.PushTargets | test/hub_test.rb:571-587 | the pushes go to the remotes of the list, one each, in order |
| FetchRules.PushRemotesRejoin | test/hub_test.rb:571-587 | the pushed-to remotes joined with commas give back the list as typed, when it does not end in a comma |
| PushExamples.PushTwo | test/hub_test.rb:571-574 | `push origin,staging cool-feature` runs `git push origin cool-feature` then `git push staging cool-feature` |
| PushExamples.PushCurrentBranch | test/hub_test.rb:576-580 | `push origin,staging` on branch `cool-feature` runs the same two pushes |
| PushExamples.PushMore | test/hub_test.rb:582-587 | `push origin,staging,qa cool-feature` runs the three pushes in order |
| PushExamples.PushMoreTargets | test/hub_test.rb:582-587 | the three pushes of `push origin,staging,qa cool-feature` go to `origin`, `staging` and `qa`, which comma-join back into `origin,staging,qa` |
| FetchText.FetchPair | test/hub_test.rb:393-403 | `fetch A,B` is read as `fetch --multiple A B` with names A and B |
| FetchExamples.FetchExistingRemote | test/hub_test.rb:336-338 | `fetch mislav` is forwarded |
| FetchExamples.FetchNewRemote | test/hub_test.rb:340-347 | `fetch xoebus` first adds remote xoebus at `git://github.com/xoebus/hub.git` |
| FetchExamples.FetchCommaNames | test/hub_test.rb:393-403 | `fetch xoebus,rtomayko` reads as `fetch --multiple xoebus rtomayko` |
| PickLines.CommitSha | test/hub_test.rb:426-441 | a `commit/SHA` path yields a SHA of at least seven hex digits that starts the rest |
| PickLines.CommitShaOf | test/hub_test.rb:426-434 | `commit/SHA` followed by a non-hex tail yields that SHA |
| PickLines.UserSha | test/hub_test.rb:448-465 | `OWNER@SHA` splits into a word owner and a SHA and glues back to the argument |
| PickLines.UserShaNotSha | test/hub_test.rb:457-459 | `OWNER@X` with X too short is not user notation |
| PickLines.UserShaWithRepo | test/hub_test.rb:452-455 | `OWNER/REPO@SHA` is not user notation |
| PickRules.RemoteOf | test/hub_test.rb:443-450 | the remote found for a project points to it, and none is found exactly when no remote does |
| PickRules.FetchProject | test/hub_test.rb:436-465 | a project that has a remote is fetched from it; any other is added with `remote add -f OWNER URL` |
| PickRules.CherryPick | test/hub_test.rb:422-465 | cherry-pick runs one or two commands ending in a git line, whose words differ from the typed ones in at most one place, and only by a sha; with `-m` or `--mainline` it is forwarded |
| PickRules.CherryPickUserSha | test/hub_test.rb:448-465 | `cherry-pick OWNER@SHA` fetches OWNER's fork and then picks SHA |
| PickRules.CherryPickUrl | test/hub_test.rb:426-446 | `cherry-pick` of a commit page fetches that project and then picks the SHA, whatever follows the SHA |
| PickRules.CherryPickUntouched | test/hub_test.rb:422-424 | anything else is forwarded |
| PickExamples.PickPlainSha | test/hub_test.rb:422-424 | `cherry-pick a319d88` is forwarded |
| PickExamples.PickMislavPage | test/hub_test.rb:426-429 | mislav's commit page runs `fetch mislav` then `cherry-pick a319d88` |
| PickExamples.PickPageFragment | test/hub_test.rb:431-434 | a fragment after the SHA is ignored |
| PickExamples.PickPageNewRemote | test/hub_test.rb:436-441 | a commit page of an unknown fork adds it with `remote add -f xoebus` first |
| PickExamples.PickOriginPage | test/hub_test.rb:443-446 | origin's commit page fetches origin |
| PickExamples.PickUserSha | test/hub_test.rb:448-450 | `cherry-pick mislav@368af20` fetches mislav |
| PickExamples.PickUserRepo | test/hub_test.rb:452-455 | `cherry-pick mislav/hubbub@a319d88` is forwarded |
| PickExamples.PickTooShort | test/hub_test.rb:457-459 | `cherry-pick mislav@a319` is forwarded |
| PickExamples.PickUserShaNewRemote | test/hub_test.rb:461-465 | `cherry-pick xoebus@a319d88` adds remote xoebus first |
| PatchRules.PatchKind | test/hub_test.rb:467-541 | an argument is a gist exactly when it starts with the gist root; it is another page only under the github.com root; otherwise it is no page |
| PatchRules.FirstPage | test/hub_test.rb:467-541 | the first argument that is a page, and none before it is one |
| PatchRules.StripFragment | test/hub_test.rb:471-480 | dropping `#...` leaves a prefix that ends just before the first `#` |
| PatchRules.StripPullTab | test/hub_test.rb:482-487 | only a trailing `/WORD` after `pull/N` is dropped |
| PatchRules.PatchUrl | test/hub_test.rb:467-541 | the URL downloaded always ends in `.patch`, or in `.txt` for a gist |
| PatchRules.TmpDir | test/hub_test.rb:482-487 | definition: the directory is `TMPDIR`, or `/tmp` when it is unset |
| PatchRules.PatchFile | test/hub_test.rb:499-507 | the saved file ends in the URL's base name, with `gist-` before it for a gist |
| PatchRules.Patch | test/hub_test.rb:467-541 | with no page the line is forwarded; otherwise `curl` downloads the patch and git gets the file in the page's place |
| PatchRules.PatchUrlPull | test/hub_test.rb:471-487 | a pull page, with any tab or fragment, downloads `.../pull/N.patch` |
| PatchRules.PatchUrlCommit | test/hub_test.rb:489-497 | a commit page downloads `.../commit/SHA.patch`, saved as `SHA.patch` |
| PatchRules.PatchUrlGist | test/hub_test.rb:499-507 | a gist downloads `.../ID.txt`, saved as `ID.txt` after the prefix |
| PatchRules.PatchLine | test/hub_test.rb:471-541 | when the page follows only non-pages, it is downloaded to the temporary directory and replaced by the file |
| PatchText.NoPageLine | test/hub_test.rb:467-469 | a line none of whose arguments has a `:` is forwarded |
| PatchExamples.AmUntouched | test/hub_test.rb:467-469 | `am some.patch` is forwarded |
| PatchExamples.ApplyUntouched | test/hub_test.rb:509-511 | `apply some.patch` is forwarded |
| PatchExamples.AmPullRequest | test/hub_test.rb:471-480 | a pull request page with a comment fragment is downloaded to `/tmp/55.patch` and given to `git am --signoff` |
| PatchExamples.AmPullRequestFiles | test/hub_test.rb:482-487 | the `/files` tab downloads the same patch |
| PatchExamples.AmNoTmpDir | test/hub_test.rb:482-487 | without `TMPDIR` the file goes to `/tmp` |
| PatchExamples.AmCommitUrl | test/hub_test.rb:489-497 | a commit page is downloaded as `fdb9921.patch` |
| PatchExamples.AmGist | test/hub_test.rb:499-507 | a gist is downloaded as `gist-ID.txt` |
| PatchExamples.ApplyPullRequest | test/hub_test.rb:513-522 | `apply` downloads a pull request the same way |
| PatchExamples.ApplyCommitUrl | test/hub_test.rb:524-532 | `apply` downloads a commit page the same way |
| PatchExamples.ApplyGist | test/hub_test.rb:534-542 | `apply` downloads a gist the same way |
| InitRules.InitProject | test/hub_test.rb:544-557 | definition: the new project is the user's, on the repository's host, named after the directory |
| InitRules.Init | test/hub_test.rb:544-565 | `init` without `-g` is forwarded; with `-g` it aborts without a user, or runs init and then adds `origin` |
| InitRules.InitOrigin | test/hub_test.rb:544-557 | the URL given to `origin` reads back as the user's project, over ssh unless https is preferred |
| CreateLines.ParseCreate | test/hub_test.rb:699-714 | an unknown flag or a second name is rejected; a first name is kept |
| CreateLines.ParseCreateOrder | test/hub_test.rb:699-709 | `-d` and `-h` may come in either order |
| CreateLines.ParseCreateTwoNames | test/hub_test.rb:711-714 | a second name is the invalid argument |
| HostingRules.Credentials | test/hub_test.rb:652-673 | credentials exist exactly when both user and token do; without a user the error is the user message, else the token message |
| HostingRules.CreateTarget | test/hub_test.rb:589-620 | the repository is the user's, named after this one unless a name, or `ORG/NAME`, is given |
| HostingRules.SetOrigin | test/hub_test.rb:589-598 | definition: after creating, `origin` is added unless present (then `remote -v` is shown), and a `created repository` line follows |
| HostingRules.Create | test/hub_test.rb:589-757 | outside a repository create aborts; the API call is private exactly when `-p` is given; a failure follows the call |
| HostingRules.CreatePrivate | test/hub_test.rb:675-684 | adding `-p` turns the request private and changes nothing else |
| HostingRules.CreateExisting | test/hub_test.rb:716-724 | an existing repository is reported and no API call is made |
| HostingRules.Fork | test/hub_test.rb:759-821 | outside a repository fork aborts with `fatal: Not a git repository`; a run forks origin's project with the user's credentials and, without `--no-remote`, adds `remote add -f USER URL` (ssh, or https when preferred) and prints `new remote: USER`; a rejected fork fails after the request with the `Error creating fork` lines; with credentials and no existing fork it runs exactly when the service accepts |
| HostingRules.ForkNoRemote | test/hub_test.rb:809-814 | with `--no-remote` only the fork request is made: the remote and the report that follow it are dropped |
| ForkExamples.ForkFixture | test/hub_test.rb:759-767 | in the fixture, `fork` requests the fork of `defunkt/hub` as tpw, runs `git remote add -f tpw git@github.com:tpw/hub.git` and prints `new remote: tpw` |
| ForkExamples.ForkHttps | test/hub_test.rb:769-777 | with `hub.protocol=https` the remote is `https://github.com/tpw/hub.git` |
| ForkExamples.ForkNotInRepo | test/hub_test.rb:779-783 | outside a repository the output is `fatal: Not a git repository` |
| ForkExamples.ForkFailed | test/hub_test.rb:800-807 | a 500 `Your fork is fail` reply fails after the request with `Error creating fork: Your fork is fail (HTTP 500)` |
| ForkExamples.ForkWithoutRemote | test/hub_test.rb:809-814 | `fork --no-remote` makes only the request |
| HostingRules.ForkExisting | test/hub_test.rb:816-821 | an existing fork is an error and no API call is made |
| PullLines.PathNumber | test/hub_test.rb:959-970 | the number after `pull/` or `issues/` is all digits and follows the prefix |
| PullLines.RefOfOwner | test/hub_test.rb:910-917 | `OWNER:BRANCH` names a branch of OWNER's fork |
| PullLines.RefOfRepo | test/hub_test.rb:937-944 | `OWNER/REPO:BRANCH` names a branch of that repository |
| PullRules.ParsePull | test/hub_test.rb:823-981 | the parsed options keep what came before; `-f` and `-h` only appear when given; a second free word is invalid unless it is an issue URL; a flag without value is reported |
| PullRules.SubjectOf | test/hub_test.rb:946-970 | an issue wins over a title, a title over the editor; with none there is no subject |
| PullRules.HeadProject | test/hub_test.rb:838-899 | the head is the tracked project, or the user's fork when untracked and no owner was given |
| PullRules.Submit | test/hub_test.rb:972-981 | a successful call prints the pull request's URL; a rejected one fails after the call |
| PullRules.PullRequest | test/hub_test.rb:823-981 | without an origin it aborts; a run is exactly the pull-request request followed by echoing the page URL the service returns, against origin's project unless `-b` or an issue page names another; a rejected request fails after it with the `Error creating pull request` lines; the aborts are stated by `PullRules.PullSameBase` and `PullRules.PullUnpushed`, and `-f` by `PullRules.PullForced` |
| PullRules.PullSameBase | test/hub_test.rb:823-827 | on master tracking origin/master it aborts with the same-branch hint and calls no API |
| PullExamples.PullRequestSameBase | test/hub_test.rb:823-827 | in the fixture, `pull-request hereyougo` aborts with exactly the two lines `Aborted: head branch is the same as base ("master")` and the `-h <branch>` hint |
| PullRules.PullUnpushed | test/hub_test.rb:829-836 | unpushed commits abort with their count and the `-f` hint |
| PullRules.PullForced | test/hub_test.rb:838-861 | with `-f` the pull request is made from the tracked branch |
| PullRules.PullUntracked | test/hub_test.rb:884-899 | an untracked branch is taken from the user's fork |
| PullRules.PullExplicitHead | test/hub_test.rb:910-917 | `-h OWNER:BRANCH` sets the head |
| CheckoutRules.PullOfUrl | test/hub_test.rb:987-1024 | a pull URL yields a project and a number of digits |
| CheckoutRules.LocalName | test/hub_test.rb:987-1012 | definition: the local branch is the name given, else `OWNER-BRANCH` |
| CheckoutRules.PrepareHead | test/hub_test.rb:987-1024 | definition: an existing remote is fetched with a refspec; otherwise it is added tracking only that branch |
| CheckoutRules.Checkout | test/hub_test.rb:983-1024 | checkout is forwarded, or it prepares the head and checks out a tracking branch |
| CheckoutRules.CheckoutPull | test/hub_test.rb:987-1003 | `checkout PULL-URL` adds the head's remote and runs `checkout --track -B OWNER-BRANCH REMOTE/BRANCH` |
| CheckoutRules.CheckoutPullNamed | test/hub_test.rb:1005-1012 | a name after the URL becomes the local branch |
| CheckoutExamples.PullPageOf | test/hub_test.rb:987-994 | `https://github.com/defunkt/hub/pull/73/files` is read as pull request 73 of `defunkt/hub` |
| CheckoutExamples.CheckoutPullPage | test/hub_test.rb:987-994 | `checkout -f https://github.com/defunkt/hub/pull/73/files -q`, for a head on blueyed's public `feature`, runs `git remote add -f -t feature blueyed git://github.com/blueyed/hub.git` then `git checkout -f --track -B blueyed-feature blueyed/feature -q` |
| CheckoutExamples.CheckoutPullReview | test/hub_test.rb:1005-1012 | `checkout PAGE review` runs the same `remote add` then `git checkout --track -B review blueyed/feature` |
| CheckoutRules.CheckoutUntouched | test/hub_test.rb:983-985 | a checkout without a pull URL is forwarded |
| WebLines.NormalizeRange | test/hub_test.rb:1117-1135 | a range with a two-dot split between word ends becomes three dots; anything else is kept |
| WebLines.NormalizeTwoDots | test/hub_test.rb:1122-1130 | `A..B` becomes `A...B` |
| WebLines.NormalizeSameRange | test/hub_test.rb:1122-1130 | `A..B` and `A...B` compare the same |
| WebLines.WikiPath | test/hub_test.rb:1237-1251 | a wiki page lives under `/wiki` |
| WebLines.WebUrl | test/hub_test.rb:1153-1251 | a page is `https://HOST/OWNER/NAME` plus the path, under `/wiki` for a wiki |
| WebRules.BrowsePath | test/hub_test.rb:1174-1210 | `commits` shows the branch's commits; the tree of master is the front page; another subpage is itself |
| WebRules.BrowseBranch | test/hub_test.rb:1183-1235 | definition: the branch shown is the upstream when tracked, master otherwise |
| WebRules.NamedProject | test/hub_test.rb:1166-1172 | `OWNER/NAME` and `NAME` name projects on the repository's host; a bare name needs the user |
| WebRules.BrowseTarget | test/hub_test.rb:1153-1269 | browse stops with the usage line only outside a GitHub repository, or with the missing-user line |
| WebRules.UpstreamTarget | test/hub_test.rb:1098-1115 | `compare` alone compares the upstream, or prints the usage line when it is master or missing |
| WebRules.Present | test/hub_test.rb:1253-1257 | `-u` prints the URL instead of opening it; `-p` adds its warning first |
| WebRules.BrowseEchoes | test/hub_test.rb:1166-1168 | `-u` echoes the URL that browse would open |
| WebRules.CompareEchoes | test/hub_test.rb:1148-1151 | `-u` echoes the URL that compare would open |
| WebRules.CompareSameRange | test/hub_test.rb:1122-1130 | comparing `A..B` is comparing `A...B` |
| WebRules.CompareFork | test/hub_test.rb:1143-1146 | `compare OWNER RANGE` opens the compare page of OWNER's fork |
| WebRules.BrowseNamed | test/hub_test.rb:1166-1172 | `browse OWNER/NAME` opens that project's page |
| WebRules.WebUrlReadsBack | test/hub_test.rb:1143-1146 | a page URL reads back as its project and subpage |
| ShellWords.SplitJoined | test/hub_test.rb:188-193 | splitting the words of an alias joined by spaces gives them back |
| ShellWords.QuotedOption | test/hub_test.rb:195-200 | `CMD OPT"TEXT"` splits into the command and the option with its quoted text |
| ShellWords.AdjacentQuotes | test/hub_test.rb:195-200 | a double- and a single-quoted part next to each other form one word |
| ShellWords.UnclosedDouble | test/hub_test.rb:195-200 | an unclosed double quote is an error |
| GlobalFlags.Slurp | test/hub_test.rb:1319-1323 | the global flags come off the front; the pager flags are set apart; without a global flag nothing changes |
| GlobalFlags.SlurpPassedOn | test/hub_test.rb:1319-1323 | global flags before the command are kept in order |
| GlobalFlags.PagerLast | test/hub_test.rb:1055-1057 | a pager flag goes after the other global flags |
| GlobalFlags.CommandFlagFirst | test/hub_test.rb:1026-1030 | `--version` and `--help` become commands |
| Dispatch.Expand | test/hub_test.rb:188-205 | a command that is no alias is kept; an alias expands to its words; a shell alias is left unexpanded; an alias with an unclosed quote or no words is an error |
| Dispatch.RuleOf | test/hub_test.rb:1047-1081 | a command hub does not know goes to git; `-h` after a command with a usage line prints it; `--help` as the only word after a documented command shows hub's manual; with more words both flags go to the command |
| Dispatch.HelpRule | test/hub_test.rb:1047-1065 | `help` alone shows hub's help; `help hub` or a documented command shows the manual |
| Dispatch.AliasLikeExpansion | test/hub_test.rb:188-200 | a known alias is handled as its expansion |
| Dispatch.AliasToGit | test/hub_test.rb:202-205 | an alias of an unknown command goes to git as typed |
| Dispatch.ChooseForwards | test/hub_test.rb:1305-1312 | a command hub does not handle goes to git with its global flags |
| Dispatch.ChooseNothing | test/hub_test.rb:1051-1053 | no command at all shows the help |
| Hub.WithFlags | test/hub_test.rb:1319-1323 | global flags go before every git line and leave other commands alone |
| Hub.Apply | test/hub_test.rb:1026-1091 | a git rule forwards, a usage rule prints its line, a help rule shows its topic |

## Left out

- Process execution, the pager, `exec`, reading `git config` and the
  environment: the context record holds their answers instead.
- The HTTP transport, TLS, the OpenSSL fallback, JSON and YAML
  decoding: the API's reply is a field of the context
  (`Accepted`/`Rejected`), and a call is a `Cmd.Api` value.
- The text of `help`, `version`, `--exec-path`, `--html-path` and the
  standalone script: these are the `Builtin` outcome with a topic only.
- The browser search (`BROWSER`, `open`, `xdg-open`, cygwin): the browser
  is a context field; the error when none is found is not modelled.
- Reading `~/.ssh/config`: host aliases are a map in the context.
- The editor that asks for a pull request title: its answer is the
  context field `editorTitle`.
- `-c NAME=VALUE` global flags are passed on to git but not fed back into
  the configuration the rules read.
- `--noop` is the `listOnly` flag of an invocation; printing the command
  list is left out.
- `HubCommands` holds the commands the suite exercises, not every command
  hub knows.
- `--help`/`-h` after a command follows `test/hub_test.rb:1067-1081`; the
  man-page text and groff are left out.
- Dispatch.RuleOf: only `browse --help` and `create -h` are pinned; that
  both flags count only as the sole word after the command is the
  reading this model takes, as hub's own check is not visible.
- PickRules.CherryPick: only the first word equal to the reference is
  replaced by the sha, the reading this model takes of hub's in-place
  replacement; no test repeats the reference.
- HostingRules.Fork: no test runs `fork` in a repository whose origin is
  not on GitHub; the model forwards it to git, an assumption.
- Repo.OriginFirst: the suite's fixture does not tell the two orders
  apart; the model moves `origin` to the front as hub's remote listing
  does, so a project two remotes point at is fetched through `origin`.
- `Hub.Perform` composes the rules and carries no contract of its own; its
  parts (`Dispatch.Choose`, `Hub.Apply`, `Hub.WithFlags`) carry them.
- PatchRules.WithExt: appends the extension unless the URL already ends
  with it; hub's own suffix test is not visible, and the model uses this
  reading.
- PatchRules.PatchKind: only `github.com` and `gist.github.com` pages are
  downloaded, not enterprise hosts, as the suite shows.
- FetchRules.Push: a comma list whose line has no branch is `Crash`, as
  hub indexes past the end there.
- RemoteRules.RemoteAddOwnerName: requires the owner not to start with
  `-`, since such an argument would be read as a flag.
- CheckoutRules.Checkout: the removal of the branch-name argument is
  inferred from `test/hub_test.rb:1005-1012`.
- PullRules.SameBranchLine: uses plain quotes around the branch.
- PullRules.ParsePull: a value flag at the end of the line is `NoValue`,
  reported as a crash, since hub indexes past the end there.
- WebRules.Present: the `-p` warning is a printed line (`Say`) before the
  browser command.
- The example modules take the hub version as a parameter, and the
  temporary directory as `/tmp/`.

=== FILE: argv.dfy ===
/**
 * Command lines as hub sees them: a sequence of arguments, the first of
 * which names the git command. These helpers are the list operations the
 * rewrite rules use (`args.words`, `index`, `delete`, `insert`).
 */
module Argv {
  import opened Maybe
  import opened Strings

  /** An option: an argument that starts with `-`. */
  predicate IsFlag(a: string) {
    |a| > 0 && a[0] == '-'
  }

  /** The arguments that are not options, in their order. */
  function Words(args: seq<string>): (r: seq<string>)
    ensures |r| <= |args|
    ensures forall w | w in r :: w in args && !IsFlag(w)
    ensures forall a | a in args && !IsFlag(a) :: a in r
    decreases |args|
  {
    if |args| == 0 then []
    else
      assert args == [args[0]] + args[1..];
      (if IsFlag(args[0]) then [] else [args[0]]) + Words(args[1..])
  }

  lemma {:induction false} WordsAppend(a: seq<string>, b: seq<string>)
    ensures Words(a + b) == Words(a) + Words(b)
    decreases |a|
  {
    if |a| > 0 {
      assert (a + b)[1..] == a[1..] + b;
      WordsAppend(a[1..], b);
    } else {
      assert a + b == b;
    }
  }

  /** Element `i` of `xs`, or nothing past its end (Ruby's `xs[i]`). */
  function Nth(xs: seq<string>, i: nat): (r: Option<string>)
    ensures r.Some? <==> i < |xs|
    ensures r.Some? ==> r.value == xs[i]
  {
    if i < |xs| then Some(xs[i]) else None
  }

  /** Element `i` counted from the end, 1 being the last (Ruby's `xs[-i]`). */
  function NthLast(xs: seq<string>, i: nat): (r: Option<string>)
    requires i >= 1
    ensures r.Some? <==> i <= |xs|
    ensures r.Some? ==> r.value == xs[|xs| - i]
  {
    if i <= |xs| then Some(xs[|xs| - i]) else None
  }

  /** The position of the first `x` in `xs`. */
  function IndexOf(xs: seq<string>, x: string): (r: Option<nat>)
    ensures r.None? <==> x !in xs
    ensures r.Some? ==> r.value < |xs| && xs[r.value] == x && x !in xs[..r.value]
    decreases |xs|
  {
    if |xs| == 0 then None
    else if xs[0] == x then Some(0)
    else
      match IndexOf(xs[1..], x)
      case None => None
      case Some(k) =>
        assert xs[..k + 1] == [xs[0]] + xs[1..][..k];
        Some(k + 1)
  }

  /** The first `x` sits at `i` when `xs[i]` is `x` and no earlier element is. */
  lemma IndexOfAt(xs: seq<string>, x: string, i: nat)
    requires i < |xs| && xs[i] == x && x !in xs[..i]
    ensures IndexOf(xs, x) == Some(i)
  {
    assert xs[i] in xs;
  }

  /** `xs` with `ys` inserted before position `i` (Ruby's `insert`). */
  function InsertAt(xs: seq<string>, i: nat, ys: seq<string>): (r: seq<string>)
    requires i <= |xs|
    ensures |r| == |xs| + |ys|
  {
    xs[..i] + ys + xs[i..]
  }

  /** `xs` without the element at `i` (Ruby's `delete_at`). */
  function DeleteAt(xs: seq<string>, i: nat): (r: seq<string>)
    requires i < |xs|
    ensures |r| == |xs| - 1
  {
    xs[..i] + xs[i + 1..]
  }

  /** Inserting back what was deleted restores the list. */
  lemma InsertDeleted(xs: seq<string>, i: nat)
    requires i < |xs|
    ensures InsertAt(DeleteAt(xs, i), i, [xs[i]]) == xs
  {
    assert xs == xs[..i] + [xs[i]] + xs[i + 1..];
  }

  /** Deleting the element between two parts joins the parts. */
  lemma DeleteAtJoin(xs: seq<string>, p: seq<string>, x: string, q: seq<string>)
    requires xs == p + [x] + q
    ensures DeleteAt(xs, |p|) == p + q
  {
    assert xs[..|p|] == p;
    assert xs[|p| + 1..] == q;
  }

  /** The first `x` of `p + [x] + q` is the one after `p` when `p` has none. */
  lemma IndexOfJoin(xs: seq<string>, p: seq<string>, x: string, q: seq<string>)
    requires xs == p + [x] + q && x !in p
    ensures IndexOf(xs, x) == Some(|p|)
  {
    assert xs[..|p|] == p;
    IndexOfAt(xs, x, |p|);
  }

  /** The position of the first `x`, or else of the first `y` (Ruby's `index(x) || index(y)`). */
  function IndexOfEither(xs: seq<string>, x: string, y: string): (r: Option<nat>)
    ensures r.None? <==> x !in xs && y !in xs
    ensures r.Some? ==> r.value < |xs| && (xs[r.value] == x || xs[r.value] == y)
  {
    match IndexOf(xs, x)
    case Some(j) => Some(j)
    case None => IndexOf(xs, y)
  }

  /** Where word `w` sits in `pre w rest` when `pre` has none, and what is left without it. */
  lemma WordLine(pre: seq<string>, w: string, rest: seq<string>)
    requires w !in pre
    ensures IndexOf(pre + [w] + rest, w) == Some(|pre|)
    ensures DeleteAt(pre + [w] + rest, |pre|) == pre + rest
  {
    IndexOfJoin(pre + [w] + rest, pre, w, rest);
    DeleteAtJoin(pre + [w] + rest, pre, w, rest);
  }

  /** Where option `o` sits in `pre o v post` when `pre` has none, and what is left without it and its value `v`. */
  lemma OptionLine(pre: seq<string>, o: string, v: string, post: seq<string>, o2: string)
    requires o !in pre
    ensures IndexOfEither(pre + [o, v] + post, o, o2) == Some(|pre|)
    ensures DeleteAt(DeleteAt(pre + [o, v] + post, |pre|), |pre|) == pre + post
  {
    var a := pre + [o, v] + post;
    IndexOfJoin(a, pre, o, [v] + post);
    DeleteAtJoin(a, pre, o, [v] + post);
    DeleteAtJoin(DeleteAt(a, |pre|), pre, v, post);
  }

  /** Replacing the last element and appending one more. */
  lemma ReplaceLast(p: seq<string>, x: string, y: string, z: string)
    ensures |p| < |p + [x]|
    ensures (p + [x])[|p| := y] + [z] == p + [y, z]
  {
    assert (p + [x])[|p| := y] == p + [y];
  }

  /** Removing `x` keeps the part of `xs` before its first `x`. */
  lemma RemoveKeepsPrefix(xs: seq<string>, x: string, k: nat)
    requires k <= |xs| && x !in xs[..k]
    ensures k <= |Remove(xs, x)| && Remove(xs, x)[..k] == xs[..k]
  {
    assert xs == xs[..k] + xs[k..];
    RemoveAppend(xs[..k], xs[k..], x);
  }

  /** Replacing the element between two parts. */
  lemma UpdateMiddle(head: seq<string>, x: string, tail: seq<string>, y: string)
    ensures |head| < |head + [x] + tail|
    ensures (head + [x] + tail)[|head| := y] == head + [y] + tail
  {
  }

  /** Writing the element that is already there changes nothing. */
  lemma UpdateSame(xs: seq<string>, k: nat, x: string)
    requires k < |xs| && xs[k] == x
    ensures xs[k := x] == xs
  {
  }

  /** Dropping the last of two appended elements. */
  lemma DropLast(p: seq<string>, x: string, y: string)
    ensures |p + [x, y]| > 0 && (p + [x, y])[..|p + [x, y]| - 1] == p + [x]
  {
  }

  /** Regrouping a four-part concatenation. */
  lemma Regroup(a: seq<string>, b: seq<string>, c: seq<string>, d: seq<string>)
    ensures a + b + c + d == a + (b + c + d)
    ensures a + (b + c + d) == a + b + (c + d)
  {
  }

  /**
   * `pre w mid o v post`: the word `w` is found after `pre`; once it is
   * deleted, option `o` is found after `pre mid`, and deleting it and its
   * value leaves `pre mid post`.
   */
  lemma WordOptionLine(pre: seq<string>, w: string, mid: seq<string>, o: string, v: string, post: seq<string>, o2: string)
    requires w !in pre && o !in pre + mid
    ensures IndexOf(pre + [w] + mid + [o, v] + post, w) == Some(|pre|)
    ensures DeleteAt(pre + [w] + mid + [o, v] + post, |pre|) == pre + mid + [o, v] + post
    ensures IndexOfEither(pre + mid + [o, v] + post, o, o2) == Some(|pre| + |mid|)
    ensures DeleteAt(DeleteAt(pre + mid + [o, v] + post, |pre| + |mid|), |pre| + |mid|) == pre + mid + post
    ensures |pre| + |mid| + 1 < |pre + mid + [o, v] + post| && (pre + mid + [o, v] + post)[|pre| + |mid| + 1] == v
  {
    var a := pre + mid + [o, v] + post;
    assert IndexOf(pre + [w] + mid + [o, v] + post, w) == Some(|pre|) && DeleteAt(pre + [w] + mid + [o, v] + post, |pre|) == a by {
      Regroup(pre, [w], mid + [o, v], post);
      Regroup(pre, [w], mid, [o, v]);
      Regroup(pre, mid, [o, v], post);
      WordLine(pre, w, mid + [o, v] + post);
    }
    assert IndexOfEither(a, o, o2) == Some(|pre| + |mid|) && DeleteAt(DeleteAt(a, |pre| + |mid|), |pre| + |mid|) == pre + mid + post by {
      OptionLine(pre + mid, o, v, post, o2);
    }
  }

  /** A list of options has no words. */
  lemma {:induction false} WordsOfFlags(flags: seq<string>)
    requires forall f | f in flags :: IsFlag(f)
    ensures Words(flags) == []
    decreases |flags|
  {
    if |flags| > 0 {
      assert flags[0] in flags;
      WordsOfFlags(flags[1..]);
    }
  }

  /** A list without options is all words. */
  lemma {:induction false} WordsOfWords(ws: seq<string>)
    requires forall w | w in ws :: !IsFlag(w)
    ensures Words(ws) == ws
    decreases |ws|
  {
    if |ws| > 0 {
      assert ws[0] in ws;
      WordsOfWords(ws[1..]);
    }
  }

  /** Removing `x` from `head flags tail` touches only the options when the words have no `x`. */
  lemma RemoveFromFlags(head: seq<string>, flags: seq<string>, tail: seq<string>, x: string)
    requires x !in head && x !in tail
    ensures Remove(head + flags + tail, x) == head + Remove(flags, x) + tail
  {
    RemoveAppend(head + flags, tail, x);
    RemoveAppend(head, flags, x);
  }

  /** The words of `head flags tail` are `head` and `tail` when `flags` are all options and the rest none. */
  lemma WordsAroundFlags(head: seq<string>, flags: seq<string>, tail: seq<string>)
    requires forall f | f in flags :: IsFlag(f)
    requires forall w | w in head :: !IsFlag(w)
    requires forall w | w in tail :: !IsFlag(w)
    ensures Words(head + flags + tail) == head + tail
  {
    assert Words(head + flags) == head by {
      WordsAppend(head, flags);
      WordsOfFlags(flags);
      WordsOfWords(head);
    }
    assert Words(tail) == tail by {
      WordsOfWords(tail);
    }
    WordsAppend(head + flags, tail);
  }
}

=== FILE: cherrypick.dfy ===
/**
 * The commit a `git cherry-pick` argument names on GitHub: the page of a
 * commit (`…/OWNER/NAME/commit/SHA`) or the `OWNER@SHA` notation.
 */
module PickLines {
  import opened Maybe
  import opened Strings
  import opened Argv

  /** An abbreviated or full commit sha has 7 to 40 hexadecimal digits. */
  const MinSha := 7
  const MaxSha := 40

  /** The page path of a commit starts with this. */
  const CommitPrefix := "commit/"

  /** `[a-f0-9]{7,40}`. */
  predicate IsSha(s: string) {
    MinSha <= |s| <= MaxSha && AllHex(s)
  }

  /** The longest run of hexadecimal digits `s` starts with. */
  function HexRun(s: string): (r: string)
    ensures |r| <= |s| && r == s[..|r|] && AllHex(r)
    ensures |r| < |s| ==> !IsHexDigit(s[|r|])
    decreases |s|
  {
    if |s| == 0 || !IsHexDigit(s[0]) then ""
    else
      var t := HexRun(s[1..]);
      assert forall c | c in [s[0]] + t :: c == s[0] || c in t;
      [s[0]] + t
  }

  /** A run of hexadecimal digits followed by anything that does not extend it is the run `HexRun` finds. */
  lemma {:induction false} HexRunOf(h: string, rest: string)
    requires AllHex(h)
    requires rest == "" || !IsHexDigit(rest[0])
    ensures HexRun(h + rest) == h
    decreases |h|
  {
    if |h| > 0 {
      assert h[0] in h;
      assert forall c | c in h[1..] :: c in h;
      assert (h + rest)[1..] == h[1..] + rest;
      HexRunOf(h[1..], rest);
    } else {
      assert h + rest == rest;
    }
  }

  /**
   * `^commit/([a-f0-9]{7,40})`: the sha a commit page's path starts with;
   * the greedy match takes at most 40 digits and needs at least 7.
   */
  function CommitSha(path: string): (r: Option<string>)
    ensures r.Some? ==> IsSha(r.value) && StartsWith(path, CommitPrefix + r.value)
    ensures !StartsWith(path, CommitPrefix) ==> r.None?
  {
    if StartsWith(path, CommitPrefix) then
      var run := HexRun(path[|CommitPrefix|..]);
      var sha := if |run| > MaxSha then run[..MaxSha] else run;
      assert forall c | c in sha :: c in run;
      assert path[..|CommitPrefix| + |sha|] == CommitPrefix + sha;
      if |sha| >= MinSha then Some(sha) else None
    else None
  }

  /** The path of a commit's page reads back as the commit's sha, whatever follows a full run. */
  lemma CommitShaOf(sha: string, rest: string)
    requires IsSha(sha)
    requires rest == "" || !IsHexDigit(rest[0])
    ensures CommitSha(CommitPrefix + sha + rest) == Some(sha)
  {
    var path := CommitPrefix + sha + rest;
    assert path[..|CommitPrefix|] == CommitPrefix;
    assert path[|CommitPrefix|..] == sha + rest;
    HexRunOf(sha, rest);
  }

  /** A run of digits too short for a sha names no commit. */
  lemma CommitShaTooShort(h: string, rest: string)
    requires AllHex(h) && |h| < MinSha
    requires rest == "" || !IsHexDigit(rest[0])
    ensures CommitSha(CommitPrefix + h + rest) == None
  {
    var path := CommitPrefix + h + rest;
    assert path[..|CommitPrefix|] == CommitPrefix;
    assert path[|CommitPrefix|..] == h + rest;
    HexRunOf(h, rest);
  }

  /** `^(\w+)@([a-f0-9]{7,40})$`: a user and a commit sha. */
  function UserSha(ref: string): (r: Option<(string, string)>)
    ensures r.Some? ==> ref == r.value.0 + "@" + r.value.1
    ensures r.Some? ==> r.value.0 != "" && AllWord(r.value.0) && IsSha(r.value.1)
  {
    match SplitFirst(ref, '@')
    case None => None
    case Some((owner, sha)) =>
      SplitFirstParts(ref, '@');
      if owner != "" && AllWord(owner) && IsSha(sha) then Some((owner, sha)) else None
  }

  /** Every `OWNER@SHA` reads back as its owner and sha. */
  lemma UserShaOf(owner: string, sha: string)
    requires owner != "" && AllWord(owner) && IsSha(sha)
    ensures UserSha(owner + "@" + sha) == Some((owner, sha))
  {
    assert '@' !in owner;
    SplitFirstGlue(owner, '@', sha);
  }

  /** `OWNER@SHA` whose sha part is no sha (too short, too long, not hexadecimal) names no commit. */
  lemma UserShaNotSha(owner: string, s: string)
    requires AllWord(owner) && !IsSha(s)
    ensures UserSha(owner + "@" + s) == None
  {
    assert '@' !in owner;
    SplitFirstGlue(owner, '@', s);
  }

  /** `OWNER/NAME@SHA` is not supported: its user part is no `\w+`. */
  lemma UserShaWithRepo(owner: string, name: string, sha: string)
    requires '@' !in owner && '@' !in name
    ensures UserSha(owner + "/" + name + "@" + sha) == None
  {
    var u := owner + "/" + name;
    assert '@' !in u;
    assert u[|owner|] in u && !IsWordChar(u[|owner|]);
    SplitFirstGlue(u, '@', sha);
  }

  /** `xs` with its first `x` replaced by `y`. */
  function ReplaceFirst(xs: seq<string>, x: string, y: string): (r: seq<string>)
    ensures |r| == |xs|
    ensures forall i | 0 <= i < |xs| && r[i] != xs[i] :: xs[i] == x && x !in xs[..i] && r[i] == y
    ensures x in xs ==> exists i | 0 <= i < |xs| :: xs[i] == x && x !in xs[..i] && r[i] == y
    ensures x !in xs ==> r == xs
  {
    match IndexOf(xs, x)
    case None => xs
    case Some(k) => xs[k := y]
  }

  /** Replacing the one `x` that ends a line. */
  lemma ReplaceFinal(pre: seq<string>, x: string, y: string)
    requires x !in pre
    ensures ReplaceFirst(pre + [x], x, y) == pre + [y]
  {
    var xs := pre + [x];
    var r := ReplaceFirst(xs, x, y);
    forall i | 0 <= i < |pre| ensures r[i] == pre[i] {
      assert xs[i] == pre[i] && pre[i] in pre;
    }
    assert x in xs by {
      assert xs[|pre|] == x;
    }
    var k :| 0 <= k < |xs| && xs[k] == x && x !in xs[..k] && r[k] == y;
  }

  /** `cherry-pick FLAGS REF`: REF is the last word and the flags hold no `-m`. */
  lemma PickLine(flags: seq<string>, ref: string)
    requires forall f | f in flags :: IsFlag(f)
    requires !IsFlag(ref) && ref != "cherry-pick"
    requires "-m" !in flags && "--mainline" !in flags
    ensures Words(["cherry-pick"] + flags + [ref]) == ["cherry-pick", ref]
    ensures "-m" !in ["cherry-pick"] + flags + [ref] && "--mainline" !in ["cherry-pick"] + flags + [ref]
    ensures ref !in ["cherry-pick"] + flags
  {
    WordsAroundFlags(["cherry-pick"], flags, [ref]);
    assert ref !in flags;
  }
}

/**
 * `git cherry-pick` of a commit named on GitHub: the commit's repository is
 * fetched first (through a remote that already points at it, or a new one
 * named after its owner), then the sha is cherry-picked.
 */
module PickRules {
  import opened Maybe
  import opened Strings
  import opened Projects
  import opened Repo
  import opened Argv
  import opened Outcomes
  import opened WebUrls
  import opened CloneRules
  import opened PickLines

  /** A commit of a project. */
  datatype Pick = Pick(project: Project, sha: string)

  /**
   * The commit `ref` names: the page of a commit, or `OWNER@SHA` for the
   * commit in OWNER's fork of this repository.
   */
  function PickOf(ctx: Context, repo: LocalRepo, ref: string): (r: Option<Pick>)
    ensures r.Some? ==> IsSha(r.value.sha)
  {
    var page := ResolveWebUrl(ctx, ref);
    if page.Some? && CommitSha(page.value.path).Some? then
      Some(Pick(page.value.project, CommitSha(page.value.path).value))
    else
      match UserSha(ref)
      case Some((owner, sha)) => Some(Pick(OwnedProject(repo, owner, repo.name), sha))
      case None => None
  }

  /** The first of `remotes` whose URL names project `p`. */
  function RemoteOf(remotes: seq<string>, projects: map<string, Project>, p: Project): (r: Option<string>)
    ensures r.Some? ==> r.value in remotes && r.value in projects && projects[r.value] == p
    ensures r.None? <==> forall rem | rem in remotes && rem in projects :: projects[rem] != p
    decreases |remotes|
  {
    if |remotes| == 0 then None
    else if remotes[0] in projects && projects[remotes[0]] == p then Some(remotes[0])
    else
      assert forall rem | rem in remotes :: rem == remotes[0] || rem in remotes[1..];
      RemoteOf(remotes[1..], projects, p)
  }

  /** The remote `RemoteOf` finds is the first one pointing at `p`. */
  lemma {:induction false} RemoteOfFirst(pre: seq<string>, rem: string, post: seq<string>, projects: map<string, Project>, p: Project)
    requires rem in projects && projects[rem] == p
    requires forall x | x in pre && x in projects :: projects[x] != p
    ensures RemoteOf(pre + [rem] + post, projects, p) == Some(rem)
    decreases |pre|
  {
    if |pre| > 0 {
      assert pre[0] in pre;
      assert (pre + [rem] + post)[1..] == pre[1..] + [rem] + post;
      RemoteOfFirst(pre[1..], rem, post, projects, p);
    }
  }

  /**
   * The command that brings `p`'s commits in: `fetch` of the remote that
   * points at it, or else `remote add -f OWNER URL` with the read-only URL.
   */
  function FetchProject(ctx: Context, repo: LocalRepo, p: Project): (r: Cmd)
    ensures r.Git? && |r.args| >= 2
    ensures r.args[0] == "fetch" <==> RemoteOf(repo.remotes, repo.projects, p).Some?
    ensures r.args[0] == "fetch" ==> |r.args| == 2 && r.args[1] in repo.projects && repo.projects[r.args[1]] == p
    ensures r.args[0] != "fetch" ==> |r.args| == 5 && r.args[..4] == ["remote", "add", "-f", p.owner] && ':' in r.args[4]
  {
    match RemoteOf(repo.remotes, repo.projects, p)
    case Some(rem) => Git(["fetch", rem])
    case None => Git(["remote", "add", "-f", p.owner, TargetUrl(ctx, p, false)])
  }

  /**
   * `git cherry-pick`: unless `-m`/`--mainline` is given, a last word naming
   * a GitHub commit is replaced by the commit's sha, after a command that
   * fetches the commit's repository.
   */
  function CherryPick(ctx: Context, repo: LocalRepo, args: seq<string>): (r: Outcome)
    ensures r.Run? && 1 <= |r.cmds| <= 2 && r.cmds[|r.cmds| - 1].Git?
    ensures "-m" in args || "--mainline" in args ==> r == Forward(args)
    ensures |r.cmds| == 2 ==>
      (|r.cmds[1].args| == |args| && forall i | 0 <= i < |args| && r.cmds[1].args[i] != args[i] :: IsSha(r.cmds[1].args[i]))
    ensures |r.cmds| == 2 ==>
      forall i, j | 0 <= i < j < |args| && r.cmds[1].args[j] != args[j] :: r.cmds[1].args[i] == args[i]
  {
    if "-m" in args || "--mainline" in args then Forward(args)
    else
      var w := Words(args);
      if |w| == 0 then Forward(args)
      else
        var ref := w[|w| - 1];
        match PickOf(ctx, repo, ref)
        case None => Forward(args)
        case Some(pick) =>
          Run([FetchProject(ctx, repo, pick.project), Git(ReplaceFirst(args, ref, pick.sha))])
  }

  /** How `CherryPick` reads `cherry-pick FLAGS REF` once REF's commit is known. */
  lemma PickSteps(ctx: Context, repo: LocalRepo, args: seq<string>, flags: seq<string>, ref: string, pick: Pick)
    requires args == ["cherry-pick"] + flags + [ref]
    requires Words(args) == ["cherry-pick", ref] && "-m" !in args && "--mainline" !in args
    requires PickOf(ctx, repo, ref) == Some(pick)
    requires ReplaceFirst(args, ref, pick.sha) == ["cherry-pick"] + flags + [pick.sha]
    ensures CherryPick(ctx, repo, args) == Run([FetchProject(ctx, repo, pick.project), Git(["cherry-pick"] + flags + [pick.sha])])
  {
  }

  /** A ref with no `:` is no URL. */
  lemma NotWebUrl(ctx: Context, ref: string)
    requires ':' !in ref
    ensures ResolveWebUrl(ctx, ref) == None
  {
    assert ':' !in PathOnly(ref);
  }

  /**
   * `cherry-pick FLAGS OWNER@SHA` fetches OWNER's fork of this repository,
   * then picks SHA.
   */
  lemma CherryPickUserSha(ctx: Context, repo: LocalRepo, flags: seq<string>, owner: string, sha: string)
    requires forall f | f in flags :: IsFlag(f)
    requires "-m" !in flags && "--mainline" !in flags
    requires owner != "" && AllWord(owner) && IsSha(sha)
    ensures CherryPick(ctx, repo, ["cherry-pick"] + flags + [owner + "@" + sha])
         == Run([FetchProject(ctx, repo, OwnedProject(repo, owner, repo.name)), Git(["cherry-pick"] + flags + [sha])])
  {
    var ref := owner + "@" + sha;
    assert !IsFlag(ref) && ref != "cherry-pick" && ':' !in ref by {
      assert ref[0] == owner[0] && owner[0] in owner;
      assert ref[|owner|] == '@';
      assert ':' !in owner && ':' !in sha by {
        assert !IsWordChar(':') && !IsHexDigit(':');
      }
    }
    PickLine(flags, ref);
    assert PickOf(ctx, repo, ref) == Some(Pick(OwnedProject(repo, owner, repo.name), sha)) by {
      NotWebUrl(ctx, ref);
      UserShaOf(owner, sha);
    }
    ReplaceFinal(["cherry-pick"] + flags, ref, sha);
    PickSteps(ctx, repo, ["cherry-pick"] + flags + [ref], flags, ref, Pick(OwnedProject(repo, owner, repo.name), sha));
  }

  /**
   * `cherry-pick FLAGS URL` of a commit's page fetches the page's project,
   * then picks the sha; a query or fragment after the sha is ignored.
   */
  lemma CherryPickUrl(ctx: Context, repo: LocalRepo, flags: seq<string>, scheme: string, p: Project, sha: string, tail: string)
    requires forall f | f in flags :: IsFlag(f)
    requires "-m" !in flags && "--mainline" !in flags
    requires IsWebScheme(scheme) && IsSha(sha)
    requires p.host in KnownHosts(ctx) && '/' !in p.host
    requires p.owner != "" && p.name != "" && '/' !in p.owner && '/' !in p.name
    requires '#' !in PageUrl(scheme, p, CommitPrefix + sha) && '?' !in PageUrl(scheme, p, CommitPrefix + sha)
    requires IsUrlTail(tail)
    ensures CherryPick(ctx, repo, ["cherry-pick"] + flags + [PageUrl(scheme, p, CommitPrefix + sha) + tail])
         == Run([FetchProject(ctx, repo, p), Git(["cherry-pick"] + flags + [sha])])
  {
    var ref := PageUrl(scheme, p, CommitPrefix + sha) + tail;
    PickOfPage(ctx, repo, scheme, p, sha, tail);
    PickLine(flags, ref);
    ReplaceFinal(["cherry-pick"] + flags, ref, sha);
    PickSteps(ctx, repo, ["cherry-pick"] + flags + [ref], flags, ref, Pick(p, sha));
  }

  /** A commit page's URL, however it ends, names the commit, and is no option. */
  lemma PickOfPage(ctx: Context, repo: LocalRepo, scheme: string, p: Project, sha: string, tail: string)
    requires IsWebScheme(scheme) && IsSha(sha)
    requires p.host in KnownHosts(ctx) && '/' !in p.host
    requires p.owner != "" && p.name != "" && '/' !in p.owner && '/' !in p.name
    requires '#' !in PageUrl(scheme, p, CommitPrefix + sha) && '?' !in PageUrl(scheme, p, CommitPrefix + sha)
    requires IsUrlTail(tail)
    ensures PickOf(ctx, repo, PageUrl(scheme, p, CommitPrefix + sha) + tail) == Some(Pick(p, sha))
    ensures !IsFlag(PageUrl(scheme, p, CommitPrefix + sha) + tail)
    ensures PageUrl(scheme, p, CommitPrefix + sha) + tail != "cherry-pick"
  {
    var ref := PageUrl(scheme, p, CommitPrefix + sha) + tail;
    assert ResolveWebUrl(ctx, ref) == Some(WebRef(p, CommitPrefix + sha)) by {
      ResolvePageUrl(ctx, scheme, p, CommitPrefix + sha, tail);
    }
    assert CommitSha(CommitPrefix + sha) == Some(sha) by {
      assert CommitPrefix + sha == CommitPrefix + sha + "";
      CommitShaOf(sha, "");
    }
    PickOfWebRef(ctx, repo, ref, WebRef(p, CommitPrefix + sha), sha);
    PageStartsWithScheme(scheme, p, CommitPrefix + sha, tail);
  }

  /** A ref that resolves to a commit page names that page's commit. */
  lemma PickOfWebRef(ctx: Context, repo: LocalRepo, ref: string, w: WebRef, sha: string)
    requires ResolveWebUrl(ctx, ref) == Some(w) && CommitSha(w.path) == Some(sha)
    ensures PickOf(ctx, repo, ref) == Some(Pick(w.project, sha))
  {
  }

  /** A page URL starts with its scheme's first letter, so it is neither an option nor a command. */
  lemma PageStartsWithScheme(scheme: string, p: Project, sub: string, tail: string)
    requires IsWebScheme(scheme)
    ensures !IsFlag(PageUrl(scheme, p, sub) + tail)
    ensures PageUrl(scheme, p, sub) + tail != "cherry-pick"
  {
    var ref := PageUrl(scheme, p, sub) + tail;
    assert ref[0] == scheme[0] == 'h';
    assert "cherry-pick"[0] == 'c';
  }

  /** A last word that names no commit leaves the command line to git. */
  lemma CherryPickUntouched(ctx: Context, repo: LocalRepo, flags: seq<string>, ref: string)
    requires forall f | f in flags :: IsFlag(f)
    requires "-m" !in flags && "--mainline" !in flags
    requires !IsFlag(ref) && ref != "cherry-pick"
    requires PickOf(ctx, repo, ref) == None
    ensures CherryPick(ctx, repo, ["cherry-pick"] + flags + [ref]) == Forward(["cherry-pick"] + flags + [ref])
  {
    PickLine(flags, ref);
  }
}

=== FILE: clone.dfy ===
/**
 * `clone`, `submodule add` and `remote add`: a repository named by the
 * shorthand `[OWNER/]NAME` on the command line is replaced by its clone URL;
 * every other argument keeps its place, and `-p` (for "private") is
 * consumed.
 */
module CloneRules {
  import opened Maybe
  import opened Strings
  import opened Projects
  import opened Repo
  import opened Argv
  import opened Outcomes

  /** The options of `git clone` whose value is the next argument. */
  predicate TakesValue(flag: string) {
    flag in ["-u", "-b", "-o", "--upload-pack", "--template", "--depth", "--origin", "--branch", "--reference"]
  }

  /**
   * The position of the first operand among `opts`: options are skipped,
   * and so is the value after an option that takes one.
   */
  function OperandIndex(opts: seq<string>): (r: Option<nat>)
    ensures r.Some? ==> r.value < |opts| && !IsFlag(opts[r.value])
    decreases |opts|
  {
    if |opts| == 0 then None
    else if !IsFlag(opts[0]) then Some(0)
    else if TakesValue(opts[0]) then
      if |opts| < 2 then None
      else
        match OperandIndex(opts[2..])
        case None => None
        case Some(k) => Some(k + 2)
    else
      match OperandIndex(opts[1..])
      case None => None
      case Some(k) => Some(k + 1)
  }

  /** Replacing the operand by another non-option leaves it the first operand. */
  lemma {:induction false} OperandIndexUpdate(opts: seq<string>, k: nat, y: string)
    requires OperandIndex(opts) == Some(k) && !IsFlag(y)
    ensures OperandIndex(opts[k := y]) == Some(k)
    decreases |opts|
  {
    if k > 0 {
      var step := if TakesValue(opts[0]) then 2 else 1;
      assert opts[k := y][step..] == opts[step..][k - step := y];
      OperandIndexUpdate(opts[step..], k - step, y);
    }
  }

  /** The clone URL of a repository named on the command line: every such URL has a `:` and is no option. */
  function TargetUrl(ctx: Context, p: Project, private: bool): (r: string)
    ensures ':' in r && !IsFlag(r)
  {
    CloneUrlHasColon(p, ChooseProtocol(HttpsPreferred(ctx), private, p.host));
    ContextUrl(ctx, p, private)
  }

  /** What happens to a clone command line. */
  datatype Expansion =
    | Keep
      /** The argument at `at` is replaced by the clone URL of `target`. */
    | Expand(at: nat, target: Project, private: bool)
      /** A bare NAME needs the user's login and none is configured. */
    | NeedsUser

  /**
   * The repository shorthand `sh` names and whether its URL is private:
   * OWNER/NAME is private with `ssh` or, outside a submodule, when OWNER is
   * the user; a bare NAME is the user's own repository, private with `ssh`
   * or outside a submodule, and needs the user's login.
   */
  function ShorthandTarget(ctx: Context, repo: LocalRepo, sh: (Option<string>, string), ssh: bool, inSubmodule: bool): (r: Option<(Project, bool)>)
    ensures r.None? <==> sh.0.None? && User(ctx, repo.host).None?
    ensures r.Some? ==> r.value.0.host == repo.host && r.value.0.name == sh.1
    ensures r.Some? && sh.0.Some? ==> r.value.0.owner == sh.0.value
    ensures r.Some? && sh.0.None? ==> Some(r.value.0.owner) == User(ctx, repo.host)
    ensures r.Some? && ssh ==> r.value.1
  {
    var user := User(ctx, repo.host);
    match sh.0
    case Some(owner) => Some((OwnedProject(repo, owner, sh.1), ssh || (!inSubmodule && user == Some(owner))))
    case None =>
      match user
      case None => None
      case Some(login) => Some((OwnedProject(repo, login, sh.1), ssh || !inSubmodule))
  }

  /** The expansion of argument `arg` at position `i`: a shorthand that is not an existing directory names a repository. */
  function ExpandOperand(ctx: Context, repo: LocalRepo, arg: string, i: nat, ssh: bool, inSubmodule: bool): (r: Expansion)
    ensures r.Expand? ==> r.at == i && Shorthand(arg).Some? && !IsDirectory(ctx, arg)
    ensures r.NeedsUser? ==> User(ctx, repo.host).None?
  {
    if IsDirectory(ctx, arg) then Keep
    else
      match Shorthand(arg)
      case None => Keep
      case Some(sh) =>
        match ShorthandTarget(ctx, repo, sh, ssh, inSubmodule)
        case None => NeedsUser
        case Some((p, private)) => Expand(i, p, private)
  }

  /** The expansion of the first operand of `a`, a command line without `-p`. */
  function CloneExpansion(ctx: Context, repo: LocalRepo, a: seq<string>, ssh: bool, inSubmodule: bool): (r: Expansion)
    ensures r.Expand? ==> 1 <= r.at < |a| && OperandIndex(a[1..]) == Some(r.at - 1)
    ensures r.Expand? ==> Shorthand(a[r.at]).Some? && !IsDirectory(ctx, a[r.at])
    ensures r.NeedsUser? ==> User(ctx, repo.host).None?
  {
    if |a| == 0 then Keep
    else
      match OperandIndex(a[1..])
      case None => Keep
      case Some(k) => ExpandOperand(ctx, repo, a[k + 1], k + 1, ssh, inSubmodule)
  }

  /** The command line with the expansion carried out. */
  function Expanded(ctx: Context, a: seq<string>, e: Expansion): (r: seq<string>)
    requires e.Expand? ==> e.at < |a|
    ensures |r| == |a|
    ensures forall j | 0 <= j < |r| && r[j] != a[j] :: ':' in r[j] && !IsFlag(r[j])
  {
    if e.Expand? then a[e.at := TargetUrl(ctx, e.target, e.private)] else a
  }

  /** The arguments of `git clone` after hub's rewriting, or nothing when the user's login is needed and missing. */
  function CloneArgs(ctx: Context, repo: LocalRepo, args: seq<string>, inSubmodule: bool): (r: Option<seq<string>>)
    ensures r.None? ==> User(ctx, repo.host).None?
    ensures r.Some? ==> "-p" !in r.value && |r.value| == |Remove(args, "-p")|
    ensures r.Some? ==> forall j | 0 <= j < |r.value| && r.value[j] != Remove(args, "-p")[j] :: ':' in r.value[j] && !IsFlag(r.value[j])
  {
    var a := Remove(args, "-p");
    var e := CloneExpansion(ctx, repo, a, "-p" in args, inSubmodule);
    if e.NeedsUser? then None else Some(Expanded(ctx, a, e))
  }

  /** `git clone`. */
  function Clone(ctx: Context, repo: LocalRepo, args: seq<string>): (r: Outcome)
    ensures r.Fail? ==> r == Abort([NoUserMessage]) && User(ctx, repo.host).None?
    ensures r.Run? ==> |r.cmds| == 1 && r.cmds[0].Git? && "-p" !in r.cmds[0].args
    ensures r.Run? || r.Fail?
  {
    match CloneArgs(ctx, repo, args, false)
    case None => Abort([NoUserMessage])
    case Some(a) => Forward(a)
  }

  /** `git clone` of a line whose expansion replaces argument `i`: the line less `-p`, with the URL there. */
  lemma CloneOf(ctx: Context, repo: LocalRepo, args: seq<string>, a: seq<string>, i: nat, p: Project, priv: bool)
    requires Remove(args, "-p") == a && i < |a|
    requires CloneExpansion(ctx, repo, a, "-p" in args, false) == Expand(i, p, priv)
    ensures Clone(ctx, repo, args) == Forward(a[i := TargetUrl(ctx, p, priv)])
  {
  }

  /** `OWNER/NAME` as the first operand becomes the clone URL of OWNER/NAME. */
  lemma CloneOwnerName(ctx: Context, repo: LocalRepo, a: seq<string>, ssh: bool, inSubmodule: bool, i: nat, owner: string, name: string)
    requires 1 <= i < |a| && OperandIndex(a[1..]) == Some(i - 1)
    requires a[i] == owner + "/" + name && !IsDirectory(ctx, a[i])
    requires owner != "" && AllOwner(owner) && name != "" && AllName(name)
    ensures CloneExpansion(ctx, repo, a, ssh, inSubmodule)
         == Expand(i, Project(repo.host, owner, name), ssh || (!inSubmodule && User(ctx, repo.host) == Some(owner)))
  {
    ShorthandOwnerName(owner, name);
  }

  /** A bare NAME as the first operand becomes the clone URL of the user's NAME, private outside a submodule. */
  lemma CloneOwnName(ctx: Context, repo: LocalRepo, a: seq<string>, ssh: bool, inSubmodule: bool, i: nat, name: string)
    requires 1 <= i < |a| && OperandIndex(a[1..]) == Some(i - 1)
    requires a[i] == name && !IsDirectory(ctx, name)
    requires name != "" && AllName(name)
    ensures User(ctx, repo.host).None? ==> CloneExpansion(ctx, repo, a, ssh, inSubmodule) == NeedsUser
    ensures User(ctx, repo.host).Some? ==>
              (CloneExpansion(ctx, repo, a, ssh, inSubmodule)
               == Expand(i, Project(repo.host, User(ctx, repo.host).value, name), ssh || !inSubmodule))
  {
    ShorthandName(name);
  }

  /** An operand that is no shorthand (a URL, a path) or names a directory stays as it is. */
  lemma CloneKeepsOperand(ctx: Context, repo: LocalRepo, a: seq<string>, ssh: bool, inSubmodule: bool, i: nat)
    requires 1 <= i < |a| && OperandIndex(a[1..]) == Some(i - 1)
    requires Shorthand(a[i]).None? || IsDirectory(ctx, a[i])
    ensures CloneExpansion(ctx, repo, a, ssh, inSubmodule) == Keep
  {
  }

  /** After an expansion the operand is a URL, which expands no further. */
  lemma ExpandedSettles(ctx: Context, repo: LocalRepo, a: seq<string>, ssh: bool, inSubmodule: bool, i: nat, url: string)
    requires CloneExpansion(ctx, repo, a, ssh, inSubmodule).Expand? && CloneExpansion(ctx, repo, a, ssh, inSubmodule).at == i
    requires ':' in url && !IsFlag(url)
    ensures CloneExpansion(ctx, repo, a[i := url], false, inSubmodule) == Keep
  {
    var r := a[i := url];
    assert OperandIndex(r[1..]) == Some(i - 1) by {
      assert r[1..] == a[1..][i - 1 := url];
      OperandIndexUpdate(a[1..], i - 1, url);
    }
    NotShorthand(url);
    CloneKeepsOperand(ctx, repo, r, false, inSubmodule, i);
  }

  /** Whether the operand is expanded does not depend on `-p`. */
  lemma KeepWithoutSsh(ctx: Context, repo: LocalRepo, a: seq<string>, ssh: bool, inSubmodule: bool)
    requires CloneExpansion(ctx, repo, a, ssh, inSubmodule) == Keep
    ensures CloneExpansion(ctx, repo, a, false, inSubmodule) == Keep
  {
    if |a| > 0 && OperandIndex(a[1..]).Some? {
      var i := OperandIndex(a[1..]).value + 1;
      assert ExpandOperand(ctx, repo, a[i], i, ssh, inSubmodule) == Keep;
    }
  }

  /** A command line without `-p` whose operand stays is left as it is. */
  lemma SettledArgs(ctx: Context, repo: LocalRepo, r: seq<string>, inSubmodule: bool)
    requires "-p" !in r && CloneExpansion(ctx, repo, r, false, inSubmodule) == Keep
    ensures CloneArgs(ctx, repo, r, inSubmodule) == Some(r)
  {
    assert Remove(r, "-p") == r;
  }

  /** Rewriting a rewritten command line changes nothing: a clone URL is never expanded again. */
  lemma CloneIdempotent(ctx: Context, repo: LocalRepo, args: seq<string>, inSubmodule: bool)
    requires CloneArgs(ctx, repo, args, inSubmodule).Some?
    ensures CloneArgs(ctx, repo, CloneArgs(ctx, repo, args, inSubmodule).value, inSubmodule) == CloneArgs(ctx, repo, args, inSubmodule)
  {
    var a := Remove(args, "-p");
    var r := CloneArgs(ctx, repo, args, inSubmodule).value;
    var e := CloneExpansion(ctx, repo, a, "-p" in args, inSubmodule);
    if e.Expand? {
      ExpandedSettles(ctx, repo, a, "-p" in args, inSubmodule, e.at, TargetUrl(ctx, e.target, e.private));
    } else {
      KeepWithoutSsh(ctx, repo, a, "-p" in args, inSubmodule);
    }
    SettledArgs(ctx, repo, r, inSubmodule);
  }

  /** `c` with `-b BRANCH` inserted at `branch.0`, if there is a branch and the position is within `c`. */
  function PutBranch(c: seq<string>, branch: Option<(nat, string)>): (r: Option<seq<string>>)
    ensures branch.None? ==> r == Some(c)
    ensures branch.Some? && branch.value.0 <= |c| ==> r.Some? && |r.value| == |c| + 2
    ensures branch.Some? && branch.value.0 <= |c| ==> r.value[branch.value.0..branch.value.0 + 2] == ["-b", branch.value.1]
    ensures branch.Some? && branch.value.0 > |c| ==> r.None?
  {
    match branch
    case None => Some(c)
    case Some((j, name)) => if j <= |c| then Some(InsertAt(c, j, ["-b", name])) else None
  }

  /**
   * The clone rewrite of a submodule's command line `b` (without `add` and
   * the branch option), then `-b BRANCH` put back at `branch.0` and `add` at
   * `i`; a position past the end leaves a hole, which git cannot run.
   */
  function SubmoduleClone(ctx: Context, repo: LocalRepo, b: seq<string>, i: nat, branch: Option<(nat, string)>): (r: Outcome)
    ensures r.Fail? <==> CloneArgs(ctx, repo, b, true).None?
    ensures r.Fail? ==> r == Abort([NoUserMessage])
    ensures r.Run? ==> |r.cmds| == 1 && r.cmds[0].Git? && |r.cmds[0].args| > i && r.cmds[0].args[i] == "add"
  {
    match CloneArgs(ctx, repo, b, true)
    case None => Abort([NoUserMessage])
    case Some(c) =>
      match PutBranch(c, branch)
      case None => Crash("the branch option is re-inserted past the end of the command line")
      case Some(d) =>
        if i <= |d| then Forward(InsertAt(d, i, ["add"]))
        else Crash("add is re-inserted past the end of the command line")
  }

  /**
   * `git submodule`: for `add`, the command line less `add` and its branch
   * option goes through the clone rewrite (as a submodule: a bare NAME is
   * not made private), and both are put back where they were.
   */
  function Submodule(ctx: Context, repo: LocalRepo, args: seq<string>): (r: Outcome)
    ensures "add" !in args ==> r == Forward(args)
    ensures r.Fail? ==> r == Abort([NoUserMessage]) && User(ctx, repo.host).None?
    ensures r.Run? ==> |r.cmds| == 1 && r.cmds[0].Git?
    ensures "add" in args && r.Run? ==> "add" in r.cmds[0].args
  {
    match IndexOf(args, "add")
    case None => Forward(args)
    case Some(i) =>
      var a := DeleteAt(args, i);
      match IndexOfEither(a, "-b", "--branch")
      case None => SubmoduleClone(ctx, repo, a, i, None)
      case Some(j) =>
        if j + 1 < |a| then SubmoduleClone(ctx, repo, DeleteAt(DeleteAt(a, j), j), i, Some((j, a[j + 1])))
        else SubmoduleClone(ctx, repo, DeleteAt(a, j), i, None)
  }

  /** `submodule … add …` without a branch option is the clone rewrite of the line without `add`, with `add` put back. */
  lemma SubmoduleAdd(ctx: Context, repo: LocalRepo, pre: seq<string>, post: seq<string>)
    requires "add" !in pre && "-b" !in pre + post && "--branch" !in pre + post
    ensures CloneArgs(ctx, repo, pre + post, true).None? ==> Submodule(ctx, repo, pre + ["add"] + post) == Abort([NoUserMessage])
    ensures CloneArgs(ctx, repo, pre + post, true).Some? && |pre| <= |CloneArgs(ctx, repo, pre + post, true).value| ==>
              Submodule(ctx, repo, pre + ["add"] + post) == Forward(InsertAt(CloneArgs(ctx, repo, pre + post, true).value, |pre|, ["add"]))
  {
    WordLine(pre, "add", post);
  }

  /** With `-b BRANCH` after `add`, the branch option is also taken out for the clone rewrite and put back. */
  lemma SubmoduleAddBranch(ctx: Context, repo: LocalRepo, pre: seq<string>, mid: seq<string>, branch: string, post: seq<string>)
    requires "add" !in pre && "-b" !in pre + mid
    requires CloneArgs(ctx, repo, pre + mid + post, true).Some?
    requires |pre| + |mid| <= |CloneArgs(ctx, repo, pre + mid + post, true).value|
    ensures Submodule(ctx, repo, pre + ["add"] + mid + ["-b", branch] + post)
         == Forward(InsertAt(InsertAt(CloneArgs(ctx, repo, pre + mid + post, true).value, |pre| + |mid|, ["-b", branch]), |pre|, ["add"]))
  {
    SubmoduleAddLine(ctx, repo, pre, mid, branch, post);
    SubmoduleCloneBranch(ctx, repo, pre, mid, branch, post);
  }

  /** Where `Submodule` finds `add` and `-b BRANCH`, and the line it passes on without them. */
  lemma SubmoduleAddLine(ctx: Context, repo: LocalRepo, pre: seq<string>, mid: seq<string>, branch: string, post: seq<string>)
    requires "add" !in pre && "-b" !in pre + mid
    ensures Submodule(ctx, repo, pre + ["add"] + mid + ["-b", branch] + post)
         == SubmoduleClone(ctx, repo, pre + mid + post, |pre|, Some((|pre| + |mid|, branch)))
  {
    WordOptionLine(pre, "add", mid, "-b", branch, post, "--branch");
    SubmoduleSteps(ctx, repo, pre + ["add"] + mid + ["-b", branch] + post, |pre|, pre + mid + ["-b", branch] + post, |pre| + |mid|, branch, pre + mid + post);
  }

  /** How `Submodule` reads a command line with `add` at `i` and the branch option at `j` once `add` is out. */
  lemma SubmoduleSteps(ctx: Context, repo: LocalRepo, args: seq<string>, i: nat, a: seq<string>, j: nat, name: string, b: seq<string>)
    requires IndexOf(args, "add") == Some(i) && DeleteAt(args, i) == a
    requires IndexOfEither(a, "-b", "--branch") == Some(j) && j + 1 < |a| && a[j + 1] == name && DeleteAt(DeleteAt(a, j), j) == b
    ensures Submodule(ctx, repo, args) == SubmoduleClone(ctx, repo, b, i, Some((j, name)))
  {
  }

  lemma SubmoduleCloneBranch(ctx: Context, repo: LocalRepo, pre: seq<string>, mid: seq<string>, branch: string, post: seq<string>)
    requires CloneArgs(ctx, repo, pre + mid + post, true).Some?
    requires |pre| + |mid| <= |CloneArgs(ctx, repo, pre + mid + post, true).value|
    ensures SubmoduleClone(ctx, repo, pre + mid + post, |pre|, Some((|pre| + |mid|, branch)))
         == Forward(InsertAt(InsertAt(CloneArgs(ctx, repo, pre + mid + post, true).value, |pre| + |mid|, ["-b", branch]), |pre|, ["add"]))
  {
  }

}

=== FILE: context.dfy ===
/**
 * The context a hub invocation reads: configuration, environment overrides,
 * the local repository's remotes and branches, and the answers the hosting
 * API gives. Every query hub would make (and cache) is answered by a field,
 * so an invocation is a pure function of this record and the command line.
 */
module Repo {
  import opened Maybe
  import opened Strings
  import opened Projects

  /** The API's answer to the one write request an invocation makes. */
  datatype Reply =
    | Accepted(htmlUrl: string)
    | Rejected(status: nat, reason: string, errors: seq<string>)

  /** The head of a pull request: the fork's owner and branch, and whether that fork is private. */
  datatype PullHead = PullHead(owner: string, branch: string, isPrivate: bool)

  /** Pull request `number` of `owner/name`. */
  datatype PullId = PullId(owner: string, name: string, number: string)

  datatype Context = Context(
    /** `github.user` per host (the plain key is the `github.com` entry). */
    users: map<string, string>,
    /** `github.token` per host. */
    tokens: map<string, string>,
    /** `$GITHUB_USER`, `$GITHUB_TOKEN` and `$GITHUB_HOST`. */
    envUser: Option<string>,
    envToken: Option<string>,
    envHost: Option<string>,
    /** `hub.host`: the enterprise hosts. */
    hubHosts: seq<string>,
    /** `hub.protocol`. */
    protocol: Option<string>,
    /** Whether a git directory is found. */
    insideRepo: bool,
    /** `git remote`, in its order. */
    remotes: seq<string>,
    /** `remote.NAME.url`, all values. */
    remoteUrls: map<string, seq<string>>,
    /** `symbolic-ref HEAD`: the full ref of the checked-out branch. */
    head: Option<string>,
    /** `BRANCH@{upstream}` as a full ref, per branch. */
    upstreams: map<string, string>,
    /** Commits not yet pushed to `remote/branch`. */
    unpushed: map<(string, string), nat>,
    /** Names with a `remotes.NAME` group setting. */
    remoteGroups: set<string>,
    /** `alias.NAME`. */
    aliases: map<string, string>,
    /** Existing local directories (a clone argument naming one is a path). */
    directories: set<string>,
    /** ssh `Host` aliases and the host names they stand for. */
    sshAliases: map<string, string>,
    /** Repositories the existence probe finds. */
    existing: set<Project>,
    /** Pull request heads the API reports. */
    pulls: map<PullId, PullHead>,
    /** The API's answer to the invocation's write request. */
    reply: Reply,
    /** The title typed into the editor for a pull request ("" when none). */
    editorTitle: string,
    /** `$TMPDIR`. */
    tmpDir: Option<string>,
    /** The working directory. */
    pwd: string,
    /** The program that opens a web page. */
    browser: string,
    /** hub's version. */
    version: string)

  /** `$GITHUB_HOST`, else `github.com`. */
  function DefaultHost(ctx: Context): (r: string)
    ensures ctx.envHost.None? ==> r == GitHubHost
    ensures ctx.envHost.Some? ==> r == ctx.envHost.value
  {
    ctx.envHost.GetOr(GitHubHost)
  }

  /** The hosts whose URLs name GitHub projects: the enterprise hosts and the default host. */
  function KnownHosts(ctx: Context): (r: seq<string>)
    ensures DefaultHost(ctx) in r
    ensures forall h | h in ctx.hubHosts :: h in r
  {
    ctx.hubHosts + [DefaultHost(ctx)]
  }

  /** `names` with every `x` taken out, the others in their order. */
  function Without(names: seq<string>, x: string): (r: seq<string>)
    ensures x !in r
    ensures forall y | y != x :: y in r <==> y in names
    ensures x !in names ==> r == names
  {
    if |names| == 0 then []
    else (if names[0] == x then [] else [names[0]]) + Without(names[1..], x)
  }

  /** The remotes in the order hub lists them: `origin` moved to the front, the others as `git remote` gives them. */
  function OriginFirst(names: seq<string>): (r: seq<string>)
    ensures forall y :: y in r <==> y in names
    ensures "origin" in names ==> |r| > 0 && r[0] == "origin" && "origin" !in r[1..]
    ensures "origin" !in names ==> r == names
  {
    if "origin" in names then ["origin"] + Without(names, "origin") else names
  }

  /** Taking `x` out removes exactly its copies. */
  lemma {:induction false} WithoutCount(names: seq<string>, x: string)
    ensures multiset(Without(names, x)) == multiset(names)[x := 0]
    decreases |names|
  {
    if |names| > 0 {
      WithoutCount(names[1..], x);
      assert names == [names[0]] + names[1..];
    }
  }

  /** With at most one `origin`, listing it first reorders the remotes and loses or adds none. */
  lemma OriginFirstPermutes(names: seq<string>)
    requires multiset(names)["origin"] <= 1
    ensures multiset(OriginFirst(names)) == multiset(names)
  {
    if "origin" in names {
      WithoutCount(names, "origin");
    }
  }

  /** The remotes, `origin` first; none outside a repository. */
  function Remotes(ctx: Context): seq<string> {
    if ctx.insideRepo then OriginFirst(ctx.remotes) else []
  }

  /** The project the first usable URL of `remote` points to. */
  function RemoteProject(ctx: Context, remote: string): (r: Option<Project>)
    ensures r.Some? ==> remote in Remotes(ctx) && r.value.host in KnownHosts(ctx)
  {
    if remote in Remotes(ctx) && remote in ctx.remoteUrls then
      FirstProject(ctx.remoteUrls[remote], KnownHosts(ctx), ctx.sshAliases)
    else None
  }

  /** The project of the `origin` remote. */
  function MainProject(ctx: Context): Option<Project> {
    RemoteProject(ctx, "origin")
  }

  /** The repository's name: origin's, else the working directory's basename. */
  function RepoName(ctx: Context): (r: string)
    ensures MainProject(ctx).Some? ==> r == MainProject(ctx).value.name
    ensures MainProject(ctx).None? ==> r == Basename(ctx.pwd)
  {
    match MainProject(ctx)
    case Some(p) => p.name
    case None => Basename(ctx.pwd)
  }

  /** The host new URLs use: origin's host, else the default host. */
  function ProjectHost(ctx: Context): (r: string)
    ensures MainProject(ctx).Some? ==> r == MainProject(ctx).value.host
    ensures MainProject(ctx).None? ==> r == DefaultHost(ctx)
  {
    match MainProject(ctx)
    case Some(p) => p.host
    case None => DefaultHost(ctx)
  }

  /**
   * The project `owner/name` on the host new URLs use: a project named on
   * the command line always lives next to origin's.
   */
  function OwnedProject(repo: LocalRepo, owner: string, name: string): (r: Project)
    ensures r.host == repo.host && r.owner == owner && r.name == name
  {
    Project(repo.host, owner, name)
  }

  /** The GitHub login for `host`: `$GITHUB_USER` overrides the host's `github.user`. */
  function User(ctx: Context, host: string): (r: Option<string>)
    ensures ctx.envUser.Some? ==> r == ctx.envUser
    ensures ctx.envUser.None? && host in ctx.users ==> r == Some(ctx.users[host])
    ensures ctx.envUser.None? && host !in ctx.users ==> r.None?
  {
    if ctx.envUser.Some? then ctx.envUser
    else if host in ctx.users then Some(ctx.users[host])
    else None
  }

  /** The API token for `host`: `$GITHUB_TOKEN` overrides the host's `github.token`. */
  function Token(ctx: Context, host: string): (r: Option<string>)
    ensures ctx.envToken.Some? ==> r == ctx.envToken
    ensures ctx.envToken.None? && host in ctx.tokens ==> r == Some(ctx.tokens[host])
    ensures ctx.envToken.None? && host !in ctx.tokens ==> r.None?
  {
    if ctx.envToken.Some? then ctx.envToken
    else if host in ctx.tokens then Some(ctx.tokens[host])
    else None
  }

  /** Whether `hub.protocol` is `https`. */
  predicate HttpsPreferred(ctx: Context) {
    ctx.protocol == Some("https")
  }

  /** The clone URL for `p` under the context's protocol preference. */
  function ContextUrl(ctx: Context, p: Project, private: bool): string {
    GitUrl(p, HttpsPreferred(ctx), private)
  }

  const HeadsPrefix := "refs/heads/"
  const RemotesPrefix := "refs/remotes/"

  /** The branch a `refs/heads/BRANCH` ref names. */
  function LocalBranchOf(ref: string): (r: Option<string>)
    ensures r.Some? ==> ref == HeadsPrefix + r.value && r.value != ""
  {
    if StartsWith(ref, HeadsPrefix) && |ref| > |HeadsPrefix| then
      assert ref == ref[..|HeadsPrefix|] + ref[|HeadsPrefix|..];
      Some(ref[|HeadsPrefix|..])
    else None
  }

  /** The remote and branch a `refs/remotes/REMOTE/BRANCH` ref names; the branch may contain `/`. */
  function RemoteBranchOf(ref: string): (r: Option<(string, string)>)
    ensures r.Some? ==> r.value.0 != "" && r.value.1 != "" && '/' !in r.value.0
  {
    if StartsWith(ref, RemotesPrefix) then
      match SplitFirst(ref[|RemotesPrefix|..], '/')
      case Some((remote, branch)) =>
        if remote != "" && branch != "" then Some((remote, branch)) else None
      case None => None
    else None
  }

  lemma LocalBranchOfRef(branch: string)
    requires branch != ""
    ensures LocalBranchOf(HeadsPrefix + branch) == Some(branch)
  {
    assert (HeadsPrefix + branch)[|HeadsPrefix|..] == branch;
  }

  lemma RemoteBranchOfRef(remote: string, branch: string)
    requires remote != "" && branch != "" && '/' !in remote
    ensures RemoteBranchOf(RemotesPrefix + remote + "/" + branch) == Some((remote, branch))
  {
    var ref := RemotesPrefix + remote + "/" + branch;
    assert ref[|RemotesPrefix|..] == remote + ['/'] + branch;
    SplitFirstGlue(remote, '/', branch);
  }

  /** The checked-out branch. */
  function CurrentBranch(ctx: Context): Option<string> {
    if ctx.insideRepo && ctx.head.Some? then LocalBranchOf(ctx.head.value) else None
  }

  /**
   * The remote branch the current branch tracks, as (remote, branch); an
   * upstream that is a local branch does not count.
   */
  function TrackedBranch(ctx: Context): (r: Option<(string, string)>)
    ensures r.Some? ==> CurrentBranch(ctx).Some? && CurrentBranch(ctx).value in ctx.upstreams
  {
    match CurrentBranch(ctx)
    case None => None
    case Some(b) => if b in ctx.upstreams then RemoteBranchOf(ctx.upstreams[b]) else None
  }

  /**
   * The short name of the current branch's upstream: the branch part of a
   * remote-tracking ref, or the branch a local upstream names.
   */
  function UpstreamName(ctx: Context): (r: Option<string>)
    ensures TrackedBranch(ctx).Some? ==> r == Some(TrackedBranch(ctx).value.1)
    ensures r.Some? ==> CurrentBranch(ctx).Some? && CurrentBranch(ctx).value in ctx.upstreams
  {
    match CurrentBranch(ctx)
    case None => None
    case Some(b) =>
      if b !in ctx.upstreams then None
      else
        var u := ctx.upstreams[b];
        match RemoteBranchOf(u)
        case Some((_, branch)) => Some(branch)
        case None => LocalBranchOf(u)
  }

  /** The project of the tracked remote, else origin's. */
  function CurrentProject(ctx: Context): (r: Option<Project>)
    ensures TrackedBranch(ctx).None? ==> r == MainProject(ctx)
    ensures r.None? ==> MainProject(ctx).None?
  {
    match TrackedBranch(ctx)
    case Some((remote, _)) =>
      var p := RemoteProject(ctx, remote);
      if p.Some? then p else MainProject(ctx)
    case None => MainProject(ctx)
  }

  /**
   * Whether a clone argument names a local directory: `.` and `..` always
   * do, other names when such a directory exists.
   */
  predicate IsDirectory(ctx: Context, arg: string) {
    arg == "." || arg == ".." || arg in ctx.directories
  }

  /**
   * What hub learns about the local repository once per invocation (it
   * memoizes each of these): the remotes and the projects their URLs name,
   * origin's project, the host and name new URLs use, and the checked-out
   * branch with its upstream.
   */
  datatype LocalRepo = LocalRepo(
    remotes: seq<string>,
    projects: map<string, Project>,
    main: Option<Project>,
    host: string,
    name: string,
    branch: Option<string>,
    tracked: Option<(string, string)>,
    upstream: Option<string>,
    current: Option<Project>)

  /** The local repository as the context describes it. */
  function Load(ctx: Context): (r: LocalRepo)
    ensures r.remotes == Remotes(ctx)
    ensures forall rem | rem in r.projects :: rem in r.remotes && r.projects[rem].host in KnownHosts(ctx)
    ensures r.main.Some? <==> "origin" in r.projects
    ensures r.main.Some? ==> r.main.value == r.projects["origin"] && r.host == r.main.value.host && r.name == r.main.value.name
    ensures r.main.None? ==> r.host == DefaultHost(ctx) && r.name == Basename(ctx.pwd)
    ensures r.upstream.Some? ==> r.branch.Some?
    ensures r.tracked.Some? ==> r.upstream == Some(r.tracked.value.1)
    ensures r.current.None? ==> r.main.None?
  {
    LocalRepo(
      Remotes(ctx),
      map rem | rem in Remotes(ctx) && RemoteProject(ctx, rem).Some? :: RemoteProject(ctx, rem).value,
      MainProject(ctx),
      ProjectHost(ctx),
      RepoName(ctx),
      CurrentBranch(ctx),
      TrackedBranch(ctx),
      UpstreamName(ctx),
      CurrentProject(ctx))
  }
}

=== FILE: dispatch.dfy ===
/**
 * The flags that come before the git command: hub takes them off the
 * front of the command line and puts them back in front of every git
 * command it runs, pager flags last.
 */
module GlobalFlags {
  import opened Maybe
  import opened Strings

  /** The flags hub takes off the front of the command line. */
  predicate IsGlobalFlag(a: string) {
    || a == "--noop" || a == "-c" || a == "-p" || a == "--paginate" || a == "--no-pager"
    || a == "--no-replace-objects" || a == "--bare" || a == "--version" || a == "--help"
    || StartsWith(a, "--exec-path=") || StartsWith(a, "--git-dir=") || StartsWith(a, "--work-tree=")
  }

  /** The flags that belong to the main command only; they go after the others. */
  predicate IsPagerFlag(a: string) {
    a == "-p" || a == "--paginate" || a == "--no-pager"
  }

  /** `--version` and `--help` stand for the commands of those names. */
  predicate IsCommandFlag(a: string) {
    a == "--version" || a == "--help"
  }

  /**
   * What the front of a command line holds: the flags for every git
   * command (with `-c` and its setting), the pager flags, whether `--noop`
   * asked for the commands to be listed instead of run, and the command
   * line that is left.
   */
  datatype Slurped = Slurped(globals: seq<string>, locals: seq<string>, noop: bool, rest: seq<string>)
  {
    /** The flags the git commands run with. */
    function Flags(): seq<string> {
      globals + locals
    }
  }

  /**
   * Takes the global flags off the front of `args`; nothing when `-c` is
   * the last argument (hub fails reading its setting).
   */
  function Slurp(args: seq<string>): (r: Option<Slurped>)
    ensures r.Some? && |r.value.rest| > 0 ==> !IsGlobalFlag(r.value.rest[0])
    ensures r.Some? ==> forall i | 0 <= i < |r.value.locals| :: IsPagerFlag(r.value.locals[i])
    ensures r.Some? ==> |r.value.rest| <= |args|
    ensures r.Some? ==> |r.value.globals| + |r.value.locals| + |r.value.rest| <= |args|
    ensures (|args| == 0 || !IsGlobalFlag(args[0])) ==> r == Some(Slurped([], [], false, args))
    decreases |args|
  {
    if |args| == 0 || !IsGlobalFlag(args[0]) then Some(Slurped([], [], false, args))
    else
      var f := args[0];
      if IsCommandFlag(f) then Some(Slurped([], [], false, [f[2..]] + args[1..]))
      else if f == "-c" then
        if |args| < 2 then None
        else
          match Slurp(args[2..])
          case None => None
          case Some(s) => Some(s.(globals := ["-c", args[1]] + s.globals))
      else
        match Slurp(args[1..])
        case None => None
        case Some(s) =>
          if f == "--noop" then Some(s.(noop := true))
          else if IsPagerFlag(f) then Some(s.(locals := [f] + s.locals))
          else Some(s.(globals := [f] + s.globals))
  }

  /**
   * A run of flags that go to every git command unchanged: `-c` with its
   * setting, or any global flag that is neither a pager flag, `--noop` nor
   * a command flag.
   */
  predicate PassedOn(g: seq<string>)
    decreases |g|
  {
    if |g| == 0 then true
    else if g[0] == "-c" then |g| >= 2 && PassedOn(g[2..])
    else IsGlobalFlag(g[0]) && !IsPagerFlag(g[0]) && g[0] != "--noop" && !IsCommandFlag(g[0]) && PassedOn(g[1..])
  }

  /** Flags that are passed on come back in their order, and the rest is untouched. */
  lemma {:induction false} SlurpPassedOn(g: seq<string>, rest: seq<string>)
    requires PassedOn(g)
    requires |rest| == 0 || !IsGlobalFlag(rest[0])
    ensures Slurp(g + rest) == Some(Slurped(g, [], false, rest))
    decreases |g|
  {
    if |g| == 0 {
      assert g + rest == rest;
    } else if g[0] == "-c" {
      SlurpPassedOn(g[2..], rest);
      ConfigStep(g[1], g[2..], rest);
      assert ["-c", g[1]] + g[2..] == g;
    } else {
      SlurpPassedOn(g[1..], rest);
      GlobalStep(g[0], g[1..], rest);
      assert [g[0]] + g[1..] == g;
    }
  }

  /** `-c NAME=VALUE` in front: the pair goes before the flags of the rest. */
  lemma ConfigStep(v: string, t: seq<string>, rest: seq<string>)
    requires Slurp(t + rest) == Some(Slurped(t, [], false, rest))
    ensures Slurp(["-c", v] + t + rest) == Some(Slurped(["-c", v] + t, [], false, rest))
  {
    DropFront(["-c", v], t, rest);
  }

  /** A global flag passed on in front goes before the flags of the rest. */
  lemma GlobalStep(f: string, t: seq<string>, rest: seq<string>)
    requires IsGlobalFlag(f) && !IsPagerFlag(f) && f != "--noop" && !IsCommandFlag(f) && f != "-c"
    requires Slurp(t + rest) == Some(Slurped(t, [], false, rest))
    ensures Slurp([f] + t + rest) == Some(Slurped([f] + t, [], false, rest))
  {
    DropFront([f], t, rest);
  }

  /** What follows a front part `x`. */
  lemma DropFront(x: seq<string>, t: seq<string>, rest: seq<string>)
    ensures (x + t + rest)[|x|..] == t + rest
  {
  }

  /** A pager flag in front moves behind the flags passed on. */
  lemma PagerLast(p: string, g: seq<string>, rest: seq<string>)
    requires IsPagerFlag(p) && PassedOn(g)
    requires |rest| == 0 || !IsGlobalFlag(rest[0])
    ensures Slurp([p] + g + rest) == Some(Slurped(g, [p], false, rest))
    ensures Slurp([p] + g + rest).value.Flags() + rest == g + [p] + rest
  {
    var t := g + rest;
    assert [p] + g + rest == [p] + t by {
      FrontGroup([p], g, rest);
    }
    assert Slurp(t) == Some(Slurped(g, [], false, rest)) by {
      SlurpPassedOn(g, rest);
    }
    assert Slurp([p] + t) == Some(Slurped(g, [p], false, rest)) by {
      PagerStep(p, t);
      assert [p] + [] == [p];
    }
  }

  lemma FrontGroup(a: seq<string>, b: seq<string>, c: seq<string>)
    ensures a + b + c == a + (b + c)
  {
  }

  /** A pager flag in front joins the pager flags of what follows. */
  lemma PagerStep(p: string, t: seq<string>)
    requires IsPagerFlag(p)
    ensures Slurp([p] + t) == (match Slurp(t) case None => None case Some(s) => Some(s.(locals := [p] + s.locals)))
  {
    assert ([p] + t)[0] == p && ([p] + t)[1..] == t;
    assert IsGlobalFlag(p) && !IsCommandFlag(p) && p != "-c" && p != "--noop";
  }

  /** `--version` and `--help` in front become the command, and whatever follows stays. */
  lemma CommandFlagFirst(f: string, rest: seq<string>)
    requires IsCommandFlag(f)
    ensures Slurp([f] + rest) == Some(Slurped([], [], false, [f[2..]] + rest))
    ensures f[2..] == "version" || f[2..] == "help"
  {
    assert ([f] + rest)[1..] == rest;
  }
}

/**
 * From a command line to the rule that handles it: global flags come off
 * the front, a git alias whose expansion starts with a command hub knows
 * is expanded, and the command picks the rule; whatever hub does not
 * know goes to git unchanged.
 */
module Dispatch {
  import opened Maybe
  import opened Strings
  import opened Argv
  import opened ShellWords
  import opened GlobalFlags

  /** Which rule handles a command line. */
  datatype Rule =
    /** git runs it unchanged. */
    | ToGit
    /** The usage line is printed. */
    | Usage(line: string)
    /** Help, manual or version text is shown. */
    | Shown(topic: string)
    | CloneCmd | SubmoduleCmd | RemoteCmd | FetchCmd | PushCmd | CherryPickCmd | PatchCmd | InitCmd
    | CreateCmd | ForkCmd | PullRequestCmd | CheckoutCmd | BrowseCmd | CompareCmd

  /** What one invocation is about: the rule, the command line it gets, the git flags and `--noop`. */
  datatype Plan =
    | Plan(rule: Rule, args: seq<string>, flags: seq<string>, listOnly: bool)
    /** hub fails before any rule runs. */
    | Broken(reason: string)

  /** A command name with every `-` after a word character written `_`, as hub looks its commands up. */
  function Underscored(s: string): (r: string)
    ensures |r| == |s|
  {
    seq(|s|, i requires 0 <= i < |s| => if s[i] == '-' && i > 0 && IsWordChar(s[i - 1]) then '_' else s[i])
  }

  /** The commands hub handles itself, in their looked-up spelling. */
  const HubCommands: set<string> := {
    "clone", "submodule", "remote", "fetch", "push", "cherry_pick", "am", "apply", "init",
    "create", "fork", "pull_request", "checkout", "browse", "compare", "help", "version", "hub"}

  /** The commands hub adds to git; `--help` on them, or `help` about them, shows hub's manual. */
  const ManualCommands: set<string> := {"create", "browse", "compare", "fork", "pull-request"}

  /** The usage lines `COMMAND -h` prints. */
  const UsageLines: map<string, string> := map[
    "create" := "Usage: git create [NAME] [-p] [-d DESCRIPTION] [-h HOMEPAGE]",
    "pull-request" := "Usage: git pull-request [-f] [TITLE|-i ISSUE] [-b BASE] [-h HEAD]"]

  /** A name without `-` is looked up as it is. */
  lemma UnderscoredPlain(s: string)
    requires '-' !in s
    ensures Underscored(s) == s
  {
  }

  /** `a-b` is looked up as `a_b` when `a` ends with a word character. */
  lemma UnderscoredDash(a: string, b: string)
    requires |a| > 0 && IsWordChar(a[|a| - 1]) && '-' !in a && '-' !in b
    ensures Underscored(a + "-" + b) == a + "_" + b
  {
    var s := a + "-" + b;
    var r := Underscored(s);
    forall i | 0 <= i < |s| ensures r[i] == (a + "_" + b)[i] {
      if i < |a| {
        assert s[i] == a[i];
        assert a[i] in a;
      } else if i > |a| {
        assert s[i] == b[i - |a| - 1];
        assert b[i - |a| - 1] in b;
      }
    }
  }

  /** hub's own commands are all among the commands it handles. */
  lemma ManualAreHub()
    ensures forall name | name in ManualCommands :: IsHubCommand(name)
  {
    forall name | name in ManualCommands ensures IsHubCommand(name) {
      if name == "pull-request" {
        assert "pull-request" == "pull" + "-" + "request";
        UnderscoredDash("pull", "request");
        assert "pull" + "_" + "request" == "pull_request";
      } else {
        assert '-' !in name;
        UnderscoredPlain(name);
      }
    }
  }

  predicate IsHubCommand(name: string) {
    Underscored(name) in HubCommands
  }

  /** Whitespace, then `!`: a line of an alias that git hands to the shell. */
  predicate BangAfterSpaces(t: string)
    decreases |t|
  {
    |t| > 0 && (t[0] == '!' || (IsSpace(t[0]) && BangAfterSpaces(t[1..])))
  }

  /** An alias some line of which starts (after whitespace) with `!` is a shell alias and is never expanded. */
  predicate IsShellAlias(text: string) {
    BangAfterSpaces(text) || exists i | 0 <= i < |text| && text[i] == '\n' :: BangAfterSpaces(text[i + 1..])
  }

  /**
   * Alias expansion: when `args[0]` is a git alias whose words start with
   * a command hub handles, the words replace it; otherwise the command
   * line stays. An alias with an unclosed quote, or with no words, is an
   * error.
   */
  function Expand(aliases: map<string, string>, args: seq<string>): (r: Result<seq<string>, string>)
    requires |args| > 0
    ensures args[0] !in aliases ==> r == Ok(args)
    ensures r.Ok? ==> |r.value| > 0
    ensures r.Ok? && r.value != args ==> (
      && args[0] in aliases && IsHubCommand(r.value[0])
      && exists ws | Shellwords(aliases[args[0]]) == Some(ws) :: r.value == ws + args[1..])
    ensures r.Err? ==> args[0] in aliases && !IsShellAlias(aliases[args[0]])
  {
    if args[0] !in aliases then Ok(args)
    else
      var text := aliases[args[0]];
      if IsShellAlias(text) then Ok(args)
      else
        match Shellwords(text)
        case None => Err("unmatched quote in alias " + args[0])
        case Some(ws) =>
          if |ws| == 0 then Err("alias " + args[0] + " has no command")
          else if IsHubCommand(ws[0]) then Ok(ws + args[1..])
          else Ok(args)
  }

  /** `help`: about nothing, hub's help text; about hub or one of its commands, its manual; else git's help. */
  function HelpRule(args: seq<string>): (r: Rule)
    ensures r.Shown? || r.ToGit?
    ensures |Words(args)| < 2 && "-a" !in args && "--all" !in args ==> r == Shown("help")
    ensures |Words(args)| >= 2 && (Words(args)[1] == "hub" || Words(args)[1] in ManualCommands) ==> r == Shown("hub")
  {
    var w := Words(args);
    if |w| >= 2 && (w[1] == "hub" || w[1] in ManualCommands) then Shown("hub")
    else if |w| < 2 && "-a" !in args && "--all" !in args then Shown("help")
    else ToGit
  }

  /**
   * The rule for the command `args[0]`; when the command is followed by
   * exactly one word, `--help` on one of hub's own commands shows the
   * manual and `-h` prints its usage.
   */
  function RuleOf(args: seq<string>): (r: Rule)
    requires |args| > 0
    ensures !IsHubCommand(args[0]) ==> r == ToGit
    ensures r.ToGit? && IsHubCommand(args[0]) ==> Underscored(args[0]) == "help" || Underscored(args[0]) == "hub"
    ensures args[0] in UsageLines && args == [args[0], "-h"] ==> r == Usage(UsageLines[args[0]])
    ensures args[0] in ManualCommands && args == [args[0], "--help"] ==> r == Shown("hub")
    ensures |args| > 2 && IsHubCommand(args[0]) ==> r == CommandRule(Underscored(args[0]), args)
  {
    var cmd := Underscored(args[0]);
    ManualAreHub();
    if cmd !in HubCommands then ToGit
    else if args[0] in ManualCommands && args == [args[0], "--help"] then Shown("hub")
    else if args[0] in UsageLines && args == [args[0], "-h"] then Usage(UsageLines[args[0]])
    else CommandRule(cmd, args)
  }

  /** The rule for one of hub's commands, by its looked-up name. */
  function CommandRule(cmd: string, args: seq<string>): (r: Rule)
    requires cmd in HubCommands
    ensures r.ToGit? ==> cmd == "help" || cmd == "hub"
  {
    match cmd
    case "clone" => CloneCmd
    case "submodule" => SubmoduleCmd
    case "remote" => RemoteCmd
    case "fetch" => FetchCmd
    case "push" => PushCmd
    case "cherry_pick" => CherryPickCmd
    case "am" => PatchCmd
    case "apply" => PatchCmd
    case "init" => InitCmd
    case "create" => CreateCmd
    case "fork" => ForkCmd
    case "pull_request" => PullRequestCmd
    case "checkout" => CheckoutCmd
    case "browse" => BrowseCmd
    case "compare" => CompareCmd
    case "version" => Shown("version")
    case _ =>
      if cmd == "hub" && |args| >= 2 && args[1] == "standalone" then Shown("standalone")
      else HelpRule(args)
  }

  /**
   * One invocation of hub up to the choice of rule: the global flags come
   * off, an empty command line means `help`, and an alias is expanded.
   */
  function Choose(aliases: map<string, string>, argv: seq<string>): (r: Plan)
    ensures Slurp(argv).None? ==> r.Broken?
    ensures r.Plan? ==> (
      && Slurp(argv).Some? && r.flags == Slurp(argv).value.Flags()
      && r.listOnly == Slurp(argv).value.noop && |r.args| > 0 && r.rule == RuleOf(r.args))
  {
    match Slurp(argv)
    case None => Broken("-c needs a setting")
    case Some(s) =>
      var args := if s.rest == [] then ["help"] else s.rest;
      match Expand(aliases, args)
      case Err(e) => Broken(e)
      case Ok(a) => Plan(RuleOf(a), a, s.Flags(), s.noop)
  }

  /** A command hub does not know reaches git as typed, global flags and all. */
  lemma ChooseForwards(aliases: map<string, string>, argv: seq<string>)
    requires Slurp(argv).Some? && |Slurp(argv).value.rest| > 0
    requires Slurp(argv).value.rest[0] !in aliases && !IsHubCommand(Slurp(argv).value.rest[0])
    ensures Choose(aliases, argv) == Plan(ToGit, Slurp(argv).value.rest, Slurp(argv).value.Flags(), Slurp(argv).value.noop)
  {
  }

  /** An alias that expands to one of hub's commands does what typing its expansion does. */
  lemma AliasLikeExpansion(aliases: map<string, string>, a: string, rest: seq<string>, ws: seq<string>)
    requires !IsGlobalFlag(a) && a in aliases && !IsShellAlias(aliases[a])
    requires Shellwords(aliases[a]) == Some(ws) && |ws| > 0
    requires IsHubCommand(ws[0]) && !IsGlobalFlag(ws[0]) && ws[0] !in aliases
    ensures Choose(aliases, [a] + rest) == Choose(aliases, ws + rest)
  {
    assert ([a] + rest)[0] == a && ([a] + rest)[1..] == rest;
    assert Expand(aliases, [a] + rest) == Ok(ws + rest);
    assert (ws + rest)[0] == ws[0];
    assert Expand(aliases, ws + rest) == Ok(ws + rest);
  }

  /** An alias that expands to a command hub does not handle is left for git: the line goes through as typed. */
  lemma AliasToGit(aliases: map<string, string>, a: string, rest: seq<string>, ws: seq<string>)
    requires !IsGlobalFlag(a) && !IsHubCommand(a) && a in aliases
    requires Shellwords(aliases[a]) == Some(ws) && |ws| > 0 && !IsHubCommand(ws[0])
    ensures Choose(aliases, [a] + rest) == Plan(ToGit, [a] + rest, [], false)
  {
    assert ([a] + rest)[0] == a;
  }

  /** `help` alone shows hub's help text. */
  lemma HelpAlone()
    ensures RuleOf(["help"]) == Shown("help")
  {
    assert "help" == ['h', 'e', 'l', 'p'];
    UnderscoredPlain("help");
    assert CommandRule("help", ["help"]) == HelpRule(["help"]);
    assert Words(["help"]) == ["help"];
  }

  /** Nothing but flags, or nothing at all, is a request for help. */
  lemma ChooseNothing(aliases: map<string, string>, argv: seq<string>)
    requires Slurp(argv).Some? && Slurp(argv).value.rest == [] && "help" !in aliases
    ensures Choose(aliases, argv).Plan? && Choose(aliases, argv).rule == Shown("help")
  {
    assert Expand(aliases, ["help"]) == Ok(["help"]);
    HelpAlone();
  }
}

/** What hub does with a command line: the chosen rule's outcome, its git commands run with the global flags. */
module Hub {
  import opened Maybe
  import opened Repo
  import opened Outcomes
  import opened Dispatch
  import CloneRules
  import RemoteRules
  import FetchRules
  import PickRules
  import PatchRules
  import InitRules
  import HostingRules
  import CheckoutRules
  import PullRules
  import WebRules

  /** What one invocation does, and whether `--noop` asked for its commands to be listed instead of run. */
  datatype Invocation = Invocation(outcome: Outcome, listOnly: bool)

  /** One step run with `flags`: only a git command takes them. */
  function Flagged(c: Cmd, flags: seq<string>): (r: Cmd)
    ensures c.Git? <==> r.Git?
    ensures c.Git? ==> r.args == flags + c.args
    ensures !c.Git? ==> r == c
  {
    if c.Git? then Git(flags + c.args) else c
  }

  function FlagAll(cmds: seq<Cmd>, flags: seq<string>): (r: seq<Cmd>)
    ensures |r| == |cmds| && forall i | 0 <= i < |cmds| :: r[i] == Flagged(cmds[i], flags)
    ensures flags == [] ==> r == cmds
  {
    var r := seq(|cmds|, i requires 0 <= i < |cmds| => Flagged(cmds[i], flags));
    assert flags == [] ==> forall i | 0 <= i < |cmds| :: r[i] == cmds[i] by {
      if flags == [] {
        forall i | 0 <= i < |cmds| ensures r[i] == cmds[i] {
          if cmds[i].Git? {
            assert [] + cmds[i].args == cmds[i].args;
          }
        }
      }
    }
    r
  }

  /** Every git command of `o` run with `flags` in front; everything else as it was. */
  function WithFlags(o: Outcome, flags: seq<string>): (r: Outcome)
    ensures flags == [] ==> r == o
    ensures o.Run? <==> r.Run?
    ensures o.Run? ==> |r.cmds| == |o.cmds| && forall i | 0 <= i < |o.cmds| :: r.cmds[i] == Flagged(o.cmds[i], flags)
    ensures o.Fail? ==> r.Fail? && r.lines == o.lines && |r.done| == |o.done|
    ensures !o.Run? && !o.Fail? ==> r == o
  {
    match o
    case Run(cmds) => Run(FlagAll(cmds, flags))
    case Fail(done, lines) => Fail(FlagAll(done, flags), lines)
    case _ => o
  }

  /** The outcome of `rule` on `args`. */
  function Apply(ctx: Context, rule: Rule, args: seq<string>): (r: Outcome)
    ensures rule.ToGit? ==> r == Forward(args)
    ensures rule.Usage? ==> r == Run([Say(rule.line)])
    ensures rule.Shown? ==> r == Builtin(rule.topic)
  {
    match rule
    case ToGit => Forward(args)
    case Usage(line) => Run([Say(line)])
    case Shown(topic) => Builtin(topic)
    case _ => Rewrite(ctx, rule, args)
  }

  /** The outcome of a rule that rewrites a command, in the repository the context describes. */
  function Rewrite(ctx: Context, rule: Rule, args: seq<string>): Outcome
  {
    var repo := Load(ctx);
    match rule
    case ToGit => Forward(args)
    case Usage(line) => Run([Say(line)])
    case Shown(topic) => Builtin(topic)
    case CloneCmd => CloneRules.Clone(ctx, repo, args)
    case SubmoduleCmd => CloneRules.Submodule(ctx, repo, args)
    case RemoteCmd => RemoteRules.Remote(ctx, repo, args)
    case FetchCmd => FetchRules.Fetch(ctx, repo, args)
    case PushCmd => FetchRules.Push(ctx, repo, args)
    case CherryPickCmd => PickRules.CherryPick(ctx, repo, args)
    case PatchCmd => PatchRules.Patch(ctx.tmpDir, ctx.version, args)
    case InitCmd => InitRules.Init(ctx, repo, args)
    case CreateCmd => HostingRules.Create(ctx, repo, args)
    case ForkCmd => HostingRules.Fork(ctx, repo, args)
    case PullRequestCmd => PullRules.PullRequest(ctx, repo, args)
    case CheckoutCmd => CheckoutRules.Checkout(ctx, repo, args)
    case BrowseCmd => WebRules.Browse(ctx, repo, args)
    case CompareCmd => WebRules.Compare(ctx, repo, args)
  }

  /**
   * One invocation of hub: the plan `Choose` makes, carried out by its
   * rule, the git commands run with the global flags.
   */
  function Perform(ctx: Context, argv: seq<string>): Invocation
  {
    match Choose(ctx.aliases, argv)
    case Broken(reason) => Invocation(Crash(reason), false)
    case Plan(rule, args, flags, listOnly) => Invocation(WithFlags(Apply(ctx, rule, args), flags), listOnly)
  }
}

=== FILE: examples.dfy ===
/** String facts about the fixture's refs, directory and URLs, checked apart from any other module. */
module FixtureLiterals {
  lemma OriginRefs()
    ensures "refs/remotes/" + "origin" == "refs/remotes/origin"
  {
  }

  lemma OriginSlash()
    ensures "refs/remotes/origin" + "/" == "refs/remotes/origin/"
  {
  }

  lemma OriginMaster()
    ensures "refs/remotes/origin/" + "master" == "refs/remotes/origin/master"
  {
  }

  lemma UpstreamText()
    ensures "refs/remotes/" + "origin" + "/" + "master" == "refs/remotes/origin/master"
  {
    OriginRefs();
    OriginSlash();
    OriginMaster();
  }

  lemma HeadText()
    ensures "refs/heads/" + "master" == "refs/heads/master"
  {
  }

  lemma PwdText()
    ensures "/path/to" + "/" + "hub" == "/path/to/hub"
  {
  }

  lemma CoffeeHost()
    ensures "git@" + "github.com" + ":" == "git@github.com:"
  {
  }

  lemma CoffeePath()
    ensures "git@github.com:" + "jashkenas/coffee-script" == "git@github.com:jashkenas/coffee-script"
  {
  }

  lemma CoffeeGit()
    ensures "git@github.com:jashkenas/coffee-script" + ".git" == "git@github.com:jashkenas/coffee-script.git"
  {
  }

  lemma CoffeeText()
    ensures "git@" + "github.com" + ":" + "jashkenas/coffee-script" + ".git" == "git@github.com:jashkenas/coffee-script.git"
  {
    CoffeeHost();
    CoffeePath();
    CoffeeGit();
  }
}

/** Literal URLs and refs of the fixture, kept apart from the context so they stay cheap to check. */
module FixtureUrls {
  import opened Maybe
  import opened Strings
  import opened Projects
  import opened Repo
  import opened FixtureLiterals

  const DefunktHub := Project("github.com", "defunkt", "hub")
  const MislavHub := Project("github.com", "mislav", "hub")
  const XoebusHub := Project("github.com", "xoebus", "hub")

  lemma WellFormedHubs()
    ensures WellFormed(DefunktHub) && WellFormed(MislavHub)
  {
    assert AllOwner("defunkt") by {
      assert forall c | c in "defunkt" :: IsOwnerChar(c);
    }
    assert AllOwner("mislav") by {
      assert forall c | c in "mislav" :: IsOwnerChar(c);
    }
    assert AllName("hub") by {
      assert forall c | c in "hub" :: IsNameChar(c);
    }
  }

  /** A member of a two-element list is one of the two. */
  lemma InPair<T>(k: T, a: T, b: T)
    requires k in [a, b]
    ensures k == a || k == b
  {
  }

  lemma HeadRef()
    ensures LocalBranchOf("refs/heads/master") == Some("master")
  {
    LocalBranchOfRef("master");
    HeadText();
  }

  lemma UpstreamRef()
    ensures RemoteBranchOf("refs/remotes/origin/master") == Some(("origin", "master"))
  {
    RemoteBranchOfRef("origin", "master");
    UpstreamText();
  }

  lemma PwdName()
    ensures Basename("/path/to/hub") == "hub"
  {
    BasenameAfterSlash("/path/to", "hub");
    PwdText();
  }

  lemma DefunktUrl()
    ensures CloneUrl(DefunktHub, GitWire) == "git://github.com/defunkt/hub.git"
  {
  }

  lemma XoebusUrl()
    ensures CloneUrl(XoebusHub, GitWire) == "git://github.com/xoebus/hub.git"
  {
  }

  lemma MislavUrl()
    ensures CloneUrl(MislavHub, GitWire) == "git://github.com/mislav/hub.git"
  {
  }
}

/**
 * The repository every example starts from: a clone of `defunkt/hub` on
 * branch `master`, tracking `origin/master`, with a second remote `mislav`,
 * and `tpw` logged in to github.com with token `abc123`.
 */
module Fixtures {
  import opened Maybe
  import opened Strings
  import opened Projects
  import opened Repo
  import opened FixtureUrls

  const Fixture := Context(
    users := map["github.com" := "tpw"],
    tokens := map["github.com" := "abc123"],
    envUser := None,
    envToken := None,
    envHost := None,
    hubHosts := [],
    protocol := None,
    insideRepo := true,
    remotes := ["mislav", "origin"],
    remoteUrls := map["origin" := ["git://github.com/defunkt/hub.git"],
                      "mislav" := ["git://github.com/mislav/hub.git"]],
    head := Some("refs/heads/master"),
    upstreams := map["master" := "refs/remotes/origin/master"],
    unpushed := map[],
    remoteGroups := {},
    aliases := map[],
    directories := {},
    sshAliases := map[],
    existing := {},
    pulls := map[],
    reply := Accepted("https://github.com/tpw/hub"),
    editorTitle := "",
    tmpDir := None,
    pwd := "/path/to/hub",
    browser := "open",
    version := "1.0")

  /** What hub learns about the fixture repository. */
  const Local := LocalRepo(
    ["origin", "mislav"],
    map["mislav" := MislavHub, "origin" := DefunktHub],
    Some(DefunktHub),
    "github.com",
    "hub",
    Some("master"),
    Some(("origin", "master")),
    Some("master"),
    Some(DefunktHub))

  /** The same machine outside any git repository. */
  const NoRepo := Fixture.(insideRepo := false)

  /** What hub learns outside a repository: no remotes or branches; the host is github.com and the name is the directory's. */
  const Outside := LocalRepo([], map[], None, "github.com", "hub", None, None, None, None)

  /** A fixture URL reads back as the project it was written for. */
  lemma FixtureUrl(p: Project)
    requires p == DefunktHub || p == MislavHub
    ensures FirstProject([CloneUrl(p, GitWire)], KnownHosts(Fixture), Fixture.sshAliases) == Some(p)
  {
    assert KnownHosts(Fixture) == ["github.com"];
    WellFormedHubs();
    CloneUrlRoundTrip(p, GitWire, KnownHosts(Fixture), Fixture.sshAliases);
  }

  /** Both remotes name the project their URL points to. */
  lemma FixtureProjects()
    ensures RemoteProject(Fixture, "origin") == Some(DefunktHub)
    ensures RemoteProject(Fixture, "mislav") == Some(MislavHub)
  {
    assert "origin" != "mislav" by {
      assert "origin"[0] != "mislav"[0];
    }
    assert Fixture.remoteUrls["origin"] == [CloneUrl(DefunktHub, GitWire)] by {
      DefunktUrl();
    }
    assert Fixture.remoteUrls["mislav"] == [CloneUrl(MislavHub, GitWire)] by {
      MislavUrl();
    }
    FixtureUrl(DefunktHub);
    FixtureUrl(MislavHub);
  }

  /** `master` tracks `origin/master`. */
  lemma FixtureBranches()
    ensures CurrentBranch(Fixture) == Some("master")
    ensures TrackedBranch(Fixture) == Some(("origin", "master"))
    ensures UpstreamName(Fixture) == Some("master")
  {
    assert CurrentBranch(Fixture) == Some("master") by {
      assert Fixture.head.value == "refs/heads/master";
      HeadRef();
    }
    assert Fixture.upstreams["master"] == "refs/remotes/origin/master";
    UpstreamRef();
  }

  /** Each of the fixture's remotes maps to the project its URL names. */
  lemma FixtureProjectMap()
    ensures Load(Fixture).projects.Keys <= {"mislav", "origin"}
    ensures "origin" in Load(Fixture).projects && Load(Fixture).projects["origin"] == DefunktHub
    ensures "mislav" in Load(Fixture).projects && Load(Fixture).projects["mislav"] == MislavHub
  {
    FixtureProjects();
    assert "origin" != "mislav" by {
      assert "origin"[0] != "mislav"[0];
    }
    FixtureRemotes();
  }

  /** hub lists `origin` before `mislav`. */
  lemma FixtureRemotes()
    ensures Remotes(Fixture) == ["origin", "mislav"]
  {
    assert "origin" != "mislav" by {
      assert "origin"[0] != "mislav"[0];
    }
    assert Without(["origin"], "origin") == [];
    assert Without(["mislav", "origin"], "origin") == ["mislav"] + Without(["origin"], "origin");
  }

  /** Every remote with a project maps to the same project in both. */
  lemma LoadedProject(k: string)
    requires k in Load(Fixture).projects
    ensures k in Local.projects && Load(Fixture).projects[k] == Local.projects[k]
  {
    FixtureProjectMap();
    FixtureRemotes();
    assert k in Remotes(Fixture);
    InPair(k, "origin", "mislav");
  }

  /** Every remote the fixture loads a project for is one of the two. */
  lemma LoadedProjects()
    ensures forall k | k in Load(Fixture).projects :: k in Local.projects && Load(Fixture).projects[k] == Local.projects[k]
  {
    forall k | k in Load(Fixture).projects
      ensures k in Local.projects && Load(Fixture).projects[k] == Local.projects[k]
    {
      LoadedProject(k);
    }
  }

  /** The fixture's remotes name exactly the two projects. */
  lemma LoadProjects()
    ensures Load(Fixture).projects == Local.projects
  {
    LoadedProjects();
    FixtureProjectMap();
    LocalProjects(Load(Fixture).projects);
  }

  /** A map that agrees with the fixture's projects and holds both remotes is that map. */
  lemma LocalProjects(m: map<string, Project>)
    requires forall k | k in m :: k in Local.projects && m[k] == Local.projects[k]
    requires "origin" in m && "mislav" in m
    ensures m == Local.projects
  {
    assert forall k | k in Local.projects :: k == "mislav" || k == "origin";
  }

  /** Outside a repository there are no remotes and no branch. */
  lemma NoRepoQueries()
    ensures Remotes(NoRepo) == [] && MainProject(NoRepo) == None && CurrentBranch(NoRepo) == None
    ensures TrackedBranch(NoRepo) == None && UpstreamName(NoRepo) == None && CurrentProject(NoRepo) == None
  {
  }

  lemma NoRepoProjects()
    ensures Load(NoRepo).projects == map[]
  {
    NoRepoQueries();
    assert forall rem :: rem !in Remotes(NoRepo);
  }

  lemma NoRepoName()
    ensures RepoName(NoRepo) == "hub"
  {
    NoRepoQueries();
    PwdName();
  }

  /** Outside a repository hub knows no remotes and no branch; the name is the directory's. */
  lemma LoadNoRepo()
    ensures Load(NoRepo) == Outside
  {
    NoRepoQueries();
    NoRepoProjects();
    NoRepoName();
  }

  /** Loading the fixture gives the repository above. */
  lemma LoadFixture()
    ensures Load(Fixture) == Local
  {
    FixtureRemotes();
    LoadProjects();
    FixtureProjects();
    FixtureBranches();
  }
}

/** Literal facts the clone examples rest on. */
module CloneText {
  import opened Strings
  import opened Projects
  import opened Argv

  const Ronn := Project("github.com", "rtomayko", "ronn")
  const Resque := Project("github.com", "tpw", "resque")

  lemma RonnSlash()
    ensures "rtomayko" + "/" + "ronn" == "rtomayko/ronn"
  {
  }

  lemma RonnChars()
    ensures AllOwner("rtomayko") && AllName("ronn")
  {
    assert forall c | c in "rtomayko" :: IsOwnerChar(c);
    assert forall c | c in "ronn" :: IsNameChar(c);
  }

  lemma RonnUrl()
    ensures CloneUrl(Ronn, GitWire) == "git://github.com/rtomayko/ronn.git"
  {
  }

  lemma RonnSshUrl()
    ensures CloneUrl(Ronn, Ssh) == "git@github.com:rtomayko/ronn.git"
  {
  }

  lemma ResqueChars()
    ensures AllName("resque")
  {
    assert forall c | c in "resque" :: IsNameChar(c);
  }

  lemma ResqueUrl()
    ensures CloneUrl(Resque, Ssh) == "git@github.com:tpw/resque.git"
  {
  }

  /** No word of a list of non-options is `-p`. */
  lemma NoPrivateFlag(xs: seq<string>)
    requires forall x | x in xs :: !IsFlag(x)
    ensures "-p" !in xs
  {
    assert IsFlag("-p");
  }
}

/** Cloning outside a repository (`hub_test.rb` lines 64-186). */
module CloneExamples {
  import opened Maybe
  import opened Strings
  import opened Projects
  import opened Repo
  import opened Argv
  import opened Outcomes
  import opened CloneRules
  import opened Fixtures
  import opened CloneText

  /** `clone [-p] X`: `-p` is consumed and X is the first operand. */
  lemma ShorthandLine(flags: seq<string>, x: string)
    requires flags == [] || flags == ["-p"]
    requires !IsFlag(x)
    ensures Remove(["clone"] + flags + [x], "-p") == ["clone", x]
    ensures ("-p" in ["clone"] + flags + [x]) == (flags != [])
    ensures OperandIndex(["clone", x][1..]) == Some(0)
  {
    assert "clone" != "-p";
    if flags != [] {
      assert ["clone"] + flags + [x] == ["clone", "-p", x];
    } else {
      assert ["clone"] + flags + [x] == ["clone", x];
    }
  }

  /** `clone OWNER/NAME` for someone else's repository: the URL is public unless `-p` is given. */
  lemma CloneOthers(ctx: Context, repo: LocalRepo, owner: string, name: string, flags: seq<string>)
    requires flags == [] || flags == ["-p"]
    requires owner != "" && AllOwner(owner) && name != "" && AllName(name) && !IsFlag(owner + "/" + name)
    requires !IsDirectory(ctx, owner + "/" + name) && User(ctx, repo.host) != Some(owner)
    ensures Clone(ctx, repo, ["clone"] + flags + [owner + "/" + name])
         == Forward(["clone", TargetUrl(ctx, Project(repo.host, owner, name), flags != [])])
  {
    var x := owner + "/" + name;
    var a := ["clone", x];
    var ssh := flags != [];
    ShorthandLine(flags, x);
    CloneOwnerName(ctx, repo, a, ssh, false, 1, owner, name);
    CloneOf(ctx, repo, ["clone"] + flags + [x], a, 1, Project(repo.host, owner, name), ssh);
    var url := TargetUrl(ctx, Project(repo.host, owner, name), ssh);
    assert a[1 := url] == ["clone", url];
  }

  /** `clone [-p] NAME`: the user's own repository, always over ssh; without a login it stops. */
  lemma CloneOwn(ctx: Context, repo: LocalRepo, name: string, flags: seq<string>)
    requires flags == [] || flags == ["-p"]
    requires name != "" && AllName(name) && !IsFlag(name) && !IsDirectory(ctx, name)
    ensures User(ctx, repo.host).None? ==> Clone(ctx, repo, ["clone"] + flags + [name]) == Abort([NoUserMessage])
    ensures User(ctx, repo.host).Some? ==>
              (Clone(ctx, repo, ["clone"] + flags + [name])
               == Forward(["clone", TargetUrl(ctx, Project(repo.host, User(ctx, repo.host).value, name), true)]))
  {
    var a := ["clone", name];
    ShorthandLine(flags, name);
    CloneOwnName(ctx, repo, a, flags != [], false, 1, name);
    if User(ctx, repo.host).Some? {
      var url := TargetUrl(ctx, Project(repo.host, User(ctx, repo.host).value, name), true);
      assert a[1 := url] == ["clone", url];
    }
  }

  /** `clone rtomayko/ronn` clones over the read-only git protocol. */
  lemma PublicClone()
    ensures Clone(NoRepo, Outside, ["clone", "rtomayko/ronn"]) == Forward(["clone", "git://github.com/rtomayko/ronn.git"])
  {
    RonnSlash();
    RonnChars();
    assert "rtomayko" != "tpw" by {
      assert "rtomayko"[0] != "tpw"[0];
    }
    assert "rtomayko/ronn" != "." && "rtomayko/ronn" != "..";
    CloneOthers(NoRepo, Outside, "rtomayko", "ronn", []);
    RonnUrl();
  }

  /** `clone -p rtomayko/ronn` clones over ssh. */
  lemma PrivateClone()
    ensures Clone(NoRepo, Outside, ["clone", "-p", "rtomayko/ronn"]) == Forward(["clone", "git@github.com:rtomayko/ronn.git"])
  {
    RonnSlash();
    RonnChars();
    assert "rtomayko" != "tpw" by {
      assert "rtomayko"[0] != "tpw"[0];
    }
    assert "rtomayko/ronn" != "." && "rtomayko/ronn" != "..";
    CloneOthers(NoRepo, Outside, "rtomayko", "ronn", ["-p"]);
    assert ["clone"] + ["-p"] + ["rtomayko/ronn"] == ["clone", "-p", "rtomayko/ronn"];
    RonnSshUrl();
  }

  /** `clone resque` clones the user's own repository over ssh. */
  lemma YourClone()
    ensures Clone(NoRepo, Outside, ["clone", "resque"]) == Forward(["clone", "git@github.com:tpw/resque.git"])
  {
    ResqueChars();
    assert "resque" != "." && "resque" != "..";
    CloneOwn(NoRepo, Outside, "resque", []);
    assert User(NoRepo, Outside.host) == Some("tpw");
    ResqueUrl();
  }

  /** `clone resque` without a configured login stops with the message about setting one. */
  lemma YourCloneNeedsUser()
    ensures Clone(NoRepo.(users := map[]), Outside, ["clone", "resque"]) == Abort([NoUserMessage])
  {
    ResqueChars();
    assert "resque" != "." && "resque" != "..";
    CloneOwn(NoRepo.(users := map[]), Outside, "resque", []);
  }
}

/** Literal facts the remote examples rest on. */
module RemoteText {
  import opened Strings
  import opened Projects
  import opened FixtureLiterals

  const RtomaykoHub := Project("github.com", "rtomayko", "hub")
  const CoffeeScript := Project("github.com", "jashkenas", "coffee-script")

  /** The command lines of `remote add` as lists. */
  lemma AddLines(x: string, owner: string, url: string)
    ensures ["remote", "add"] + ["-p"] + [x] == ["remote", "add", "-p", x]
    ensures ["remote", "add"] + [] + [owner, url] == ["remote", "add", owner, url]
    ensures ["remote", "add"] + [] + [owner] == ["remote", "add", owner]
    ensures ["remote", "add"] + [] + [owner] + [url] == ["remote", "add", owner, url]
    ensures Remove([], "-p") == [] && Remove(["-p"], "-p") == []
  {
  }

  lemma RtomaykoChars()
    ensures "rtomayko" != "" && AllOwner("rtomayko") && "rtomayko"[0] != '-'
  {
    assert forall c | c in "rtomayko" :: IsOwnerChar(c);
  }

  lemma RtomaykoUrl()
    ensures CloneUrl(RtomaykoHub, GitWire) == "git://github.com/rtomayko/hub.git"
  {
  }

  lemma CoffeeChars()
    ensures AllOwner("jashkenas") && "jashkenas"[0] != '-' && AllName("coffee-script")
  {
    assert forall c | c in "jashkenas" :: IsOwnerChar(c);
    assert forall c | c in "coffee-script" :: IsNameChar(c);
  }

  lemma CoffeeSlash()
    ensures "jashkenas" + "/" + "coffee-script" == "jashkenas/coffee-script"
  {
  }

  lemma CoffeeUrl()
    ensures CloneUrl(CoffeeScript, Ssh) == "git@github.com:jashkenas/coffee-script.git"
  {
    CoffeeSlash();
    CoffeeText();
  }
}

/** `remote add` in the fixture repository (`hub_test.rb` lines 207-334). */
module RemoteExamples {
  import opened Maybe
  import opened Strings
  import opened Projects
  import opened Repo
  import opened Argv
  import opened Outcomes
  import opened RemoteRules
  import opened Fixtures
  import opened RemoteText

  /** `remote add OWNER` adds OWNER's fork of this repository under OWNER's name, read-only. */
  lemma RemoteOwnerLine(ctx: Context, repo: LocalRepo, owner: string)
    requires owner != "" && AllOwner(owner) && owner[0] != '-' && owner != "origin"
    ensures Remote(ctx, repo, ["remote", "add", owner])
         == Forward(["remote", "add", owner, RemoteUrl(ctx, repo, owner, repo.name, false)])
  {
    AddLines(owner, owner, RemoteUrl(ctx, repo, owner, repo.name, false));
    RemoteAddOwner(ctx, repo, [], owner);
  }

  /** `remote add -p OWNER/NAME` adds OWNER/NAME under OWNER's name, over ssh. */
  lemma PrivateOwnerNameLine(ctx: Context, repo: LocalRepo, owner: string, name: string)
    requires owner != "" && AllOwner(owner) && owner[0] != '-' && name != "" && AllName(name)
    ensures Remote(ctx, repo, ["remote", "add", "-p", owner + "/" + name])
         == Forward(["remote", "add", owner, RemoteUrl(ctx, repo, owner, name, true)])
  {
    AddLines(owner + "/" + name, owner, RemoteUrl(ctx, repo, owner, name, true));
    assert IsFlag("-p");
    RemoteAddOwnerName(ctx, repo, ["-p"], owner, name);
  }

  /** `remote add rtomayko` adds rtomayko's fork of this repository, read-only. */
  lemma PublicRemote()
    ensures Remote(Fixture, Local, ["remote", "add", "rtomayko"])
         == Forward(["remote", "add", "rtomayko", "git://github.com/rtomayko/hub.git"])
  {
    RtomaykoChars();
    assert "rtomayko" != "origin" by {
      assert "rtomayko"[0] != "origin"[0];
    }
    RemoteOwnerLine(Fixture, Local, "rtomayko");
    RtomaykoUrl();
  }

  /** `remote add -p jashkenas/coffee-script` names the remote after the owner and uses ssh. */
  lemma PrivateRemoteWithRepo()
    ensures Remote(Fixture, Local, ["remote", "add", "-p", "jashkenas/coffee-script"])
         == Forward(["remote", "add", "jashkenas", "git@github.com:jashkenas/coffee-script.git"])
  {
    CoffeeChars();
    CoffeeSlash();
    PrivateOwnerNameLine(Fixture, Local, "jashkenas", "coffee-script");
    CoffeeUrl();
  }

  /** `remote add origin git@github.com:defunkt/resque.git` is left alone. */
  lemma RemoteUrlUntouched()
    ensures Remote(Fixture, Local, ["remote", "add", "origin", "git@github.com:defunkt/resque.git"])
         == Forward(["remote", "add", "origin", "git@github.com:defunkt/resque.git"])
  {
    assert "git@github.com:defunkt/resque.git"[14] == ':';
    RemoteLeavesUrls(Fixture, Local, ["remote", "add", "origin", "git@github.com:defunkt/resque.git"]);
  }
}

/** Literal facts the fetch examples rest on. */
module FetchText {
  import opened Strings
  import opened Projects
  import opened Argv
  import opened FetchLines
  import opened FixtureUrls

  lemma XoebusChars()
    ensures AllWord("xoebus") && "xoebus" != "" && !IsFlag("xoebus") && ',' !in "xoebus"
  {
    assert forall c | c in "xoebus" :: IsWordChar(c);
  }

  lemma MislavChars()
    ensures "mislav" != "" && !IsFlag("mislav") && ',' !in "mislav"
  {
  }

  /** `fetch NAME` as a list. */
  lemma FetchOneLine(name: string)
    requires name != "" && !IsFlag(name)
    ensures "--multiple" !in ["fetch", name]
    ensures Words(["fetch", name]) == ["fetch", name]
  {
    assert IsFlag("--multiple");
    assert !IsFlag("fetch");
    assert Words([name]) == [name];
    assert Words(["fetch", name]) == ["fetch"] + Words([name]);
  }

  const RtomaykoHub := Project("github.com", "rtomayko", "hub")

  lemma RtomaykoWord()
    ensures AllWord("rtomayko") && ',' !in "rtomayko"
  {
    assert forall c | c in "rtomayko" :: IsWordChar(c);
  }

  lemma RtomaykoUrl()
    ensures CloneUrl(RtomaykoHub, GitWire) == "git://github.com/rtomayko/hub.git"
  {
  }

  /** Two names joined by a comma split back into the two and form a comma list. */
  lemma CommaPair(a: string, b: string)
    requires a != "" && b != "" && AllWord(a) && AllWord(b) && ',' !in a && ',' !in b
    ensures Split(a + "," + b, ',') == [a, b]
    ensures IsCommaList(a + "," + b)
  {
    assert Join([a, b], [',']) == a + "," + b by {
      assert Join([a, b], [',']) == a + [','] + Join([b], [',']);
    }
    SplitJoin([a, b], ',');
  }

  /** `xoebus,rtomayko` is a comma list of two names. */
  lemma TwoNames()
    ensures Split("xoebus,rtomayko", ',') == ["xoebus", "rtomayko"]
    ensures IsCommaList("xoebus,rtomayko")
  {
    XoebusChars();
    RtomaykoWord();
    CommaPair("xoebus", "rtomayko");
    CommaText();
  }

  lemma CommaText()
    ensures "xoebus" + "," + "rtomayko" == "xoebus,rtomayko"
  {
  }

  /** The command lines of a two-name fetch as lists. */
  lemma CommaLines(x: string, a: string, b: string)
    ensures ["fetch"] + [] + [x] + [] == ["fetch", x]
    ensures ["fetch"] + [] + ["--multiple"] + [a, b] + Remove([], x) == ["fetch", "--multiple", a, b]
  {
    assert Remove([], x) == [];
  }

  /** `fetch A,B` as the two names and the `--multiple` line. */
  lemma FetchPair(a: string, b: string)
    requires a != "" && b != "" && AllWord(a) && AllWord(b) && ',' !in a && ',' !in b
    requires a != "--multiple" && b != "--multiple"
    ensures FetchNames(["fetch", a + "," + b]) == FetchLine([a, b], ["fetch", "--multiple", a, b])
  {
    var x := a + "," + b;
    CommaPair(a, b);
    CommaLines(x, a, b);
    FetchCommaLine([], x, []);
  }

  /** A name without commas is its own single part. */
  lemma NoComma(name: string)
    requires ',' !in name
    ensures Split(name, ',') == [name]
  {
  }
}

/** `fetch` in the fixture repository (`hub_test.rb` lines 336-420). */
module FetchExamples {
  import opened Maybe
  import opened Strings
  import opened Projects
  import opened Repo
  import opened Argv
  import opened Outcomes
  import opened FetchLines
  import opened FetchRules
  import opened FixtureUrls
  import opened Fixtures
  import opened FetchText

  /**
   * `fetch NAME` for one name: when NAME is a new remote whose fork exists
   * the remote is added before the fetch; otherwise the command is passed on.
   */
  lemma FetchOne(ctx: Context, repo: LocalRepo, name: string)
    requires name != "" && !IsFlag(name) && ',' !in name
    ensures AddsRemote(ctx, repo, name) ==> Fetch(ctx, repo, ["fetch", name]) == Run([AddRemote(ctx, repo, name), Git(["fetch", name])])
    ensures !AddsRemote(ctx, repo, name) ==> Fetch(ctx, repo, ["fetch", name]) == Forward(["fetch", name])
  {
    FetchOneLine(name);
    NoComma(name);
    assert !IsCommaList(name);
    assert FetchNames(["fetch", name]) == FetchLine([name], ["fetch", name]);
    if AddsRemote(ctx, repo, name) {
      assert NewRemotes(ctx, repo, [name]) == [name];
    } else {
      FetchKnownRemotes(ctx, repo, ["fetch", name]);
    }
  }

  /** `fetch mislav` fetches an existing remote unchanged. */
  lemma FetchExistingRemote()
    ensures Fetch(Fixture, Local, ["fetch", "mislav"]) == Forward(["fetch", "mislav"])
  {
    MislavChars();
    assert "mislav" in Local.remotes;
    FetchOne(Fixture, Local, "mislav");
  }

  /** The fixture with a fork of the repository by `xoebus`. */
  const WithXoebus := Fixture.(existing := {XoebusHub})

  /** `fetch xoebus` adds xoebus's fork as a remote first. */
  lemma FetchNewRemote()
    ensures Fetch(WithXoebus, Local, ["fetch", "xoebus"])
         == Run([Git(["remote", "add", "xoebus", "git://github.com/xoebus/hub.git"]), Git(["fetch", "xoebus"])])
  {
    XoebusChars();
    assert "xoebus" !in Local.remotes by {
      assert "xoebus"[0] != "mislav"[0] && "xoebus"[0] != "origin"[0];
    }
    assert OwnedProject(Local, "xoebus", Local.name) == XoebusHub;
    FetchOne(WithXoebus, Local, "xoebus");
    assert AddRemote(WithXoebus, Local, "xoebus") == Git(["remote", "add", "xoebus", "git://github.com/xoebus/hub.git"]) by {
      XoebusUrl();
    }
  }

  /** `fetch xoebus,rtomayko` fetches both remotes with `--multiple`. */
  lemma FetchCommaNames()
    ensures FetchNames(["fetch", "xoebus,rtomayko"])
         == FetchLine(["xoebus", "rtomayko"], ["fetch", "--multiple", "xoebus", "rtomayko"])
  {
    XoebusChars();
    RtomaykoWord();
    assert "xoebus" != "--multiple" && "rtomayko" != "--multiple";
    FetchPair("xoebus", "rtomayko");
    CommaText();
  }
}

/** Literal facts the push examples rest on. */
module PushText {
  import opened Maybe
  import opened Strings
  import opened Repo
  import opened FetchLines

  lemma CommaFree()
    ensures ',' !in "origin" && ',' !in "staging" && ',' !in "qa"
  {
  }

  /** `origin,staging` is the two remotes. */
  lemma TwoRemotes()
    ensures ',' in "origin,staging"
    ensures RubySplit("origin,staging", ',') == ["origin", "staging"]
  {
    assert "origin,staging"[6] == ',';
    assert Join(["origin", "staging"], [',']) == "origin,staging" by {
      assert Join(["origin", "staging"], [',']) == "origin" + [','] + Join(["staging"], [',']);
    }
    CommaFree();
    SplitJoin(["origin", "staging"], ',');
    RubySplitWhole("origin,staging", ',');
  }

  /** `origin,staging,qa` is the three remotes. */
  lemma ThreeRemotes()
    ensures ',' in "origin,staging,qa"
    ensures RubySplit("origin,staging,qa", ',') == ["origin", "staging", "qa"]
  {
    assert "origin,staging,qa"[6] == ',';
    assert Join(["origin", "staging", "qa"], [',']) == "origin,staging,qa" by {
      assert Join(["staging", "qa"], [',']) == "staging" + [','] + Join(["qa"], [',']);
      assert Join(["origin", "staging", "qa"], [',']) == "origin" + [','] + Join(["staging", "qa"], [',']);
    }
    CommaFree();
    SplitJoin(["origin", "staging", "qa"], ',');
    RubySplitWhole("origin,staging,qa", ',');
  }

  /** The checked-out branch of `refs/heads/cool-feature`. */
  lemma CoolFeatureRef()
    ensures LocalBranchOf("refs/heads/cool-feature") == Some("cool-feature")
  {
    LocalBranchOfRef("cool-feature");
    assert HeadsPrefix + "cool-feature" == "refs/heads/cool-feature";
  }
}

/** `push` to a comma list of remotes (`hub_test.rb` lines 567-587). */
module PushExamples {
  import opened Maybe
  import opened Strings
  import opened Repo
  import opened Outcomes
  import opened FetchRules
  import opened Fixtures
  import opened PushText

  /** The fixture with `cool-feature` checked out. */
  const OnCoolFeature := Fixture.(head := Some("refs/heads/cool-feature"))

  lemma PlainPair(a: string, b: string, branch: string)
    ensures PlainPushes([a, b], branch) == [Git(["push", a, branch]), Git(["push", b, branch])]
  {
  }

  lemma PlainTriple(a: string, b: string, c: string, branch: string)
    ensures PlainPushes([a, b, c], branch) == [Git(["push", a, branch]), Git(["push", b, branch]), Git(["push", c, branch])]
  {
  }

  /** `push origin,staging cool-feature` pushes the branch to both remotes. */
  lemma PushTwo()
    ensures Push(Fixture, Local, ["push", "origin,staging", "cool-feature"])
         == Run([Git(["push", "origin", "cool-feature"]), Git(["push", "staging", "cool-feature"])])
  {
    TwoRemotes();
    PushPlain(Fixture, Local, ["push", "origin,staging", "cool-feature"], ["origin", "staging"], "cool-feature");
    PlainPair("origin", "staging", "cool-feature");
  }

  /** `push origin,staging` on `cool-feature` pushes the current branch to both remotes. */
  lemma PushCurrentBranch()
    ensures Push(OnCoolFeature, Load(OnCoolFeature), ["push", "origin,staging"])
         == Run([Git(["push", "origin", "cool-feature"]), Git(["push", "staging", "cool-feature"])])
  {
    CoolFeatureRef();
    assert Load(OnCoolFeature).branch == Some("cool-feature");
    TwoRemotes();
    PushPlain(OnCoolFeature, Load(OnCoolFeature), ["push", "origin,staging"], ["origin", "staging"], "cool-feature");
    PlainPair("origin", "staging", "cool-feature");
  }

  /** `push origin,staging,qa cool-feature` pushes the branch to all three remotes. */
  lemma PushMore()
    ensures Push(Fixture, Local, ["push", "origin,staging,qa", "cool-feature"])
         == Run([Git(["push", "origin", "cool-feature"]), Git(["push", "staging", "cool-feature"]),
                 Git(["push", "qa", "cool-feature"])])
  {
    ThreeRemotes();
    PushPlain(Fixture, Local, ["push", "origin,staging,qa", "cool-feature"], ["origin", "staging", "qa"], "cool-feature");
    PlainTriple("origin", "staging", "qa", "cool-feature");
  }

  /** The pushes of `push origin,staging,qa cool-feature` name the list's remotes, which join back into it. */
  lemma PushMoreTargets()
    ensures Push(Fixture, Local, ["push", "origin,staging,qa", "cool-feature"]).Run?
    ensures Targets(Push(Fixture, Local, ["push", "origin,staging,qa", "cool-feature"]).cmds) == ["origin", "staging", "qa"]
    ensures Join(Targets(Push(Fixture, Local, ["push", "origin,staging,qa", "cool-feature"]).cmds), ",") == "origin,staging,qa"
  {
    ThreeRemotes();
    PushMore();
    assert "origin,staging,qa"[|"origin,staging,qa"| - 1] == 'a';
    PushTargets(Fixture, Local, ["push", "origin,staging,qa", "cool-feature"]);
    PushRemotesRejoin(Fixture, Local, ["push", "origin,staging,qa", "cool-feature"]);
  }
}

=== FILE: examples_fork.dfy ===
/** Literal strings of the fork examples. */
module ForkText {
  import opened Strings
  import opened Projects

  /** The user's fork of the fixture repository. */
  const TpwHub := Project("github.com", "tpw", "hub")

  lemma TpwSshUrl()
    ensures CloneUrl(TpwHub, Ssh) == "git@github.com:tpw/hub.git"
  {
  }

  lemma TpwHttpsUrl()
    ensures CloneUrl(TpwHub, Https) == "https://github.com/tpw/hub.git"
  {
  }

  lemma NewRemoteLine()
    ensures "new remote: " + "tpw" == "new remote: tpw"
  {
  }

  lemma Status500()
    ensures NatToString(500) == "500"
  {
    assert NatToString(5) == "5";
    assert NatToString(50) == "50";
  }

  lemma ForkFailLine()
    ensures "Error " + "creating fork" + ": " + "Your fork is fail" + " (HTTP " + "500" + ")"
         == "Error creating fork: Your fork is fail (HTTP 500)"
  {
    assert "Error " + "creating fork" == "Error creating fork";
    assert "Error creating fork" + ": " == "Error creating fork: ";
    assert "Error creating fork: " + "Your fork is fail" == "Error creating fork: Your fork is fail";
    assert "Error creating fork: Your fork is fail" + " (HTTP " == "Error creating fork: Your fork is fail (HTTP ";
    assert "Error creating fork: Your fork is fail (HTTP " + "500" == "Error creating fork: Your fork is fail (HTTP 500";
  }
}

/** `fork` in the fixture repository (`hub_test.rb` lines 759-807). */
module ForkExamples {
  import opened Maybe
  import opened Strings
  import opened Projects
  import opened Repo
  import opened Outcomes
  import opened HostingRules
  import opened FixtureUrls
  import opened Fixtures
  import opened ForkText

  /** The fixture user's credentials. */
  const TpwCreds := Creds("tpw", "abc123")

  /** The fixture with `hub.protocol=https`. */
  const HttpsFixture := Fixture.(protocol := Some("https"))

  /** The fixture where the service refuses the fork with status 500. */
  const FailingFixture := Fixture.(reply := Rejected(500, "Your fork is fail", []))

  /** In the fixture, and in its two variants, the user is `tpw` with a token and has no fork yet. */
  lemma FixtureCredentials(ctx: Context)
    requires ctx == Fixture || ctx == HttpsFixture || ctx == FailingFixture
    ensures Credentials(ctx, Local.host) == Ok(TpwCreds)
    ensures TpwHub !in ctx.existing && Project(Local.host, "tpw", Local.name) == TpwHub
  {
  }

  /** `fork` forks `defunkt/hub` and adds the fork as remote `tpw`, over ssh (test 759-767). */
  lemma ForkFixture()
    ensures Fork(Fixture, Local, ["fork"])
         == Run([Api(ForkRepo(DefunktHub, TpwCreds)),
                 Git(["remote", "add", "-f", "tpw", "git@github.com:tpw/hub.git"]),
                 Say("new remote: tpw")])
  {
    FixtureCredentials(Fixture);
    assert ContextUrl(Fixture, TpwHub, true) == CloneUrl(TpwHub, Ssh);
    TpwSshUrl();
    NewRemoteLine();
  }

  /** With `hub.protocol=https` the fork's remote is added over https (test 769-777). */
  lemma ForkHttps()
    ensures Fork(HttpsFixture, Local, ["fork"])
         == Run([Api(ForkRepo(DefunktHub, TpwCreds)),
                 Git(["remote", "add", "-f", "tpw", "https://github.com/tpw/hub.git"]),
                 Say("new remote: tpw")])
  {
    FixtureCredentials(HttpsFixture);
    assert ContextUrl(HttpsFixture, TpwHub, true) == CloneUrl(TpwHub, Https);
    TpwHttpsUrl();
    NewRemoteLine();
  }

  /** Outside a repository `fork` stops with git's own error (test 779-783). */
  lemma ForkNotInRepo()
    ensures Fork(NoRepo, Outside, ["fork"]) == Abort(["fatal: Not a git repository"])
  {
  }

  /** A refused fork is reported after the request (test 800-807). */
  lemma ForkFailed()
    ensures Fork(FailingFixture, Local, ["fork"])
         == Fail([Api(ForkRepo(DefunktHub, TpwCreds))], ["Error creating fork: Your fork is fail (HTTP 500)"])
  {
    FixtureCredentials(FailingFixture);
    Status500();
    ForkFailLine();
  }

  /** `fork --no-remote` only makes the request (test 809-814). */
  lemma ForkWithoutRemote()
    ensures Fork(Fixture, Local, ["fork", "--no-remote"]) == Run([Api(ForkRepo(DefunktHub, TpwCreds))])
  {
    FixtureCredentials(Fixture);
    assert NoRemoteFlag in ["fork", "--no-remote"];
  }
}

=== FILE: examples_patch.dfy ===
/** Literal text of the `am`/`apply` examples, put together a piece at a time. */
module PatchLiterals {
  /** The extensions of downloaded patches hold no `/`. */
  lemma ExtChars()
    ensures '/' !in ".patch" && '/' !in ".txt"
  {
  }

  /** The words before the pages hold no `:`. */
  lemma HeadChars()
    ensures forall a | a in ["am", "--signoff"] :: ':' !in a
    ensures forall a | a in ["apply"] :: ':' !in a
    ensures forall a | a in ["am"] :: ':' !in a
  {
    forall a | a in ["am", "--signoff"]
      ensures ':' !in a
    {
      assert a == "am" || a == "--signoff";
    }
  }

  /** The roots of GitHub's pages hold no fragment. */
  lemma RootChars()
    ensures '#' !in "https://github.com/" && '#' !in "https://gist.github.com"
  {
  }

  lemma DefunktRepo()
    ensures "https://github.com/" + "defunkt/hub" == "https://github.com/defunkt/hub"
  {
  }

  lemma DefunktPulls()
    ensures "https://github.com/defunkt/hub" + "/pull/" == "https://github.com/defunkt/hub/pull/"
  {
  }

  lemma DefunktPull55()
    ensures "https://github.com/defunkt/hub/pull/" + "55" == "https://github.com/defunkt/hub/pull/55"
  {
  }

  lemma PullPageText()
    ensures "https://github.com/" + "defunkt/hub" + "/pull/" + "55" == "https://github.com/defunkt/hub/pull/55"
  {
    DefunktRepo();
    DefunktPulls();
    DefunktPull55();
  }

  lemma PullComment()
    ensures "https://github.com/defunkt/hub/pull/55" + "#comment_123" == "https://github.com/defunkt/hub/pull/55#comment_123"
  {
  }

  lemma PullFiles()
    ensures "https://github.com/defunkt/hub/pull/55" + "/files" == "https://github.com/defunkt/hub/pull/55/files"
  {
  }

  lemma PullPatch()
    ensures "https://github.com/defunkt/hub/pull/55" + ".patch" == "https://github.com/defunkt/hub/pull/55.patch"
  {
  }

  lemma PullFile()
    ensures "55" + ".patch" == "55.patch"
    ensures "/tmp/" + "55.patch" == "/tmp/55.patch"
    ensures "/tmp" + "/" + "55.patch" == "/tmp/55.patch"
  {
  }

  lemma AuthorRepo()
    ensures "https://github.com/" + "davidbalbert/hub" == "https://github.com/davidbalbert/hub"
  {
  }

  lemma AuthorCommits()
    ensures "https://github.com/davidbalbert/hub" + "/commit/" == "https://github.com/davidbalbert/hub/commit/"
  {
  }

  lemma AuthorCommit()
    ensures "https://github.com/davidbalbert/hub/commit/" + "fdb9921" == "https://github.com/davidbalbert/hub/commit/fdb9921"
  {
  }

  lemma CommitPageText()
    ensures "https://github.com/" + "davidbalbert/hub" + "/commit/" + "fdb9921" == "https://github.com/davidbalbert/hub/commit/fdb9921"
  {
    AuthorRepo();
    AuthorCommits();
    AuthorCommit();
  }

  lemma CommitPatch()
    ensures "https://github.com/davidbalbert/hub/commit/fdb9921" + ".patch" == "https://github.com/davidbalbert/hub/commit/fdb9921.patch"
  {
  }

  lemma CommitFile()
    ensures "fdb9921" + ".patch" == "fdb9921.patch"
    ensures "/tmp/" + "fdb9921.patch" == "/tmp/fdb9921.patch"
  {
  }

  lemma GistPageText()
    ensures "https://gist.github.com/" + "8da7fb575debd88c54cf" == "https://gist.github.com/8da7fb575debd88c54cf"
  {
  }

  lemma GistText()
    ensures "https://gist.github.com/8da7fb575debd88c54cf" + ".txt" == "https://gist.github.com/8da7fb575debd88c54cf.txt"
  {
  }

  lemma GistName()
    ensures "8da7fb575debd88c54cf" + ".txt" == "8da7fb575debd88c54cf.txt"
  {
  }

  lemma GistFile()
    ensures "gist-" + ("8da7fb575debd88c54cf" + ".txt") == "gist-8da7fb575debd88c54cf.txt"
    ensures "/tmp/" + "gist-8da7fb575debd88c54cf.txt" == "/tmp/gist-8da7fb575debd88c54cf.txt"
  {
    GistName();
    GistPath();
  }

  lemma GistPath()
    ensures "/tmp/" + "gist-8da7fb575debd88c54cf.txt" == "/tmp/gist-8da7fb575debd88c54cf.txt"
  {
  }
}

/** The shapes of the GitHub pages `am` and `apply` download, as symbolic steps. */
module PatchText {
  import opened Maybe
  import opened Strings
  import opened Outcomes
  import opened PatchRules
  import opened PatchLiterals

  const GitHubRoot := "https://github.com/"
  const GistRoot := "https://gist.github.com/"

  /** A string keeps its start when more is appended. */
  lemma StartsAppend(s: string, p: string, t: string)
    requires StartsWith(s, p)
    ensures StartsWith(s + t, p)
  {
    assert (s + t)[..|p|] == s[..|p|];
  }

  /** Anything under `https://github.com/` is a page to download, and no gist. */
  lemma GitHubKind(a: string)
    requires StartsWith(a, GitHubRoot)
    ensures PatchKind(a) == Some(false)
  {
    assert a[10] == GitHubRoot[10] != "https://gist.github.com/"[10];
    assert a[4] == GitHubRoot[4] != "http://gist.github.com/"[4];
  }

  /** Anything under `https://gist.github.com/` is a gist to download. */
  lemma GistKind(rest: string)
    ensures PatchKind(GistRoot + rest) == Some(true)
  {
    var a := GistRoot + rest;
    assert a[..|GistRoot|] == GistRoot;
  }

  /** An argument without a `:` is no page. */
  lemma NoColonNoPage(a: string)
    requires ':' !in a
    ensures PatchKind(a).None?
  {
    forall p | p in ["https://gist.github.com/", "http://gist.github.com/", "https://github.com/", "http://github.com/"]
      ensures !StartsWith(a, p)
    {
      var i := if p[4] == ':' then 4 else 5;
      assert p[i] == ':';
      if |p| <= |a| {
        assert a[i] != ':' by {
          assert a[i] in a;
        }
        assert a[..|p|][i] != p[i];
      }
    }
  }

  /** A command line none of whose arguments has a `:` is passed on. */
  lemma NoPageLine(tmp: Option<string>, version: string, args: seq<string>)
    requires forall a | a in args :: ':' !in a
    ensures Patch(tmp, version, args) == Forward(args)
  {
    forall j | 0 <= j < |args|
      ensures PatchKind(args[j]).None?
    {
      assert args[j] in args;
      NoColonNoPage(args[j]);
    }
  }

  /** The heads of the command lines below hold no page. */
  lemma PlainHead(head: seq<string>)
    requires forall a | a in head :: ':' !in a
    ensures forall a | a in head :: PatchKind(a).None?
  {
    forall a | a in head
      ensures PatchKind(a).None?
    {
      NoColonNoPage(a);
    }
  }

  /**
   * `HEAD PAGE TAIL` where HEAD holds no page: `curl` saves the patch at
   * `url` as `name` in the temporary directory, and the file stands where
   * the page stood.
   */
  lemma DownloadLine(tmp: Option<string>, version: string, head: seq<string>, page: string, tail: seq<string>, gist: bool, url: string, name: string)
    requires forall a | a in head :: ':' !in a
    requires PatchKind(page) == Some(gist) && PatchUrl(page, gist) == url
    requires (if gist then GistFilePrefix else "") + Basename(url) == name
    ensures Patch(tmp, version, head + [page] + tail)
         == Run([Exec("curl", ["-#LA", "hub " + version, url, "-o", JoinPath(TmpDir(tmp), name)]),
                 Git(head + [JoinPath(TmpDir(tmp), name)] + tail)])
  {
    PlainHead(head);
    PatchLine(tmp, version, head, page, tail, gist);
  }

  /** `https://github.com/PATH/pull/N[/TAB][#FRAG]` downloads `…/pull/N.patch`, saved as `N.patch`. */
  lemma PullDownload(path: string, n: string, tab: string, frag: string)
    requires '#' !in path && n != "" && AllDigits(n)
    requires tab == "" || (tab[0] == '/' && AllWord(tab[1..]))
    requires IsFragment(frag)
    ensures PatchKind(GitHubRoot + path + "/pull/" + n + tab + frag) == Some(false)
    ensures PatchUrl(GitHubRoot + path + "/pull/" + n + tab + frag, false) == GitHubRoot + path + "/pull/" + n + PatchExt
    ensures "" + Basename(GitHubRoot + path + "/pull/" + n + PatchExt) == n + PatchExt
  {
    var pre := GitHubRoot + path;
    RootChars();
    assert '#' !in pre;
    assert StartsWith(pre, GitHubRoot);
    StartsAppend(pre, GitHubRoot, "/pull/");
    StartsAppend(pre + "/pull/", GitHubRoot, n);
    StartsAppend(pre + "/pull/" + n, GitHubRoot, tab);
    StartsAppend(pre + "/pull/" + n + tab, GitHubRoot, frag);
    GitHubKind(pre + "/pull/" + n + tab + frag);
    PatchUrlPull(pre, n, tab, frag);
    assert '/' !in n by {
      assert !IsDigit('/');
    }
    var dir := pre + "/pull/";
    assert |dir| > 0 && dir[|dir| - 1] == '/';
    ExtChars();
    BasenameExt(dir, n, PatchExt);
  }

  /** The pull request page with a fragment and no tab. */
  lemma PullFragmentDownload(path: string, n: string, frag: string)
    requires '#' !in path && n != "" && AllDigits(n) && IsFragment(frag)
    ensures PatchKind(GitHubRoot + path + "/pull/" + n + frag) == Some(false)
    ensures PatchUrl(GitHubRoot + path + "/pull/" + n + frag, false) == GitHubRoot + path + "/pull/" + n + PatchExt
  {
    PullDownload(path, n, "", frag);
    EmptyMiddle(GitHubRoot + path + "/pull/" + n, frag);
  }

  lemma EmptyMiddle(a: string, b: string)
    ensures a + "" + b == a + b
  {
  }

  /** The pull request page with a tab and no fragment. */
  lemma PullTabDownload(path: string, n: string, tab: string)
    requires '#' !in path && n != "" && AllDigits(n)
    requires tab != "" && tab[0] == '/' && AllWord(tab[1..])
    ensures PatchKind(GitHubRoot + path + "/pull/" + n + tab) == Some(false)
    ensures PatchUrl(GitHubRoot + path + "/pull/" + n + tab, false) == GitHubRoot + path + "/pull/" + n + PatchExt
  {
    assert IsFragment("");
    PullDownload(path, n, tab, "");
    var page := GitHubRoot + path + "/pull/" + n + tab;
    assert page + "" == page;
  }

  /** The pull request page itself. */
  lemma PullBareDownload(path: string, n: string)
    requires '#' !in path && n != "" && AllDigits(n)
    ensures PatchKind(GitHubRoot + path + "/pull/" + n) == Some(false)
    ensures PatchUrl(GitHubRoot + path + "/pull/" + n, false) == GitHubRoot + path + "/pull/" + n + PatchExt
    ensures "" + Basename(GitHubRoot + path + "/pull/" + n + PatchExt) == n + PatchExt
  {
    assert IsFragment("");
    PullDownload(path, n, "", "");
    var page := GitHubRoot + path + "/pull/" + n;
    assert page + "" + "" == page;
  }

  /** `https://github.com/PATH/commit/SHA` downloads `…/commit/SHA.patch`, saved as `SHA.patch`. */
  lemma CommitDownload(path: string, sha: string)
    requires '#' !in path && sha != "" && AllWord(sha)
    ensures PatchKind(GitHubRoot + path + "/commit/" + sha) == Some(false)
    ensures PatchUrl(GitHubRoot + path + "/commit/" + sha, false) == GitHubRoot + path + "/commit/" + sha + PatchExt
    ensures "" + Basename(GitHubRoot + path + "/commit/" + sha + PatchExt) == sha + PatchExt
  {
    CommitKind(path, sha);
    CommitName(path, sha);
  }

  lemma CommitKind(path: string, sha: string)
    requires '#' !in path
    ensures PatchKind(GitHubRoot + path + "/commit/" + sha) == Some(false)
  {
    var pre := GitHubRoot + path;
    assert StartsWith(pre, GitHubRoot);
    StartsAppend(pre, GitHubRoot, "/commit/");
    StartsAppend(pre + "/commit/", GitHubRoot, sha);
    GitHubKind(pre + "/commit/" + sha);
  }

  lemma CommitName(path: string, sha: string)
    requires '#' !in path && sha != "" && AllWord(sha)
    ensures PatchUrl(GitHubRoot + path + "/commit/" + sha, false) == GitHubRoot + path + "/commit/" + sha + PatchExt
    ensures "" + Basename(GitHubRoot + path + "/commit/" + sha + PatchExt) == sha + PatchExt
  {
    CommitPatchOf(path, sha);
    CommitSaved(path, sha);
  }

  lemma CommitPatchOf(path: string, sha: string)
    requires '#' !in path && sha != "" && AllWord(sha)
    ensures PatchUrl(GitHubRoot + path + "/commit/" + sha, false) == GitHubRoot + path + "/commit/" + sha + PatchExt
  {
    var pre := GitHubRoot + path;
    RootChars();
    assert '#' !in pre;
    assert IsFragment("");
    PatchUrlCommit(pre, sha, "");
    assert pre + "/commit/" + sha + "" == pre + "/commit/" + sha;
  }

  lemma CommitSaved(path: string, sha: string)
    requires sha != "" && AllWord(sha)
    ensures "" + Basename(GitHubRoot + path + "/commit/" + sha + PatchExt) == sha + PatchExt
  {
    var dir := GitHubRoot + path + "/commit/";
    assert |dir| > 0 && dir[|dir| - 1] == '/';
    assert '/' !in sha by {
      assert !IsWordChar('/');
    }
    ExtChars();
    BasenameExt(dir, sha, PatchExt);
  }

  /** `https://gist.github.com/ID` downloads `…/ID.txt`, saved as `gist-ID.txt`. */
  lemma GistDownload(id: string)
    requires id != "" && AllWord(id)
    ensures PatchKind(GistRoot + id) == Some(true)
    ensures PatchUrl(GistRoot + id, true) == GistRoot + id + GistExt
    ensures GistFilePrefix + Basename(GistRoot + id + GistExt) == GistFilePrefix + (id + GistExt)
  {
    var pre := GistRoot[..|GistRoot| - 1];
    assert pre + "/" == GistRoot;
    assert '#' !in pre;
    GistKind(id);
    ExtChars();
    PatchUrlGist(pre, id, "");
    assert pre + "/" + id + "" == GistRoot + id;
    assert pre + "/" + id + GistExt == GistRoot + id + GistExt;
  }
}

/** `am` and `apply` (`hub_test.rb` lines 467-541). */
module PatchExamples {
  import opened Maybe
  import opened Strings
  import opened Outcomes
  import opened PatchRules
  import opened PatchText
  import opened PatchLiterals

  /** `$TMPDIR` as the examples set it. */
  const Tmp := Some("/tmp/")

  const PullCommentUrl := "https://github.com/defunkt/hub/pull/55#comment_123"
  const PullFilesUrl := "https://github.com/defunkt/hub/pull/55/files"
  const PullUrl := "https://github.com/defunkt/hub/pull/55"
  const PullPatchUrl := "https://github.com/defunkt/hub/pull/55.patch"
  const CommitUrl := "https://github.com/davidbalbert/hub/commit/fdb9921"
  const CommitPatchUrl := "https://github.com/davidbalbert/hub/commit/fdb9921.patch"
  const GistUrl := "https://gist.github.com/8da7fb575debd88c54cf"
  const GistTextUrl := "https://gist.github.com/8da7fb575debd88c54cf.txt"

  /** The arguments around the page. */
  lemma Lines(x: string, y: string)
    ensures ["am", "--signoff"] + [x] + ["-p2"] == ["am", "--signoff", x, "-p2"]
    ensures ["apply"] + [x] + ["-p2"] == ["apply", x, "-p2"]
    ensures ["am"] + [x] + [] == ["am", x]
  {
  }

  lemma PullNumber()
    ensures '#' !in "defunkt/hub" && "55" != "" && AllDigits("55") && AllWord("files") && IsFragment("#comment_123")
  {
  }

  /** The pull request's page in its three spellings, and its patch. */
  lemma PullPages()
    ensures PatchKind(PullCommentUrl) == Some(false) && PatchUrl(PullCommentUrl, false) == PullPatchUrl
    ensures PatchKind(PullFilesUrl) == Some(false) && PatchUrl(PullFilesUrl, false) == PullPatchUrl
    ensures PatchKind(PullUrl) == Some(false) && PatchUrl(PullUrl, false) == PullPatchUrl
    ensures "" + Basename(PullPatchUrl) == "55.patch"
  {
    PullCommentPage();
    PullFilesPage();
    PullPlainPage();
  }

  lemma PullPatchText()
    ensures GitHubRoot + "defunkt/hub" + "/pull/" + "55" + PatchExt == PullPatchUrl
  {
    PullPageText();
    PullPatch();
  }

  lemma PullCommentPage()
    ensures PatchKind(PullCommentUrl) == Some(false) && PatchUrl(PullCommentUrl, false) == PullPatchUrl
  {
    PullNumber();
    PullFragmentDownload("defunkt/hub", "55", "#comment_123");
    PullPageText();
    PullComment();
    PullPatchText();
  }

  lemma PullFilesPage()
    ensures PatchKind(PullFilesUrl) == Some(false) && PatchUrl(PullFilesUrl, false) == PullPatchUrl
  {
    PullNumber();
    assert "/files"[1..] == "files";
    PullTabDownload("defunkt/hub", "55", "/files");
    PullPageText();
    PullFiles();
    PullPatchText();
  }

  lemma PullPlainPage()
    ensures PatchKind(PullUrl) == Some(false) && PatchUrl(PullUrl, false) == PullPatchUrl
    ensures "" + Basename(PullPatchUrl) == "55.patch"
  {
    PullNumber();
    PullBareDownload("defunkt/hub", "55");
    PullPageText();
    PullPatchText();
    PullFile();
  }

  lemma TmpFiles()
    ensures JoinPath(TmpDir(Tmp), "55.patch") == "/tmp/55.patch"
    ensures JoinPath(TmpDir(None), "55.patch") == "/tmp/55.patch"
    ensures JoinPath(TmpDir(Tmp), "fdb9921.patch") == "/tmp/fdb9921.patch"
    ensures JoinPath(TmpDir(Tmp), "gist-8da7fb575debd88c54cf.txt") == "/tmp/gist-8da7fb575debd88c54cf.txt"
  {
    PullFile();
    CommitFile();
    GistFile();
  }

  /** `am some.patch` is passed on. */
  lemma AmUntouched(tmp: Option<string>, version: string)
    ensures Patch(tmp, version, ["am", "some.patch"]) == Forward(["am", "some.patch"])
  {
    NoPageLine(tmp, version, ["am", "some.patch"]);
  }

  /** `apply some.patch` is passed on. */
  lemma ApplyUntouched(tmp: Option<string>, version: string)
    ensures Patch(tmp, version, ["apply", "some.patch"]) == Forward(["apply", "some.patch"])
  {
    NoPageLine(tmp, version, ["apply", "some.patch"]);
  }

  /** `am --signoff PULL#comment -p2` downloads the pull request's patch and applies the file. */
  lemma AmPullRequest(version: string)
    ensures Patch(Tmp, version, ["am", "--signoff", PullCommentUrl, "-p2"])
         == Run([Exec("curl", ["-#LA", "hub " + version, PullPatchUrl, "-o", "/tmp/55.patch"]),
                 Git(["am", "--signoff", "/tmp/55.patch", "-p2"])])
  {
    PullPages();
    TmpFiles();
    HeadChars();
    DownloadLine(Tmp, version, ["am", "--signoff"], PullCommentUrl, ["-p2"], false, PullPatchUrl, "55.patch");
    Lines(PullCommentUrl, "/tmp/55.patch");
    Lines("/tmp/55.patch", PullCommentUrl);
  }

  /** The files tab of a pull request downloads the same patch. */
  lemma AmPullRequestFiles(version: string)
    ensures Patch(Tmp, version, ["am", PullFilesUrl])
         == Run([Exec("curl", ["-#LA", "hub " + version, PullPatchUrl, "-o", "/tmp/55.patch"]),
                 Git(["am", "/tmp/55.patch"])])
  {
    PullPages();
    TmpFiles();
    HeadChars();
    DownloadLine(Tmp, version, ["am"], PullFilesUrl, [], false, PullPatchUrl, "55.patch");
    Lines(PullFilesUrl, "");
    Lines("/tmp/55.patch", "");
  }

  /** Without `$TMPDIR` the patch goes to `/tmp`. */
  lemma AmNoTmpDir(version: string)
    ensures Patch(None, version, ["am", PullUrl])
         == Run([Exec("curl", ["-#LA", "hub " + version, PullPatchUrl, "-o", "/tmp/55.patch"]),
                 Git(["am", "/tmp/55.patch"])])
  {
    PullPages();
    TmpFiles();
    HeadChars();
    DownloadLine(None, version, ["am"], PullUrl, [], false, PullPatchUrl, "55.patch");
    Lines(PullUrl, "");
    Lines("/tmp/55.patch", "");
  }

  /** `apply PULL -p2` downloads the pull request's patch. */
  lemma ApplyPullRequest(version: string)
    ensures Patch(Tmp, version, ["apply", PullUrl, "-p2"])
         == Run([Exec("curl", ["-#LA", "hub " + version, PullPatchUrl, "-o", "/tmp/55.patch"]),
                 Git(["apply", "/tmp/55.patch", "-p2"])])
  {
    PullPages();
    TmpFiles();
    HeadChars();
    DownloadLine(Tmp, version, ["apply"], PullUrl, ["-p2"], false, PullPatchUrl, "55.patch");
    Lines(PullUrl, "");
    Lines("/tmp/55.patch", "");
  }

  lemma CommitSha()
    ensures '#' !in "davidbalbert/hub" && "fdb9921" != "" && AllWord("fdb9921")
  {
    assert forall c | c in "fdb9921" :: IsWordChar(c);
  }

  lemma CommitPages()
    ensures PatchKind(CommitUrl) == Some(false) && PatchUrl(CommitUrl, false) == CommitPatchUrl
    ensures "" + Basename(CommitPatchUrl) == "fdb9921.patch"
  {
    CommitSha();
    CommitDownload("davidbalbert/hub", "fdb9921");
    CommitPageText();
    CommitPatch();
    CommitFile();
  }

  /** `am --signoff COMMIT -p2` downloads the commit's patch. */
  lemma AmCommitUrl(version: string)
    ensures Patch(Tmp, version, ["am", "--signoff", CommitUrl, "-p2"])
         == Run([Exec("curl", ["-#LA", "hub " + version, CommitPatchUrl, "-o", "/tmp/fdb9921.patch"]),
                 Git(["am", "--signoff", "/tmp/fdb9921.patch", "-p2"])])
  {
    CommitPages();
    TmpFiles();
    HeadChars();
    DownloadLine(Tmp, version, ["am", "--signoff"], CommitUrl, ["-p2"], false, CommitPatchUrl, "fdb9921.patch");
    Lines(CommitUrl, "");
    Lines("/tmp/fdb9921.patch", "");
  }

  /** `apply COMMIT -p2` downloads the commit's patch. */
  lemma ApplyCommitUrl(version: string)
    ensures Patch(Tmp, version, ["apply", CommitUrl, "-p2"])
         == Run([Exec("curl", ["-#LA", "hub " + version, CommitPatchUrl, "-o", "/tmp/fdb9921.patch"]),
                 Git(["apply", "/tmp/fdb9921.patch", "-p2"])])
  {
    CommitPages();
    TmpFiles();
    HeadChars();
    DownloadLine(Tmp, version, ["apply"], CommitUrl, ["-p2"], false, CommitPatchUrl, "fdb9921.patch");
    Lines(CommitUrl, "");
    Lines("/tmp/fdb9921.patch", "");
  }

  lemma GistId()
    ensures "8da7fb575debd88c54cf" != "" && AllWord("8da7fb575debd88c54cf")
  {
    assert forall c | c in "8da7fb575debd88c54cf" :: IsWordChar(c);
  }

  lemma GistPages()
    ensures PatchKind(GistUrl) == Some(true) && PatchUrl(GistUrl, true) == GistTextUrl
    ensures GistFilePrefix + Basename(GistTextUrl) == "gist-8da7fb575debd88c54cf.txt"
  {
    GistId();
    GistDownload("8da7fb575debd88c54cf");
    GistPageText();
    GistText();
    GistFile();
  }

  /** `am --signoff GIST -p2` downloads the gist's text as `gist-ID.txt`. */
  lemma AmGist(version: string)
    ensures Patch(Tmp, version, ["am", "--signoff", GistUrl, "-p2"])
         == Run([Exec("curl", ["-#LA", "hub " + version, GistTextUrl, "-o", "/tmp/gist-8da7fb575debd88c54cf.txt"]),
                 Git(["am", "--signoff", "/tmp/gist-8da7fb575debd88c54cf.txt", "-p2"])])
  {
    GistPages();
    TmpFiles();
    HeadChars();
    DownloadLine(Tmp, version, ["am", "--signoff"], GistUrl, ["-p2"], true, GistTextUrl, "gist-8da7fb575debd88c54cf.txt");
    Lines(GistUrl, "");
    Lines("/tmp/gist-8da7fb575debd88c54cf.txt", "");
  }

  /** `apply GIST -p2` downloads the gist's text. */
  lemma ApplyGist(version: string)
    ensures Patch(Tmp, version, ["apply", GistUrl, "-p2"])
         == Run([Exec("curl", ["-#LA", "hub " + version, GistTextUrl, "-o", "/tmp/gist-8da7fb575debd88c54cf.txt"]),
                 Git(["apply", "/tmp/gist-8da7fb575debd88c54cf.txt", "-p2"])])
  {
    GistPages();
    TmpFiles();
    HeadChars();
    DownloadLine(Tmp, version, ["apply"], GistUrl, ["-p2"], true, GistTextUrl, "gist-8da7fb575debd88c54cf.txt");
    Lines(GistUrl, "");
    Lines("/tmp/gist-8da7fb575debd88c54cf.txt", "");
  }
}

=== FILE: examples_pick.dfy ===
/** Literal text of the cherry-pick examples, put together a piece at a time. */
module PickLiterals {
  /** A two-word command line glued from its parts. */
  lemma GlueTwo<T>(a: T, b: T)
    ensures [a] + [] + [b] == [a, b]
  {
  }

  lemma HttpRoot()
    ensures "http" + "://" + "github.com" + "/" == "http://github.com/"
  {
  }

  lemma HttpsRoot()
    ensures "https" + "://" + "github.com" + "/" == "https://github.com/"
  {
  }

  lemma MislavPath()
    ensures "mislav" + "/" + "hub" + "/" == "mislav/hub/"
  {
  }

  lemma XoebusPath()
    ensures "xoebus" + "/" + "hub" + "/" == "xoebus/hub/"
  {
  }

  lemma DefunktPath()
    ensures "defunkt" + "/" + "hub" + "/" == "defunkt/hub/"
  {
  }

  lemma ShortCommit()
    ensures "commit/" + "a319d88" == "commit/a319d88"
  {
  }

  lemma LongCommit()
    ensures "commit/" + "abcdef0123456789" == "commit/abcdef0123456789"
  {
  }

  lemma MislavRoot()
    ensures "http://github.com/" + "mislav/hub/" == "http://github.com/mislav/hub/"
  {
  }

  lemma MislavPageText()
    ensures "http://github.com/" + "mislav/hub/" + "commit/a319d88" == "http://github.com/mislav/hub/commit/a319d88"
  {
    MislavRoot();
  }

  lemma MislavLongText()
    ensures "http://github.com/mislav/hub/" + "commit/abcdef0123456789" == "http://github.com/mislav/hub/commit/abcdef0123456789"
  {
  }

  lemma MislavFragmentText()
    ensures "http://github.com/" + "mislav/hub/" + "commit/abcdef0123456789" + "#comments"
         == "http://github.com/mislav/hub/commit/abcdef0123456789#comments"
  {
    MislavRoot();
    MislavLongText();
  }

  lemma XoebusPageText()
    ensures "https://github.com/" + "xoebus/hub/" + "commit/a319d88" == "https://github.com/xoebus/hub/commit/a319d88"
  {
    assert "https://github.com/" + "xoebus/hub/" == "https://github.com/xoebus/hub/";
  }

  lemma DefunktPageText()
    ensures "https://github.com/" + "defunkt/hub/" + "commit/a319d88" == "https://github.com/defunkt/hub/commit/a319d88"
  {
    assert "https://github.com/" + "defunkt/hub/" == "https://github.com/defunkt/hub/";
  }

  /** None of the pieces of the commit pages holds a `#` or a `?`. */
  lemma PlainSchemes()
    ensures '#' !in "http" && '?' !in "http" && '#' !in "https" && '?' !in "https"
    ensures '#' !in "github.com" && '?' !in "github.com" && '#' !in "hub" && '?' !in "hub"
  {
  }

  lemma PlainOwners()
    ensures '#' !in "mislav" && '?' !in "mislav" && '#' !in "xoebus" && '?' !in "xoebus"
    ensures '#' !in "defunkt" && '?' !in "defunkt"
  {
  }

  lemma PlainCommits()
    ensures '#' !in "commit/a319d88" && '?' !in "commit/a319d88"
    ensures '#' !in "commit/abcdef0123456789" && '?' !in "commit/abcdef0123456789"
  {
  }
}

/** Literal shas, refs and commit pages of the cherry-pick examples. */
module PickText {
  import opened Strings
  import opened Projects
  import opened Argv
  import opened WebUrls
  import opened PickLines
  import opened FixtureUrls
  import opened PickLiterals

  lemma ShortSha()
    ensures IsSha("a319d88") && IsSha("368af20")
  {
    assert forall c | c in "a319d88" :: IsHexDigit(c);
    assert forall c | c in "368af20" :: IsHexDigit(c);
  }

  lemma LongSha()
    ensures IsSha("abcdef0123456789")
  {
    assert forall c | c in "abcdef0123456789" :: IsHexDigit(c);
  }

  lemma Owners()
    ensures "mislav" != "" && AllWord("mislav") && "xoebus" != "" && AllWord("xoebus")
  {
    assert forall c | c in "mislav" :: IsWordChar(c);
    assert forall c | c in "xoebus" :: IsWordChar(c);
  }

  lemma MislavAt()
    ensures "mislav" + "@" + "368af20" == "mislav@368af20"
  {
  }

  lemma XoebusAt()
    ensures "xoebus" + "@" + "a319d88" == "xoebus@a319d88"
  {
  }

  lemma TooShortAt()
    ensures "mislav" + "@" + "a319" == "mislav@a319" && !IsSha("a319")
  {
  }

  lemma HubbubAt()
    ensures "mislav" + "/" + "hubbub" + "@" + "a319d88" == "mislav/hubbub@a319d88"
    ensures '@' !in "mislav" && '@' !in "hubbub"
  {
  }

  /** No ':' and no '@': `a319d88` is neither a page nor `OWNER@SHA`. */
  lemma PlainSha()
    ensures ':' !in "a319d88" && '@' !in "a319d88" && !IsFlag("a319d88") && "a319d88" != "cherry-pick"
  {
  }

  lemma NoColon()
    ensures ':' !in "mislav@a319" && ':' !in "mislav/hubbub@a319d88"
    ensures !IsFlag("mislav@a319") && !IsFlag("mislav/hubbub@a319d88")
    ensures "mislav@a319" != "cherry-pick" && "mislav/hubbub@a319d88" != "cherry-pick"
  {
  }

  /** A page URL has no `#` or `?` when none of its pieces has one. */
  lemma PageChars(scheme: string, p: Project, sub: string)
    requires '#' !in scheme && '#' !in p.host && '#' !in p.owner && '#' !in p.name && '#' !in sub
    requires '?' !in scheme && '?' !in p.host && '?' !in p.owner && '?' !in p.name && '?' !in sub
    ensures '#' !in PageUrl(scheme, p, sub) && '?' !in PageUrl(scheme, p, sub)
  {
  }

  /** A page URL in three parts: the host's root, the project's path and the page. */
  lemma PageText(scheme: string, p: Project, sub: string)
    ensures PageUrl(scheme, p, sub) == (scheme + "://" + p.host + "/") + (p.owner + "/" + p.name + "/") + sub
  {
  }

  lemma MislavPage()
    ensures PageUrl("http", MislavHub, CommitPrefix + "a319d88") == "http://github.com/mislav/hub/commit/a319d88"
  {
    PageText("http", MislavHub, CommitPrefix + "a319d88");
    HttpRoot();
    MislavPath();
    ShortCommit();
    MislavPageText();
  }

  lemma MislavPageChars()
    ensures '#' !in PageUrl("http", MislavHub, CommitPrefix + "a319d88")
    ensures '?' !in PageUrl("http", MislavHub, CommitPrefix + "a319d88")
  {
    PlainSchemes();
    PlainOwners();
    PlainCommits();
    PageChars("http", MislavHub, CommitPrefix + "a319d88");
  }

  lemma MislavFragmentPage()
    ensures PageUrl("http", MislavHub, CommitPrefix + "abcdef0123456789") + "#comments"
         == "http://github.com/mislav/hub/commit/abcdef0123456789#comments"
  {
    PageText("http", MislavHub, CommitPrefix + "abcdef0123456789");
    HttpRoot();
    MislavPath();
    LongCommit();
    MislavFragmentText();
  }

  lemma MislavFragmentPageChars()
    ensures '#' !in PageUrl("http", MislavHub, CommitPrefix + "abcdef0123456789")
    ensures '?' !in PageUrl("http", MislavHub, CommitPrefix + "abcdef0123456789")
  {
    PlainSchemes();
    PlainOwners();
    PlainCommits();
    PageChars("http", MislavHub, CommitPrefix + "abcdef0123456789");
  }

  lemma XoebusPage()
    ensures PageUrl("https", XoebusHub, CommitPrefix + "a319d88") == "https://github.com/xoebus/hub/commit/a319d88"
  {
    PageText("https", XoebusHub, CommitPrefix + "a319d88");
    HttpsRoot();
    XoebusPath();
    ShortCommit();
    XoebusPageText();
  }

  lemma XoebusPageChars()
    ensures '#' !in PageUrl("https", XoebusHub, CommitPrefix + "a319d88")
    ensures '?' !in PageUrl("https", XoebusHub, CommitPrefix + "a319d88")
  {
    PlainSchemes();
    PlainOwners();
    PlainCommits();
    PageChars("https", XoebusHub, CommitPrefix + "a319d88");
  }

  lemma DefunktPage()
    ensures PageUrl("https", DefunktHub, CommitPrefix + "a319d88") == "https://github.com/defunkt/hub/commit/a319d88"
  {
    PageText("https", DefunktHub, CommitPrefix + "a319d88");
    HttpsRoot();
    DefunktPath();
    ShortCommit();
    DefunktPageText();
  }

  lemma DefunktPageChars()
    ensures '#' !in PageUrl("https", DefunktHub, CommitPrefix + "a319d88")
    ensures '?' !in PageUrl("https", DefunktHub, CommitPrefix + "a319d88")
  {
    PlainSchemes();
    PlainOwners();
    PlainCommits();
    PageChars("https", DefunktHub, CommitPrefix + "a319d88");
  }

}

/** `cherry-pick` in the fixture repository (`hub_test.rb` lines 422-465). */
module PickExamples {
  import opened Maybe
  import opened Strings
  import opened Projects
  import opened Repo
  import opened Argv
  import opened Outcomes
  import opened WebUrls
  import opened PickLines
  import opened PickRules
  import opened FixtureUrls
  import opened Fixtures
  import opened PickLiterals
  import opened PickText

  /** `defunkt/hub` is fetched through `origin`, which hub lists first. */
  lemma FetchOrigin()
    ensures FetchProject(Fixture, Local, DefunktHub) == Git(["fetch", "origin"])
  {
    assert Local.remotes == [] + ["origin"] + ["mislav"];
    RemoteOfFirst([], "origin", ["mislav"], Local.projects, DefunktHub);
  }

  /** `mislav/hub` is fetched through the remote `mislav`, the second one. */
  lemma FetchMislav()
    ensures FetchProject(Fixture, Local, MislavHub) == Git(["fetch", "mislav"])
  {
    assert Local.remotes == ["origin"] + ["mislav"] + [];
    assert MislavHub != DefunktHub by {
      assert "mislav"[0] != "defunkt"[0];
    }
    forall x | x in ["origin"] && x in Local.projects
      ensures Local.projects[x] != MislavHub
    {
      assert x == "origin";
    }
    RemoteOfFirst(["origin"], "mislav", [], Local.projects, MislavHub);
  }

  /** No remote points at xoebus's fork, so it is added with `-f`. */
  lemma FetchXoebus()
    ensures FetchProject(Fixture, Local, XoebusHub)
         == Git(["remote", "add", "-f", "xoebus", "git://github.com/xoebus/hub.git"])
  {
    assert XoebusHub != MislavHub && XoebusHub != DefunktHub by {
      assert "xoebus"[0] != "mislav"[0] && "xoebus"[0] != "defunkt"[0];
    }
    forall rem | rem in Local.remotes && rem in Local.projects
      ensures Local.projects[rem] != XoebusHub
    {
      InPair(rem, "origin", "mislav");
    }
    XoebusUrl();
  }

  /** `cherry-pick OWNER@SHA` with no flags. */
  lemma UserShaLine(ctx: Context, repo: LocalRepo, owner: string, sha: string)
    requires owner != "" && AllWord(owner) && IsSha(sha)
    ensures CherryPick(ctx, repo, ["cherry-pick", owner + "@" + sha])
         == Run([FetchProject(ctx, repo, OwnedProject(repo, owner, repo.name)), Git(["cherry-pick", sha])])
  {
    CherryPickUserSha(ctx, repo, [], owner, sha);
    GlueTwo("cherry-pick", owner + "@" + sha);
    GlueTwo("cherry-pick", sha);
  }

  /** `cherry-pick REF` with no flags, where REF names no commit. */
  lemma UntouchedLine(ctx: Context, repo: LocalRepo, ref: string)
    requires !IsFlag(ref) && ref != "cherry-pick" && ':' !in ref && UserSha(ref) == None
    ensures CherryPick(ctx, repo, ["cherry-pick", ref]) == Forward(["cherry-pick", ref])
  {
    NotWebUrl(ctx, ref);
    CherryPickUntouched(ctx, repo, [], ref);
    GlueTwo("cherry-pick", ref);
  }

  /** `cherry-pick URL` of a commit page, with no flags. */
  lemma PageLine(ctx: Context, repo: LocalRepo, p: Project, scheme: string, sha: string, tail: string)
    requires IsWebScheme(scheme) && IsSha(sha) && IsUrlTail(tail)
    requires p.host in KnownHosts(ctx) && '/' !in p.host
    requires p.owner != "" && p.name != "" && '/' !in p.owner && '/' !in p.name
    requires '#' !in PageUrl(scheme, p, CommitPrefix + sha) && '?' !in PageUrl(scheme, p, CommitPrefix + sha)
    ensures CherryPick(ctx, repo, ["cherry-pick", PageUrl(scheme, p, CommitPrefix + sha) + tail])
         == Run([FetchProject(ctx, repo, p), Git(["cherry-pick", sha])])
  {
    var url := PageUrl(scheme, p, CommitPrefix + sha) + tail;
    CherryPickUrl(ctx, repo, [], scheme, p, sha, tail);
    GlueTwo("cherry-pick", url);
    GlueTwo("cherry-pick", sha);
  }

  /** `cherry-pick URL` of a commit page with nothing after the sha. */
  lemma BarePageLine(ctx: Context, repo: LocalRepo, p: Project, scheme: string, sha: string)
    requires IsWebScheme(scheme) && IsSha(sha)
    requires p.host in KnownHosts(ctx) && '/' !in p.host
    requires p.owner != "" && p.name != "" && '/' !in p.owner && '/' !in p.name
    requires '#' !in PageUrl(scheme, p, CommitPrefix + sha) && '?' !in PageUrl(scheme, p, CommitPrefix + sha)
    ensures CherryPick(ctx, repo, ["cherry-pick", PageUrl(scheme, p, CommitPrefix + sha)])
         == Run([FetchProject(ctx, repo, p), Git(["cherry-pick", sha])])
  {
    PageLine(ctx, repo, p, scheme, sha, "");
    assert PageUrl(scheme, p, CommitPrefix + sha) + "" == PageUrl(scheme, p, CommitPrefix + sha);
  }

  /** The fixture's host is GitHub's, which has no `/`. */
  lemma FixtureHost()
    ensures "github.com" in KnownHosts(Fixture) && '/' !in "github.com"
  {
  }

  /** `cherry-pick a319d88` is passed on. */
  lemma PickPlainSha()
    ensures CherryPick(Fixture, Local, ["cherry-pick", "a319d88"]) == Forward(["cherry-pick", "a319d88"])
  {
    PlainSha();
    assert SplitFirst("a319d88", '@') == None;
    UntouchedLine(Fixture, Local, "a319d88");
  }

  /** `cherry-pick mislav@368af20` fetches mislav, then picks 368af20. */
  lemma PickUserSha()
    ensures CherryPick(Fixture, Local, ["cherry-pick", "mislav@368af20"])
         == Run([Git(["fetch", "mislav"]), Git(["cherry-pick", "368af20"])])
  {
    Owners();
    ShortSha();
    UserShaLine(Fixture, Local, "mislav", "368af20");
    MislavAt();
    assert OwnedProject(Local, "mislav", Local.name) == MislavHub;
    FetchMislav();
  }

  /** `cherry-pick xoebus@a319d88` adds xoebus's fork as a remote, then picks. */
  lemma PickUserShaNewRemote()
    ensures CherryPick(Fixture, Local, ["cherry-pick", "xoebus@a319d88"])
         == Run([Git(["remote", "add", "-f", "xoebus", "git://github.com/xoebus/hub.git"]),
                 Git(["cherry-pick", "a319d88"])])
  {
    Owners();
    ShortSha();
    UserShaLine(Fixture, Local, "xoebus", "a319d88");
    XoebusAt();
    assert OwnedProject(Local, "xoebus", Local.name) == XoebusHub;
    FetchXoebus();
  }

  /** `cherry-pick mislav@a319` is passed on: four digits are no sha. */
  lemma PickTooShort()
    ensures CherryPick(Fixture, Local, ["cherry-pick", "mislav@a319"]) == Forward(["cherry-pick", "mislav@a319"])
  {
    Owners();
    TooShortAt();
    NoColon();
    UserShaNotSha("mislav", "a319");
    UntouchedLine(Fixture, Local, "mislav@a319");
  }

  /** `cherry-pick mislav/hubbub@a319d88` is passed on: the notation takes a user only. */
  lemma PickUserRepo()
    ensures CherryPick(Fixture, Local, ["cherry-pick", "mislav/hubbub@a319d88"])
         == Forward(["cherry-pick", "mislav/hubbub@a319d88"])
  {
    HubbubAt();
    NoColon();
    UserShaWithRepo("mislav", "hubbub", "a319d88");
    UntouchedLine(Fixture, Local, "mislav/hubbub@a319d88");
  }

  /** `cherry-pick http://github.com/mislav/hub/commit/a319d88` fetches mislav, then picks. */
  lemma PickMislavPage()
    ensures CherryPick(Fixture, Local, ["cherry-pick", "http://github.com/mislav/hub/commit/a319d88"])
         == Run([Git(["fetch", "mislav"]), Git(["cherry-pick", "a319d88"])])
  {
    ShortSha();
    FixtureHost();
    MislavPageChars();
    BarePageLine(Fixture, Local, MislavHub, "http", "a319d88");
    MislavPage();
    FetchMislav();
  }

  /** A fragment after the sha is ignored. */
  lemma PickPageFragment()
    ensures CherryPick(Fixture, Local, ["cherry-pick", "http://github.com/mislav/hub/commit/abcdef0123456789#comments"])
         == Run([Git(["fetch", "mislav"]), Git(["cherry-pick", "abcdef0123456789"])])
  {
    LongSha();
    FixtureHost();
    MislavFragmentPageChars();
    PageLine(Fixture, Local, MislavHub, "http", "abcdef0123456789", "#comments");
    MislavFragmentPage();
    FetchMislav();
  }

  /** The page of a commit in a fork without a remote adds the fork with `-f`. */
  lemma PickPageNewRemote()
    ensures CherryPick(Fixture, Local, ["cherry-pick", "https://github.com/xoebus/hub/commit/a319d88"])
         == Run([Git(["remote", "add", "-f", "xoebus", "git://github.com/xoebus/hub.git"]),
                 Git(["cherry-pick", "a319d88"])])
  {
    ShortSha();
    FixtureHost();
    XoebusPageChars();
    BarePageLine(Fixture, Local, XoebusHub, "https", "a319d88");
    XoebusPage();
    FetchXoebus();
  }

  /** The page of a commit in the origin project fetches `origin`. */
  lemma PickOriginPage()
    ensures CherryPick(Fixture, Local, ["cherry-pick", "https://github.com/defunkt/hub/commit/a319d88"])
         == Run([Git(["fetch", "origin"]), Git(["cherry-pick", "a319d88"])])
  {
    ShortSha();
    FixtureHost();
    DefunktPageChars();
    BarePageLine(Fixture, Local, DefunktHub, "https", "a319d88");
    DefunktPage();
    FetchOrigin();
  }
}

=== FILE: examples_pull.dfy ===
/** Literal strings of the pull-request and checkout examples, glued one step at a time. */
module PullLiterals {
  lemma HereYouGoChars()
    ensures ':' !in "hereyougo" && '#' !in "hereyougo" && '?' !in "hereyougo"
    ensures "hereyougo" != "-f" && "hereyougo" != "-b" && "hereyougo" != "-h" && "hereyougo" != "-i"
  {
  }

  /** Command lines glued from their parts. */
  lemma GlueFour<T>(a: T, b: T, c: T, d: T)
    ensures [a] + [b] + [c] + [d] == [a, b, c, d]
  {
  }

  lemma GlueSeven<T>(a: T, b: T, c: T, d: T, e: T, f: T, g: T)
    ensures [a] + [b] + [c, d, e, f] + [g] == [a, b, c, d, e, f, g]
  {
  }

  lemma GlueHead<T>(a: T, b: T, c: T, d: T, e: T)
    ensures [a] + [b, c] == [a, b, c]
    ensures [a] + [b, c, d, e] == [a, b, c, d, e]
  {
  }

  lemma ReviewWord()
    ensures "review" != "checkout" && "review"[0] != '-'
  {
  }

  lemma SameBaseText()
    ensures "Aborted: head branch is the same as base (\"" + "master" + "\")"
         == "Aborted: head branch is the same as base (\"master\")"
  {
    assert "Aborted: head branch is the same as base (\"" + "master" == "Aborted: head branch is the same as base (\"master";
  }

  lemma Files()
    ensures "/" + "pull/73/files" == "/pull/73/files"
  {
  }

  lemma HubFiles()
    ensures "hub" + "/pull/73/files" == "hub/pull/73/files"
  {
  }

  lemma SlashHubFiles()
    ensures "/" + "hub/pull/73/files" == "/hub/pull/73/files"
  {
  }

  lemma DefunktFiles()
    ensures "defunkt" + "/hub/pull/73/files" == "defunkt/hub/pull/73/files"
  {
  }

  lemma SlashDefunktFiles()
    ensures "/" + "defunkt/hub/pull/73/files" == "/defunkt/hub/pull/73/files"
  {
  }

  lemma HostFiles()
    ensures "github.com" + "/defunkt/hub/pull/73/files" == "github.com/defunkt/hub/pull/73/files"
  {
  }

  lemma SchemeFiles()
    ensures "://" + "github.com/defunkt/hub/pull/73/files" == "://github.com/defunkt/hub/pull/73/files"
  {
  }

  lemma HttpsFiles()
    ensures "https" + "://github.com/defunkt/hub/pull/73/files" == "https://github.com/defunkt/hub/pull/73/files"
  {
  }

  /** The page of pull request 73 as `PageUrl` glues it. */
  lemma PullPageGlued()
    ensures "https" + ("://" + ("github.com" + ("/" + ("defunkt" + ("/" + ("hub" + ("/" + "pull/73/files")))))))
         == "https://github.com/defunkt/hub/pull/73/files"
  {
    Files();
    HubFiles();
    SlashHubFiles();
    DefunktFiles();
    SlashDefunktFiles();
    HostFiles();
    SchemeFiles();
    HttpsFiles();
  }

  /** Neither `#` nor `?` occurs in any piece of the page of pull request 73. */
  lemma PullPagePieces()
    ensures '#' !in "https" && '#' !in "://" && '#' !in "github.com" && '#' !in "/"
    ensures '#' !in "defunkt" && '#' !in "hub" && '#' !in "pull/73/files"
    ensures '?' !in "https" && '?' !in "://" && '?' !in "github.com" && '?' !in "/"
    ensures '?' !in "defunkt" && '?' !in "hub" && '?' !in "pull/73/files"
  {
  }

  lemma PullPageWord()
    ensures "https://github.com/defunkt/hub/pull/73/files" != "checkout"
    ensures "https://github.com/defunkt/hub/pull/73/files"[0] != '-'
  {
  }

  lemma PullPathText()
    ensures "pull/" + "73" + "/files" == "pull/73/files"
  {
  }

  lemma BlueyedText()
    ensures "blueyed" + "-" + "feature" == "blueyed-feature"
    ensures "blueyed" + "/" + "feature" == "blueyed/feature"
    ensures "blueyed" != "origin" && "blueyed" != "mislav"
  {
    assert "blueyed"[0] != "origin"[0] && "blueyed"[0] != "mislav"[0];
  }
}

/** The parsed forms of the literal strings. */
module PullText {
  import opened Maybe
  import opened Strings
  import opened Projects
  import opened WebUrls
  import opened FixtureUrls
  import opened PullLines
  import opened PullLiterals

  const PullPage := "https://github.com/defunkt/hub/pull/73/files"

  /** `hereyougo` is no URL. */
  lemma HereYouGoPath()
    ensures PathOnly("hereyougo") == "hereyougo" && ':' !in "hereyougo"
  {
    HereYouGoChars();
  }

  /** The page of pull request 73 on `defunkt/hub`, spelled out. */
  lemma PullPageText()
    ensures PageUrl("https", DefunktHub, "pull/73/files") == PullPage
    ensures '#' !in PullPage && '?' !in PullPage
  {
    PullPageGlued();
    PullPagePieces();
  }

  /** `pull/73/files` is the page of pull request 73. */
  lemma PullPath()
    ensures PathNumber("pull/73/files", PullPrefix) == Some("73")
  {
    assert AllDigits("73");
    PullPathText();
    PathNumberOf(PullPrefix, "73", "/files");
  }

  /** blueyed's fork, over git://. */
  lemma BlueyedUrl()
    ensures CloneUrl(Project("github.com", "blueyed", "hub"), GitWire) == "git://github.com/blueyed/hub.git"
  {
  }
}

/** `pull-request` in the fixture repository (`hub_test.rb` lines 823-827). */
module PullExamples {
  import opened Maybe
  import opened Strings
  import opened Repo
  import opened Outcomes
  import opened FixtureUrls
  import opened Fixtures
  import opened WebUrls
  import opened PullLines
  import opened PullRules
  import opened PullLiterals
  import opened PullText

  /** `hereyougo` is neither a value flag nor an issue page. */
  lemma PlainTitle()
    ensures "hereyougo" != "-f" && !TakesValue("hereyougo") && IssueOfUrl(Fixture, "hereyougo").None?
  {
    HereYouGoChars();
    HereYouGoPath();
  }

  /** The fixture's branch is `master`, tracking `master` of `origin`, whose project is `defunkt/hub`. */
  lemma FixtureOnMaster()
    ensures Local.main == Some(DefunktHub) && Local.current == Some(DefunktHub)
    ensures Local.tracked == Some(("origin", MasterBranch))
  {
  }

  /** On `master` tracking `origin/master`, `pull-request hereyougo` aborts with the head hint. */
  lemma PullRequestSameBase()
    ensures PullRequest(Fixture, Local, ["pull-request", "hereyougo"])
         == Abort(["Aborted: head branch is the same as base (\"master\")",
                   "(use `-h <branch>` to specify an explicit pull request head)"])
  {
    PlainTitle();
    FixtureOnMaster();
    PullSameBase(Fixture, Local, "hereyougo", DefunktHub, "origin");
    SameBaseText();
  }
}

/** `checkout` of a pull request page (`hub_test.rb` lines 987-994). */
module CheckoutExamples {
  import opened Maybe
  import opened Strings
  import opened Projects
  import opened Repo
  import opened Argv
  import opened Outcomes
  import opened WebUrls
  import opened FixtureUrls
  import opened Fixtures
  import opened PullLines
  import opened CheckoutRules
  import opened WebLines
  import opened WebRules
  import opened PullLiterals
  import opened PullText

  /** The fixture, where pull request 73 of `defunkt/hub` comes from blueyed's public `feature` branch. */
  const WithPull := Fixture.(pulls := map[PullId("defunkt", "hub", "73") := PullHead("blueyed", "feature", false)])

  /** The page reads back as the `pull/73/files` page of `defunkt/hub`. */
  lemma PullPageRef()
    ensures ResolveWebUrl(WithPull, PullPage) == Some(WebRef(DefunktHub, "pull/73/files"))
  {
    assert KnownHosts(WithPull) == ["github.com"];
    assert !IsWiki(DefunktHub);
    WellFormedHubs();
    PullPageText();
    WebUrlReadsBack(WithPull, DefunktHub, "pull/73/files");
  }

  /** The page reads back as pull request 73 of `defunkt/hub`. */
  lemma PullPageOf()
    ensures PullOfUrl(WithPull, PullPage) == Some((DefunktHub, "73"))
  {
    PullPageRef();
    PullPath();
  }

  /** blueyed is no remote yet, so the fork is added tracking `feature`. */
  lemma BlueyedAdded()
    ensures PrepareHead(WithPull, Local, DefunktHub, Head73)
         == [Git(["remote", "add", "-f", "-t", "feature", "blueyed", "git://github.com/blueyed/hub.git"])]
  {
    BlueyedText();
    BlueyedUrl();
    var r := PrepareHead(WithPull, Local, DefunktHub, Head73);
    assert r[0].args == ["remote", "add", "-f", "-t", "feature", "blueyed"] + [r[0].args[6]];
  }

  /** One preparing command followed by the checkout. */
  lemma PreparedRun(o: Outcome, prep: seq<Cmd>, c: Cmd, line: Cmd)
    requires o == Run(prep + [line]) && prep == [c]
    ensures o == Run([c, line])
  {
  }

  /** The head of pull request 73. */
  const Head73 := PullHead("blueyed", "feature", false)

  /** The words, the position of URL and the rewritten line of `checkout -f URL -q`. */
  lemma ForcedQuietLine(url: string, local: string, remoteBranch: string)
    requires !IsFlag(url) && url != "checkout"
    ensures Words(["checkout", "-f", url, "-q"]) == ["checkout", url]
    ensures IndexOf(["checkout", "-f", url, "-q"], url) == Some(2)
    ensures TrackLine(["checkout", "-f", url, "-q"], 2, None, local, remoteBranch)
         == Some(["checkout", "-f", "--track", "-B", local, remoteBranch, "-q"])
  {
    GlueFour("checkout", "-f", url, "-q");
    GlueSeven("checkout", "-f", "--track", "-B", local, remoteBranch, "-q");
    assert IsFlag("-f") && IsFlag("-q");
    CheckoutLine(["-f"], url, ["-q"], local, remoteBranch);
  }

  /** `checkout -f URL -q` for any pull request page URL. */
  lemma CheckoutForcedQuiet(ctx: Context, repo: LocalRepo, url: string, p: Project, n: string)
    requires PullOfUrl(ctx, url) == Some((p, n)) && PullId(p.owner, p.name, n) in ctx.pulls
    requires !IsFlag(url) && url != "checkout"
    ensures
      var h := ctx.pulls[PullId(p.owner, p.name, n)];
      Checkout(ctx, repo, ["checkout", "-f", url, "-q"])
        == Run(PrepareHead(ctx, repo, p, h) + [Git(["checkout", "-f", "--track", "-B", h.owner + "-" + h.branch, h.owner + "/" + h.branch, "-q"])])
  {
    var h := ctx.pulls[PullId(p.owner, p.name, n)];
    ForcedQuietLine(url, h.owner + "-" + h.branch, h.owner + "/" + h.branch);
    CheckoutSteps(ctx, repo, ["checkout", "-f", url, "-q"], url, None, p, n, 2,
      ["checkout", "-f", "--track", "-B", h.owner + "-" + h.branch, h.owner + "/" + h.branch, "-q"]);
  }

  /** `checkout -f PAGE -q` prepares the head and checks it out tracking its branch. */
  lemma CheckoutPullSteps()
    ensures Checkout(WithPull, Local, ["checkout", "-f", PullPage, "-q"])
         == Run(PrepareHead(WithPull, Local, DefunktHub, Head73)
                + [Git(["checkout", "-f", "--track", "-B", "blueyed" + "-" + "feature", "blueyed" + "/" + "feature", "-q"])])
  {
    PullPageOf();
    PullPageWord();
    assert WithPull.pulls[PullId("defunkt", "hub", "73")] == Head73;
    CheckoutForcedQuiet(WithPull, Local, PullPage, DefunktHub, "73");
  }

  /** `checkout -f PAGE -q` adds blueyed's fork and checks out `blueyed-feature` tracking `blueyed/feature`. */
  lemma CheckoutPullPage()
    ensures Checkout(WithPull, Local, ["checkout", "-f", PullPage, "-q"])
         == Run([Git(["remote", "add", "-f", "-t", "feature", "blueyed", "git://github.com/blueyed/hub.git"]),
                 Git(["checkout", "-f", "--track", "-B", "blueyed-feature", "blueyed/feature", "-q"])])
  {
    CheckoutPullSteps();
    BlueyedAdded();
    PreparedRun(Checkout(WithPull, Local, ["checkout", "-f", PullPage, "-q"]), PrepareHead(WithPull, Local, DefunktHub, Head73),
      Git(["remote", "add", "-f", "-t", "feature", "blueyed", "git://github.com/blueyed/hub.git"]),
      Git(["checkout", "-f", "--track", "-B", "blueyed" + "-" + "feature", "blueyed" + "/" + "feature", "-q"]));
    BlueyedText();
  }

  /** `checkout PAGE review` prepares the head and checks it out as `review`. */
  lemma CheckoutReviewSteps()
    ensures Checkout(WithPull, Local, ["checkout", PullPage, "review"])
         == Run(PrepareHead(WithPull, Local, DefunktHub, Head73)
                + [Git(["checkout", "--track", "-B", "review", "blueyed" + "/" + "feature"])])
  {
    PullPageOf();
    PullPageWord();
    ReviewWord();
    assert WithPull.pulls[PullId("defunkt", "hub", "73")] == Head73;
    CheckoutPullNamed(WithPull, Local, PullPage, "review", DefunktHub, "73");
    GlueHead("checkout", PullPage, "review", "", "");
    GlueHead("checkout", "--track", "-B", "review", "blueyed" + "/" + "feature");
  }

  /** `checkout PAGE review` adds blueyed's fork and checks out `review` tracking `blueyed/feature`. */
  lemma CheckoutPullReview()
    ensures Checkout(WithPull, Local, ["checkout", PullPage, "review"])
         == Run([Git(["remote", "add", "-f", "-t", "feature", "blueyed", "git://github.com/blueyed/hub.git"]),
                 Git(["checkout", "--track", "-B", "review", "blueyed/feature"])])
  {
    CheckoutReviewSteps();
    BlueyedAdded();
    PreparedRun(Checkout(WithPull, Local, ["checkout", PullPage, "review"]), PrepareHead(WithPull, Local, DefunktHub, Head73),
      Git(["remote", "add", "-f", "-t", "feature", "blueyed", "git://github.com/blueyed/hub.git"]),
      Git(["checkout", "--track", "-B", "review", "blueyed" + "/" + "feature"]));
    BlueyedText();
  }
}

=== FILE: fetch.dfy ===
/**
 * The remote names a `git fetch` or `git push` command line mentions: a
 * comma-separated list of names, or the words after `--multiple`.
 */
module FetchLines {
  import opened Maybe
  import opened Strings
  import opened Argv

  /** `^\w+(,\w+)+$`: two or more remote names, each `\w+`, joined by commas. */
  predicate IsCommaList(s: string) {
    var parts := Split(s, ',');
    |parts| >= 2 && forall i | 0 <= i < |parts| :: parts[i] != "" && AllWord(parts[i])
  }

  /** The names of a comma list glue back into it, and the list is no option. */
  lemma CommaListNames(s: string)
    requires IsCommaList(s)
    ensures Join(Split(s, ','), ",") == s
    ensures ',' in s && !IsFlag(s) && s != "--multiple"
  {
    JoinSplit(s, ',');
    var parts := Split(s, ',');
    assert Join(parts, ",") == parts[0] + "," + Join(parts[1..], ",");
    assert s[|parts[0]|] == ',';
    assert parts[0][0] in parts[0];
    assert s[0] == parts[0][0];
    assert ',' !in "--multiple";
  }

  /** The remotes a fetch names and its command line once a comma list is spelled out. */
  datatype FetchLine = FetchLine(names: seq<string>, args: seq<string>)

  /**
   * With `--multiple` every word after `fetch` is a remote name. Otherwise
   * the first word after `fetch` is one; when it is a comma list it is
   * replaced, where it stood, by `--multiple` and its names, and any other
   * copy of it is dropped.
   */
  function FetchNames(args: seq<string>): (r: FetchLine)
    ensures forall n | n in r.names :: n in r.args
    ensures "--multiple" in args ==> r.args == args
    ensures "--multiple" in args && |Words(args)| > 0 ==> r.names == Words(args)[1..]
    ensures "--multiple" !in args && |Words(args)| >= 2 && IsCommaList(Words(args)[1]) ==>
      Join(r.names, ",") == Words(args)[1] && |r.names| >= 2 && "--multiple" in r.args
    ensures "--multiple" !in args && |Words(args)| >= 2 && !IsCommaList(Words(args)[1]) ==>
      r == FetchLine([Words(args)[1]], args)
    ensures "--multiple" !in args && |Words(args)| < 2 ==> r == FetchLine([], args)
  {
    var w := Words(args);
    if "--multiple" in args then
      if |w| > 0 then FetchLine(w[1..], args) else FetchLine([], args)
    else if |w| < 2 then FetchLine([], args)
    else if IsCommaList(w[1]) then
      var x := w[1];
      var names := Split(x, ',');
      var k := IndexOf(args, x).value;
      RemoveKeepsPrefix(args, x, k);
      CommaListNames(x);
      var out := InsertAt(Remove(args, x), k, ["--multiple"] + names);
      assert out == Remove(args, x)[..k] + (["--multiple"] + names) + Remove(args, x)[k..];
      assert forall n | n in names :: n in out;
      FetchLine(names, out)
    else FetchLine([w[1]], args)
  }

  /** How `FetchNames` reads a command line whose first word after `fetch` is a comma list. */
  lemma FetchCommaSteps(args: seq<string>, w: seq<string>, x: string, k: nat, removed: seq<string>)
    requires "--multiple" !in args && Words(args) == w && |w| >= 2 && w[1] == x && IsCommaList(x)
    requires IndexOf(args, x) == Some(k) && Remove(args, x) == removed && k <= |removed|
    ensures FetchNames(args) == FetchLine(Split(x, ','), InsertAt(removed, k, ["--multiple"] + Split(x, ',')))
  {
  }

  /** The words of `fetch FLAGS x REST`. */
  lemma FetchWords(flags: seq<string>, x: string, rest: seq<string>)
    requires forall f | f in flags :: IsFlag(f)
    requires !IsFlag(x)
    ensures Words(["fetch"] + flags + [x] + rest) == ["fetch", x] + Words(rest)
  {
    WordsAroundFlags(["fetch"], flags, [x]);
    WordsAppend(["fetch"] + flags + [x], rest);
  }

  /** Removing `x` from `PRE x REST` when `PRE` has none. */
  lemma RemoveAfter(pre: seq<string>, x: string, rest: seq<string>)
    requires x !in pre
    ensures Remove(pre + [x] + rest, x) == pre + Remove(rest, x)
    ensures InsertAt(pre + Remove(rest, x), |pre|, ["--multiple"] + Split(x, ','))
         == pre + ["--multiple"] + Split(x, ',') + Remove(rest, x)
  {
    RemoveAppend(pre + [x], rest, x);
    RemoveAppend(pre, [x], x);
    assert (pre + Remove(rest, x))[..|pre|] == pre;
    assert (pre + Remove(rest, x))[|pre|..] == Remove(rest, x);
  }

  /**
   * `fetch FLAGS x REST` with a comma list `x`: the list is spelled out as
   * `--multiple` and its names where it stood; later copies of it go.
   */
  lemma FetchCommaLine(flags: seq<string>, x: string, rest: seq<string>)
    requires forall f | f in flags :: IsFlag(f)
    requires "--multiple" !in flags && "--multiple" !in rest
    requires IsCommaList(x)
    ensures FetchNames(["fetch"] + flags + [x] + rest)
         == FetchLine(Split(x, ','), ["fetch"] + flags + ["--multiple"] + Split(x, ',') + Remove(rest, x))
  {
    var pre := ["fetch"] + flags;
    var args := pre + [x] + rest;
    assert !IsFlag(x) && x != "--multiple" && x !in pre by {
      CommaListNames(x);
      assert ',' !in "fetch";
    }
    assert "--multiple" !in args;
    FetchWords(flags, x, rest);
    IndexOfJoin(args, pre, x, rest);
    RemoveAfter(pre, x, rest);
    FetchCommaSteps(args, ["fetch", x] + Words(rest), x, |pre|, pre + Remove(rest, x));
  }

  /** The words of `args` from position `k` on; none when it is shorter. */
  function From(args: seq<string>, k: nat): seq<string> {
    if |args| > k then args[k..] else []
  }

  /** Ruby's `split`: the parts between separators, trailing empty parts dropped. */
  function RubySplit(s: string, c: char): (r: seq<string>)
    ensures |r| <= |Split(s, c)| && r == Split(s, c)[..|r|]
    ensures |r| > 0 ==> r[|r| - 1] != ""
    ensures forall i | |r| <= i < |Split(s, c)| :: Split(s, c)[i] == ""
    ensures forall i | 0 <= i < |r| :: c !in r[i]
  {
    DropTrailingEmpty(Split(s, c))
  }

  /** `parts` without its trailing empty strings. */
  function DropTrailingEmpty(parts: seq<string>): (r: seq<string>)
    ensures |r| <= |parts| && r == parts[..|r|]
    ensures |r| > 0 ==> r[|r| - 1] != ""
    ensures forall i | |r| <= i < |parts| :: parts[i] == ""
    decreases |parts|
  {
    if |parts| == 0 then []
    else if parts[|parts| - 1] == "" then DropTrailingEmpty(parts[..|parts| - 1])
    else parts
  }

  /** A string that does not end in the separator loses no piece to Ruby's `split`. */
  lemma RubySplitWhole(s: string, c: char)
    requires |s| > 0 && s[|s| - 1] != c
    ensures RubySplit(s, c) == Split(s, c)
  {
    SplitLastPart(s, c);
  }

  /**
   * The command lines of a push to several remotes: the first keeps the
   * whole command line with the first remote in place of the list, the
   * others push the same branch to the remaining remotes.
   */
  function PushLines(full: seq<string>, remotes: seq<string>): (r: seq<seq<string>>)
    requires |full| >= 3 && |remotes| > 0
    ensures |r| == |remotes|
    ensures forall i | 0 <= i < |r| :: |r[i]| >= 3 && r[i][1] == remotes[i] && r[i][2] == full[2]
    ensures |r[0]| == |full| && forall j | 0 <= j < |full| && j != 1 :: r[0][j] == full[j]
    ensures forall i | 1 <= i < |r| :: r[i] == ["push", remotes[i], full[2]]
  {
    [full[1 := remotes[0]]] + seq(|remotes| - 1, i requires 0 <= i < |remotes| - 1 => ["push", remotes[i + 1], full[2]])
  }
}

/**
 * `git fetch` adds a remote for each name that is a GitHub user with a
 * fork of this repository; `git push` to a comma list pushes to each remote
 * in turn.
 */
module FetchRules {
  import opened Maybe
  import opened Strings
  import opened Projects
  import opened Repo
  import opened Argv
  import opened Outcomes
  import opened CloneRules
  import opened FetchLines

  /**
   * A name `fetch` adds a remote for: `\w+` only (no URL, no path), not a
   * remote already, not a remote group, and its owner's fork of this
   * repository exists.
   */
  predicate AddsRemote(ctx: Context, repo: LocalRepo, name: string) {
    AllWord(name) && name !in repo.remotes && name !in ctx.remoteGroups
    && OwnedProject(repo, name, repo.name) in ctx.existing
  }

  /** The names of `names` that `fetch` adds a remote for, in their order. */
  function NewRemotes(ctx: Context, repo: LocalRepo, names: seq<string>): (r: seq<string>)
    ensures forall n :: n in r <==> n in names && AddsRemote(ctx, repo, n)
    ensures |r| <= |names|
    decreases |names|
  {
    if |names| == 0 then []
    else
      assert names == [names[0]] + names[1..];
      (if AddsRemote(ctx, repo, names[0]) then [names[0]] else []) + NewRemotes(ctx, repo, names[1..])
  }

  /** Filtering keeps the order: the new remotes of a list are those of its parts, in turn. */
  lemma {:induction false} NewRemotesAppend(ctx: Context, repo: LocalRepo, a: seq<string>, b: seq<string>)
    ensures NewRemotes(ctx, repo, a + b) == NewRemotes(ctx, repo, a) + NewRemotes(ctx, repo, b)
    decreases |a|
  {
    if |a| > 0 {
      assert (a + b)[1..] == a[1..] + b;
      NewRemotesAppend(ctx, repo, a[1..], b);
    } else {
      assert a + b == b;
    }
  }

  /** A list naming no new fork adds no remote. */
  lemma {:induction false} NoNewRemotes(ctx: Context, repo: LocalRepo, names: seq<string>)
    requires forall n | n in names :: !AddsRemote(ctx, repo, n)
    ensures NewRemotes(ctx, repo, names) == []
    decreases |names|
  {
    if |names| > 0 {
      assert names[0] in names;
      NoNewRemotes(ctx, repo, names[1..]);
    }
  }

  /** `remote add NAME URL` for a user's fork of this repository, read-only. */
  function AddRemote(ctx: Context, repo: LocalRepo, name: string): (r: Cmd)
    ensures r.Git? && |r.args| == 4 && r.args[..3] == ["remote", "add", name]
    ensures ':' in r.args[3]
  {
    Git(["remote", "add", name, TargetUrl(ctx, OwnedProject(repo, name, repo.name), false)])
  }

  /** `git fetch`: the new remotes are added first, then the fetch runs. */
  function Fetch(ctx: Context, repo: LocalRepo, args: seq<string>): (r: Outcome)
    ensures r.Run? && |r.cmds| == |NewRemotes(ctx, repo, FetchNames(args).names)| + 1
    ensures r.cmds[|r.cmds| - 1] == Git(FetchNames(args).args)
    ensures forall i | 0 <= i < |r.cmds| - 1 :: r.cmds[i] == AddRemote(ctx, repo, NewRemotes(ctx, repo, FetchNames(args).names)[i])
  {
    var line := FetchNames(args);
    var added := NewRemotes(ctx, repo, line.names);
    Run(seq(|added|, i requires 0 <= i < |added| => AddRemote(ctx, repo, added[i])) + [Git(line.args)])
  }

  /** A fetch that names no new fork runs as spelled out, with no remote added. */
  lemma FetchKnownRemotes(ctx: Context, repo: LocalRepo, args: seq<string>)
    requires forall n | n in FetchNames(args).names :: !AddsRemote(ctx, repo, n)
    ensures Fetch(ctx, repo, args) == Forward(FetchNames(args).args)
  {
    NoNewRemotes(ctx, repo, FetchNames(args).names);
  }

  /**
   * `git push R1,R2,... [BRANCH]`: one push per remote of the list, each of
   * BRANCH, by default the current branch. The first push keeps the rest of
   * the command line; the others are plain `push REMOTE BRANCH`.
   */
  function Push(ctx: Context, repo: LocalRepo, args: seq<string>): (r: Outcome)
    ensures (|args| < 2 || ',' !in args[1]) ==> r == Forward(args)
    ensures |args| >= 2 && ',' in args[1] ==>
      (r.Run? || r.Crash?)
      && (r.Crash? <==> (|args| == 2 && repo.branch.None?) || |RubySplit(args[1], ',')| == 0)
    ensures r.Run? && |args| >= 2 && ',' in args[1] ==>
      var remotes := RubySplit(args[1], ',');
      var branch := if |args| > 2 then args[2] else repo.branch.GetOr("");
      && |r.cmds| == |remotes| > 0
      && r.cmds[0] == Git([args[0], remotes[0], branch] + From(args, 3))
      && forall i | 1 <= i < |r.cmds| :: r.cmds[i] == Git(["push", remotes[i], branch])
  {
    if |args| < 2 || ',' !in args[1] then Forward(args)
    else
      var remotes := RubySplit(args[1], ',');
      if |args| == 2 && repo.branch.None? then Crash("no branch to push")
      else if |remotes| == 0 then Crash("no remote to push to")
      else
        var full := if |args| > 2 then args else args + [repo.branch.value];
        PushFull(args, repo.branch.GetOr(""), full);
        PushRun(full, remotes)
  }

  /** The command line with the branch filled in reads as the command, the list, the branch and the rest. */
  lemma PushFull(args: seq<string>, branch: string, full: seq<string>)
    requires |args| >= 2
    requires full == if |args| > 2 then args else args + [branch]
    ensures |full| >= 3 && full[0] == args[0]
    ensures full[2] == (if |args| > 2 then args[2] else branch)
    ensures full[3..] == From(args, 3)
  {
  }

  /** One `git` command per line of PushLines. */
  function PushRun(full: seq<string>, remotes: seq<string>): (r: Outcome)
    requires |full| >= 3 && |remotes| > 0
    ensures r.Run? && |r.cmds| == |remotes|
    ensures r.cmds[0] == Git([full[0], remotes[0], full[2]] + full[3..])
    ensures forall i | 1 <= i < |r.cmds| :: r.cmds[i] == Git(["push", remotes[i], full[2]])
  {
    var lines := PushLines(full, remotes);
    assert lines[0] == [full[0], remotes[0], full[2]] + full[3..];
    Run(seq(|lines|, i requires 0 <= i < |lines| => Git(lines[i])))
  }

  /** `push REMOTE BRANCH` for each remote in turn. */
  function PlainPushes(remotes: seq<string>, branch: string): (r: seq<Cmd>)
    ensures |r| == |remotes|
    ensures forall i | 0 <= i < |remotes| :: r[i] == Git(["push", remotes[i], branch])
  {
    seq(|remotes|, i requires 0 <= i < |remotes| => Git(["push", remotes[i], branch]))
  }

  /**
   * `push R1,R2,... [BRANCH]` with nothing after the branch is one plain
   * `push R BRANCH` per remote of the list, in the list's order.
   */
  lemma PushPlain(ctx: Context, repo: LocalRepo, args: seq<string>, remotes: seq<string>, branch: string)
    requires 2 <= |args| <= 3 && args[0] == "push" && ',' in args[1]
    requires RubySplit(args[1], ',') == remotes && |remotes| > 0
    requires branch == if |args| == 3 then args[2] else repo.branch.GetOr("")
    requires |args| == 2 ==> repo.branch.Some?
    ensures Push(ctx, repo, args) == Run(PlainPushes(remotes, branch))
  {
    var r := Push(ctx, repo, args);
    assert From(args, 3) == [];
    assert [args[0], remotes[0], branch] + From(args, 3) == ["push", remotes[0], branch];
    assert r.cmds == PlainPushes(remotes, branch);
  }

  /** The remote each `git` command of `cmds` names second; empty for other steps. */
  function Targets(cmds: seq<Cmd>): (r: seq<string>)
    ensures |r| == |cmds|
    ensures forall i | 0 <= i < |cmds| && cmds[i].Git? && |cmds[i].args| >= 2 :: r[i] == cmds[i].args[1]
  {
    seq(|cmds|, i requires 0 <= i < |cmds| => if cmds[i].Git? && |cmds[i].args| >= 2 then cmds[i].args[1] else "")
  }

  /** Commands that go to `remotes` in order have exactly those targets. */
  lemma TargetsOf(cmds: seq<Cmd>, remotes: seq<string>)
    requires |cmds| == |remotes|
    requires forall i | 0 <= i < |cmds| :: cmds[i].Git? && |cmds[i].args| >= 2 && cmds[i].args[1] == remotes[i]
    ensures Targets(cmds) == remotes
  {
  }

  /**
   * The remotes the pushes go to, joined with commas, spell the list as it
   * was typed, when the list does not end in a comma.
   */
  lemma PushRemotesRejoin(ctx: Context, repo: LocalRepo, args: seq<string>)
    requires |args| >= 2 && ',' in args[1] && args[1][|args[1]| - 1] != ','
    requires Push(ctx, repo, args).Run?
    ensures Join(Targets(Push(ctx, repo, args).cmds), ",") == args[1]
  {
    PushTargets(ctx, repo, args);
    RubySplitWhole(args[1], ',');
    JoinSplit(args[1], ',');
  }

  /** The pushes go to the remotes of the list, in order. */
  lemma PushTargets(ctx: Context, repo: LocalRepo, args: seq<string>)
    requires |args| >= 2 && ',' in args[1]
    requires Push(ctx, repo, args).Run?
    ensures Targets(Push(ctx, repo, args).cmds) == RubySplit(args[1], ',')
  {
    var cmds := Push(ctx, repo, args).cmds;
    var remotes := RubySplit(args[1], ',');
    forall i | 0 <= i < |cmds|
      ensures cmds[i].Git? && |cmds[i].args| >= 2 && cmds[i].args[1] == remotes[i]
    {
      if i == 0 {
        assert cmds[0].args[1] == remotes[0];
      }
    }
    TargetsOf(cmds, remotes);
  }
}

=== FILE: hosting.dfy ===
/**
 * The options of `git create`: `-d DESCRIPTION`, `-h HOMEPAGE` and one
 * `[OWNER/]NAME`.
 */
module CreateLines {
  import opened Maybe
  import opened Strings
  import opened Argv

  /** What the options of `create` say. */
  datatype CreateArgs = CreateArgs(description: Option<string>, homepage: Option<string>, name: Option<string>)

  datatype CreateParse = Read(opts: CreateArgs) | Invalid(arg: string)

  /**
   * The options, one at a time: `-d` and `-h` take the next argument (none
   * at the end); the first argument that does not start with `-` is the
   * name; anything else is invalid.
   */
  function ParseCreate(args: seq<string>, acc: CreateArgs): (r: CreateParse)
    ensures r.Invalid? ==> r.arg in args && (r.arg == "" || IsFlag(r.arg) || acc.name.Some? || exists i | 0 <= i < |args| :: !IsFlag(args[i]) && args[i] != "")
    ensures r.Read? && acc.name.Some? ==> r.opts.name == acc.name
    ensures r.Read? && acc.name.None? && r.opts.name.Some? ==> (
      r.opts.name.value != "" && !IsFlag(r.opts.name.value) && r.opts.name.value in args)
    decreases |args|
  {
    if |args| == 0 then Read(acc)
    else
      var a := args[0];
      assert forall x | x in args[1..] :: x in args;
      if a == "-d" || a == "-h" then
        var v := Nth(args, 1);
        var rest := if |args| >= 2 then args[2..] else [];
        assert forall x | x in rest :: x in args;
        ParseCreate(rest, if a == "-d" then acc.(description := v) else acc.(homepage := v))
      else if a != "" && !IsFlag(a) && acc.name.None? then
        ParseCreate(args[1..], acc.(name := Some(a)))
      else
        assert !IsFlag(args[0]) && args[0] != "" ==> exists i | 0 <= i < |args| :: !IsFlag(args[i]) && args[i] != "";
        Invalid(a)
  }

  /** No options at all. */
  const NoOptions := CreateArgs(None, None, None)

  /** `-d D -h H` read in either order gives the same options. */
  lemma ParseCreateOrder(d: string, h: string, rest: seq<string>)
    ensures ParseCreate(["-d", d, "-h", h] + rest, NoOptions) == ParseCreate(["-h", h, "-d", d] + rest, NoOptions)
  {
    assert (["-d", d, "-h", h] + rest)[2..] == ["-h", h] + rest;
    assert (["-h", h] + rest)[2..] == rest;
    assert (["-h", h, "-d", d] + rest)[2..] == ["-d", d] + rest;
    assert (["-d", d] + rest)[2..] == rest;
  }

  /** A lone name is the name. */
  lemma ParseCreateName(name: string)
    requires name != "" && !IsFlag(name) && name != "-d" && name != "-h"
    ensures ParseCreate([name], NoOptions) == Read(CreateArgs(None, None, Some(name)))
  {
  }

  /** A second name is invalid. */
  lemma ParseCreateTwoNames(a: string, b: string)
    requires a != "" && !IsFlag(a) && b != "" && !IsFlag(b)
    ensures ParseCreate([a, b], NoOptions) == Invalid(b)
  {
    assert [a, b][1..] == [b];
  }

  /** An unknown option is invalid, whatever follows. */
  lemma ParseCreateUnknown(flag: string, rest: seq<string>)
    requires IsFlag(flag) && flag != "-d" && flag != "-h"
    ensures ParseCreate([flag] + rest, NoOptions) == Invalid(flag)
  {
  }
}

/**
 * `git create` and `git fork`: a repository is created (or forked) through
 * the API unless it already exists, and a remote is added for it.
 */
module HostingRules {
  import opened Maybe
  import opened Strings
  import opened Projects
  import opened Repo
  import opened Argv
  import opened Outcomes
  import opened CreateLines

  const OutsideRepoMessage := "'create' must be run from inside a git repository"
  const NotRepoMessage := "fatal: Not a git repository"
  const NoRemoteFlag := "--no-remote"

  function ExistsLine(owner: string, name: string, host: string): string {
    owner + "/" + name + " already exists on " + host
  }

  /** The user and token for `host`, or the line to stop with when one is missing. */
  function Credentials(ctx: Context, host: string): (r: Result<Creds, string>)
    ensures r.Ok? <==> User(ctx, host).Some? && Token(ctx, host).Some?
    ensures r.Ok? ==> r.value == Creds(User(ctx, host).value, Token(ctx, host).value)
    ensures r.Err? && User(ctx, host).None? ==> r.error == NoUserMessage
    ensures r.Err? && User(ctx, host).Some? ==> r.error == NoTokenMessage
  {
    match User(ctx, host)
    case None => Err(NoUserMessage)
    case Some(u) =>
      match Token(ctx, host)
      case None => Err(NoTokenMessage)
      case Some(t) => Ok(Creds(u, t))
  }

  /**
   * The owner and name of the repository `create` makes: `OWNER/NAME`
   * splits at the first `/`; a plain NAME is the user's; none is the
   * user's repository named like this one.
   */
  function CreateTarget(repo: LocalRepo, user: string, name: Option<string>): (r: (string, string))
    ensures name.None? ==> r == (user, repo.name)
    ensures name.Some? && '/' !in name.value ==> r == (user, name.value)
    ensures name.Some? && '/' in name.value ==> r.0 + "/" + r.1 == name.value && '/' !in r.0
  {
    match name
    case None => (user, repo.name)
    case Some(n) =>
      if '/' in n then
        SplitFirstParts(n, '/');
        SplitFirst(n, '/').value
      else (user, n)
  }

  /**
   * After the repository is there: `origin` is added pointing at it unless
   * the repository has an origin already (then the remotes are listed),
   * and the action is reported.
   */
  function SetOrigin(ctx: Context, repo: LocalRepo, p: Project, action: string): (r: seq<Cmd>)
    ensures |r| == 2 && r[1] == Say(action + ": " + p.owner + "/" + p.name)
    ensures "origin" !in repo.remotes ==> r[0] == Git(["remote", "add", "-f", "origin", ContextUrl(ctx, p, true)])
    ensures "origin" in repo.remotes ==> r[0] == Git(["remote", "-v"])
  {
    var git := if "origin" !in repo.remotes then Git(["remote", "add", "-f", "origin", ContextUrl(ctx, p, true)]) else Git(["remote", "-v"]);
    [git, Say(action + ": " + p.owner + "/" + p.name)]
  }

  /**
   * `git create [-p] [-d D] [-h H] [[OWNER/]NAME]`: needs a repository, a
   * user and a token; an existing repository is only reported, otherwise
   * it is created (public unless `-p`; named with its owner when that is
   * not the user).
   */
  function Create(ctx: Context, repo: LocalRepo, args: seq<string>): (r: Outcome)
    ensures !ctx.insideRepo ==> r == Abort([OutsideRepoMessage])
    ensures r.Run? ==> |r.cmds| == 3 && r.cmds[2].Say?
    ensures r.Run? && r.cmds[0].Api? ==> r.cmds[0].call.CreateRepo? && r.cmds[0].call.private == (|args| > 0 && "-p" in args[1..])
    ensures r.Fail? && r.done != [] ==> ctx.reply.Rejected? && |r.done| == 1 && r.done[0].Api?
  {
    if !ctx.insideRepo then Abort([OutsideRepoMessage])
    else
      match Credentials(ctx, repo.host)
      case Err(line) => Abort([line])
      case Ok(auth) =>
        var rest := if |args| > 0 then args[1..] else [];
        match ParseCreate(Remove(rest, "-p"), NoOptions)
        case Invalid(a) => Abort(["invalid argument: " + a])
        case Read(o) => Created(ctx, repo, auth, o, "-p" in rest)
  }

  /**
   * `create` once its options are read: an existing repository is only
   * reported; otherwise it is requested, named with its owner when that
   * is not the user.
   */
  function Created(ctx: Context, repo: LocalRepo, auth: Creds, o: CreateArgs, private: bool): (r: Outcome)
    ensures r.Run? || (r.Fail? && r.done != [] && ctx.reply.Rejected?)
    ensures r.Run? ==> |r.cmds| == 3 && r.cmds[2].Say?
    ensures r.Run? && r.cmds[0].Api? ==> r.cmds[0].call.CreateRepo? && r.cmds[0].call.private == private
    ensures r.Fail? ==> |r.done| == 1 && r.done[0].Api?
  {
    var (owner, name) := CreateTarget(repo, auth.user, o.name);
    var p := Project(repo.host, owner, name);
    if p in ctx.existing then
      Run([Say(ExistsLine(owner, name, repo.host))] + SetOrigin(ctx, repo, p, "set remote origin"))
    else
      var call := CreateRepo(repo.host, if owner == auth.user then name else owner + "/" + name,
                             private, o.description, o.homepage, auth);
      match ctx.reply
      case Rejected(status, reason, errors) => Fail([Api(call)], HttpErrorLines("creating repository", status, reason, errors))
      case Accepted(_) => Run([Api(call)] + SetOrigin(ctx, repo, p, "created repository"))
  }

  /**
   * `git fork [--no-remote]`: needs a repository whose origin is on GitHub
   * (anything else goes to git), a user and a token; a fork the user
   * already has stops it; otherwise the fork is made and, unless
   * `--no-remote`, added as a remote named after the user.
   */
  function Fork(ctx: Context, repo: LocalRepo, args: seq<string>): (r: Outcome)
    ensures !ctx.insideRepo ==> r == Abort([NotRepoMessage])
    ensures ctx.insideRepo && repo.main.None? ==> r == Forward(args)
    ensures r.Run? && repo.main.Some? ==> (
      |r.cmds| >= 1 && r.cmds[0].Api? && r.cmds[0].call == ForkRepo(repo.main.value, r.cmds[0].call.auth)
      && Credentials(ctx, repo.host) == Ok(r.cmds[0].call.auth)
      && (NoRemoteFlag in args ==> |r.cmds| == 1)
      && (NoRemoteFlag !in args ==>
            var u := r.cmds[0].call.auth.user;
            r.cmds[1..] == [Git(["remote", "add", "-f", u, ContextUrl(ctx, Project(repo.host, u, repo.name), true)]),
                            Say("new remote: " + u)]))
    ensures r.Fail? && r.done != [] ==> (
      repo.main.Some? && ctx.reply.Rejected? && |r.done| == 1 && r.done[0].Api?
      && r.done[0].call == ForkRepo(repo.main.value, r.done[0].call.auth)
      && r.lines == HttpErrorLines("creating fork", ctx.reply.status, ctx.reply.reason, ctx.reply.errors))
    ensures ctx.insideRepo && repo.main.Some? && Credentials(ctx, repo.host).Ok?
            && Project(repo.host, Credentials(ctx, repo.host).value.user, repo.name) !in ctx.existing
            ==> (r.Run? <==> ctx.reply.Accepted?) && (r.Fail? ==> r.done != [])
  {
    if !ctx.insideRepo then Abort([NotRepoMessage])
    else
      match repo.main
      case None => Forward(args)
      case Some(m) =>
        match Credentials(ctx, repo.host)
        case Err(line) => Abort([line])
        case Ok(auth) =>
          var mine := Project(repo.host, auth.user, repo.name);
          if mine in ctx.existing then Abort(["Error creating fork: " + ExistsLine(auth.user, repo.name, repo.host)])
          else
            var call := ForkRepo(m, auth);
            match ctx.reply
            case Rejected(status, reason, errors) => Fail([Api(call)], HttpErrorLines("creating fork", status, reason, errors))
            case Accepted(_) =>
              if NoRemoteFlag in args then Run([Api(call)])
              else Run([Api(call), Git(["remote", "add", "-f", auth.user, ContextUrl(ctx, mine, true)]), Say("new remote: " + auth.user)])
  }

  /** `--no-remote` stops right after the fork is made: its one command is the first of the plain fork. */
  lemma ForkNoRemote(ctx: Context, repo: LocalRepo, args: seq<string>)
    requires NoRemoteFlag !in args
    ensures Fork(ctx, repo, args + [NoRemoteFlag]).Run? && repo.main.Some? ==> (
      Fork(ctx, repo, args).Run? && |Fork(ctx, repo, args).cmds| == 3
      && Fork(ctx, repo, args + [NoRemoteFlag]).cmds == Fork(ctx, repo, args).cmds[..1])
  {
    assert NoRemoteFlag in args + [NoRemoteFlag];
  }

  /** A fork the user already has is reported as an error, and nothing is requested. */
  lemma ForkExisting(ctx: Context, repo: LocalRepo, args: seq<string>, m: Project, u: string, t: string)
    requires ctx.insideRepo && repo.main == Some(m)
    requires User(ctx, repo.host) == Some(u) && Token(ctx, repo.host) == Some(t)
    requires Project(repo.host, u, repo.name) in ctx.existing
    ensures Fork(ctx, repo, args) == Abort(["Error creating fork: " + ExistsLine(u, repo.name, repo.host)])
    ensures !CallsApi(Fork(ctx, repo, args))
  {
  }

  /** `-p` anywhere only makes the new repository private: the commands are otherwise the same. */
  lemma CreatePrivate(ctx: Context, repo: LocalRepo, args: seq<string>)
    requires |args| > 0 && "-p" !in args[1..]
    ensures Create(ctx, repo, args + ["-p"]).Run? <==> Create(ctx, repo, args).Run?
    ensures Create(ctx, repo, args).Run? && Create(ctx, repo, args).cmds[0].Api? ==> (
      Create(ctx, repo, args + ["-p"]).cmds[1..] == Create(ctx, repo, args).cmds[1..]
      && Create(ctx, repo, args + ["-p"]).cmds[0] == Api(Create(ctx, repo, args).cmds[0].call.(private := true)))
  {
    assert (args + ["-p"])[1..] == args[1..] + ["-p"];
    assert Remove(args[1..] + ["-p"], "-p") == args[1..] by {
      RemoveAppend(args[1..], ["-p"], "-p");
      assert Remove(["-p"], "-p") == [];
    }
    assert "-p" in (args + ["-p"])[1..];
  }

  /** A repository that exists already is not created again: no request is made, and the remote is still set. */
  lemma CreateExisting(ctx: Context, repo: LocalRepo, args: seq<string>, u: string, t: string, o: CreateArgs)
    requires ctx.insideRepo && User(ctx, repo.host) == Some(u) && Token(ctx, repo.host) == Some(t)
    requires ParseCreate(Remove(if |args| > 0 then args[1..] else [], "-p"), NoOptions) == Read(o)
    requires Project(repo.host, CreateTarget(repo, u, o.name).0, CreateTarget(repo, u, o.name).1) in ctx.existing
    ensures Create(ctx, repo, args).Run? && !CallsApi(Create(ctx, repo, args))
    ensures Create(ctx, repo, args).cmds[0] == Say(ExistsLine(CreateTarget(repo, u, o.name).0, CreateTarget(repo, u, o.name).1, repo.host))
  {
    var p := Project(repo.host, CreateTarget(repo, u, o.name).0, CreateTarget(repo, u, o.name).1);
    var cmds := [Say(ExistsLine(p.owner, p.name, repo.host))] + SetOrigin(ctx, repo, p, "set remote origin");
    assert forall i | 0 <= i < |cmds| :: !cmds[i].Api?;
  }
}

=== FILE: init.dfy ===
/**
 * `git init -g`: a new repository whose `origin` is the user's GitHub
 * repository named after the working directory.
 */
module InitRules {
  import opened Maybe
  import opened Strings
  import opened Projects
  import opened Repo
  import opened Outcomes

  /** The project `init -g` points origin at: the user's, named after the working directory. */
  function InitProject(ctx: Context, repo: LocalRepo, user: string): (r: Project)
    ensures r.host == repo.host && r.owner == user && r.name == Basename(ctx.pwd)
  {
    Project(repo.host, user, Basename(ctx.pwd))
  }

  /**
   * `git init`: with `-g`, every `-g` is dropped and, after the init, a
   * remote `origin` is added with the private URL of the user's repository;
   * without a login nothing runs.
   */
  function Init(ctx: Context, repo: LocalRepo, args: seq<string>): (r: Outcome)
    ensures "-g" !in args ==> r == Forward(args)
    ensures "-g" in args && User(ctx, repo.host).None? ==> r == Abort([NoUserMessage])
    ensures "-g" in args && User(ctx, repo.host).Some? ==>
      && r.Run? && |r.cmds| == 2 && r.cmds[0] == Git(Remove(args, "-g"))
      && r.cmds[1].Git? && |r.cmds[1].args| == 4 && r.cmds[1].args[..3] == ["remote", "add", "origin"]
  {
    if "-g" !in args then Forward(args)
    else
      match User(ctx, repo.host)
      case None => Abort([NoUserMessage])
      case Some(user) =>
        Run([Git(Remove(args, "-g")), Git(["remote", "add", "origin", ContextUrl(ctx, InitProject(ctx, repo, user), true)])])
  }

  /**
   * The origin `init -g` adds reads back as the user's repository named
   * after the working directory; over ssh unless https is preferred.
   */
  lemma InitOrigin(ctx: Context, repo: LocalRepo, args: seq<string>)
    requires "-g" in args && User(ctx, repo.host).Some?
    requires WellFormed(InitProject(ctx, repo, User(ctx, repo.host).value))
    requires repo.host in KnownHosts(ctx) && repo.host !in ctx.sshAliases
    ensures ProjectOfUrl(Init(ctx, repo, args).cmds[1].args[3], KnownHosts(ctx), ctx.sshAliases)
         == Some(InitProject(ctx, repo, User(ctx, repo.host).value))
    ensures !HttpsPreferred(ctx) ==> Init(ctx, repo, args).cmds[1].args[3] == CloneUrl(InitProject(ctx, repo, User(ctx, repo.host).value), Ssh)
  {
    var p := InitProject(ctx, repo, User(ctx, repo.host).value);
    CloneUrlRoundTrip(p, ChooseProtocol(HttpsPreferred(ctx), true, p.host), KnownHosts(ctx), ctx.sshAliases);
  }
}

=== FILE: maybe.dfy ===
/** An optional value: hub's configuration lookups answer "absent" as often as they answer a value. */
module Maybe {

  datatype Option<T> = None | Some(value: T)
  {
    /** The value, or `default` when there is none. */
    function GetOr(default: T): (r: T)
      ensures this.Some? ==> r == this.value
      ensures this.None? ==> r == default
    {
      match this
      case Some(v) => v
      case None => default
    }
  }

  /** A value, or what went wrong instead. */
  datatype Result<T, E> = Ok(value: T) | Err(error: E)
}

=== FILE: outcomes.dfy ===
/**
 * What an invocation does: the commands it runs in order (git commands,
 * other programs, lines it prints, requests to the hosting API) and where it
 * stops.
 */
module Outcomes {
  import opened Maybe
  import opened Strings
  import opened Projects

  /** The credentials an API request authenticates with. */
  datatype Creds = Creds(user: string, token: string)

  /** A pull request is opened either with a title or by attaching it to an issue. */
  datatype Subject = Title(title: string) | Issue(number: string)

  /** A write request to the hosting API. */
  datatype Call =
    | CreatePull(repo: Project, base: string, head: string, subject: Subject, auth: Creds)
    | CreateRepo(host: string, name: string, private: bool, description: Option<string>, homepage: Option<string>, auth: Creds)
    | ForkRepo(repo: Project, auth: Creds)

  /** One step of an invocation. */
  datatype Cmd =
    | Git(args: seq<string>)
    | Exec(program: string, args: seq<string>)
    | Say(line: string)
    | Api(call: Call)

  datatype Outcome =
    /** Every step runs, in order. */
    | Run(cmds: seq<Cmd>)
    /** The steps in `done` run, then the invocation stops printing `lines`. */
    | Fail(done: seq<Cmd>, lines: seq<string>)
    /** Help, manual or version text, which this model does not render. */
    | Builtin(topic: string)
    /** hub raises an exception here: the situation has no defined behaviour. */
    | Crash(reason: string)

  /** git runs the command line unchanged. */
  function Forward(args: seq<string>): Outcome {
    Run([Git(args)])
  }

  /** A local abort: nothing runs, only the message is printed. */
  function Abort(lines: seq<string>): Outcome {
    Fail([], lines)
  }

  /** Whether any step of the outcome talks to the hosting API. */
  predicate CallsApi(o: Outcome) {
    match o
    case Run(cmds) => exists i | 0 <= i < |cmds| :: cmds[i].Api?
    case Fail(done, _) => exists i | 0 <= i < |done| :: done[i].Api?
    case _ => false
  }

  /** Whether any step of the outcome runs a command or talks to the API. */
  predicate Acts(o: Outcome) {
    match o
    case Run(cmds) => exists i | 0 <= i < |cmds| :: !cmds[i].Say?
    case Fail(done, _) => exists i | 0 <= i < |done| :: !done[i].Say?
    case _ => false
  }

  const ConfigHelpUrl := "http://help.github.com/set-your-user-name-email-and-github-token/"
  const NoUserMessage := "** No GitHub user set. See " + ConfigHelpUrl
  const NoTokenMessage := "** No GitHub token set. See " + ConfigHelpUrl
  const TokenHint := "Check your token configuration (`git config github.token`)"

  /**
   * The report of a rejected API request: a summary naming the action, the
   * reason and the status, then a hint for 401 or the service's own error
   * lines for 422.
   */
  function HttpErrorLines(action: string, status: nat, reason: string, errors: seq<string>): (r: seq<string>)
    ensures |r| >= 1 && r[0] == "Error " + action + ": " + reason + " (HTTP " + NatToString(status) + ")"
    ensures status == 401 ==> r[1..] == [TokenHint]
    ensures status == 422 ==> r[1..] == errors
    ensures status != 401 && status != 422 ==> |r| == 1
  {
    var summary := "Error " + action + ": " + reason + " (HTTP " + NatToString(status) + ")";
    if status == 401 then [summary, TokenHint]
    else if status == 422 then [summary] + errors
    else [summary]
  }
}

=== FILE: patch.dfy ===
/**
 * `git am` and `git apply` of a GitHub page: the first argument that is a
 * pull request, commit or gist URL is downloaded as a patch into the
 * temporary directory, and the downloaded file takes the URL's place on the
 * command line.
 */
module PatchRules {
  import opened Maybe
  import opened Strings
  import opened Argv
  import opened Outcomes

  const PatchExt := ".patch"
  const GistExt := ".txt"
  const GistFilePrefix := "gist-"
  /** The temporary directory when `$TMPDIR` is not set. */
  const DefaultTmp := "/tmp"

  /**
   * `^https?://(gist\.)?github\.com/`: whether an argument is a GitHub page
   * to download, and whether that page is a gist.
   */
  function PatchKind(a: string): (r: Option<bool>)
    ensures r == Some(true) <==> StartsWith(a, "https://gist.github.com/") || StartsWith(a, "http://gist.github.com/")
    ensures r == Some(false) ==> StartsWith(a, "https://github.com/") || StartsWith(a, "http://github.com/")
    ensures r.None? <==> (!StartsWith(a, "https://gist.github.com/") && !StartsWith(a, "http://gist.github.com/")
                          && !StartsWith(a, "https://github.com/") && !StartsWith(a, "http://github.com/"))
  {
    if StartsWith(a, "https://gist.github.com/") || StartsWith(a, "http://gist.github.com/") then Some(true)
    else if StartsWith(a, "https://github.com/") || StartsWith(a, "http://github.com/") then Some(false)
    else None
  }

  /** The position of the first argument that is a GitHub page. */
  function FirstPage(args: seq<string>): (r: Option<nat>)
    ensures r.Some? ==> r.value < |args| && PatchKind(args[r.value]).Some?
    ensures r.Some? ==> forall j | 0 <= j < r.value :: PatchKind(args[j]).None?
    ensures r.None? <==> forall j | 0 <= j < |args| :: PatchKind(args[j]).None?
    decreases |args|
  {
    if |args| == 0 then None
    else if PatchKind(args[0]).Some? then Some(0)
    else
      match FirstPage(args[1..])
      case None => None
      case Some(k) => Some(k + 1)
  }

  /** `url.sub(/#.+/, '')`: the URL without a non-empty fragment. */
  function StripFragment(u: string): (r: string)
    ensures '#' !in u ==> r == u
    ensures r != u ==> |r| + 1 < |u| && u[..|r|] == r && u[|r|] == '#' && '#' !in r
  {
    match Find(u, '#')
    case None => u
    case Some(k) => if k + 1 < |u| then u[..k] else u
  }

  /** A non-empty fragment goes; what is before it stays. */
  lemma StripFragmentOf(base: string, frag: string)
    requires '#' !in base && frag != ""
    ensures StripFragment(base + "#" + frag) == base
  {
    FindAfter(base, '#', frag);
    assert (base + "#" + frag)[..|base|] == base;
  }

  /** The position of the last `c` in `s`. */
  function FindLast(s: string, c: char): (r: Option<nat>)
    ensures r.None? <==> c !in s
    ensures r.Some? ==> r.value < |s| && s[r.value] == c && c !in s[r.value + 1..]
    decreases |s|
  {
    if |s| == 0 then None
    else if s[|s| - 1] == c then Some(|s| - 1)
    else
      assert s == s[..|s| - 1] + [s[|s| - 1]];
      var r := FindLast(s[..|s| - 1], c);
      if r.Some? then
        assert s[r.value + 1..] == s[..|s| - 1][r.value + 1..] + [s[|s| - 1]];
        r
      else r
  }

  /** The last `c` of `a c b` is the one after `a` when `b` has none. */
  lemma FindLastAfter(a: string, c: char, b: string)
    requires c !in b
    ensures FindLast(a + [c] + b, c) == Some(|a|)
  {
    var s := a + [c] + b;
    assert s[|a|] == c && s[|a| + 1..] == b;
    var k := FindLast(s, c).value;
    if k < |a| {
      assert false;
    } else if k > |a| {
      assert false;
    }
  }

  /** The last segment of `rest/w`, when `w` has no slash, is `w`. */
  lemma LastSegment(rest: string, w: string)
    requires '/' !in w
    ensures FindLast(rest + "/" + w, '/') == Some(|rest|)
    ensures (rest + "/" + w)[..|rest|] == rest && (rest + "/" + w)[|rest| + 1..] == w
  {
    assert rest + "/" + w == rest + ['/'] + w;
    FindLastAfter(rest, '/', w);
  }

  /** In `a n`, where `a` ends with a slash and `n` has none, the last slash ends `a`. */
  lemma SlashSegment(a: string, n: string)
    requires |a| > 0 && a[|a| - 1] == '/' && '/' !in n
    ensures FindLast(a + n, '/') == Some(|a| - 1)
    ensures (a + n)[|a|..] == n && (a + n)[..|a|] == a
  {
    var b := a[..|a| - 1];
    assert a == b + ['/'];
    assert a + n == b + ['/'] + n;
    FindLastAfter(b, '/', n);
  }

  /** In `pre/pull/n`, the last slash is the one before `n`. */
  lemma PullSegment(pre: string, n: string)
    requires '/' !in n
    ensures FindLast(pre + "/pull/" + n, '/') == Some(|pre| + 5)
    ensures (pre + "/pull/" + n)[|pre| + 6..] == n
    ensures EndsWith((pre + "/pull/" + n)[..|pre| + 6], "/pull/")
  {
    var a := pre + "/pull/";
    assert |a| == |pre| + 6 && a[|a| - 1] == '/';
    SlashSegment(a, n);
    assert a[|pre|..] == "/pull/";
  }

  /**
   * `url.sub(%r{(/pull/\d+)/\w*$}, '\1')`: the page of a pull request
   * without the tab (`/files`, `/commits`) after its number.
   */
  function StripPullTab(u: string): (r: string)
    ensures r != u ==> |r| < |u| && u[..|r|] == r && u[|r|] == '/' && AllWord(u[|r| + 1..])
  {
    match FindLast(u, '/')
    case None => u
    case Some(i) =>
      var rest := u[..i];
      match FindLast(rest, '/')
      case None => u
      case Some(j) =>
        var d := rest[j + 1..];
        if AllWord(u[i + 1..]) && d != "" && AllDigits(d) && EndsWith(rest[..j + 1], "/pull/") then rest else u
  }

  /** The tab after a pull request's number goes. */
  lemma StripPullTabOf(pre: string, n: string, w: string)
    requires n != "" && AllDigits(n) && AllWord(w)
    ensures StripPullTab(pre + "/pull/" + n + "/" + w) == pre + "/pull/" + n
  {
    assert '/' !in w && '/' !in n by {
      assert !IsWordChar('/') && !IsDigit('/');
    }
    LastSegment(pre + "/pull/" + n, w);
    PullSegment(pre, n);
  }

  /** A URL whose last two segments are not `pull` and a number has no tab to drop. */
  lemma StripPullTabKeeps(pre: string, seg: string, w: string)
    requires '/' !in seg && '/' !in w
    requires seg == "" || !AllDigits(seg)
    ensures StripPullTab(pre + "/" + seg + "/" + w) == pre + "/" + seg + "/" + w
  {
    var rest := pre + "/" + seg;
    FindLastAfter(rest, '/', w);
    assert rest + "/" + w == rest + ['/'] + w;
    assert (rest + ['/'] + w)[..|rest|] == rest;
    assert rest == pre + ['/'] + seg;
    FindLastAfter(pre, '/', seg);
    assert rest[|pre| + 1..] == seg;
  }

  /** `url += ext unless File.extname(url) == ext`. */
  function WithExt(u: string, ext: string): (r: string)
    ensures EndsWith(r, ext)
    ensures r == u || r == u + ext
    ensures EndsWith(u, ext) ==> r == u
  {
    if EndsWith(u, ext) then u
    else
      assert (u + ext)[|u + ext| - |ext|..] == ext;
      u + ext
  }

  /** The URL the patch of page `u` downloads from. */
  function PatchUrl(u: string, gist: bool): (r: string)
    ensures EndsWith(r, if gist then GistExt else PatchExt)
  {
    var base := StripFragment(u);
    WithExt(if gist then base else StripPullTab(base), if gist then GistExt else PatchExt)
  }

  /** `$TMPDIR`, or `/tmp` when it is not set. */
  function TmpDir(tmp: Option<string>): (r: string)
    ensures tmp.None? ==> r == DefaultTmp
    ensures tmp.Some? ==> r == tmp.value
  {
    tmp.GetOr(DefaultTmp)
  }

  /** The file the patch at `url` is saved to: its base name (with `gist-` before a gist's) in the temporary directory. */
  function PatchFile(tmp: Option<string>, gist: bool, url: string): (r: string)
    ensures EndsWith(r, Basename(url))
    ensures gist ==> EndsWith(r, GistFilePrefix + Basename(url))
  {
    var name := (if gist then GistFilePrefix else "") + Basename(url);
    var r := JoinPath(TmpDir(tmp), name);
    JoinPathEnds(TmpDir(tmp), name);
    AppendEnds(if gist then GistFilePrefix else "", Basename(url));
    EndsWithTrans(r, name, Basename(url));
    r
  }

  /**
   * `git am` / `git apply`: when an argument is a GitHub page, `curl`
   * downloads its patch first and the command line names the downloaded
   * file where the URL stood; every other argument keeps its place.
   */
  function Patch(tmp: Option<string>, version: string, args: seq<string>): (r: Outcome)
    ensures r.Run? && 1 <= |r.cmds| <= 2
    ensures FirstPage(args).None? <==> r == Forward(args)
    ensures |r.cmds| == 2 ==>
      var k := FirstPage(args).value;
      && r.cmds[0].Exec? && r.cmds[0].program == "curl" && |r.cmds[0].args| == 5
      && r.cmds[0].args[3] == "-o" && StartsWith(r.cmds[0].args[2], "http")
      && r.cmds[1].Git? && |r.cmds[1].args| == |args| && r.cmds[1].args[k] == r.cmds[0].args[4]
      && (forall j | 0 <= j < |args| && j != k :: r.cmds[1].args[j] == args[j])
  {
    match FirstPage(args)
    case None => Forward(args)
    case Some(k) =>
      var gist := PatchKind(args[k]).value;
      var url := PatchUrl(args[k], gist);
      var file := PatchFile(tmp, gist, url);
      assert StartsWith(url, "http") by {
        PatchUrlScheme(args[k], gist);
      }
      Run([Exec("curl", ["-#LA", "hub " + version, url, "-o", file]), Git(args[k := file])])
  }

  /** Cutting a string at a character its start `p` does not hold keeps that start. */
  lemma CutKeepsStart(u: string, r: string, p: string, c: char)
    requires StartsWith(u, p) && c !in p
    requires |r| < |u| && u[..|r|] == r && u[|r|] == c
    ensures StartsWith(r, p)
  {
    assert forall i | 0 <= i < |p| :: u[i] == p[i] && p[i] in p;
    assert r[..|p|] == u[..|p|];
  }

  /** A GitHub page's URL starts with `http`. */
  lemma KindIsHttp(u: string)
    requires PatchKind(u).Some?
    ensures StartsWith(u, "http")
  {
    HttpRoots();
    if StartsWith(u, "https://gist.github.com/") {
      StartsWithTrans(u, "https://gist.github.com/", "http");
    } else if StartsWith(u, "http://gist.github.com/") {
      StartsWithTrans(u, "http://gist.github.com/", "http");
    } else if StartsWith(u, "https://github.com/") {
      StartsWithTrans(u, "https://github.com/", "http");
    } else {
      StartsWithTrans(u, "http://github.com/", "http");
    }
  }

  /** Every page root starts with `http`. */
  lemma HttpRoots()
    ensures StartsWith("https://gist.github.com/", "http") && StartsWith("http://gist.github.com/", "http")
    ensures StartsWith("https://github.com/", "http") && StartsWith("http://github.com/", "http")
  {
    assert "https://gist.github.com/"[..4] == "http";
    assert "http://gist.github.com/"[..4] == "http";
    assert "https://github.com/"[..4] == "http";
    assert "http://github.com/"[..4] == "http";
  }

  /** The download URL keeps the page's scheme. */
  lemma PatchUrlScheme(u: string, gist: bool)
    requires PatchKind(u) == Some(gist)
    ensures StartsWith(PatchUrl(u, gist), "http")
  {
    KindIsHttp(u);
    var base := StripFragment(u);
    FragmentKeepsStart(u, "http");
    var page := if gist then base else StripPullTab(base);
    if !gist {
      PullTabKeepsStart(base, "http");
    }
    ExtKeepsStart(page, if gist then GistExt else PatchExt, "http");
  }

  lemma FragmentKeepsStart(u: string, p: string)
    requires StartsWith(u, p) && '#' !in p
    ensures StartsWith(StripFragment(u), p)
  {
    var r := StripFragment(u);
    if r != u {
      CutKeepsStart(u, r, p, '#');
    }
  }

  lemma PullTabKeepsStart(u: string, p: string)
    requires StartsWith(u, p) && '/' !in p
    ensures StartsWith(StripPullTab(u), p)
  {
    var r := StripPullTab(u);
    if r != u {
      CutKeepsStart(u, r, p, '/');
    }
  }

  lemma ExtKeepsStart(u: string, ext: string, p: string)
    requires StartsWith(u, p)
    ensures StartsWith(WithExt(u, ext), p)
  {
    var r := WithExt(u, ext);
    assert r[..|p|] == u[..|p|];
  }

  /** A fragment, or nothing: `#` and at least one character. */
  predicate IsFragment(frag: string) {
    frag == "" || (|frag| >= 2 && frag[0] == '#')
  }

  /**
   * A page whose path needs no trimming downloads from the page's own URL
   * with the extension added; its fragment is ignored.
   */
  lemma PatchUrlOf(page: string, frag: string, gist: bool)
    requires '#' !in page && IsFragment(frag)
    requires gist || StripPullTab(page) == page
    requires !EndsWith(page, if gist then GistExt else PatchExt)
    ensures PatchUrl(page + frag, gist) == page + (if gist then GistExt else PatchExt)
  {
    if frag == "" {
      assert page + frag == page;
    } else {
      StripFragmentOf(page, frag[1..]);
      assert page + frag == page + "#" + frag[1..];
    }
  }

  /** A number's last character is no `h`, so no number ends in `.patch`. */
  lemma DigitsNotPatch(s: string, n: string)
    requires n != "" && AllDigits(n)
    ensures !EndsWith(s + n, PatchExt)
  {
    var u := s + n;
    assert u[|u| - 1] == n[|n| - 1] && n[|n| - 1] in n;
  }

  /** How `PatchUrl` reads `u` once its pieces are known. */
  lemma PatchUrlSteps(u: string, gist: bool, base: string, page: string, ext: string)
    requires StripFragment(u) == base
    requires page == (if gist then base else StripPullTab(base))
    requires ext == (if gist then GistExt else PatchExt) && !EndsWith(page, ext)
    ensures PatchUrl(u, gist) == page + ext
  {
  }

  /** A page's URL with a fragment or none, cut at the fragment. */
  lemma StripFragmentOpt(page: string, frag: string)
    requires '#' !in page && IsFragment(frag)
    ensures StripFragment(page + frag) == page
  {
    if frag == "" {
      assert page + frag == page;
    } else {
      StripFragmentOf(page, frag[1..]);
      assert page + frag == page + "#" + frag[1..];
    }
  }

  /** A pull request's page ends in its number: nothing to trim, and no `#`. */
  lemma PullPage(pre: string, n: string)
    requires '#' !in pre && n != "" && AllDigits(n)
    ensures StripPullTab(pre + "/pull/" + n) == pre + "/pull/" + n
    ensures '#' !in pre + "/pull/" + n && '/' !in n
    ensures !EndsWith(pre + "/pull/" + n, PatchExt)
  {
    var page := pre + "/pull/" + n;
    assert '#' !in n && '/' !in n by {
      assert !IsDigit('#') && !IsDigit('/');
    }
    assert page == pre + "/" + "pull" + "/" + n;
    assert "pull"[0] in "pull" && !IsDigit('p');
    StripPullTabKeeps(pre, "pull", n);
    DigitsNotPatch(pre + "/pull/", n);
  }

  /**
   * The page of pull request N, its tab and its fragment: the patch is
   * `…/pull/N.patch`.
   */
  lemma PatchUrlPull(pre: string, n: string, tab: string, frag: string)
    requires '#' !in pre && n != "" && AllDigits(n)
    requires tab == "" || (tab[0] == '/' && AllWord(tab[1..]))
    requires IsFragment(frag)
    ensures PatchUrl(pre + "/pull/" + n + tab + frag, false) == pre + "/pull/" + n + PatchExt
  {
    var page := pre + "/pull/" + n;
    PullPage(pre, n);
    assert StripFragment(page + tab + frag) == page + tab by {
      assert '#' !in tab by {
        assert !IsWordChar('#');
      }
      StripFragmentOpt(page + tab, frag);
    }
    assert StripPullTab(page + tab) == page by {
      if tab != "" {
        assert page + tab == pre + "/pull/" + n + "/" + tab[1..];
        StripPullTabOf(pre, n, tab[1..]);
      } else {
        assert page + tab == page;
      }
    }
    PatchUrlSteps(page + tab + frag, false, page + tab, page, PatchExt);
  }

  /** A commit's page ends in its sha: nothing to trim, no `#`, and no extension yet. */
  lemma CommitPage(pre: string, sha: string)
    requires '#' !in pre && sha != "" && AllWord(sha)
    ensures StripPullTab(pre + "/commit/" + sha) == pre + "/commit/" + sha
    ensures '#' !in pre + "/commit/" + sha
    ensures !EndsWith(pre + "/commit/" + sha, PatchExt)
  {
    var page := pre + "/commit/" + sha;
    assert '#' !in sha && '/' !in sha && '.' !in sha by {
      assert !IsWordChar('#') && !IsWordChar('/') && !IsWordChar('.');
    }
    CommitNoTab(pre, sha);
    ExtLetters();
    SlashEnded(pre, "/commit/");
    NoExtAfterSlash(pre + "/commit/", sha, PatchExt);
  }

  lemma CommitNoTab(pre: string, sha: string)
    requires '/' !in sha
    ensures StripPullTab(pre + "/commit/" + sha) == pre + "/commit/" + sha
  {
    assert pre + "/commit/" + sha == pre + "/" + "commit" + "/" + sha;
    assert "commit"[0] in "commit" && !IsDigit('c');
    StripPullTabKeeps(pre, "commit", sha);
  }

  /** The patch of a commit page is `…/commit/SHA.patch`, saved as `SHA.patch`. */
  lemma PatchUrlCommit(pre: string, sha: string, frag: string)
    requires '#' !in pre && sha != "" && AllWord(sha) && IsFragment(frag)
    ensures PatchUrl(pre + "/commit/" + sha + frag, false) == pre + "/commit/" + sha + PatchExt
    ensures Basename(pre + "/commit/" + sha + PatchExt) == sha + PatchExt
  {
    var page := pre + "/commit/" + sha;
    assert PatchUrl(page + frag, false) == page + PatchExt by {
      CommitPage(pre, sha);
      StripFragmentOpt(page, frag);
      PatchUrlSteps(page + frag, false, page, page, PatchExt);
    }
    assert Basename(page + PatchExt) == sha + PatchExt by {
      assert '/' !in sha by {
        assert !IsWordChar('/');
      }
      ExtLetters();
      SlashEnded(pre, "/commit/");
      BasenameExt(pre + "/commit/", sha, PatchExt);
    }
  }

  /** The base name of `DIR/NAME.EXT` is `NAME.EXT`. */
  lemma BasenameExt(dir: string, name: string, ext: string)
    requires |dir| > 0 && dir[|dir| - 1] == '/'
    requires '/' !in name && '/' !in ext
    ensures Basename(dir + name + ext) == name + ext
  {
    var d := dir[..|dir| - 1];
    assert dir + name + ext == d + "/" + (name + ext);
    BasenameAfterSlash(d, name + ext);
  }
  /** Both extensions start with a dot and hold no slash. */
  lemma ExtLetters()
    ensures |PatchExt| > 0 && PatchExt[0] == '.' && '/' !in PatchExt
    ensures |GistExt| > 0 && GistExt[0] == '.' && '/' !in GistExt
  {
  }

  /** A string with a slash-ended segment appended ends in a slash. */
  lemma SlashEnded(pre: string, seg: string)
    requires |seg| > 0 && seg[|seg| - 1] == '/'
    ensures |pre + seg| > 0 && (pre + seg)[|pre + seg| - 1] == '/'
  {
  }

  /** A last segment without a dot does not end in an extension. */
  lemma NoExtAfterSlash(a: string, id: string, ext: string)
    requires |a| > 0 && a[|a| - 1] == '/' && '/' !in id && '.' !in id
    requires |ext| > 0 && ext[0] == '.' && '/' !in ext
    ensures !EndsWith(a + id, ext)
  {
    var page := a + id;
    var k := |page| - |ext|;
    if |id| >= |ext| {
      assert page[k] == id[|id| - |ext|] && id[|id| - |ext|] in id;
    } else if k >= 0 {
      assert page[k + |ext| - |id| - 1] == '/';
      assert ext[|ext| - |id| - 1] in ext;
    }
  }

  /** The patch of a gist is `…/ID.txt`, saved as `gist-ID.txt`. */
  lemma PatchUrlGist(pre: string, id: string, frag: string)
    requires '#' !in pre && id != "" && AllWord(id) && IsFragment(frag)
    ensures PatchUrl(pre + "/" + id + frag, true) == pre + "/" + id + GistExt
    ensures Basename(pre + "/" + id + GistExt) == id + GistExt
  {
    var page := pre + "/" + id;
    assert '#' !in id && '/' !in id && '.' !in id by {
      assert !IsWordChar('#') && !IsWordChar('/') && !IsWordChar('.');
    }
    assert '#' !in page;
    ExtLetters();
    SlashEnded(pre, "/");
    NoExtAfterSlash(pre + "/", id, GistExt);
    PatchUrlOf(page, frag, true);
    BasenameExt(pre + "/", id, GistExt);
  }

  /**
   * `am`/`apply` with a GitHub page after arguments that are none: the
   * download runs first and the file stands where the page stood.
   */
  lemma PatchLine(tmp: Option<string>, version: string, head: seq<string>, page: string, tail: seq<string>, gist: bool)
    requires forall a | a in head :: PatchKind(a).None?
    requires PatchKind(page) == Some(gist)
    ensures Patch(tmp, version, head + [page] + tail)
         == Run([Exec("curl", ["-#LA", "hub " + version, PatchUrl(page, gist), "-o", PatchFile(tmp, gist, PatchUrl(page, gist))]),
                 Git(head + [PatchFile(tmp, gist, PatchUrl(page, gist))] + tail)])
  {
    var args := head + [page] + tail;
    assert FirstPage(args) == Some(|head|) by {
      assert args[|head|] == page;
      assert forall j | 0 <= j < |head| :: args[j] == head[j] && head[j] in head;
      FirstPageAt(args, |head|);
    }
    var url := PatchUrl(page, gist);
    var file := PatchFile(tmp, gist, url);
    UpdateMiddle(head, page, tail, file);
    PatchSteps(tmp, version, args, |head|, gist, url, file, head + [file] + tail);
  }

  /** How `Patch` reads a command line once the page and its download are known. */
  lemma PatchSteps(tmp: Option<string>, version: string, args: seq<string>, k: nat, gist: bool, url: string, file: string, out: seq<string>)
    requires FirstPage(args) == Some(k) && PatchKind(args[k]) == Some(gist)
    requires url == PatchUrl(args[k], gist) && file == PatchFile(tmp, gist, url) && out == args[k := file]
    ensures Patch(tmp, version, args) == Run([Exec("curl", ["-#LA", "hub " + version, url, "-o", file]), Git(out)])
  {
  }

  /** The first page sits at `k` when `args[k]` is one and nothing before it is. */
  lemma {:induction false} FirstPageAt(args: seq<string>, k: nat)
    requires k < |args| && PatchKind(args[k]).Some?
    requires forall j | 0 <= j < k :: PatchKind(args[j]).None?
    ensures FirstPage(args) == Some(k)
    decreases k
  {
    if k > 0 {
      FirstPageAt(args[1..], k - 1);
    }
  }
}

=== FILE: projects.dfy ===
/**
 * Repository references: a project on a GitHub host, the three clone URL
 * forms hub writes for it, and the reading of a remote's URL back into a
 * project.
 */
module Projects {
  import opened Maybe
  import opened Strings

  /** The public host; any other host is an enterprise installation. */
  const GitHubHost := "github.com"

  /** A repository `owner/name` on `host`. */
  datatype Project = Project(host: string, owner: string, name: string)

  /** The transport a clone URL names: the read-only git protocol, ssh or https. */
  datatype Protocol = GitWire | Ssh | Https

  /**
   * The protocol of a clone URL: https whenever `hub.protocol` asks for it,
   * otherwise ssh for a private (own or `-p`) repository or an enterprise
   * host, otherwise the read-only git protocol.
   */
  function ChooseProtocol(httpsPreferred: bool, private: bool, host: string): (r: Protocol)
    ensures r == Https <==> httpsPreferred
    ensures r == Ssh <==> !httpsPreferred && (private || host != GitHubHost)
    ensures r == GitWire <==> !httpsPreferred && !private && host == GitHubHost
  {
    if httpsPreferred then Https
    else if private || host != GitHubHost then Ssh
    else GitWire
  }

  /** `owner/name`, the form GitHub shows a repository by. */
  function NameWithOwner(p: Project): string {
    p.owner + "/" + p.name
  }

  /** The clone URL of `p` over `proto`; the name always gets one `.git`. */
  function CloneUrl(p: Project, proto: Protocol): (r: string)
    ensures EndsWith(r, ".git")
  {
    match proto
    case GitWire => "git://" + p.host + "/" + NameWithOwner(p) + ".git"
    case Https => "https://" + p.host + "/" + NameWithOwner(p) + ".git"
    case Ssh => "git@" + p.host + ":" + NameWithOwner(p) + ".git"
  }

  /** Every clone URL has a `:`, so none reads as a repository shorthand or an option. */
  lemma CloneUrlHasColon(p: Project, proto: Protocol)
    ensures ':' in CloneUrl(p, proto)
    ensures CloneUrl(p, proto)[0] != '-'
  {
    var r := CloneUrl(p, proto);
    if proto == Ssh {
      assert r == "git@" + p.host + ":" + (NameWithOwner(p) + ".git");
      assert r[|p.host| + 4] == ':';
    } else {
      assert r[0] != '-' && (r[3] == ':' || r[5] == ':');
    }
  }

  /** The clone URL hub writes for `p` under the given preference and privacy. */
  function GitUrl(p: Project, httpsPreferred: bool, private: bool): string {
    CloneUrl(p, ChooseProtocol(httpsPreferred, private, p.host))
  }

  /** A URL scheme, `[\w-]+`. */
  predicate IsScheme(s: string) {
    |s| > 0 && AllOwner(s)
  }

  /**
   * The authority and the path of a remote URL, the path without its
   * leading `/`. A URL is either `scheme://authority/path` with a scheme of
   * `[\w-]+`, or scp-like `authority:path` with an authority free of `/`.
   */
  function UrlParts(url: string): (r: Option<(string, string)>)
    ensures r.Some? ==> '/' !in r.value.0
  {
    match SplitFirst(url, ':')
    case None => None
    case Some((before, after)) =>
      if IsScheme(before) && StartsWith(after, "//") then
        match SplitFirst(after[2..], '/')
        case None => None
        case Some((authority, path)) => Some((authority, path))
      else if |before| > 0 && '/' !in before then
        Some((before, after))
      else None
  }

  /** The host named by an authority `[user@]host`. */
  function AuthorityHost(authority: string): (r: string)
    ensures '@' !in authority ==> r == authority
  {
    match SplitFirst(authority, '@')
    case None => authority
    case Some((_, host)) => host
  }

  /**
   * The project a remote URL points to: its host, after ssh host-alias
   * resolution, must be a known GitHub host, and its path must start with
   * non-empty `owner/name` segments; a trailing `.git` is dropped from the
   * name and anything after the name is ignored.
   */
  function ProjectOfUrl(url: string, knownHosts: seq<string>, sshAliases: map<string, string>): (r: Option<Project>)
    ensures r.Some? ==> r.value.host in knownHosts && r.value.owner != "" && r.value.name != ""
    ensures r.Some? ==> '/' !in r.value.owner
  {
    match UrlParts(url)
    case None => None
    case Some((authority, path)) =>
      var host0 := AuthorityHost(authority);
      var host := if host0 in sshAliases then sshAliases[host0] else host0;
      match SplitFirst(path, '/')
      case None => None
      case Some((owner, rest)) =>
        var segment := match SplitFirst(rest, '/') case None => rest case Some((n, _)) => n;
        var name := StripSuffix(segment, ".git");
        if host in knownHosts && owner != "" && name != "" then Some(Project(host, owner, name)) else None
  }

  /** The project of the first URL in `urls` that points to one. */
  function FirstProject(urls: seq<string>, knownHosts: seq<string>, sshAliases: map<string, string>): (r: Option<Project>)
    ensures r.Some? ==> r.value.host in knownHosts
    decreases |urls|
  {
    if |urls| == 0 then None
    else
      var p := ProjectOfUrl(urls[0], knownHosts, sshAliases);
      if p.Some? then p
      else
        FirstProject(urls[1..], knownHosts, sshAliases)
  }

  /** A project hub can write a URL for and read it back: plain host, login and name. */
  predicate WellFormed(p: Project) {
    p.host != "" && '/' !in p.host && ':' !in p.host && '@' !in p.host
    && p.owner != "" && AllOwner(p.owner)
    && p.name != "" && AllName(p.name)
  }

  /** The path part `owner/name.git` of every clone URL reads back as the project's login and name. */
  lemma PathRoundTrip(owner: string, name: string)
    requires AllOwner(owner) && AllName(name)
    ensures SplitFirst(owner + "/" + name + ".git", '/') == Some((owner, name + ".git"))
    ensures SplitFirst(name + ".git", '/') == None
    ensures StripSuffix(name + ".git", ".git") == name
  {
    assert '/' !in owner;
    assert '/' !in name;
    assert '/' !in name + ".git";
    assert owner + "/" + name + ".git" == owner + ['/'] + (name + ".git");
    SplitFirstGlue(owner, '/', name + ".git");
    StripSuffixAppended(name, ".git");
  }

  /** How `UrlParts` reads a URL whose text before the first `:` is a scheme followed by `//`. */
  lemma UrlPartsSchemeForm(url: string, scheme: string, rest: string, authority: string, path: string)
    requires SplitFirst(url, ':') == Some((scheme, rest))
    requires IsScheme(scheme) && StartsWith(rest, "//")
    requires SplitFirst(rest[2..], '/') == Some((authority, path))
    ensures UrlParts(url) == Some((authority, path))
  {
  }

  /** A `scheme://authority/path` URL splits into its authority and path. */
  lemma UrlPartsOfSchemeUrl(scheme: string, authority: string, path: string)
    requires IsScheme(scheme)
    requires '/' !in authority
    ensures UrlParts(scheme + "://" + authority + "/" + path) == Some((authority, path))
  {
    var rest := "//" + authority + "/" + path;
    var url := scheme + "://" + authority + "/" + path;
    assert SplitFirst(url, ':') == Some((scheme, rest)) by {
      assert ':' !in scheme by {
        assert !IsOwnerChar(':');
      }
      SplitFirstGlue(scheme, ':', rest);
      assert url == scheme + [':'] + rest;
    }
    assert SplitFirst(rest[2..], '/') == Some((authority, path)) by {
      assert rest[2..] == authority + ['/'] + path;
      SplitFirstGlue(authority, '/', path);
    }
    UrlPartsSchemeForm(url, scheme, rest, authority, path);
  }

  /** An scp-like `authority:path` URL splits into its authority and path. */
  lemma UrlPartsOfScpUrl(authority: string, path: string)
    requires |authority| > 0 && ':' !in authority && '/' !in authority
    requires !IsScheme(authority)
    ensures UrlParts(authority + ":" + path) == Some((authority, path))
  {
    assert SplitFirst(authority + ":" + path, ':') == Some((authority, path)) by {
      assert authority + ":" + path == authority + [':'] + path;
      SplitFirstGlue(authority, ':', path);
    }
  }

  /** The project named by an authority and an `owner/name.git` path. */
  lemma ProjectOfParts(url: string, authority: string, p: Project, knownHosts: seq<string>, sshAliases: map<string, string>)
    requires WellFormed(p) && p.host in knownHosts && p.host !in sshAliases
    requires UrlParts(url) == Some((authority, p.owner + "/" + p.name + ".git"))
    requires AuthorityHost(authority) == p.host
    ensures ProjectOfUrl(url, knownHosts, sshAliases) == Some(p)
  {
    PathRoundTrip(p.owner, p.name);
  }

  lemma SshUrlRoundTrip(p: Project, knownHosts: seq<string>, sshAliases: map<string, string>)
    requires WellFormed(p) && p.host in knownHosts && p.host !in sshAliases
    ensures ProjectOfUrl(CloneUrl(p, Ssh), knownHosts, sshAliases) == Some(p)
  {
    SshUrlParts(p);
    SshAuthorityHost(p.host);
    ProjectOfParts(CloneUrl(p, Ssh), "git@" + p.host, p, knownHosts, sshAliases);
  }

  /** An ssh clone URL splits into `git@HOST` and the path `OWNER/NAME.git`. */
  lemma SshUrlParts(p: Project)
    requires WellFormed(p)
    ensures UrlParts(CloneUrl(p, Ssh)) == Some(("git@" + p.host, p.owner + "/" + p.name + ".git"))
  {
    var path := p.owner + "/" + p.name + ".git";
    var authority := "git@" + p.host;
    assert CloneUrl(p, Ssh) == authority + ":" + path;
    assert !IsScheme(authority) by {
      assert authority[3] == '@' && authority[3] in authority;
    }
    UrlPartsOfScpUrl(authority, path);
  }

  /** The host of `git@HOST` is HOST. */
  lemma SshAuthorityHost(host: string)
    ensures AuthorityHost("git@" + host) == host
  {
    assert "git@" + host == "git" + ['@'] + host;
    SplitFirstGlue("git", '@', host);
  }

  lemma SchemeUrlRoundTrip(p: Project, proto: Protocol, knownHosts: seq<string>, sshAliases: map<string, string>)
    requires proto != Ssh
    requires WellFormed(p) && p.host in knownHosts && p.host !in sshAliases
    ensures ProjectOfUrl(CloneUrl(p, proto), knownHosts, sshAliases) == Some(p)
  {
    var path := p.owner + "/" + p.name + ".git";
    var scheme := if proto == GitWire then "git" else "https";
    assert UrlParts(CloneUrl(p, proto)) == Some((p.host, path)) by {
      assert CloneUrl(p, proto) == scheme + "://" + p.host + "/" + path;
      UrlPartsOfSchemeUrl(scheme, p.host, path);
    }
    ProjectOfParts(CloneUrl(p, proto), p.host, p, knownHosts, sshAliases);
  }

  /** Reading back any clone URL hub writes yields the project it was written for. */
  lemma CloneUrlRoundTrip(p: Project, proto: Protocol, knownHosts: seq<string>, sshAliases: map<string, string>)
    requires WellFormed(p) && p.host in knownHosts && p.host !in sshAliases
    ensures ProjectOfUrl(CloneUrl(p, proto), knownHosts, sshAliases) == Some(p)
  {
    if proto == Ssh {
      SshUrlRoundTrip(p, knownHosts, sshAliases);
    } else {
      SchemeUrlRoundTrip(p, proto, knownHosts, sshAliases);
    }
  }

  /**
   * The repository a `[OWNER/]NAME` argument abbreviates, OWNER being
   * `[\w-]+` and NAME `[\w.-]+`; no OWNER means the user's own repository.
   */
  function Shorthand(arg: string): (r: Option<(Option<string>, string)>)
    ensures r.Some? ==> r.value.1 != "" && AllName(r.value.1)
    ensures r.Some? && r.value.0.Some? ==> r.value.0.value != "" && AllOwner(r.value.0.value)
    ensures r.Some? && r.value.0.Some? ==> arg == r.value.0.value + "/" + r.value.1
    ensures r.Some? && r.value.0.None? ==> arg == r.value.1
  {
    match SplitFirst(arg, '/')
    case None => if arg != "" && AllName(arg) then Some((None, arg)) else None
    case Some((owner, name)) =>
      SplitFirstParts(arg, '/');
      if owner != "" && AllOwner(owner) && name != "" && AllName(name) then Some((Some(owner), name)) else None
  }

  lemma ShorthandOwnerName(owner: string, name: string)
    requires owner != "" && AllOwner(owner) && name != "" && AllName(name)
    ensures Shorthand(owner + "/" + name) == Some((Some(owner), name))
  {
    assert '/' !in owner;
    assert owner + "/" + name == owner + ['/'] + name;
    SplitFirstGlue(owner, '/', name);
  }

  lemma ShorthandName(name: string)
    requires name != "" && AllName(name)
    ensures Shorthand(name) == Some((None, name))
  {
    assert '/' !in name;
  }

  /** URLs (`scheme://…`, `user@host:…`, `host:path`) and paths starting with `/`, `./` or `../` are no shorthands. */
  lemma NotShorthand(s: string)
    requires ':' in s || (|s| > 0 && s[0] == '/') || (|s| > 0 && s[0] == '.' && '/' in s)
    ensures Shorthand(s).None?
  {
    if '/' in s {
      SplitFirstParts(s, '/');
      var (owner, name) := SplitFirst(s, '/').value;
      assert s == owner + ['/'] + name;
      if ':' in s {
        assert ':' in owner || ':' in name;
        assert !IsOwnerChar(':') && !IsNameChar(':');
      } else if s[0] == '.' && owner != "" {
        assert owner[0] == '.' && owner[0] in owner;
      }
    }
  }
}

=== FILE: pull.dfy ===
/**
 * The pieces of pull requests a command line names: the number in the
 * path of a pull request's or an issue's page, and the `OWNER:BRANCH`
 * notation of a pull request's head and base.
 */
module PullLines {
  import opened Maybe
  import opened Strings
  import opened Projects
  import opened Argv

  const PullPrefix := "pull/"
  const IssuePrefix := "issues/"

  /** The longest run of decimal digits `s` starts with. */
  function DigitRun(s: string): (r: string)
    ensures |r| <= |s| && r == s[..|r|] && AllDigits(r)
    ensures |r| < |s| ==> !IsDigit(s[|r|])
    decreases |s|
  {
    if |s| == 0 || !IsDigit(s[0]) then ""
    else
      var t := DigitRun(s[1..]);
      assert forall c | c in [s[0]] + t :: c == s[0] || c in t;
      [s[0]] + t
  }

  /** A run of digits followed by anything that does not extend it is the run `DigitRun` finds. */
  lemma {:induction false} DigitRunOf(n: string, rest: string)
    requires AllDigits(n)
    requires rest == "" || !IsDigit(rest[0])
    ensures DigitRun(n + rest) == n
    decreases |n|
  {
    if |n| > 0 {
      assert n[0] in n;
      assert forall c | c in n[1..] :: c in n;
      assert (n + rest)[1..] == n[1..] + rest;
      DigitRunOf(n[1..], rest);
    } else {
      assert n + rest == rest;
    }
  }

  /** `^PREFIX(\d+)`: the number a page path starts with after `prefix`. */
  function PathNumber(path: string, prefix: string): (r: Option<string>)
    ensures r.Some? ==> r.value != "" && AllDigits(r.value) && StartsWith(path, prefix + r.value)
    ensures !StartsWith(path, prefix) ==> r.None?
  {
    if StartsWith(path, prefix) then
      var n := DigitRun(path[|prefix|..]);
      if n == "" then None
      else
        assert path[..|prefix| + |n|] == prefix + n;
        Some(n)
    else None
  }

  /** The number of `PREFIX N REST` is N when REST does not continue it. */
  lemma PathNumberOf(prefix: string, n: string, rest: string)
    requires n != "" && AllDigits(n)
    requires rest == "" || !IsDigit(rest[0])
    ensures PathNumber(prefix + n + rest, prefix) == Some(n)
  {
    var path := prefix + n + rest;
    assert path[..|prefix|] == prefix;
    assert path[|prefix|..] == n + rest;
    DigitRunOf(n, rest);
  }

  /**
   * The project `OWNER` names next to project `context` (same host, same
   * repository name); `OWNER/NAME` names the repository too.
   */
  function OwnerProject(context: Project, owner: string): (r: Project)
    ensures r.host == context.host
    ensures '/' !in owner ==> r == Project(context.host, owner, context.name)
    ensures '/' in owner ==> r.owner + "/" + r.name == owner && '/' !in r.owner
  {
    if '/' in owner then
      SplitFirstParts(owner, '/');
      var (o, n) := SplitFirst(owner, '/').value;
      Project(context.host, o, n)
    else Project(context.host, owner, context.name)
  }

  /**
   * A branch of a project: `OWNER:BRANCH` is BRANCH of OWNER's project
   * (`OWNER/NAME:BRANCH` of that repository); a plain BRANCH is of the
   * project in context.
   */
  function RefOf(ref: string, context: Project): (r: (Project, string))
    ensures ':' !in ref ==> r == (context, ref)
    ensures ':' in ref ==> r.0.host == context.host && |r.1| < |ref|
  {
    match SplitFirst(ref, ':')
    case Some((owner, branch)) => (OwnerProject(context, owner), branch)
    case None => (context, ref)
  }

  /** `OWNER:BRANCH` with OWNER free of `:` and `/` is BRANCH of OWNER's fork of the project in context. */
  lemma RefOfOwner(owner: string, branch: string, context: Project)
    requires ':' !in owner && '/' !in owner
    ensures RefOf(owner + ":" + branch, context) == (Project(context.host, owner, context.name), branch)
  {
    SplitFirstGlue(owner, ':', branch);
    assert owner + ":" + branch == owner + [':'] + branch;
  }

  /** `OWNER/NAME:BRANCH` with no `:` before the branch is BRANCH of OWNER/NAME. */
  lemma RefOfRepo(owner: string, name: string, branch: string, context: Project)
    requires ':' !in owner && ':' !in name && '/' !in owner
    ensures RefOf(owner + "/" + name + ":" + branch, context) == (Project(context.host, owner, name), branch)
  {
    var o := owner + "/" + name;
    assert ':' !in o;
    SplitFirstGlue(o, ':', branch);
    assert o + ":" + branch == o + [':'] + branch;
    SplitFirstGlue(owner, '/', name);
    assert o == owner + ['/'] + name;
  }

  /** The command line left for `git checkout`: the URL replaced by the tracking branch setup. */
  function TrackLine(args: seq<string>, k: nat, named: Option<string>, local: string, remoteBranch: string): (r: Option<seq<string>>)
    requires k < |args|
    ensures r.Some? ==> |r.value| >= 4 && "--track" in r.value && local in r.value
  {
    var rest := DeleteAt(args, k);
    var rest2 := if named.Some? then Remove(rest, named.value) else rest;
    if k <= |rest2| then
      var line := InsertAt(rest2, k, ["--track", "-B", local, remoteBranch]);
      assert line[k] == "--track" && line[k + 2] == local;
      Some(line)
    else None
  }

  /** `HEAD URL TAIL` with the URL first at the end of HEAD: the tracking setup takes its place. */
  lemma TrackLineOf(head: seq<string>, url: string, tail: seq<string>, local: string, remoteBranch: string)
    requires url !in head
    ensures IndexOf(head + [url] + tail, url) == Some(|head|)
    ensures TrackLine(head + [url] + tail, |head|, None, local, remoteBranch) == Some(head + ["--track", "-B", local, remoteBranch] + tail)
  {
    WordLine(head, url, tail);
  }

  /** `HEAD URL NAME` with NAME nowhere in HEAD: NAME goes, and the tracking setup takes the URL's place. */
  lemma TrackLineNamed(head: seq<string>, url: string, name: string, remoteBranch: string)
    requires url !in head && name !in head
    ensures IndexOf(head + [url, name], url) == Some(|head|)
    ensures TrackLine(head + [url, name], |head|, Some(name), name, remoteBranch) == Some(head + ["--track", "-B", name, remoteBranch])
  {
    var line := ["--track", "-B", name, remoteBranch];
    assert DeleteAt(head + [url, name], |head|) == head + [name] by {
      UrlThenName(head, url, name);
    }
    assert Remove(head + [name], name) == head by {
      RemoveLast(head, name);
    }
    assert InsertAt(head, |head|, line) == head + line by {
      InsertAtEnd(head, line);
    }
    TrackLineSteps(head + [url, name], |head|, Some(name), name, remoteBranch, head + [name], head);
  }

  /** Inserting at the end appends. */
  lemma InsertAtEnd(xs: seq<string>, ys: seq<string>)
    ensures InsertAt(xs, |xs|, ys) == xs + ys
  {
    assert xs[..|xs|] == xs && xs[|xs|..] == [];
  }

  lemma UrlThenName(head: seq<string>, url: string, name: string)
    requires url !in head
    ensures IndexOf(head + [url, name], url) == Some(|head|) && |head| < |head + [url, name]|
    ensures DeleteAt(head + [url, name], |head|) == head + [name]
  {
    assert head + [url, name] == head + [url] + [name];
    WordLine(head, url, [name]);
  }

  /** Removing a last element that occurs nowhere else. */
  lemma RemoveLast(head: seq<string>, name: string)
    requires name !in head
    ensures Remove(head + [name], name) == head
  {
    RemoveAppend(head, [name], name);
    assert Remove([name], name) == [];
  }

  /** How `TrackLine` reads a line once the deletions are known. */
  lemma TrackLineSteps(args: seq<string>, k: nat, named: Option<string>, local: string, remoteBranch: string, rest: seq<string>, rest2: seq<string>)
    requires k < |args| && DeleteAt(args, k) == rest
    requires rest2 == (if named.Some? then Remove(rest, named.value) else rest)
    requires k <= |rest2|
    ensures TrackLine(args, k, named, local, remoteBranch) == Some(InsertAt(rest2, k, ["--track", "-B", local, remoteBranch]))
  {
  }

  /** `checkout FLAGS URL TAIL`: the URL is the second word, and the tracking setup takes its place. */
  lemma CheckoutLine(flags: seq<string>, url: string, tail: seq<string>, local: string, remoteBranch: string)
    requires forall f | f in flags :: IsFlag(f)
    requires forall f | f in tail :: IsFlag(f)
    requires !IsFlag(url) && url != "checkout"
    ensures Words(["checkout"] + flags + [url] + tail) == ["checkout", url]
    ensures IndexOf(["checkout"] + flags + [url] + tail, url) == Some(|["checkout"] + flags|)
    ensures TrackLine(["checkout"] + flags + [url] + tail, |["checkout"] + flags|, None, local, remoteBranch)
      == Some(["checkout"] + flags + ["--track", "-B", local, remoteBranch] + tail)
  {
    var head := ["checkout"] + flags;
    assert url !in head by {
      assert forall f | f in head :: f == "checkout" || f in flags;
    }
    CheckoutWords(flags, url, tail);
    TrackLineOf(head, url, tail, local, remoteBranch);
  }

  /** `checkout URL NAME`: the URL is the second word, NAME the third; NAME goes, and the tracking setup takes the URL's place. */
  lemma CheckoutNamedLine(url: string, name: string, remoteBranch: string)
    requires !IsFlag(url) && !IsFlag(name) && url != "checkout" && name != "checkout"
    ensures Words(["checkout"] + [url, name]) == ["checkout", url, name]
    ensures IndexOf(["checkout"] + [url, name], url) == Some(1)
    ensures TrackLine(["checkout"] + [url, name], 1, Some(name), name, remoteBranch) == Some(["checkout"] + ["--track", "-B", name, remoteBranch])
  {
    assert ["checkout"] + [url, name] == ["checkout", url, name];
    WordsOfWords(["checkout", url, name]);
    TrackLineNamed(["checkout"], url, name, remoteBranch);
  }

  /** The words of `checkout FLAGS URL TAIL`, TAIL being options. */
  lemma CheckoutWords(flags: seq<string>, url: string, tail: seq<string>)
    requires forall f | f in flags :: IsFlag(f)
    requires forall f | f in tail :: IsFlag(f)
    requires !IsFlag(url)
    ensures Words(["checkout"] + flags + [url] + tail) == ["checkout", url]
  {
    WordsAroundFlags(["checkout"], flags, [url]);
    WordsAppend(["checkout"] + flags + [url], tail);
    WordsOfFlags(tail);
  }
}

/**
 * `git checkout PULL-URL [BRANCH]`: the pull request's head branch is
 * fetched from its owner's fork and checked out as a tracking branch.
 */
module CheckoutRules {
  import opened Maybe
  import opened Strings
  import opened Projects
  import opened Repo
  import opened Argv
  import opened Outcomes
  import opened WebUrls
  import opened PullLines

  /** The pull request a URL's page names, as its repository and number. */
  function PullOfUrl(ctx: Context, url: string): (r: Option<(Project, string)>)
    ensures r.Some? ==> r.value.1 != "" && AllDigits(r.value.1)
  {
    match ResolveWebUrl(ctx, url)
    case None => None
    case Some(page) =>
      match PathNumber(page.path, PullPrefix)
      case None => None
      case Some(n) => Some((page.project, n))
  }

  /**
   * The commands that bring the head branch in: a known remote gets the
   * branch added and fetched; otherwise the owner's fork is added as a
   * remote tracking only that branch, fetched at once.
   */
  function PrepareHead(ctx: Context, repo: LocalRepo, p: Project, h: PullHead): (r: seq<Cmd>)
    ensures h.owner in repo.remotes ==> r == [
      Git(["remote", "set-branches", "--add", h.owner, h.branch]),
      Git(["fetch", h.owner, "+refs/heads/" + h.branch + ":refs/remotes/" + h.owner + "/" + h.branch])]
    ensures h.owner !in repo.remotes ==> (
      |r| == 1 && r[0].Git? && |r[0].args| == 7
      && r[0].args[..6] == ["remote", "add", "-f", "-t", h.branch, h.owner]
      && r[0].args[6] == ContextUrl(ctx, Project(repo.host, h.owner, p.name), h.isPrivate))
  {
    if h.owner in repo.remotes then
      [Git(["remote", "set-branches", "--add", h.owner, h.branch]),
       Git(["fetch", h.owner, "+refs/heads/" + h.branch + ":refs/remotes/" + h.owner + "/" + h.branch])]
    else
      [Git(["remote", "add", "-f", "-t", h.branch, h.owner, ContextUrl(ctx, OwnedProject(repo, h.owner, p.name), h.isPrivate)])]
  }

  /** The local branch: the name given, else `OWNER-BRANCH`. */
  function LocalName(named: Option<string>, h: PullHead): (r: string)
    ensures named.Some? ==> r == named.value
    ensures named.None? ==> r == h.owner + "-" + h.branch
  {
    named.GetOr(h.owner + "-" + h.branch)
  }

  /**
   * `git checkout`: when the first word after the command is the page of
   * a pull request, its head is fetched and checked out under the second
   * word, or `OWNER-BRANCH`; anything else goes to git as it is.
   */
  function Checkout(ctx: Context, repo: LocalRepo, args: seq<string>): (r: Outcome)
    ensures r.Run? || r.Crash?
    ensures r.Run? && |r.cmds| == 1 ==> r == Forward(args)
    ensures r.Run? && |r.cmds| > 1 ==> (
      r.cmds[|r.cmds| - 1].Git? && "--track" in r.cmds[|r.cmds| - 1].args
      && |Words(args)| >= 2 && PullOfUrl(ctx, Words(args)[1]).Some?)
  {
    var w := Words(args);
    if |w| < 2 then Forward(args)
    else
      match PullOfUrl(ctx, w[1])
      case None => Forward(args)
      case Some((p, n)) =>
        var id := PullId(p.owner, p.name, n);
        if id !in ctx.pulls then Crash("no such pull request")
        else
          var h := ctx.pulls[id];
          var named := if |w| >= 3 then Some(w[2]) else None;
          assert w[1] in args;
          var k := IndexOf(args, w[1]).value;
          match TrackLine(args, k, named, LocalName(named, h), h.owner + "/" + h.branch)
          case None => Crash("no argument at the URL's place")
          case Some(line) => Run(PrepareHead(ctx, repo, p, h) + [Git(line)])
  }

  /** How `Checkout` reads a command line whose URL names a known pull request. */
  lemma CheckoutSteps(ctx: Context, repo: LocalRepo, args: seq<string>, url: string, named: Option<string>, p: Project, n: string, k: nat, line: seq<string>)
    requires |Words(args)| >= 2 && Words(args)[1] == url
    requires named == (if |Words(args)| >= 3 then Some(Words(args)[2]) else None)
    requires PullOfUrl(ctx, url) == Some((p, n)) && PullId(p.owner, p.name, n) in ctx.pulls
    requires IndexOf(args, url) == Some(k)
    requires k < |args|
    requires
      var h := ctx.pulls[PullId(p.owner, p.name, n)];
      TrackLine(args, k, named, LocalName(named, h), h.owner + "/" + h.branch) == Some(line)
    ensures Checkout(ctx, repo, args) == Run(PrepareHead(ctx, repo, p, ctx.pulls[PullId(p.owner, p.name, n)]) + [Git(line)])
  {
  }

  /**
   * `checkout FLAGS URL OPTIONS` for a pull request whose head is OWNER's
   * BRANCH: the head is fetched, and `--track -B OWNER-BRANCH OWNER/BRANCH`
   * takes the URL's place.
   */
  lemma CheckoutPull(ctx: Context, repo: LocalRepo, flags: seq<string>, url: string, tail: seq<string>, p: Project, n: string)
    requires forall f | f in flags :: IsFlag(f)
    requires forall f | f in tail :: IsFlag(f)
    requires PullOfUrl(ctx, url) == Some((p, n)) && PullId(p.owner, p.name, n) in ctx.pulls
    requires !IsFlag(url) && url != "checkout"
    ensures
      var h := ctx.pulls[PullId(p.owner, p.name, n)];
      Checkout(ctx, repo, ["checkout"] + flags + [url] + tail)
        == Run(PrepareHead(ctx, repo, p, h) + [Git(["checkout"] + flags + ["--track", "-B", h.owner + "-" + h.branch, h.owner + "/" + h.branch] + tail)])
  {
    var h := ctx.pulls[PullId(p.owner, p.name, n)];
    CheckoutLine(flags, url, tail, h.owner + "-" + h.branch, h.owner + "/" + h.branch);
    CheckoutSteps(ctx, repo, ["checkout"] + flags + [url] + tail, url, None, p, n, |["checkout"] + flags|,
      ["checkout"] + flags + ["--track", "-B", h.owner + "-" + h.branch, h.owner + "/" + h.branch] + tail);
  }

  /** `checkout URL NAME`: the head is checked out as NAME, and NAME itself goes. */
  lemma CheckoutPullNamed(ctx: Context, repo: LocalRepo, url: string, name: string, p: Project, n: string)
    requires PullOfUrl(ctx, url) == Some((p, n)) && PullId(p.owner, p.name, n) in ctx.pulls
    requires !IsFlag(url) && !IsFlag(name) && url != "checkout" && name != "checkout"
    ensures
      var h := ctx.pulls[PullId(p.owner, p.name, n)];
      Checkout(ctx, repo, ["checkout"] + [url, name])
        == Run(PrepareHead(ctx, repo, p, h) + [Git(["checkout"] + ["--track", "-B", name, h.owner + "/" + h.branch])])
  {
    var h := ctx.pulls[PullId(p.owner, p.name, n)];
    CheckoutNamedLine(url, name, h.owner + "/" + h.branch);
    CheckoutSteps(ctx, repo, ["checkout"] + [url, name], url, Some(name), p, n, 1, ["checkout"] + ["--track", "-B", name, h.owner + "/" + h.branch]);
  }

  /** A checkout whose first word is not the page of a pull request goes to git unchanged. */
  lemma CheckoutUntouched(ctx: Context, repo: LocalRepo, args: seq<string>)
    requires |Words(args)| < 2 || PullOfUrl(ctx, Words(args)[1]).None?
    ensures Checkout(ctx, repo, args) == Forward(args)
  {
  }
}

/**
 * `git pull-request`: the base and head of the pull request are worked out
 * from the options and the current branch, checked locally, and the pull
 * request is opened through the API.
 */
module PullRules {
  import opened Maybe
  import opened Strings
  import opened Projects
  import opened Repo
  import opened Outcomes
  import opened WebUrls
  import opened PickRules
  import opened PullLines

  const MasterBranch := "master"
  const NoOriginMessage := "Aborted: the origin remote doesn't point to a GitHub repository."
  const HeadHint := "(use `-h <branch>` to specify an explicit pull request head)"
  const ForceHint := "(use `-f` to force submit a pull request anyway)"
  const EmptyTitleMessage := "Aborting due to empty pull request title"

  function SameBranchLine(base: string): string {
    "Aborted: head branch is the same as base (\"" + base + "\")"
  }

  function UnpushedLine(n: nat, remoteBranch: string): string {
    "Aborted: " + NatToString(n) + " commits are not yet pushed to " + remoteBranch
  }

  /** What the options of `pull-request` say. */
  datatype PullArgs = PullArgs(
    force: bool,
    base: Option<string>,
    baseProject: Project,
    head: Option<string>,
    headProject: Project,
    explicitOwner: bool,
    issue: Option<string>,
    title: Option<string>)

  datatype Parse = Parsed(opts: PullArgs) | Invalid(arg: string) | NoValue(flag: string)

  /** The issue a URL's page names, as its repository and number. */
  function IssueOfUrl(ctx: Context, url: string): (r: Option<(Project, string)>)
    ensures r.Some? ==> r.value.1 != "" && AllDigits(r.value.1)
  {
    match ResolveWebUrl(ctx, url)
    case None => None
    case Some(page) =>
      match PathNumber(page.path, IssuePrefix)
      case None => None
      case Some(n) => Some((page.project, n))
  }

  /** An option that takes a value: `-b` and `-h` a branch, `-i` an issue number. */
  predicate TakesValue(flag: string) {
    flag == "-b" || flag == "-h" || flag == "-i"
  }

  /** The options after `flag VALUE`. */
  function WithValue(acc: PullArgs, flag: string, value: string): (r: PullArgs)
    requires TakesValue(flag)
    ensures r.force == acc.force && r.title == acc.title
    ensures flag != "-h" ==> r.head == acc.head
    ensures flag != "-b" ==> r.baseProject == acc.baseProject
    ensures flag == "-i" ==> r.issue == Some(value)
  {
    if flag == "-b" then
      var (p, b) := RefOf(value, acc.baseProject);
      acc.(baseProject := p, base := Some(b))
    else if flag == "-h" then
      var (p, h) := RefOf(value, acc.headProject);
      acc.(headProject := p, head := Some(h), explicitOwner := ':' in value)
    else acc.(issue := Some(value))
  }

  /**
   * The options after a plain argument: an issue's page names the issue
   * and its repository as the base; the first other argument is the title,
   * a second one is invalid (nothing).
   */
  function WithWord(ctx: Context, acc: PullArgs, a: string): (r: Option<PullArgs>)
    ensures r.Some? ==> r.value.force == acc.force && r.value.head == acc.head
    ensures r.Some? && acc.title.Some? ==> r.value.title == acc.title
    ensures r.Some? ==> r.value.title == acc.title || r.value.title == Some(a)
    ensures r.Some? && IssueOfUrl(ctx, a).None? ==> r.value.baseProject == acc.baseProject
    ensures r.None? <==> acc.title.Some? && IssueOfUrl(ctx, a).None?
  {
    match IssueOfUrl(ctx, a)
    case Some((p, n)) => Some(acc.(issue := Some(n), baseProject := p))
    case None => if acc.title.None? then Some(acc.(title := Some(a))) else None
  }

  /**
   * The options, one at a time: `-f` forces; `-b [OWNER:]BRANCH` and
   * `-h [OWNER:]BRANCH` set base and head; `-i N` names an issue (a last
   * `-i` clears it); anything else is a plain argument.
   */
  function ParsePull(ctx: Context, args: seq<string>, acc: PullArgs): (r: Parse)
    ensures r.Parsed? && acc.force ==> r.opts.force
    ensures r.Parsed? && r.opts.force ==> acc.force || "-f" in args
    ensures r.Parsed? && r.opts.head.Some? ==> acc.head.Some? || "-h" in args
    ensures r.Parsed? && acc.title.Some? ==> r.opts.title == acc.title
    ensures r.Parsed? && r.opts.title.Some? ==> acc.title.Some? || r.opts.title.value in args
    ensures r.Invalid? ==> r.arg in args
    ensures r.NoValue? ==> r.flag == "-b" || r.flag == "-h"
    ensures r.Parsed? && "-b" !in args && (forall a | a in args :: IssueOfUrl(ctx, a).None?)
            ==> r.opts.baseProject == acc.baseProject
    decreases |args|
  {
    if |args| == 0 then Parsed(acc)
    else
      var a := args[0];
      assert forall x | x in args[1..] :: x in args;
      if a == "-f" then ParsePull(ctx, args[1..], acc.(force := true))
      else if TakesValue(a) then
        if |args| < 2 then (if a == "-i" then Parsed(acc.(issue := None)) else NoValue(a))
        else
          assert forall x | x in args[2..] :: x in args;
          ParsePull(ctx, args[2..], WithValue(acc, a, args[1]))
      else
        match WithWord(ctx, acc, a)
        case Some(next) => ParsePull(ctx, args[1..], next)
        case None => Invalid(a)
  }

  /** What the pull request is opened with: the issue it turns into one, else a title, the editor's when none was given. */
  function SubjectOf(ctx: Context, o: PullArgs): (r: Option<Subject>)
    ensures o.issue.Some? ==> r == Some(Issue(o.issue.value))
    ensures o.issue.None? && o.title.Some? ==> r == Some(Title(o.title.value))
    ensures r.None? <==> o.issue.None? && o.title.None? && ctx.editorTitle == ""
  {
    if o.issue.Some? then Some(Issue(o.issue.value))
    else if o.title.Some? then Some(Title(o.title.value))
    else if ctx.editorTitle != "" then Some(Title(ctx.editorTitle))
    else None
  }

  /**
   * The head once the user is known: without a tracked branch or an
   * explicit owner, the branch is taken to be published in the user's own
   * fork.
   */
  function HeadProject(o: PullArgs, tracked: bool, user: string): (r: Project)
    ensures r.host == o.headProject.host && r.name == o.headProject.name
    ensures tracked || o.explicitOwner ==> r == o.headProject
    ensures !tracked && !o.explicitOwner ==> r.owner == user
  {
    if o.headProject.owner != user && !tracked && !o.explicitOwner then o.headProject.(owner := user)
    else o.headProject
  }

  /** The commits of the tracked head branch not yet pushed, when there are any. */
  function Unpushed(ctx: Context, remote: string, branch: string): (r: nat)
    ensures r > 0 ==> (remote, branch) in ctx.unpushed && r == ctx.unpushed[(remote, branch)]
  {
    if (remote, branch) in ctx.unpushed then ctx.unpushed[(remote, branch)] else 0
  }

  /** The request and what becomes of it: the page of the new pull request is printed, or the API's refusal. */
  function Submit(ctx: Context, call: Call): (r: Outcome)
    ensures r.Run? ==> ctx.reply.Accepted? && r.cmds == [Api(call), Exec("echo", [ctx.reply.htmlUrl])]
    ensures r.Fail? ==> r.done == [Api(call)] && ctx.reply.Rejected?
    ensures r.Run? || r.Fail?
  {
    match ctx.reply
    case Accepted(url) => Run([Api(call), Exec("echo", [url])])
    case Rejected(status, reason, errors) => Fail([Api(call)], HttpErrorLines("creating pull request", status, reason, errors))
  }

  /**
   * The pull request the parsed options describe: the base branch defaults
   * to master; without `-h`, a tracked head branch equal to the base in the
   * same project aborts, and so do unpushed commits on it unless `-f` is
   * given; the head is labelled `OWNER:BRANCH`.
   */
  function Plan(ctx: Context, repo: LocalRepo, o: PullArgs): (r: Outcome)
    ensures r.Fail? && r.done != [] ==> (
      ctx.reply.Rejected? && |r.done| == 1 && r.done[0].Api? && r.done[0].call.CreatePull?
      && r.done[0].call.repo == o.baseProject
      && r.lines == HttpErrorLines("creating pull request", ctx.reply.status, ctx.reply.reason, ctx.reply.errors))
    ensures r.Run? ==> (
      ctx.reply.Accepted? && |r.cmds| == 2 && r.cmds[0].Api? && r.cmds[0].call.CreatePull? && r.cmds[0].call.repo == o.baseProject
      && r.cmds[0].call.base == o.base.GetOr(MasterBranch) && r.cmds[1] == Exec("echo", [ctx.reply.htmlUrl]))
  {
    var base := o.base.GetOr(MasterBranch);
    var tracked := if o.head.None? then repo.tracked else None;
    if tracked.Some? && o.baseProject == o.headProject && tracked.value.1 == base then
      Abort([SameBranchLine(base), HeadHint])
    else if o.head.None? && tracked.None? && repo.branch.None? then
      Crash("not on any branch")
    else
      var branch := if o.head.Some? then o.head.value else if tracked.Some? then tracked.value.1 else repo.branch.value;
      match User(ctx, o.headProject.host)
      case None => Abort([NoUserMessage])
      case Some(user) =>
        var hp := HeadProject(o, tracked.Some?, user);
        var remote := RemoteOf(repo.remotes, repo.projects, hp).GetOr("");
        var n := Unpushed(ctx, remote, branch);
        if !o.force && tracked.Some? && n > 0 then
          Abort([UnpushedLine(n, remote + "/" + branch), ForceHint])
        else
          match SubjectOf(ctx, o)
          case None => Abort([EmptyTitleMessage])
          case Some(subject) =>
            match User(ctx, o.baseProject.host)
            case None => Abort([NoUserMessage])
            case Some(u) =>
              match Token(ctx, o.baseProject.host)
              case None => Abort([NoTokenMessage])
              case Some(t) => Submit(ctx, CreatePull(o.baseProject, base, hp.owner + ":" + branch, subject, Creds(u, t)))
  }

  /** The options before any is read: origin's project is the base, the current project the head. */
  function Defaults(base: Project, head: Project): (r: PullArgs)
    ensures !r.force && r.base.None? && r.head.None? && r.issue.None? && r.title.None? && !r.explicitOwner
    ensures r.baseProject == base && r.headProject == head
  {
    PullArgs(false, None, base, None, head, false, None, None)
  }

  /**
   * `git pull-request`: origin must name a GitHub project; the options are
   * read, then the pull request is checked and opened.
   */
  function PullRequest(ctx: Context, repo: LocalRepo, args: seq<string>): (r: Outcome)
    ensures repo.main.None? ==> r == Abort([NoOriginMessage])
    ensures r.Run? ==> (
      repo.main.Some? && ctx.reply.Accepted? && |r.cmds| == 2 && r.cmds[0].Api? && r.cmds[0].call.CreatePull?
      && r.cmds[1] == Exec("echo", [ctx.reply.htmlUrl]))
    ensures r.Run? && (|args| == 0 || ("-b" !in args[1..] && forall a | a in args[1..] :: IssueOfUrl(ctx, a).None?))
            ==> r.cmds[0].call.repo == repo.main.value
    ensures r.Fail? && r.done != [] ==> (
      repo.main.Some? && ctx.reply.Rejected? && |r.done| == 1 && r.done[0].Api? && r.done[0].call.CreatePull?
      && r.lines == HttpErrorLines("creating pull request", ctx.reply.status, ctx.reply.reason, ctx.reply.errors))
  {
    match repo.main
    case None => Abort([NoOriginMessage])
    case Some(base) =>
      var head := repo.current.GetOr(base);
      match ParsePull(ctx, if |args| > 0 then args[1..] else [], Defaults(base, head))
      case Invalid(a) => Abort(["invalid argument: " + a])
      case NoValue(f) => Crash("no value after " + f)
      case Parsed(o) => Plan(ctx, repo, o)
  }

  /** Reading `FLAG VALUE` (`-b`, `-h`, `-i`) first. */
  lemma ParseValue(ctx: Context, flag: string, v: string, rest: seq<string>, acc: PullArgs)
    requires TakesValue(flag)
    ensures ParsePull(ctx, [flag, v] + rest, acc) == ParsePull(ctx, rest, WithValue(acc, flag, v))
  {
    assert ([flag, v] + rest)[2..] == rest;
  }

  /** Reading `-f` first. */
  lemma ParseForce(ctx: Context, rest: seq<string>, acc: PullArgs)
    ensures ParsePull(ctx, ["-f"] + rest, acc) == ParsePull(ctx, rest, acc.(force := true))
  {
    assert (["-f"] + rest)[1..] == rest;
  }

  /** Reading a plain argument first. */
  lemma ParseWord(ctx: Context, a: string, rest: seq<string>, acc: PullArgs)
    requires a != "-f" && !TakesValue(a)
    ensures WithWord(ctx, acc, a).Some? ==> ParsePull(ctx, [a] + rest, acc) == ParsePull(ctx, rest, WithWord(ctx, acc, a).value)
    ensures WithWord(ctx, acc, a).None? ==> ParsePull(ctx, [a] + rest, acc) == Invalid(a)
  {
    assert ([a] + rest)[1..] == rest;
  }

  /** A title that is no issue's page is the title. */
  lemma ParseTitle(ctx: Context, title: string, rest: seq<string>, acc: PullArgs)
    requires title != "-f" && !TakesValue(title) && IssueOfUrl(ctx, title).None? && acc.title.None?
    ensures ParsePull(ctx, [title] + rest, acc) == ParsePull(ctx, rest, acc.(title := Some(title)))
  {
    ParseWord(ctx, title, rest, acc);
  }

  /**
   * Without `-h`, a pull request from a branch that tracks the base branch
   * of the base project itself is refused before any request is made.
   */
  lemma PullSameBase(ctx: Context, repo: LocalRepo, title: string, m: Project, rem: string)
    requires repo.main == Some(m) && repo.current == Some(m) && repo.tracked == Some((rem, MasterBranch))
    requires title != "-f" && !TakesValue(title) && IssueOfUrl(ctx, title).None?
    ensures PullRequest(ctx, repo, ["pull-request", title]) == Abort([SameBranchLine(MasterBranch), HeadHint])
    ensures !CallsApi(PullRequest(ctx, repo, ["pull-request", title]))
  {
    ParseTitle(ctx, title, [], Defaults(m, m));
    assert ["pull-request", title][1..] == [title] + [];
  }

  /**
   * Without `-f`, a tracked head branch with commits not yet pushed is
   * refused before any request is made, naming the count and the branch.
   */
  lemma PullUnpushed(ctx: Context, repo: LocalRepo, title: string, m: Project, c: Project, rem: string, b: string, u: string)
    requires repo.main == Some(m) && repo.current == Some(c) && repo.tracked == Some((rem, b))
    requires c != m || b != MasterBranch
    requires title != "-f" && !TakesValue(title) && IssueOfUrl(ctx, title).None?
    requires User(ctx, c.host) == Some(u) && RemoteOf(repo.remotes, repo.projects, c) == Some(rem)
    requires Unpushed(ctx, rem, b) > 0
    ensures PullRequest(ctx, repo, ["pull-request", title]) == Abort([UnpushedLine(Unpushed(ctx, rem, b), rem + "/" + b), ForceHint])
  {
    ParseTitle(ctx, title, [], Defaults(m, c));
    assert ["pull-request", title][1..] == [title] + [];
  }

  /**
   * With `-f` the same pull request is submitted: the head is the tracked
   * branch, labelled with the tracked project's owner.
   */
  lemma PullForced(ctx: Context, repo: LocalRepo, title: string, m: Project, c: Project, rem: string, b: string, u: string, bu: string, t: string)
    requires repo.main == Some(m) && repo.current == Some(c) && repo.tracked == Some((rem, b))
    requires c != m || b != MasterBranch
    requires title != "-f" && !TakesValue(title) && IssueOfUrl(ctx, title).None?
    requires User(ctx, c.host) == Some(u) && User(ctx, m.host) == Some(bu) && Token(ctx, m.host) == Some(t)
    ensures PullRequest(ctx, repo, ["pull-request", title, "-f"])
      == Submit(ctx, CreatePull(m, MasterBranch, c.owner + ":" + b, Title(title), Creds(bu, t)))
  {
    ParseTitle(ctx, title, ["-f"], Defaults(m, c));
    ParseForce(ctx, [], Defaults(m, c).(title := Some(title)));
    assert ["pull-request", title, "-f"][1..] == [title] + ["-f"];
    assert ["-f"] == ["-f"] + [];
  }

  /**
   * A branch that tracks nothing is taken to be published in the user's
   * own fork: the head is labelled with the user's name.
   */
  lemma PullUntracked(ctx: Context, repo: LocalRepo, title: string, m: Project, b: string, u: string, t: string)
    requires repo.main == Some(m) && repo.current == Some(m) && repo.tracked.None? && repo.branch == Some(b)
    requires title != "-f" && !TakesValue(title) && IssueOfUrl(ctx, title).None?
    requires User(ctx, m.host) == Some(u) && Token(ctx, m.host) == Some(t)
    ensures PullRequest(ctx, repo, ["pull-request", title, "-f"])
      == Submit(ctx, CreatePull(m, MasterBranch, u + ":" + b, Title(title), Creds(u, t)))
  {
    ParseTitle(ctx, title, ["-f"], Defaults(m, m));
    ParseForce(ctx, [], Defaults(m, m).(title := Some(title)));
    assert ["pull-request", title, "-f"][1..] == [title] + ["-f"];
    assert ["-f"] == ["-f"] + [];
  }

  /** `TITLE -h OWNER:BRANCH -f`, read. */
  lemma ParseExplicitHead(ctx: Context, title: string, owner: string, branch: string, m: Project, c: Project)
    requires ':' !in owner && '/' !in owner
    requires title != "-f" && !TakesValue(title) && IssueOfUrl(ctx, title).None?
    ensures ParsePull(ctx, ["pull-request", title, "-h", owner + ":" + branch, "-f"][1..], Defaults(m, c))
      == Parsed(Defaults(m, c).(title := Some(title), headProject := Project(c.host, owner, c.name), head := Some(branch), explicitOwner := true, force := true))
  {
    var x := owner + ":" + branch;
    var o1 := Defaults(m, c).(title := Some(title));
    var o2 := o1.(headProject := Project(c.host, owner, c.name), head := Some(branch), explicitOwner := true);
    assert ["pull-request", title, "-h", x, "-f"][1..] == [title] + (["-h", x] + ["-f"]);
    ParseTitle(ctx, title, ["-h", x] + ["-f"], Defaults(m, c));
    assert WithValue(o1, "-h", x) == o2 by {
      RefOfOwner(owner, branch, c);
      assert x[|owner|] == ':';
    }
    ParseValue(ctx, "-h", x, ["-f"], o1);
    assert ["-f"] == ["-f"] + [];
    ParseForce(ctx, [], o2);
  }

  /** A forced pull request with an explicit head and a title is submitted as it stands. */
  lemma PlanExplicit(ctx: Context, repo: LocalRepo, o: PullArgs, u: string, bu: string, t: string)
    requires o.force && o.head.Some? && o.explicitOwner && o.issue.None? && o.title.Some?
    requires User(ctx, o.headProject.host) == Some(u) && User(ctx, o.baseProject.host) == Some(bu) && Token(ctx, o.baseProject.host) == Some(t)
    ensures Plan(ctx, repo, o)
      == Submit(ctx, CreatePull(o.baseProject, o.base.GetOr(MasterBranch), o.headProject.owner + ":" + o.head.value, Title(o.title.value), Creds(bu, t)))
  {
  }

  /**
   * `-h OWNER:BRANCH` names the head exactly: it is labelled OWNER:BRANCH
   * whoever the user is, and nothing is checked against the current branch.
   */
  lemma PullExplicitHead(ctx: Context, repo: LocalRepo, title: string, m: Project, c: Project, owner: string, branch: string, u: string, bu: string, t: string)
    requires repo.main == Some(m) && repo.current == Some(c)
    requires ':' !in owner && '/' !in owner
    requires title != "-f" && !TakesValue(title) && IssueOfUrl(ctx, title).None?
    requires User(ctx, c.host) == Some(u) && User(ctx, m.host) == Some(bu) && Token(ctx, m.host) == Some(t)
    ensures PullRequest(ctx, repo, ["pull-request", title, "-h", owner + ":" + branch, "-f"])
      == Submit(ctx, CreatePull(m, MasterBranch, owner + ":" + branch, Title(title), Creds(bu, t)))
  {
    var o := Defaults(m, c).(title := Some(title), headProject := Project(c.host, owner, c.name), head := Some(branch), explicitOwner := true, force := true);
    ParseExplicitHead(ctx, title, owner, branch, m, c);
    PlanExplicit(ctx, repo, o, u, bu, t);
  }
}

=== FILE: remote.dfy ===
/**
 * The words of a `git remote add` command line: how the remote gets its
 * name, and how the command line reads once `-p` is taken out.
 */
module RemoteLines {
  import opened Maybe
  import opened Strings
  import opened Projects
  import opened Argv

  /**
   * How `remote add` names the new remote, read off its words: `remote add
   * origin` alone adds the user's own copy of the repository as `origin`; a
   * target right after `add` names the remote after its owner; otherwise the
   * word before the target is the name.
   */
  datatype Naming = OwnOrigin | AfterOwner | AsGiven

  function NamingOf(w: seq<string>): (r: Naming)
    ensures r == OwnOrigin <==> |w| == 3 && w[2] == "origin"
    ensures r == AfterOwner <==> !(|w| == 3 && w[2] == "origin") && (|w| < 2 || w[|w| - 2] == w[1])
  {
    if Nth(w, 2) == Some("origin") && Nth(w, 3).None? then OwnOrigin
    else if NthLast(w, 2) == Nth(w, 1) then AfterOwner
    else AsGiven
  }

  /** The words and the command line less `-p` of `remote add FLAGS x`. */
  lemma AddLine(flags: seq<string>, tail: seq<string>)
    requires forall f | f in flags :: IsFlag(f)
    requires forall w | w in tail :: !IsFlag(w)
    requires "-p" !in tail
    ensures Remove(["remote", "add"] + flags + tail, "-p") == ["remote", "add"] + Remove(flags, "-p") + tail
    ensures Words(["remote", "add"] + Remove(flags, "-p") + tail) == ["remote", "add"] + tail
  {
    assert Remove(["remote", "add"] + flags + tail, "-p") == ["remote", "add"] + Remove(flags, "-p") + tail by {
      RemoveFromFlags(["remote", "add"], flags, tail, "-p");
    }
    WordsAroundFlags(["remote", "add"], Remove(flags, "-p"), tail);
  }

  /** The command line `remote add FLAGS x` without `-p`, and its words. */
  lemma TailLine(flags: seq<string>, tail: seq<string>)
    requires forall f | f in flags :: IsFlag(f)
    requires forall w | w in tail :: !IsFlag(w)
    ensures ("-p" in ["remote", "add"] + flags + tail) == ("-p" in flags)
    ensures Remove(["remote", "add"] + flags + tail, "-p") == ["remote", "add"] + Remove(flags, "-p") + tail
    ensures Words(["remote", "add"] + Remove(flags, "-p") + tail) == ["remote", "add"] + tail
  {
    assert "-p" !in tail by {
      assert IsFlag("-p");
    }
    AddLine(flags, tail);
  }

  /**
   * The repository the last argument of `remote add` names: `OWNER/NAME`,
   * or a bare `OWNER` (`[\w-]+`) for the owner's copy of this repository.
   */
  function RemoteTarget(last: string, repoName: string): (r: Option<(string, string)>)
    ensures r.Some? ==> r.value.0 != "" && AllOwner(r.value.0)
    ensures r.Some? && '/' in last ==> last == r.value.0 + "/" + r.value.1
    ensures r.Some? && '/' !in last ==> r.value == (last, repoName)
  {
    match Shorthand(last)
    case Some((Some(owner), name)) => Some((owner, name))
    case Some((None, name)) =>
      if AllOwner(name) then Some((name, repoName)) else None
    case None => None
  }

  /** `origin` names the user's own copy of the repository. */
  lemma OriginTarget(repoName: string)
    ensures RemoteTarget("origin", repoName) == Some(("origin", repoName))
  {
    assert AllName("origin") && AllOwner("origin");
    ShorthandName("origin");
  }

  /** The command line `remote add FLAGS origin` without `-p`, and its words. */
  lemma OriginLine(flags: seq<string>)
    requires forall f | f in flags :: IsFlag(f)
    ensures var args := ["remote", "add"] + flags + ["origin"];
      && |args| >= 2 && args[1] == "add" && args[|args| - 1] == "origin"
      && ("-p" in args) == ("-p" in flags)
      && Remove(args, "-p") == ["remote", "add"] + Remove(flags, "-p") + ["origin"]
      && Words(["remote", "add"] + Remove(flags, "-p") + ["origin"]) == ["remote", "add", "origin"]
  {
    TailLine(flags, ["origin"]);
  }

  /** Where the target sits in `remote add FLAGS x` once `-p` is taken out. */
  lemma TargetLine(flags: seq<string>, x: string)
    requires forall f | f in flags :: IsFlag(f)
    requires !IsFlag(x) && x != "remote" && x != "add"
    ensures IndexOf(["remote", "add"] + Remove(flags, "-p") + [x], x) == Some(2 + |Remove(flags, "-p")|)
  {
    var head := ["remote", "add"] + Remove(flags, "-p");
    assert x !in head by {
      assert x !in Remove(flags, "-p");
    }
    IndexOfJoin(head + [x], head, x, []);
  }

  /** The command line `remote add FLAGS OWNER/NAME` as `git remote` reads it. */
  lemma OwnerNameLine(flags: seq<string>, owner: string, name: string, repoName: string)
    requires forall f | f in flags :: IsFlag(f)
    requires owner != "" && AllOwner(owner) && owner[0] != '-' && name != "" && AllName(name)
    ensures var x := owner + "/" + name;
      var args := ["remote", "add"] + flags + [x];
      var head := ["remote", "add"] + Remove(flags, "-p");
      && |args| >= 2 && args[1] == "add" && args[|args| - 1] == x
      && RemoteTarget(x, repoName) == Some((owner, name))
      && ("-p" in args) == ("-p" in flags)
      && Remove(args, "-p") == head + [x]
      && Words(head + [x]) == ["remote", "add", x]
      && NamingOf(["remote", "add", x]) == AfterOwner
      && !IsFlag(x) && x != "remote" && x != "add"
  {
    var x := owner + "/" + name;
    SlashedWord(owner, name);
    ShorthandOwnerName(owner, name);
    TailLine(flags, [x]);
    AddArgs(flags, [x]);
    NamingAfterOwner(x);
  }

  /** `OWNER/NAME` is a word, and none of `origin`, `remote` and `add`. */
  lemma SlashedWord(owner: string, name: string)
    requires owner != "" && owner[0] != '-'
    ensures var x := owner + "/" + name;
      !IsFlag(x) && x != "origin" && x != "remote" && x != "add"
  {
    var x := owner + "/" + name;
    assert x[0] == owner[0] && x[|owner|] == '/';
    assert '/' !in "origin" && '/' !in "remote" && '/' !in "add";
  }

  /** Words `remote add X` name the remote after the owner (unless X is `origin`). */
  lemma NamingAfterOwner(x: string)
    requires x != "origin"
    ensures NamingOf(["remote", "add", x]) == AfterOwner
  {
  }

  /** The command line `remote add FLAGS OWNER` as `git remote` reads it. */
  lemma OwnerLine(flags: seq<string>, owner: string, repoName: string)
    requires forall f | f in flags :: IsFlag(f)
    requires owner != "" && AllOwner(owner) && owner[0] != '-' && owner != "origin"
    ensures var args := ["remote", "add"] + flags + [owner];
      var a := ["remote", "add"] + Remove(flags, "-p") + [owner];
      && |args| >= 2 && args[1] == "add" && args[|args| - 1] == owner
      && RemoteTarget(owner, repoName) == Some((owner, repoName))
      && ("-p" in args) == ("-p" in flags)
      && Remove(args, "-p") == a
      && Words(a) == ["remote", "add", owner]
      && NamingOf(["remote", "add", owner]) == AfterOwner
      && owner in a
  {
    var args := ["remote", "add"] + flags + [owner];
    var a := ["remote", "add"] + Remove(flags, "-p") + [owner];
    assert RemoteTarget(owner, repoName) == Some((owner, repoName)) by {
      assert AllName(owner);
      ShorthandName(owner);
    }
    TailLine(flags, [owner]);
    AddArgs(flags, [owner]);
    NamingAfterOwner(owner);
    assert a[|a| - 1] == owner;
  }

  /** The command line `remote add FLAGS NAME TARGET` as `git remote` reads it. */
  lemma NamedLine(flags: seq<string>, remote: string, target: string)
    requires forall f | f in flags :: IsFlag(f)
    requires !IsFlag(remote) && !IsFlag(target) && remote != "add"
    ensures var args := ["remote", "add"] + flags + [remote, target];
      var head := ["remote", "add"] + Remove(flags, "-p");
      && |args| >= 2 && args[1] == "add" && args[|args| - 1] == target
      && ("-p" in args) == ("-p" in flags)
      && Remove(args, "-p") == head + [remote, target]
      && Words(head + [remote, target]) == ["remote", "add", remote, target]
      && NamingOf(["remote", "add", remote, target]) == AsGiven
  {
    TailLine(flags, [remote, target]);
    AddArgs(flags, [remote, target]);
    NamingGiven(remote, target);
  }

  /** `remote add FLAGS TAIL` has `add` second and ends as TAIL ends. */
  lemma AddArgs(flags: seq<string>, tail: seq<string>)
    requires |tail| > 0
    ensures var args := ["remote", "add"] + flags + tail;
      |args| >= 2 && args[1] == "add" && args[|args| - 1] == tail[|tail| - 1]
  {
  }

  /** Words `remote add NAME TARGET` name the remote as given, unless NAME is `add` itself. */
  lemma NamingGiven(remote: string, target: string)
    requires remote != "add"
    ensures NamingOf(["remote", "add", remote, target]) == AsGiven
  {
  }
}

/**
 * `git remote add`: when the last argument is `OWNER` or `OWNER/NAME`, it is
 * replaced by the clone URL of that repository, and the remote is named
 * after the owner unless the command line names it.
 */
module RemoteRules {
  import opened Maybe
  import opened Strings
  import opened Projects
  import opened Repo
  import opened Argv
  import opened Outcomes
  import opened CloneRules
  import opened RemoteLines

  /** The URL of remote `owner/name`, private only with `-p`. */
  function RemoteUrl(ctx: Context, repo: LocalRepo, owner: string, name: string, ssh: bool): (r: string)
    ensures ':' in r && !IsFlag(r)
  {
    TargetUrl(ctx, OwnedProject(repo, owner, name), ssh)
  }

  /**
   * The command line of `git remote add` once the target `owner/name` is
   * known; `a` is the command line without `-p`.
   */
  function RemoteAdd(ctx: Context, repo: LocalRepo, a: seq<string>, owner: string, name: string, ssh: bool): (r: Outcome)
    ensures r.Fail? ==> r == Abort([NoUserMessage]) && User(ctx, repo.host).None?
    ensures r.Run? ==> |r.cmds| == 1 && r.cmds[0].Git? && |r.cmds[0].args| > 0
    ensures r.Run? ==> ':' in r.cmds[0].args[|r.cmds[0].args| - 1]
  {
    var w := Words(a);
    match NamingOf(w)
    case OwnOrigin =>
      (match User(ctx, repo.host)
       case None => Abort([NoUserMessage])
       case Some(login) => Forward(a + [RemoteUrl(ctx, repo, login, repo.name, ssh)]))
    case AfterOwner =>
      if |w| == 0 then Crash("no word to name the remote by")
      else
        (match IndexOf(a, w[|w| - 1])
         case None => Crash("no word to name the remote by")
         case Some(k) => Forward(a[k := owner] + [RemoteUrl(ctx, repo, owner, name, ssh)]))
    case AsGiven =>
      if |a| == 0 then Forward([RemoteUrl(ctx, repo, owner, name, ssh)])
      else Forward(a[..|a| - 1] + [RemoteUrl(ctx, repo, owner, name, ssh)])
  }

  /** `git remote`: only `remote add` with a repository shorthand last is rewritten. */
  function Remote(ctx: Context, repo: LocalRepo, args: seq<string>): (r: Outcome)
    ensures (|args| < 2 || args[1] != "add") ==> r == Forward(args)
    ensures |args| > 0 && RemoteTarget(args[|args| - 1], repo.name).None? ==> r == Forward(args)
    ensures r.Fail? ==> r == Abort([NoUserMessage]) && User(ctx, repo.host).None?
  {
    if |args| < 2 || args[1] != "add" then Forward(args)
    else
      match RemoteTarget(args[|args| - 1], repo.name)
      case None => Forward(args)
      case Some((owner, name)) => RemoteAdd(ctx, repo, Remove(args, "-p"), owner, name, "-p" in args)
  }

  /** URLs and paths are no targets: `remote add NAME URL` runs as typed. */
  lemma RemoteLeavesUrls(ctx: Context, repo: LocalRepo, args: seq<string>)
    requires |args| > 0
    requires var last := args[|args| - 1];
      ':' in last || (|last| > 0 && last[0] == '/') || (|last| > 0 && last[0] == '.' && '/' in last)
    ensures Remote(ctx, repo, args) == Forward(args)
  {
    NotShorthand(args[|args| - 1]);
  }

  /** How `Remote` reaches `RemoteAdd`. */
  lemma RemoteSteps(ctx: Context, repo: LocalRepo, args: seq<string>, owner: string, name: string)
    requires |args| >= 2 && args[1] == "add"
    requires RemoteTarget(args[|args| - 1], repo.name) == Some((owner, name))
    ensures Remote(ctx, repo, args) == RemoteAdd(ctx, repo, Remove(args, "-p"), owner, name, "-p" in args)
  {
  }

  /** How `Remote` names the remote after the owner when no name is given. */
  lemma AfterOwnerSteps(ctx: Context, repo: LocalRepo, args: seq<string>, a: seq<string>, w: seq<string>, owner: string, name: string, ssh: bool, k: nat)
    requires |args| >= 2 && args[1] == "add" && RemoteTarget(args[|args| - 1], repo.name) == Some((owner, name))
    requires ("-p" in args) == ssh && Remove(args, "-p") == a && Words(a) == w
    requires NamingOf(w) == AfterOwner && |w| > 0 && IndexOf(a, w[|w| - 1]) == Some(k)
    ensures k < |a|
    ensures Remote(ctx, repo, args) == Forward(a[k := owner] + [RemoteUrl(ctx, repo, owner, name, ssh)])
  {
    RemoteSteps(ctx, repo, args, owner, name);
  }

  /** How `Remote` replaces the target by its URL after a remote name. */
  lemma AsGivenSteps(ctx: Context, repo: LocalRepo, args: seq<string>, a: seq<string>, w: seq<string>, owner: string, name: string, ssh: bool, init: seq<string>)
    requires |args| >= 2 && args[1] == "add" && RemoteTarget(args[|args| - 1], repo.name) == Some((owner, name))
    requires ("-p" in args) == ssh && Remove(args, "-p") == a && Words(a) == w
    requires NamingOf(w) == AsGiven && |a| > 0 && a[..|a| - 1] == init
    ensures Remote(ctx, repo, args) == Forward(init + [RemoteUrl(ctx, repo, owner, name, ssh)])
  {
    RemoteSteps(ctx, repo, args, owner, name);
  }

  /**
   * `remote add [FLAGS] OWNER/NAME` adds remote OWNER with the URL of
   * OWNER/NAME; `-p` among the flags makes it private and is dropped.
   */
  lemma RemoteAddOwnerName(ctx: Context, repo: LocalRepo, flags: seq<string>, owner: string, name: string)
    requires forall f | f in flags :: IsFlag(f)
    requires owner != "" && AllOwner(owner) && owner[0] != '-' && name != "" && AllName(name)
    ensures Remote(ctx, repo, ["remote", "add"] + flags + [owner + "/" + name])
         == Forward(["remote", "add"] + Remove(flags, "-p") + [owner, RemoteUrl(ctx, repo, owner, name, "-p" in flags)])
  {
    var x := owner + "/" + name;
    var head := ["remote", "add"] + Remove(flags, "-p");
    OwnerNameLine(flags, owner, name, repo.name);
    TargetLine(flags, x);
    AfterOwnerSteps(ctx, repo, ["remote", "add"] + flags + [x], head + [x], ["remote", "add", x], owner, name, "-p" in flags, |head|);
    ReplaceLast(head, x, owner, RemoteUrl(ctx, repo, owner, name, "-p" in flags));
  }

  /**
   * `remote add [FLAGS] OWNER` adds remote OWNER with the URL of OWNER's
   * copy of this repository; `-p` among the flags makes it private.
   */
  lemma RemoteAddOwner(ctx: Context, repo: LocalRepo, flags: seq<string>, owner: string)
    requires forall f | f in flags :: IsFlag(f)
    requires owner != "" && AllOwner(owner) && owner[0] != '-' && owner != "origin"
    ensures Remote(ctx, repo, ["remote", "add"] + flags + [owner])
         == Forward(["remote", "add"] + Remove(flags, "-p") + [owner] + [RemoteUrl(ctx, repo, owner, repo.name, "-p" in flags)])
  {
    var a := ["remote", "add"] + Remove(flags, "-p") + [owner];
    OwnerLine(flags, owner, repo.name);
    var k := IndexOf(a, owner).value;
    AfterOwnerSteps(ctx, repo, ["remote", "add"] + flags + [owner], a, ["remote", "add", owner], owner, repo.name, "-p" in flags, k);
    UpdateSame(a, k, owner);
  }

  /**
   * `remote add [FLAGS] NAME TARGET` adds remote NAME with the URL of the
   * repository TARGET names, as long as NAME is not `add` itself.
   */
  lemma RemoteAddNamed(ctx: Context, repo: LocalRepo, flags: seq<string>, remote: string, target: string, owner: string, name: string)
    requires forall f | f in flags :: IsFlag(f)
    requires !IsFlag(remote) && !IsFlag(target) && remote != "add"
    requires RemoteTarget(target, repo.name) == Some((owner, name))
    ensures Remote(ctx, repo, ["remote", "add"] + flags + [remote, target])
         == Forward(["remote", "add"] + Remove(flags, "-p") + [remote] + [RemoteUrl(ctx, repo, owner, name, "-p" in flags)])
  {
    var head := ["remote", "add"] + Remove(flags, "-p");
    NamedLine(flags, remote, target);
    DropLast(head, remote, target);
    AsGivenSteps(ctx, repo, ["remote", "add"] + flags + [remote, target], head + [remote, target], ["remote", "add", remote, target], owner, name, "-p" in flags, head + [remote]);
  }

  /**
   * `remote add [FLAGS] origin` adds the user's own copy of this repository
   * as `origin`, and aborts when no user is configured for the host.
   */
  lemma RemoteOrigin(ctx: Context, repo: LocalRepo, flags: seq<string>)
    requires forall f | f in flags :: IsFlag(f)
    ensures User(ctx, repo.host).None? ==> Remote(ctx, repo, ["remote", "add"] + flags + ["origin"]) == Abort([NoUserMessage])
    ensures User(ctx, repo.host).Some? ==>
      (Remote(ctx, repo, ["remote", "add"] + flags + ["origin"])
       == Forward(["remote", "add"] + Remove(flags, "-p") + ["origin"] + [RemoteUrl(ctx, repo, User(ctx, repo.host).value, repo.name, "-p" in flags)]))
  {
    var args := ["remote", "add"] + flags + ["origin"];
    var a := ["remote", "add"] + Remove(flags, "-p") + ["origin"];
    OriginLine(flags);
    OriginSteps(ctx, repo, args, a, "-p" in flags);
  }

  /** How `Remote` reads a `remote add origin` command line. */
  lemma OriginSteps(ctx: Context, repo: LocalRepo, args: seq<string>, a: seq<string>, ssh: bool)
    requires |args| >= 2 && args[1] == "add" && args[|args| - 1] == "origin"
    requires ("-p" in args) == ssh && Remove(args, "-p") == a && Words(a) == ["remote", "add", "origin"]
    ensures User(ctx, repo.host).None? ==> Remote(ctx, repo, args) == Abort([NoUserMessage])
    ensures User(ctx, repo.host).Some? ==> Remote(ctx, repo, args) == Forward(a + [RemoteUrl(ctx, repo, User(ctx, repo.host).value, repo.name, ssh)])
  {
    OriginTarget(repo.name);
    RemoteSteps(ctx, repo, args, "origin", repo.name);
    OriginAdd(ctx, repo, a, ssh);
  }

  /** `RemoteAdd` on the words `remote add origin`: the user's own repository. */
  lemma OriginAdd(ctx: Context, repo: LocalRepo, a: seq<string>, ssh: bool)
    requires Words(a) == ["remote", "add", "origin"]
    ensures User(ctx, repo.host).None? ==> RemoteAdd(ctx, repo, a, "origin", repo.name, ssh) == Abort([NoUserMessage])
    ensures User(ctx, repo.host).Some? ==>
              RemoteAdd(ctx, repo, a, "origin", repo.name, ssh) == Forward(a + [RemoteUrl(ctx, repo, User(ctx, repo.host).value, repo.name, ssh)])
  {
    assert NamingOf(["remote", "add", "origin"]) == OwnOrigin;
  }
}

=== FILE: shellwords.dfy ===
/**
 * Ruby's `Shellwords.shellwords`, which splits the text of a git alias into
 * words: unquoted runs, `'single'` and `"double"` quoted parts and
 * backslash escapes join into one word until whitespace ends it; an
 * unmatched quote is an error.
 */
module ShellWords {
  import opened Maybe
  import opened Strings

  /** Ruby's `\s`: space, tab, newline, vertical tab, form feed, carriage return. */
  predicate IsSpace(c: char) {
    c == ' ' || c == '\t' || c == '\n' || c == '\r' || c as int == 0x0B || c as int == 0x0C
  }

  /** A character that stands for itself outside quotes. */
  predicate IsPlain(c: char) {
    !IsSpace(c) && c != '\'' && c != '"' && c != '\\'
  }

  predicate AllPlain(s: string) {
    forall c | c in s :: IsPlain(c)
  }

  /** The characters a backslash escapes inside double quotes; before any other it stays. */
  predicate DoubleEscapable(c: char) {
    c == '$' || c == '`' || c == '"' || c == '\\' || c == '\n'
  }

  /**
   * The text of a double-quoted part that starts right after its opening
   * quote: the unescaped content and the position of the closing quote, or
   * nothing when the quote is never closed.
   */
  function DoubleQuoted(t: string): (r: Option<(string, nat)>)
    ensures r.Some? ==> r.value.1 < |t| && t[r.value.1] == '"' && |r.value.0| <= r.value.1
    ensures '"' !in t ==> r.None?
    decreases |t|
  {
    if |t| == 0 then None
    else if t[0] == '"' then Some(("", 0))
    else if t[0] == '\\' then
      if |t| == 1 then None
      else
        match DoubleQuoted(t[2..])
        case None => None
        case Some((w, n)) =>
          Some(((if DoubleEscapable(t[1]) then [t[1]] else t[..2]) + w, n + 2))
    else
      match DoubleQuoted(t[1..])
      case None => None
      case Some((w, n)) => Some(([t[0]] + w, n + 1))
  }

  /** The word in progress, if any, as a list of at most one word. */
  function Flushed(word: Option<string>): (r: seq<string>)
    ensures |r| <= 1 && (word.Some? <==> |r| == 1)
  {
    if word.Some? then [word.value] else []
  }

  /**
   * The words of `s`, after the words `acc` already found and the word
   * `word` in progress.
   */
  function Scan(s: string, word: Option<string>, acc: seq<string>): (r: Option<seq<string>>)
    ensures r.Some? ==> |acc| <= |r.value| && r.value[..|acc|] == acc
    decreases |s|
  {
    var w := word.GetOr("");
    if |s| == 0 then Some(acc + Flushed(word))
    else if IsSpace(s[0]) then Scan(s[1..], None, acc + Flushed(word))
    else if s[0] == '\'' then
      match Find(s[1..], '\'')
      case None => None
      case Some(k) => Scan(s[k + 2..], Some(w + s[1..k + 1]), acc)
    else if s[0] == '"' then
      match DoubleQuoted(s[1..])
      case None => None
      case Some((q, n)) => Scan(s[n + 2..], Some(w + q), acc)
    else if s[0] == '\\' then
      if |s| == 1 then Scan([], Some(w + "\\"), acc)
      else if s[1] == '\n' then Scan(s[2..], Some(w + s[..2]), acc)
      else Scan(s[2..], Some(w + [s[1]]), acc)
    else Scan(s[1..], Some(w + [s[0]]), acc)
  }

  /** The words of `s`, or nothing when a quote is left open. */
  function Shellwords(s: string): (r: Option<seq<string>>)
    ensures r.Some? && AllPlain(s) ==> forall i | 0 <= i < |r.value| :: r.value[i] != ""
  {
    var r := Scan(s, None, []);
    if r.Some? && AllPlain(s) then
      PlainWords(s, None, []);
      r
    else r
  }

  /** Text without quotes or backslashes never fails and never makes an empty word. */
  lemma {:induction false} PlainWords(s: string, word: Option<string>, acc: seq<string>)
    requires forall c | c in s :: c != '\'' && c != '"' && c != '\\'
    requires word.Some? ==> word.value != ""
    requires forall i | 0 <= i < |acc| :: acc[i] != ""
    ensures Scan(s, word, acc).Some?
    ensures forall i | 0 <= i < |Scan(s, word, acc).value| :: Scan(s, word, acc).value[i] != ""
    decreases |s|
  {
    if |s| > 0 {
      assert s[0] in s;
      assert forall c | c in s[1..] :: c in s;
      if IsSpace(s[0]) {
        PlainWords(s[1..], None, acc + Flushed(word));
      } else {
        PlainWords(s[1..], Some(word.GetOr("") + [s[0]]), acc);
      }
    }
  }

  /** A run of plain characters joins the word in progress. */
  lemma {:induction false} PlainRun(w: string, rest: string, word: Option<string>, acc: seq<string>)
    requires AllPlain(w)
    ensures Scan(w + rest, word, acc) == Scan(rest, if |w| == 0 then word else Some(word.GetOr("") + w), acc)
    decreases |w|
  {
    if |w| > 0 {
      assert w[0] in w;
      assert (w + rest)[1..] == w[1..] + rest;
      assert forall c | c in w[1..] :: c in w;
      var next := Some(word.GetOr("") + [w[0]]);
      assert IsPlain(w[0]);
      assert Scan(w + rest, word, acc) == Scan(w[1..] + rest, next, acc);
      PlainRun(w[1..], rest, next, acc);
      assert word.GetOr("") + [w[0]] + w[1..] == word.GetOr("") + w;
      if |w| == 1 {
        assert [w[0]] == w;
      }
    } else {
      assert w + rest == rest;
    }
  }

  /** A space ends the word in progress. */
  lemma SpaceEnds(rest: string, word: Option<string>, acc: seq<string>)
    ensures Scan(" " + rest, word, acc) == Scan(rest, None, acc + Flushed(word))
  {
    assert (" " + rest)[1..] == rest;
  }

  /**
   * Splitting is the inverse of joining with spaces: words made of plain
   * characters come back as they were.
   */
  lemma {:induction false} JoinedWords(words: seq<string>, acc: seq<string>)
    requires |words| >= 1
    requires forall i | 0 <= i < |words| :: words[i] != "" && AllPlain(words[i])
    ensures Scan(Join(words, " "), None, acc) == Some(acc + words)
    decreases |words|
  {
    var w := words[0];
    if |words| == 1 {
      PlainRun(w, "", None, acc);
      assert w + "" == w;
      assert "" + w == w;
      assert Scan("", Some(w), acc) == Some(acc + [w]);
      assert words == [w];
    } else {
      var tail := Join(words[1..], " ");
      assert Join(words, " ") == w + (" " + tail);
      PlainRun(w, " " + tail, None, acc);
      assert "" + w == w;
      SpaceEnds(tail, Some(w), acc);
      JoinedWords(words[1..], acc + [w]);
      assert acc + [w] + words[1..] == acc + words;
    }
  }

  /** Splitting undoes joining with spaces. */
  lemma SplitJoined(words: seq<string>)
    requires |words| >= 1
    requires forall i | 0 <= i < |words| :: words[i] != "" && AllPlain(words[i])
    ensures Shellwords(Join(words, " ")) == Some(words)
  {
    JoinedWords(words, []);
  }

  /** A single quote opens a part that runs to the next single quote. */
  lemma ScanSingle(s: string, word: Option<string>, acc: seq<string>, k: nat)
    requires |s| > 0 && s[0] == '\'' && Find(s[1..], '\'') == Some(k)
    ensures Scan(s, word, acc) == Scan(s[k + 2..], Some(word.GetOr("") + s[1..k + 1]), acc)
  {
  }

  /** A single-quoted part adds its text, spaces and all, to the word in progress. */
  lemma SingleQuotedPart(q: string, rest: string, word: Option<string>, acc: seq<string>)
    requires '\'' !in q
    ensures Scan("'" + q + "'" + rest, word, acc) == Scan(rest, Some(word.GetOr("") + q), acc)
  {
    var s := "'" + q + "'" + rest;
    assert s[1..] == q + "'" + rest;
    FindAfter(q, '\'', rest);
    ScanSingle(s, word, acc, |q|);
    assert s[1..|q| + 1] == q;
    assert s[|q| + 2..] == rest;
  }

  /** Double-quoted text without quotes or backslashes is its own content. */
  lemma {:induction false} DoubleQuotedPlain(q: string, rest: string)
    requires '"' !in q && '\\' !in q
    ensures DoubleQuoted(q + "\"" + rest) == Some((q, |q|))
    decreases |q|
  {
    if |q| > 0 {
      assert (q + "\"" + rest)[1..] == q[1..] + "\"" + rest;
      DoubleQuotedPlain(q[1..], rest);
      assert [q[0]] + q[1..] == q;
    }
  }

  /** A double-quoted part without quotes or backslashes adds its text to the word in progress. */
  lemma DoubleQuotedPart(q: string, rest: string, word: Option<string>, acc: seq<string>)
    requires '"' !in q && '\\' !in q
    ensures Scan("\"" + q + "\"" + rest, word, acc) == Scan(rest, Some(word.GetOr("") + q), acc)
  {
    var s := "\"" + q + "\"" + rest;
    assert s[1..] == q + "\"" + rest;
    DoubleQuotedPlain(q, rest);
    assert s[|q| + 2..] == rest;
  }

  /** `"a"'b'` is one word: quoted parts next to each other join. */
  lemma AdjacentQuotes(a: string, b: string)
    requires '"' !in a && '\\' !in a && '\'' !in b
    ensures Shellwords("\"" + a + "\"" + "'" + b + "'") == Some([a + b])
  {
    var single := "'" + b + "'";
    var s := "\"" + a + "\"" + single;
    assert s == "\"" + a + "\"" + "'" + b + "'";
    assert Scan(s, None, []) == Scan(single, Some(a), []) by {
      DoubleQuotedPart(a, single, None, []);
      assert "" + a == a;
    }
    assert Scan(single, Some(a), []) == Some([a + b]) by {
      SingleQuotedPart(b, "", Some(a), []);
      assert single + "" == single;
    }
  }

  /** `CMD OPT"TEXT"`: a command followed by an option whose value is quoted, spaces and all. */
  lemma QuotedOption(cmd: string, opt: string, q: string)
    requires cmd != "" && AllPlain(cmd) && AllPlain(opt)
    requires '"' !in q && '\\' !in q
    ensures Shellwords(cmd + " " + opt + "\"" + q + "\"") == Some([cmd, opt + q])
  {
    var quoted := "\"" + q + "\"";
    var s := cmd + (" " + (opt + quoted));
    assert s == cmd + " " + opt + "\"" + q + "\"";
    assert Scan(s, None, []) == Scan(opt + quoted, None, [cmd]) by {
      PlainRun(cmd, " " + (opt + quoted), None, []);
      assert "" + cmd == cmd;
      SpaceEnds(opt + quoted, Some(cmd), []);
      assert Flushed(Some(cmd)) == [cmd];
      assert [] + [cmd] == [cmd];
    }
    assert Scan(opt + quoted, None, [cmd]) == Scan(quoted, if |opt| == 0 then None else Some(opt), [cmd]) by {
      PlainRun(opt, quoted, None, [cmd]);
      assert "" + opt == opt;
    }
    assert Scan(quoted, if |opt| == 0 then None else Some(opt), [cmd]) == Some([cmd, opt + q]) by {
      DoubleQuotedPart(q, "", if |opt| == 0 then None else Some(opt), [cmd]);
      assert quoted + "" == quoted;
      assert "" + q == q;
      assert |opt| == 0 ==> opt + q == q;
      assert Flushed(Some(opt + q)) == [opt + q];
      assert [cmd] + [opt + q] == [cmd, opt + q];
    }
  }

  /** An unclosed double quote is an error. */
  lemma UnclosedDouble(q: string)
    requires '"' !in q
    ensures Shellwords("\"" + q) == None
  {
    assert ("\"" + q)[1..] == q;
  }
}

=== FILE: strings.dfy ===
/**
 * Character classes and the string operations hub's rewrite rules are built
 * from. Strings are `seq<char>`; every class is ASCII, as in the patterns the
 * rules match (`\w`, `[a-f0-9]`, ...).
 */
module Strings {
  import opened Maybe

  /** `\w`: ASCII letters, digits and underscore. */
  predicate IsWordChar(c: char) {
    'a' <= c <= 'z' || 'A' <= c <= 'Z' || '0' <= c <= '9' || c == '_'
  }

  predicate IsDigit(c: char) {
    '0' <= c <= '9'
  }

  /** A lower-case hexadecimal digit, as in an abbreviated commit sha. */
  predicate IsHexDigit(c: char) {
    '0' <= c <= '9' || 'a' <= c <= 'f'
  }

  /** A character of a GitHub login, `[\w-]`. */
  predicate IsOwnerChar(c: char) {
    IsWordChar(c) || c == '-'
  }

  /** A character of a repository name: `\w`, `.` and `-`. */
  predicate IsNameChar(c: char) {
    IsWordChar(c) || c == '.' || c == '-'
  }

  predicate AllWord(s: string) {
    forall c | c in s :: IsWordChar(c)
  }

  predicate AllDigits(s: string) {
    forall c | c in s :: IsDigit(c)
  }

  predicate AllHex(s: string) {
    forall c | c in s :: IsHexDigit(c)
  }

  predicate AllOwner(s: string) {
    forall c | c in s :: IsOwnerChar(c)
  }

  predicate AllName(s: string) {
    forall c | c in s :: IsNameChar(c)
  }

  /** `p[i..]` occurs in `s` at offset `k + i`, compared character by character. */
  predicate MatchesFrom(s: string, p: string, k: nat, i: nat)
    requires k + |p| <= |s| && i <= |p|
    decreases |p| - i
  {
    i == |p| || (s[k + i] == p[i] && MatchesFrom(s, p, k, i + 1))
  }

  lemma {:induction false} MatchesFromSlice(s: string, p: string, k: nat, i: nat)
    requires k + |p| <= |s| && i <= |p|
    ensures MatchesFrom(s, p, k, i) <==> s[k + i..k + |p|] == p[i..]
    decreases |p| - i
  {
    if i < |p| {
      MatchesFromSlice(s, p, k, i + 1);
      assert s[k + i..k + |p|] == [s[k + i]] + s[k + i + 1..k + |p|];
      assert p[i..] == [p[i]] + p[i + 1..];
    }
  }

  function StartsWith(s: string, p: string): (r: bool)
    ensures r <==> |p| <= |s| && s[..|p|] == p
  {
    if |p| <= |s| then MatchesFromSlice(s, p, 0, 0); MatchesFrom(s, p, 0, 0) else false
  }

  function EndsWith(s: string, p: string): (r: bool)
    ensures r <==> |p| <= |s| && s[|s| - |p|..] == p
  {
    if |p| <= |s| then MatchesFromSlice(s, p, |s| - |p|, 0); MatchesFrom(s, p, |s| - |p|, 0) else false
  }

  /** `s` without the suffix `p`, or `s` itself when it does not end with `p` (Ruby's `sub(/p$/, '')`). */
  function StripSuffix(s: string, p: string): (r: string)
    ensures EndsWith(s, p) ==> r + p == s
    ensures !EndsWith(s, p) ==> r == s
  {
    if EndsWith(s, p) then s[..|s| - |p|] else s
  }

  lemma StripSuffixAppended(s: string, p: string)
    ensures StripSuffix(s + p, p) == s
  {
    assert (s + p)[|s + p| - |p|..] == p;
  }

  /** The index of the first `c` in `s` at or after `i`. */
  function FindFrom(s: string, c: char, i: nat): (r: Option<nat>)
    requires i <= |s|
    ensures r.None? <==> c !in s[i..]
    ensures r.Some? ==> i <= r.value < |s| && s[r.value] == c && c !in s[i..r.value]
    decreases |s| - i
  {
    if i == |s| then None
    else if s[i] == c then Some(i)
    else
      var r := FindFrom(s, c, i + 1);
      assert s[i..] == [s[i]] + s[i + 1..];
      if r.Some? then assert s[i..r.value] == [s[i]] + s[i + 1..r.value]; r else r
  }

  /** The index of the first `c` in `s`. */
  function Find(s: string, c: char): (r: Option<nat>)
    ensures r.None? <==> c !in s
    ensures r.Some? ==> r.value < |s| && s[r.value] == c && c !in s[..r.value]
  {
    assert s[0..] == s;
    FindFrom(s, c, 0)
  }

  /** The first occurrence of `c` is exactly where `a` ends. */
  lemma FindAfter(a: string, c: char, b: string)
    requires c !in a
    ensures Find(a + [c] + b, c) == Some(|a|)
  {
    var s := a + [c] + b;
    assert s[|a|] == c;
    assert c in s;
    var k := Find(s, c).value;
    if k < |a| {
      assert false;
    } else if k > |a| {
      assert false;
    }
  }

  /** `s` cut at its first `c`: the part before and the part after. */
  function SplitFirst(s: string, c: char): (r: Option<(string, string)>)
    ensures r.None? <==> c !in s
    ensures r.Some? ==> c !in r.value.0 && |r.value.0| + 1 + |r.value.1| == |s|
  {
    match Find(s, c)
    case None => None
    case Some(k) => Some((s[..k], s[k + 1..]))
  }

  /** The two parts and the `c` between them make up `s` again. */
  lemma SplitFirstParts(s: string, c: char)
    requires c in s
    ensures s == SplitFirst(s, c).value.0 + [c] + SplitFirst(s, c).value.1
  {
    var k := Find(s, c).value;
    assert s == s[..k] + [c] + s[k + 1..];
  }

  /** Cutting at the first `c` undoes gluing at a `c` the left part does not contain. */
  lemma SplitFirstGlue(a: string, c: char, b: string)
    requires c !in a
    ensures SplitFirst(a + [c] + b, c) == Some((a, b))
  {
    FindAfter(a, c, b);
    var s := a + [c] + b;
    assert s[..|a|] == a;
    assert s[|a| + 1..] == b;
  }

  /** `s` up to its first `c`; all of `s` when there is none. */
  function CutAt(s: string, c: char): (r: string)
    ensures c !in r && |r| <= |s| && r == s[..|r|]
    ensures c in s ==> |r| < |s| && s[|r|] == c
    ensures c !in s ==> r == s
  {
    match Find(s, c)
    case None => s
    case Some(k) => s[..k]
  }

  /** A prefix free of `c` that ends where `s` ends or at a `c` is the cut. */
  lemma CutAtUnique(s: string, c: char, r: string)
    requires |r| <= |s| && r == s[..|r|] && c !in r
    requires |r| == |s| || s[|r|] == c
    ensures CutAt(s, c) == r
  {
    var q := CutAt(s, c);
    assert |q| == |r|;
  }

  lemma CutAtAppend(a: string, b: string, c: char)
    requires c !in a
    ensures CutAt(a + b, c) == a + CutAt(b, c)
  {
    var r := a + CutAt(b, c);
    assert |r| <= |a + b| && r == (a + b)[..|r|];
    CutAtUnique(a + b, c, r);
  }

  /** The pieces of `s` between the occurrences of `c`. */
  function Split(s: string, c: char): (r: seq<string>)
    ensures |r| >= 1
    ensures forall i | 0 <= i < |r| :: c !in r[i]
    decreases |s|
  {
    match SplitFirst(s, c)
    case None => [s]
    case Some((a, b)) => [a] + Split(b, c)
  }

  /** `parts` glued together with `sep` between neighbours. */
  function Join(parts: seq<string>, sep: string): (r: string)
    ensures |parts| == 1 ==> r == parts[0]
    decreases |parts|
  {
    if |parts| == 0 then ""
    else if |parts| == 1 then parts[0]
    else parts[0] + sep + Join(parts[1..], sep)
  }

  lemma {:induction false} JoinSplit(s: string, c: char)
    ensures Join(Split(s, c), [c]) == s
    decreases |s|
  {
    match SplitFirst(s, c)
    case None =>
    case Some((a, b)) =>
      SplitFirstParts(s, c);
      JoinSplit(b, c);
      assert Split(s, c)[1..] == Split(b, c);
  }

  /** A string that does not end in `c` does not end in an empty piece. */
  lemma {:induction false} SplitLastPart(s: string, c: char)
    requires |s| > 0 && s[|s| - 1] != c
    ensures Split(s, c)[|Split(s, c)| - 1] != ""
    decreases |s|
  {
    match SplitFirst(s, c)
    case None =>
    case Some((a, b)) =>
      SplitFirstParts(s, c);
      assert |b| > 0 && b[|b| - 1] == s[|s| - 1];
      SplitLastPart(b, c);
      assert Split(s, c) == [a] + Split(b, c);
  }

  lemma {:induction false} SplitJoin(parts: seq<string>, c: char)
    requires |parts| >= 1
    requires forall i | 0 <= i < |parts| :: c !in parts[i]
    ensures Split(Join(parts, [c]), c) == parts
    decreases |parts|
  {
    if |parts| > 1 {
      SplitJoin(parts[1..], c);
      assert Join(parts, [c]) == parts[0] + [c] + Join(parts[1..], [c]);
      SplitFirstGlue(parts[0], c, Join(parts[1..], [c]));
    } else {
      assert c !in parts[0];
    }
  }

  /** `xs` with every occurrence of `x` removed, the rest in order. */
  function Remove(xs: seq<string>, x: string): (r: seq<string>)
    ensures x !in r
    ensures forall y :: y in r <==> y in xs && y != x
    ensures x !in xs ==> r == xs
    ensures |r| <= |xs|
    decreases |xs|
  {
    if |xs| == 0 then []
    else if xs[0] == x then Remove(xs[1..], x)
    else
      assert xs == [xs[0]] + xs[1..];
      [xs[0]] + Remove(xs[1..], x)
  }

  lemma {:induction false} RemoveAppend(a: seq<string>, b: seq<string>, x: string)
    ensures Remove(a + b, x) == Remove(a, x) + Remove(b, x)
    decreases |a|
  {
    if |a| > 0 {
      assert (a + b)[1..] == a[1..] + b;
      RemoveAppend(a[1..], b, x);
    } else {
      assert a + b == b;
    }
  }

  /** The decimal digit for `d`. */
  function DigitChar(d: nat): (c: char)
    requires d < 10
    ensures IsDigit(c) && c as int - '0' as int == d
  {
    ('0' as int + d) as char
  }

  /** The decimal notation of `n`, without leading zeros. */
  function NatToString(n: nat): (r: string)
    ensures |r| >= 1 && AllDigits(r)
    ensures |r| > 1 ==> r[0] != '0'
    decreases n
  {
    if n < 10 then [DigitChar(n)]
    else
      var r := NatToString(n / 10) + [DigitChar(n % 10)];
      assert forall c | c in r :: c in NatToString(n / 10) || c == DigitChar(n % 10);
      r
  }

  /** The value of a string of decimal digits. */
  function DigitsValue(s: string): (v: nat)
    requires AllDigits(s)
    decreases |s|
  {
    if |s| == 0 then 0
    else
      assert forall c | c in s[..|s| - 1] :: c in s;
      assert s[|s| - 1] in s;
      DigitsValue(s[..|s| - 1]) * 10 + (s[|s| - 1] as int - '0' as int)
  }

  /** Printing a count and reading it back gives the count. */
  lemma {:induction false} DigitsValueOfNatToString(n: nat)
    ensures DigitsValue(NatToString(n)) == n
    decreases n
  {
    if n >= 10 {
      DigitsValueOfNatToString(n / 10);
      var r := NatToString(n);
      assert r[..|r| - 1] == NatToString(n / 10);
    }
  }

  /** The last `/`-separated segment of a path. */
  function Basename(path: string): (r: string)
    ensures '/' !in r
    ensures EndsWith(path, r)
    ensures '/' !in path ==> r == path
    decreases |path|
  {
    match SplitFirst(path, '/')
    case None => path
    case Some((_, rest)) =>
      SplitFirstParts(path, '/');
      var r := Basename(rest);
      assert path[|path| - |r|..] == rest[|rest| - |r|..];
      r
  }

  lemma {:induction false} BasenameAfterSlash(dir: string, f: string)
    requires '/' !in f
    ensures Basename(dir + "/" + f) == f
    decreases |dir|
  {
    var s := dir + "/" + f;
    if '/' in dir {
      var (a, b) := SplitFirst(dir, '/').value;
      assert s == a + ['/'] + (b + "/" + f);
      SplitFirstGlue(a, '/', b + "/" + f);
      BasenameAfterSlash(b, f);
    } else {
      assert s == dir + ['/'] + f;
      SplitFirstGlue(dir, '/', f);
    }
  }

  /** `file` inside directory `dir`, with exactly one separator between them. */
  function JoinPath(dir: string, file: string): (r: string)
    ensures EndsWith(dir, "/") ==> r == dir + file
    ensures !EndsWith(dir, "/") ==> r == dir + "/" + file
  {
    if EndsWith(dir, "/") then dir + file else dir + "/" + file
  }

  /** A joined path ends in its file. */
  lemma JoinPathEnds(dir: string, file: string)
    ensures EndsWith(JoinPath(dir, file), file)
  {
    if EndsWith(dir, "/") {
      AppendEnds(dir, file);
    } else {
      AppendEnds(dir + "/", file);
    }
  }

  /** A string ends in what was appended to it. */
  lemma AppendEnds(a: string, b: string)
    ensures EndsWith(a + b, b)
  {
    assert (a + b)[|a + b| - |b|..] == b;
  }

  /** Starting with `m`, which starts with `b`, is starting with `b`. */
  lemma StartsWithTrans(r: string, m: string, b: string)
    requires StartsWith(r, m) && StartsWith(m, b)
    ensures StartsWith(r, b)
  {
    assert r[..|b|] == m[..|b|];
  }

  /** Ending in `m`, which ends in `b`, is ending in `b`. */
  lemma EndsWithTrans(r: string, m: string, b: string)
    requires EndsWith(r, m) && EndsWith(m, b)
    ensures EndsWith(r, b)
  {
    assert r[|r| - |b|..] == m[|m| - |b|..];
  }
}

=== FILE: web.dfy ===
/**
 * The pieces of the web pages `browse` and `compare` open: the commit range
 * of a comparison and the page paths of a project's wiki.
 */
module WebLines {
  import opened Maybe
  import opened Strings
  import opened Projects

  /** `\w{1,2}|\w[\w.-]+\w`: a sha or a tag at one end of a range. */
  predicate IsRangeEnd(x: string) {
    (1 <= |x| <= 2 && AllWord(x))
    || (|x| >= 3 && IsWordChar(x[0]) && IsWordChar(x[|x| - 1])
        && forall i | 1 <= i < |x| - 1 :: IsWordChar(x[i]) || x[i] == '.' || x[i] == '-')
  }

  /** Both ends of a range end are word characters. */
  lemma RangeEndEdges(x: string)
    requires IsRangeEnd(x)
    ensures |x| > 0 && IsWordChar(x[0]) && IsWordChar(x[|x| - 1])
  {
    if |x| <= 2 {
      assert x[0] in x && x[|x| - 1] in x;
    }
  }

  /** `s` is `A..B` with the two dots at `k` and range ends on both sides. */
  predicate SplitsAt(s: string, k: nat) {
    k + 2 <= |s| && s[k] == '.' && s[k + 1] == '.' && IsRangeEnd(s[..k]) && IsRangeEnd(s[k + 2..])
  }

  /** The longest split of the `\w[\w.-]+\w` form at or before `k`. */
  function LongestSplit(s: string, k: nat): (r: Option<nat>)
    ensures r.Some? ==> 3 <= r.value <= k && SplitsAt(s, r.value)
    ensures r.None? ==> forall j | 3 <= j <= k :: !SplitsAt(s, j)
    decreases k
  {
    if k < 3 then None
    else if SplitsAt(s, k) then Some(k)
    else LongestSplit(s, k - 1)
  }

  /**
   * Where the range pattern splits `s`, in the order the regular expression
   * tries: a two- and a one-character start first, then the longest
   * longer one.
   */
  function RangeSplit(s: string): (r: Option<nat>)
    ensures r.Some? ==> SplitsAt(s, r.value)
    ensures r.None? <==> forall k | 0 <= k <= |s| :: !SplitsAt(s, k)
  {
    if SplitsAt(s, 2) then Some(2)
    else if SplitsAt(s, 1) then Some(1)
    else
      assert !SplitsAt(s, 0);
      LongestSplit(s, |s|)
  }

  /**
   * `sub(/^(sha_or_tag)\.\.(sha_or_tag)$/, '\1...\2')`: a two-dot range of
   * two shas or tags gets a third dot; anything else stays.
   */
  function NormalizeRange(s: string): (r: string)
    ensures RangeSplit(s).None? ==> r == s
    ensures RangeSplit(s).Some? ==>
      var k := RangeSplit(s).value;
      |r| == |s| + 1 && r[..k] == s[..k] && r[k..k + 3] == "..." && r[k + 3..] == s[k + 2..]
  {
    match RangeSplit(s)
    case None => s
    case Some(k) =>
      var r := s[..k] + "..." + s[k + 2..];
      assert r[..k] == s[..k] && r[k..k + 3] == "..." && r[k + 3..] == s[k + 2..];
      r
  }

  /** No two dots in a row. */
  predicate NoDoubleDot(x: string) {
    forall i | 0 <= i < |x| - 1 :: !(x[i] == '.' && x[i + 1] == '.')
  }

  /** In `A` followed by `B`, two dots in a row sit inside the dots between them. */
  lemma DotsBetween(a: string, mid: string, b: string, k: nat)
    requires IsRangeEnd(a) && IsRangeEnd(b) && NoDoubleDot(a) && NoDoubleDot(b)
    requires forall c | c in mid :: c == '.'
    requires k + 1 < |a + mid + b| && (a + mid + b)[k] == '.' && (a + mid + b)[k + 1] == '.'
    ensures |a| <= k && k + 2 <= |a| + |mid|
  {
    var s := a + mid + b;
    RangeEndEdges(a);
    RangeEndEdges(b);
    assert forall i | 0 <= i < |a| :: s[i] == a[i];
    assert forall i | 0 <= i < |b| :: s[|a| + |mid| + i] == b[i];
  }

  /** `A..B` of two plain ends splits only between them. */
  lemma TwoDotsSplit(a: string, b: string)
    requires IsRangeEnd(a) && IsRangeEnd(b) && NoDoubleDot(a) && NoDoubleDot(b)
    ensures RangeSplit(a + ".." + b) == Some(|a|)
  {
    var s := a + ".." + b;
    forall k | SplitsAt(s, k) ensures k == |a| {
      DotsBetween(a, "..", b, k);
    }
    assert s[..|a|] == a && s[|a| + 2..] == b;
    assert SplitsAt(s, |a|);
  }

  /** A two-dot range of two plain ends gets its third dot. */
  lemma NormalizeTwoDots(a: string, b: string)
    requires IsRangeEnd(a) && IsRangeEnd(b) && NoDoubleDot(a) && NoDoubleDot(b)
    ensures NormalizeRange(a + ".." + b) == a + "..." + b
  {
    TwoDotsSplit(a, b);
    var s := a + ".." + b;
    assert s[..|a|] == a && s[|a| + 2..] == b;
  }

  /** A three-dot range of two plain ends is left as it is. */
  lemma NormalizeThreeDots(a: string, b: string)
    requires IsRangeEnd(a) && IsRangeEnd(b) && NoDoubleDot(a) && NoDoubleDot(b)
    ensures NormalizeRange(a + "..." + b) == a + "..." + b
  {
    var s := a + "..." + b;
    forall k | 0 <= k <= |s| ensures !SplitsAt(s, k) {
      ThreeDotsNoSplit(a, b, k);
    }
  }

  lemma ThreeDotsNoSplit(a: string, b: string, k: nat)
    requires IsRangeEnd(a) && IsRangeEnd(b) && NoDoubleDot(a) && NoDoubleDot(b)
    ensures !SplitsAt(a + "..." + b, k)
  {
    var s := a + "..." + b;
    if SplitsAt(s, k) {
      DotsBetween(a, "...", b, k);
      assert k == |a| || k == |a| + 1;
      RangeEndEdges(s[..k]);
      RangeEndEdges(s[k + 2..]);
    }
  }

  /** So `A..B` and `A...B` compare the same commits. */
  lemma NormalizeSameRange(a: string, b: string)
    requires IsRangeEnd(a) && IsRangeEnd(b) && NoDoubleDot(a) && NoDoubleDot(b)
    ensures NormalizeRange(a + ".." + b) == NormalizeRange(a + "..." + b)
  {
    NormalizeTwoDots(a, b);
    NormalizeThreeDots(a, b);
  }

  /** A range that does not start with a word character (`@{…}`) is left as it is. */
  lemma NormalizeNonWord(s: string)
    requires |s| > 0 && !IsWordChar(s[0])
    ensures NormalizeRange(s) == s
  {
    forall k | 0 <= k <= |s| ensures !SplitsAt(s, k) {
      if SplitsAt(s, k) {
        RangeEndEdges(s[..k]);
      }
    }
  }

  /** The position of the first word character of `p`. */
  function FirstWord(p: string): (r: Option<nat>)
    ensures r.Some? ==> r.value < |p| && IsWordChar(p[r.value]) && forall i | 0 <= i < r.value :: !IsWordChar(p[i])
    ensures r.None? ==> forall i | 0 <= i < |p| :: !IsWordChar(p[i])
    decreases |p|
  {
    if |p| == 0 then None
    else if IsWordChar(p[0]) then Some(0)
    else
      match FirstWord(p[1..])
      case None => None
      case Some(k) => Some(k + 1)
  }

  /** `sub(/\w+/, '_\0')`: an underscore before the first word. */
  function UnderscoreFirstWord(p: string): (r: string)
    ensures FirstWord(p).None? ==> r == p
    ensures FirstWord(p).Some? ==> |r| == |p| + 1
  {
    match FirstWord(p)
    case None => p
    case Some(k) => p[..k] + "_" + p[k..]
  }

  /** `/SEG…` with `SEG` starting in a word character becomes `/_SEG…`. */
  lemma UnderscoreSlashWord(p: string)
    requires |p| > 0 && IsWordChar(p[0])
    ensures UnderscoreFirstWord("/" + p) == "/_" + p
  {
    var s := "/" + p;
    assert !IsWordChar(s[0]) && s[1] == p[0];
    assert FirstWord(s[1..]) == Some(0) by {
      assert s[1..] == p;
    }
    assert s[..1] + "_" + s[1..] == "/_" + p;
  }

  const WikiSuffix := ".wiki"

  /** Whether a project is a wiki (its repository name ends in `.wiki`). */
  predicate IsWiki(p: Project) {
    EndsWith(p.name, WikiSuffix)
  }

  /**
   * The path of a page of a wiki: the wiki's front page stays, a history of
   * commits is `_history`, anything else is the wiki's `_`-prefixed page.
   */
  function WikiPath(path: string): (r: string)
    ensures path == "/wiki" ==> r == path
    ensures path != "/wiki" ==> StartsWith(r, "/wiki")
  {
    if path == "/wiki" then path
    else "/wiki" + (if StartsWith(path, "/commits/") then "/_history" else UnderscoreFirstWord(path))
  }

  /** A wiki page named by a word is its `_`-prefixed page. */
  lemma WikiPage(seg: string)
    requires |seg| > 0 && IsWordChar(seg[0])
    requires !StartsWith("/" + seg, "/commits/") && "/" + seg != "/wiki"
    ensures WikiPath("/" + seg) == "/wiki" + ("/_" + seg)
  {
    UnderscoreSlashWord(seg);
  }

  lemma CompareIsPage(range: string)
    ensures "/compare/" + range == "/" + ("compare/" + range)
    ensures !StartsWith("/compare/" + range, "/commits/") && "/compare/" + range != "/wiki"
  {
    var path := "/compare/" + range;
    assert path[4] == 'p';
    assert path[1] == 'c';
  }

  /** A wiki's comparison page is its `_compare` page. */
  lemma WikiCompare(range: string)
    ensures WikiPath("/compare/" + range) == "/wiki" + ("/_" + ("compare/" + range))
  {
    CompareIsPage(range);
    WikiPage("compare/" + range);
  }

  /** `https://HOST/OWNER/NAME`, a wiki's `.wiki` left off. */
  function WebBase(p: Project): (r: string)
    ensures !IsWiki(p) ==> r == "https://" + p.host + "/" + p.owner + "/" + p.name
  {
    "https://" + p.host + "/" + p.owner + "/" + StripSuffix(p.name, WikiSuffix)
  }

  /**
   * The web address of a page of a project; a wiki's pages are under its
   * repository's `wiki/`.
   */
  function WebUrl(p: Project, path: string): (r: string)
    ensures !IsWiki(p) ==> r == "https://" + p.host + "/" + p.owner + "/" + p.name + path
    ensures IsWiki(p) ==> StartsWith(r, WebBase(p) + "/wiki")
  {
    if IsWiki(p) then
      var r := WebBase(p) + WikiPath(path);
      assert r[..|WebBase(p)| + 5] == WebBase(p) + "/wiki";
      r
    else WebBase(p) + path
  }

  /** A comparison page ends in `compare/RANGE`, in a wiki too. */
  lemma ComparePageEnds(p: Project, range: string)
    ensures EndsWith(WebUrl(p, "/compare/" + range), "compare/" + range)
  {
    if IsWiki(p) {
      WikiCompareEnds(p, range);
    } else {
      CompareIsPage(range);
      AppendEnds(WebBase(p) + "/", "compare/" + range);
    }
  }

  lemma WikiCompareEnds(p: Project, range: string)
    requires IsWiki(p)
    ensures EndsWith(WebUrl(p, "/compare/" + range), "compare/" + range)
  {
    WikiCompare(range);
    AppendEndsNested(WebBase(p), "/wiki", "/_", "compare/" + range);
  }

  /** A string ends in what was appended last, however the parts are grouped. */
  lemma AppendEndsNested(a: string, b: string, c: string, d: string)
    ensures EndsWith(a + (b + (c + d)), d)
  {
    assert a + (b + (c + d)) == a + b + c + d;
    AppendEnds(a + b + c, d);
  }

  /** Whether `-u` (print, do not open) is among the arguments after the command name. */
  predicate UrlOnly(args: seq<string>) {
    |args| > 0 && "-u" in args[1..]
  }

  /** Whether the retired `-p` is among the arguments after the command name. */
  predicate Warned(args: seq<string>) {
    |args| > 0 && "-p" in args[1..]
  }

  /** The arguments after the command name, without `-u` and `-p`. */
  function PageArgs(args: seq<string>): (r: seq<string>)
    ensures "-u" !in r && "-p" !in r
    ensures |args| > 0 ==> forall x | x in args[1..] && x != "-u" && x != "-p" :: x in r
    ensures forall x | x in r :: |args| > 0 && x in args[1..]
  {
    Remove(Remove(if |args| > 0 then args[1..] else [], "-u"), "-p")
  }

  /** Without `-u` and `-p` the page arguments are all the arguments after the command name. */
  lemma PlainArgs(args: seq<string>)
    requires |args| > 0 && "-u" !in args[1..] && "-p" !in args[1..]
    ensures PageArgs(args) == args[1..] && !UrlOnly(args) && !Warned(args)
  {
  }

  /** An argument other than `-u` and `-p` appended to the command line is the last page argument. */
  lemma PageArgsAppend(args: seq<string>, x: string)
    requires |args| > 0 && x != "-u" && x != "-p"
    ensures PageArgs(args + [x]) == PageArgs(args) + [x]
    ensures UrlOnly(args + [x]) == UrlOnly(args) && Warned(args + [x]) == Warned(args)
  {
    assert (args + [x])[1..] == args[1..] + [x];
    RemoveAppend(args[1..], [x], "-u");
    RemoveAppend(Remove(args[1..], "-u"), [x], "-p");
  }

  /** An appended `-u` only switches to printing. */
  lemma PageArgsUrlOnly(args: seq<string>)
    requires |args| > 0
    ensures PageArgs(args + ["-u"]) == PageArgs(args)
    ensures UrlOnly(args + ["-u"]) && Warned(args + ["-u"]) == Warned(args)
  {
    assert (args + ["-u"])[1..] == args[1..] + ["-u"];
    RemoveAppend(args[1..], ["-u"], "-u");
    assert Remove(["-u"], "-u") == [];
    assert Remove((args + ["-u"])[1..], "-u") == Remove(args[1..], "-u");
  }

  /** The parts of a list with one more element. */
  lemma LastOf(xs: seq<string>, x: string)
    ensures |xs + [x]| > 0 && (xs + [x])[|xs + [x]| - 1] == x && (xs + [x])[..|xs + [x]| - 1] == xs
  {
  }
}

/**
 * `git browse` and `git compare`: the address of a project page, opened
 * with the browser, or printed with `-u`.
 */
module WebRules {
  import opened Maybe
  import opened Strings
  import opened Projects
  import opened Repo
  import opened Outcomes
  import opened WebUrls
  import opened WebLines

  const BrowseUsage := "Usage: hub browse [<USER>/]<REPOSITORY>"
  const CompareUsage := "Usage: hub compare [USER] [<START>...]<END>"
  const NoPrivateFlag := "Warning: the `-p` flag has no effect anymore"
  const MasterBranch := "master"

  /** The page to open and the arguments left over, the lines to stop with, or a crash. */
  datatype Target = Page(url: string, rest: seq<string>) | Stop(lines: seq<string>) | Broken(reason: string)

  /**
   * The project `[OWNER/]NAME` names: with a `/` the part before it is
   * the owner; without, the owner given, or the user (needed then). An
   * OWNER alone (`compare OWNER …`) means OWNER's fork of this repository.
   */
  function NamedProject(ctx: Context, repo: LocalRepo, name: Option<string>, owner: Option<string>): (r: Option<Project>)
    ensures owner.Some? && '/' !in owner.value && (name.None? || '/' !in name.value) ==> (
      r == Some(Project(repo.host, owner.value, name.GetOr(repo.name))))
    ensures owner.None? && name.Some? && '/' in name.value ==> (
      r.Some? && r.value.owner + "/" + r.value.name == name.value && '/' !in r.value.owner)
    ensures r.None? <==> owner.None? && (name.None? || '/' !in name.value) && User(ctx, repo.host).None?
    ensures r.Some? ==> r.value.host == repo.host
  {
    if owner.Some? && '/' in owner.value then
      var (o, n) := SplitFirst(owner.value, '/').value;
      Some(OwnedProject(repo, o, n))
    else if name.Some? && '/' in name.value then
      SplitFirstParts(name.value, '/');
      var (o, n) := SplitFirst(name.value, '/').value;
      Some(OwnedProject(repo, o, n))
    else
      var n := name.GetOr(repo.name);
      match owner
      case Some(o) => Some(OwnedProject(repo, o, n))
      case None =>
        match User(ctx, repo.host)
        case Some(u) => Some(OwnedProject(repo, u, n))
        case None => None
  }

  /**
   * The path of a project page: `commits` lists BRANCH's commits; `tree`
   * or nothing shows BRANCH's tree, or the front page on master; any other
   * page is that page.
   */
  function BrowsePath(subpage: Option<string>, branch: string): (r: string)
    ensures subpage == Some("commits") ==> r == "/commits/" + branch
    ensures (subpage.None? || subpage == Some("tree")) && branch == MasterBranch ==> r == ""
    ensures (subpage.None? || subpage == Some("tree")) && branch != MasterBranch ==> r == "/tree/" + branch
    ensures subpage.Some? && subpage.value != "commits" && subpage.value != "tree" ==> r == "/" + subpage.value
  {
    match subpage
    case Some(s) =>
      if s == "commits" then "/commits/" + branch
      else if s == "tree" then (if branch != MasterBranch then "/tree/" + branch else "")
      else "/" + s
    case None => if branch != MasterBranch then "/tree/" + branch else ""
  }

  /** The branch `browse` shows of the current project: the upstream of the current branch, else master. */
  function BrowseBranch(repo: LocalRepo): (r: string)
    ensures repo.branch.Some? && repo.upstream.Some? ==> r == repo.upstream.value
    ensures repo.branch.None? || repo.upstream.None? ==> r == MasterBranch
  {
    if repo.branch.Some? && repo.upstream.Some? then repo.upstream.value else MasterBranch
  }

  /**
   * The page `browse [--] [[OWNER/]NAME] [SUBPAGE]` opens: a named project
   * on master, or the current project on the current upstream.
   */
  function BrowseTarget(ctx: Context, repo: LocalRepo, b: seq<string>): (r: Target)
    ensures r.Stop? ==> r.lines == [BrowseUsage] || r.lines == [NoUserMessage]
    ensures r.Stop? && r.lines == [BrowseUsage] ==> repo.current.None?
    ensures !r.Broken?
    ensures r.Page? ==> |r.rest| + 2 <= |b| || r.rest == []
  {
    var dest := if |b| > 0 && b[0] != "--" then Some(b[0]) else None;
    var after := if |b| > 0 then b[1..] else [];
    var subpage := if |after| > 0 then Some(after[0]) else None;
    var rest := if |after| > 0 then after[1..] else [];
    match dest
    case Some(d) => (
      match NamedProject(ctx, repo, Some(d), None)
      case None => Stop([NoUserMessage])
      case Some(p) => Page(WebUrl(p, BrowsePath(subpage, MasterBranch)), rest))
    case None =>
      match repo.current
      case None => Stop([BrowseUsage])
      case Some(p) => Page(WebUrl(p, BrowsePath(subpage, BrowseBranch(repo))), rest)
  }

  /** The comparison page of `range` in project `p`. */
  function ComparePage(p: Project, range: string): (r: string)
    ensures EndsWith(r, "compare/" + range)
  {
    ComparePageEnds(p, range);
    WebUrl(p, "/compare/" + range)
  }

  /** `compare` without arguments: the current branch's upstream, unless that is master. */
  function UpstreamTarget(repo: LocalRepo): (r: Target)
    ensures r.Page? ==> repo.upstream.Some? && repo.upstream.value != MasterBranch && r.rest == []
    ensures r.Stop? <==> repo.branch.Some? && (repo.upstream.None? || repo.upstream.value == MasterBranch)
    ensures r.Stop? ==> r.lines == [CompareUsage]
  {
    if repo.branch.None? then Broken("no current branch")
    else if repo.upstream.None? || repo.upstream.value == MasterBranch then Stop([CompareUsage])
    else
      match repo.current
      case None => Broken("no current project")
      case Some(p) => Page(ComparePage(p, repo.upstream.value), [])
  }

  /** `compare [… OWNER] RANGE`: RANGE of OWNER's fork, or of the current project. */
  function RangeTarget(ctx: Context, repo: LocalRepo, before: seq<string>, range: string): (r: Target)
    ensures r.Page? ==> EndsWith(r.url, "compare/" + range) && (|r.rest| + 1 == |before| || r.rest == [])
    ensures !r.Stop?
    ensures r.Broken? <==> before == [] && repo.current.None?
  {
    if |before| > 0 then
      var p := NamedProject(ctx, repo, None, Some(before[|before| - 1])).value;
      Page(ComparePage(p, range), before[..|before| - 1])
    else
      match repo.current
      case None => Broken("no current project")
      case Some(p) => Page(ComparePage(p, range), [])
  }

  /** The page `compare [OWNER] [RANGE]` opens; a two-dot range of shas or tags gets its third dot. */
  function CompareTarget(ctx: Context, repo: LocalRepo, b: seq<string>): (r: Target)
    ensures r.Stop? ==> |b| == 0 && r.lines == [CompareUsage]
    ensures r.Page? && |b| > 0 ==> EndsWith(r.url, "compare/" + NormalizeRange(b[|b| - 1]))
  {
    if |b| == 0 then UpstreamTarget(repo)
    else RangeTarget(ctx, repo, b[..|b| - 1], NormalizeRange(b[|b| - 1]))
  }

  /**
   * How a page is shown: opened with the browser, or printed with `echo`
   * under `-u`, the leftover arguments first; `-p` only draws a warning.
   * A crash on the way is a crash.
   */
  function Present(ctx: Context, urlOnly: bool, warned: bool, t: Target): (r: Outcome)
    ensures t.Broken? <==> r.Crash?
    ensures t.Stop? ==> r.Fail? && r.lines == t.lines
    ensures t.Page? ==> (
      r.Run? && |r.cmds| >= 1 && r.cmds[|r.cmds| - 1].Exec?
      && r.cmds[|r.cmds| - 1].program == (if urlOnly then "echo" else ctx.browser)
      && r.cmds[|r.cmds| - 1].args == t.rest + [t.url])
    ensures r.Run? ==> |r.cmds| == (if warned then 2 else 1) && (warned ==> r.cmds[0] == Say(NoPrivateFlag))
  {
    var said := if warned then [Say(NoPrivateFlag)] else [];
    match t
    case Broken(reason) => Crash(reason)
    case Stop(lines) => Fail(said, lines)
    case Page(url, rest) => Run(said + [Exec(if urlOnly then "echo" else ctx.browser, rest + [url])])
  }

  /** `git browse`. */
  function Browse(ctx: Context, repo: LocalRepo, args: seq<string>): (r: Outcome)
    ensures r.Run? || r.Fail?
    ensures r.Fail? ==> r.lines == [BrowseUsage] || r.lines == [NoUserMessage]
  {
    Present(ctx, UrlOnly(args), Warned(args), BrowseTarget(ctx, repo, PageArgs(args)))
  }

  /** `git compare`. */
  function Compare(ctx: Context, repo: LocalRepo, args: seq<string>): (r: Outcome)
    ensures r.Fail? ==> r.lines == [CompareUsage] && PageArgs(args) == []
    ensures r.Crash? ==> |PageArgs(args)| <= 1
  {
    Present(ctx, UrlOnly(args), Warned(args), CompareTarget(ctx, repo, PageArgs(args)))
  }

  /** A page with nothing left over opens in the browser, on its own. */
  lemma PresentPage(ctx: Context, url: string)
    ensures Present(ctx, false, false, Page(url, [])) == Run([Exec(ctx.browser, [url])])
  {
    var none: seq<string> := [];
    var said: seq<Cmd> := [];
    assert none + [url] == [url];
    assert said + [Exec(ctx.browser, [url])] == [Exec(ctx.browser, [url])];
  }

  /** Printing instead of opening: the same commands, the last one `echo`. */
  lemma PresentEchoes(ctx: Context, warned: bool, t: Target)
    ensures Present(ctx, true, warned, t).Run? <==> Present(ctx, false, warned, t).Run?
    ensures Present(ctx, false, warned, t).Run? ==>
      var r := Present(ctx, false, warned, t).cmds;
      var e := Present(ctx, true, warned, t).cmds;
      |r| > 0 && |e| == |r| && e[..|r| - 1] == r[..|r| - 1]
      && r[|r| - 1] == Exec(ctx.browser, r[|r| - 1].args) && e[|r| - 1] == Exec("echo", r[|r| - 1].args)
  {
  }

  /** `-u` prints the address `browse` would open, and changes nothing else. */
  lemma BrowseEchoes(ctx: Context, repo: LocalRepo, args: seq<string>)
    requires |args| > 0 && "-u" !in args[1..]
    ensures Browse(ctx, repo, args + ["-u"]).Run? <==> Browse(ctx, repo, args).Run?
    ensures Browse(ctx, repo, args).Run? ==>
      var r := Browse(ctx, repo, args).cmds;
      var e := Browse(ctx, repo, args + ["-u"]).cmds;
      |r| > 0 && |e| == |r| && e[..|r| - 1] == r[..|r| - 1]
      && r[|r| - 1] == Exec(ctx.browser, r[|r| - 1].args) && e[|r| - 1] == Exec("echo", r[|r| - 1].args)
  {
    PageArgsUrlOnly(args);
    PresentEchoes(ctx, Warned(args), BrowseTarget(ctx, repo, PageArgs(args)));
  }

  /** `-u` prints the address `compare` would open, and changes nothing else. */
  lemma CompareEchoes(ctx: Context, repo: LocalRepo, args: seq<string>)
    requires |args| > 0 && "-u" !in args[1..]
    ensures Compare(ctx, repo, args + ["-u"]).Run? <==> Compare(ctx, repo, args).Run?
    ensures Compare(ctx, repo, args).Run? ==>
      var r := Compare(ctx, repo, args).cmds;
      var e := Compare(ctx, repo, args + ["-u"]).cmds;
      |r| > 0 && |e| == |r| && e[..|r| - 1] == r[..|r| - 1]
      && r[|r| - 1] == Exec(ctx.browser, r[|r| - 1].args) && e[|r| - 1] == Exec("echo", r[|r| - 1].args)
  {
    PageArgsUrlOnly(args);
    PresentEchoes(ctx, Warned(args), CompareTarget(ctx, repo, PageArgs(args)));
  }

  /** The page `compare` opens depends on the last argument only through its normal form. */
  lemma CompareTargetLast(ctx: Context, repo: LocalRepo, before: seq<string>, x: string, y: string)
    requires NormalizeRange(x) == NormalizeRange(y)
    ensures CompareTarget(ctx, repo, before + [x]) == CompareTarget(ctx, repo, before + [y])
  {
    LastOf(before, x);
    LastOf(before, y);
  }

  /** `compare … A..B` and `compare … A...B` open the same page. */
  lemma CompareSameRange(ctx: Context, repo: LocalRepo, args: seq<string>, a: string, b: string)
    requires |args| > 0
    requires IsRangeEnd(a) && IsRangeEnd(b) && NoDoubleDot(a) && NoDoubleDot(b)
    ensures Compare(ctx, repo, args + [a + ".." + b]) == Compare(ctx, repo, args + [a + "..." + b])
  {
    var x := a + ".." + b;
    var y := a + "..." + b;
    assert x != "-u" && x != "-p" && y != "-u" && y != "-p" by {
      RangeEndEdges(a);
      assert x[0] == a[0] && y[0] == a[0];
    }
    PageArgsAppend(args, x);
    PageArgsAppend(args, y);
    NormalizeSameRange(a, b);
    CompareTargetLast(ctx, repo, PageArgs(args), x, y);
  }

  /** `compare OWNER RANGE` opens RANGE of OWNER's fork of this repository. */
  lemma CompareFork(ctx: Context, repo: LocalRepo, owner: string, range: string)
    requires '/' !in owner && owner != "-u" && owner != "-p" && range != "-u" && range != "-p"
    ensures Compare(ctx, repo, ["compare", owner, range])
      == Run([Exec(ctx.browser, [ComparePage(Project(repo.host, owner, repo.name), NormalizeRange(range))])])
  {
    PlainArgs(["compare", owner, range]);
    assert ["compare", owner, range][1..] == [owner] + [range];
    LastOf([owner], range);
    var p := Project(repo.host, owner, repo.name);
    assert RangeTarget(ctx, repo, [owner], NormalizeRange(range)) == Page(ComparePage(p, NormalizeRange(range)), []) by {
      assert NamedProject(ctx, repo, None, Some(owner)) == Some(p);
    }
    PresentPage(ctx, ComparePage(p, NormalizeRange(range)));
  }

  /** `browse OWNER/NAME` opens that project's front page. */
  lemma BrowseNamed(ctx: Context, repo: LocalRepo, owner: string, name: string)
    requires '/' !in owner && owner + "/" + name != "-u" && owner + "/" + name != "-p" && owner + "/" + name != "--"
    ensures Browse(ctx, repo, ["browse", owner + "/" + name])
      == Run([Exec(ctx.browser, [WebUrl(Project(repo.host, owner, name), "")])])
  {
    var d := owner + "/" + name;
    PlainArgs(["browse", d]);
    assert ["browse", d][1..] == [d];
    assert NamedProject(ctx, repo, Some(d), None) == Some(Project(repo.host, owner, name)) by {
      SplitFirstGlue(owner, '/', name);
      assert d == owner + ['/'] + name;
    }
    var t := BrowseTarget(ctx, repo, [d]);
    assert t == Page(WebUrl(Project(repo.host, owner, name), ""), []);
    PresentPage(ctx, t.url);
  }

  /** The pages of a project that is no wiki read back as that project and the page. */
  lemma WebUrlReadsBack(ctx: Context, p: Project, sub: string)
    requires !IsWiki(p)
    requires p.host in KnownHosts(ctx) && '/' !in p.host
    requires p.owner != "" && p.name != "" && '/' !in p.owner && '/' !in p.name
    requires '#' !in PageUrl("https", p, sub) && '?' !in PageUrl("https", p, sub)
    ensures WebUrl(p, "/" + sub) == PageUrl("https", p, sub)
    ensures ResolveWebUrl(ctx, WebUrl(p, "/" + sub)) == Some(WebRef(p, sub))
  {
    assert WebUrl(p, "/" + sub) == PageUrl("https", p, sub) + "";
    ResolvePageUrl(ctx, "https", p, sub, "");
  }
}

=== FILE: weburls.dfy ===
/**
 * Web addresses of GitHub pages. hub reads a page URL given on the command
 * line (a commit, a pull request, an issue) back into the project it belongs
 * to and the path below the project, and it writes the URL of a project page
 * to open in the browser.
 */
module WebUrls {
  import opened Maybe
  import opened Strings
  import opened Projects
  import opened Repo

  /** A page of `project`; `path` is what follows `owner/name/` ("" for the project's front page). */
  datatype WebRef = WebRef(project: Project, path: string)

  predicate IsWebScheme(s: string) {
    s == "http" || s == "https"
  }

  /** A URL without its query and fragment. */
  function PathOnly(url: string): (r: string)
    ensures '#' !in r && '?' !in r
  {
    CutAt(CutAt(url, '#'), '?')
  }

  /** The scheme of a `scheme://rest` URL and the rest. */
  function SchemeOf(url: string): (r: Option<(string, string)>)
    ensures r.Some? ==> ':' !in r.value.0
  {
    match SplitFirst(url, ':')
    case None => None
    case Some((scheme, rest)) =>
      if StartsWith(rest, "//") then Some((scheme, rest[2..])) else None
  }

  /** The project and the page path of `owner/name[/sub]`. */
  function PageOfPath(host: string, path: string): (r: Option<WebRef>)
    ensures r.Some? ==> r.value.project.host == host
    ensures r.Some? ==> r.value.project.owner != "" && r.value.project.name != ""
    ensures r.Some? ==> '/' !in r.value.project.owner && '/' !in r.value.project.name
  {
    match SplitFirst(path, '/')
    case None => None
    case Some((owner, tail)) =>
      var name := CutAt(tail, '/');
      var sub := if '/' in tail then SplitFirst(tail, '/').value.1 else "";
      if owner != "" && name != "" then Some(WebRef(Project(host, owner, name), sub)) else None
  }

  /**
   * The page an `http(s)://HOST/OWNER/NAME[/PATH]` URL names, when HOST is a
   * known GitHub host and OWNER and NAME are present; the query and the
   * fragment are not part of the path.
   */
  function ResolveWebUrl(ctx: Context, url: string): (r: Option<WebRef>)
    ensures r.Some? ==> r.value.project.host in KnownHosts(ctx)
    ensures r.Some? ==> r.value.project.owner != "" && r.value.project.name != ""
    ensures r.Some? ==> '/' !in r.value.project.owner && '/' !in r.value.project.name
  {
    match SchemeOf(PathOnly(url))
    case None => None
    case Some((scheme, rest)) =>
      if !IsWebScheme(scheme) then None
      else
        match SplitFirst(rest, '/')
        case None => None
        case Some((host, path)) => if host in KnownHosts(ctx) then PageOfPath(host, path) else None
  }

  /** The URL of page `sub` of `p`. */
  function PageUrl(scheme: string, p: Project, sub: string): string {
    scheme + ("://" + (p.host + ("/" + (p.owner + ("/" + (p.name + ("/" + sub)))))))
  }

  /** A query or a fragment, or nothing. */
  predicate IsUrlTail(t: string) {
    t == "" || t[0] == '#' || t[0] == '?'
  }

  lemma PathOnlyOf(base: string, tail: string)
    requires '#' !in base && '?' !in base
    requires IsUrlTail(tail)
    ensures PathOnly(base + tail) == base
  {
    CutAtAppend(base, tail, '#');
    var t := CutAt(tail, '#');
    CutAtAppend(base, t, '?');
    if tail != "" && tail[0] == '#' {
      CutAtUnique(tail, '#', "");
    }
    CutAtUnique(t, '?', "");
  }

  /** Cutting at the first `c` where the left part has none. */
  lemma SplitAfter(a: string, c: char, rest: string)
    requires c !in a
    ensures SplitFirst(a + ([c] + rest), c) == Some((a, rest))
    ensures CutAt(a + ([c] + rest), c) == a
  {
    assert a + ([c] + rest) == a + [c] + rest;
    SplitFirstGlue(a, c, rest);
    CutAtAppend(a, [c] + rest, c);
    CutAtUnique([c] + rest, c, "");
  }

  lemma SchemeOfUrl(scheme: string, rest: string)
    requires ':' !in scheme
    ensures SchemeOf(scheme + ("://" + rest)) == Some((scheme, rest))
  {
    assert "://" + rest == [':'] + ("//" + rest);
    SplitAfter(scheme, ':', "//" + rest);
    assert ("//" + rest)[2..] == rest;
  }

  lemma PageOfPagePath(host: string, owner: string, name: string, sub: string)
    requires owner != "" && name != "" && '/' !in owner && '/' !in name
    ensures PageOfPath(host, owner + ("/" + (name + ("/" + sub)))) == Some(WebRef(Project(host, owner, name), sub))
  {
    SplitAfter(owner, '/', name + ("/" + sub));
    SplitAfter(name, '/', sub);
    assert '/' in name + ("/" + sub);
  }

  /** How `ResolveWebUrl` reads a URL once its pieces are known. */
  lemma ResolveSteps(ctx: Context, url: string, base: string, scheme: string, rest: string, path: string, w: WebRef)
    requires PathOnly(url) == base && SchemeOf(base) == Some((scheme, rest)) && IsWebScheme(scheme)
    requires SplitFirst(rest, '/') == Some((w.project.host, path)) && w.project.host in KnownHosts(ctx)
    requires PageOfPath(w.project.host, path) == Some(w)
    ensures ResolveWebUrl(ctx, url) == Some(w)
  {
  }

  /**
   * Every page URL of a project on a known host reads back as that project
   * and the page's path, whatever query or fragment follows.
   */
  lemma ResolvePageUrl(ctx: Context, scheme: string, p: Project, sub: string, tail: string)
    requires IsWebScheme(scheme)
    requires p.host in KnownHosts(ctx) && '/' !in p.host
    requires p.owner != "" && p.name != "" && '/' !in p.owner && '/' !in p.name
    requires '#' !in PageUrl(scheme, p, sub) && '?' !in PageUrl(scheme, p, sub)
    requires IsUrlTail(tail)
    ensures ResolveWebUrl(ctx, PageUrl(scheme, p, sub) + tail) == Some(WebRef(p, sub))
  {
    var path := p.owner + ("/" + (p.name + ("/" + sub)));
    var rest := p.host + ("/" + path);
    assert PathOnly(PageUrl(scheme, p, sub) + tail) == PageUrl(scheme, p, sub) by {
      PathOnlyOf(PageUrl(scheme, p, sub), tail);
    }
    assert SchemeOf(PageUrl(scheme, p, sub)) == Some((scheme, rest)) by {
      assert ':' !in scheme;
      SchemeOfUrl(scheme, rest);
    }
    assert SplitFirst(rest, '/') == Some((p.host, path)) by {
      SplitAfter(p.host, '/', path);
    }
    assert PageOfPath(p.host, path) == Some(WebRef(p, sub)) by {
      PageOfPagePath(p.host, p.owner, p.name, sub);
    }
    ResolveSteps(ctx, PageUrl(scheme, p, sub) + tail, PageUrl(scheme, p, sub), scheme, rest, path, WebRef(p, sub));
  }
}
